=== FILE: README.md ===
# java-sql-util core in Dafny

A model of the core of **java-sql-util**. This library:

- quotes SQL identifiers for a JDBC database;
- reads the ODBC data sources and drivers from the Windows registry;
- guards ODBC registries and connection suppliers with failsafe wrappers;
- provides LHOD, a read-only JDBC driver that sends every request to a Windows script and reads the tab-separated reply.

The model has one module per source class, plus shared modules:

- `Wrappers` holds `Option` and `Result`.
- `Exceptions` holds the Java exception kinds the code throws or catches. Runtime exceptions are told apart from I/O and SQL exceptions. Lombok's null checks are a failure naming the field.
- `JavaLang` holds the `String` and `Integer` behaviour the code relies on: ASCII case mapping, `trim`, `indexOf`, `replace`, 32-bit `parseInt` and `toString`, and lexicographic sorting.
- `Failsafe` holds the decision table that all four failsafe wrappers share.
- `LhodCommon` holds the property keys, the identifier case codes, the string function bitmask and the `OpenSchema` argument encoding. `LhodConnection`, `LhodContext` and `LhodDatabaseMetaData` each repeat these in the source.

Java `null` is `Option.None`. A thrown exception is `Result.Err`. An object whose state changes is an immutable value that each operation returns again: a closed flag, a lazily loaded property cache, a parameter map, a pool of contexts. Other parts become parameters:

- the registry command;
- the script executor's replies;
- the clock;
- the metadata a driver reports.

Each failsafe wrapper returns its result together with the list of reports it made.

## Model

| member | source | states |
|---|---|---|
| SqlIdentifierQuoter.Quote | java-sql-jdbc/src/main/java/nbbrd/sql/jdbc/SqlIdentifierQuoter.java:75-90 | An identifier comes back unchanged exactly when it is already properly quoted, or when `force` is off and no reason to quote it holds. Otherwise it comes back wrapped in the quote string with inner quotes doubled. |
| SqlIdentifierQuoter.QuoteDefault | java-sql-jdbc/src/main/java/nbbrd/sql/jdbc/SqlIdentifierQuoter.java:71-73 | `quote(id)` does not force: the identifier changes only when it is not properly quoted and some reason to quote it holds. |
| SqlIdentifierQuoter.QuoteNullable | java-sql-jdbc/src/main/java/nbbrd/sql/jdbc/SqlIdentifierQuoter.java:75 | A null identifier fails the non-null check; any other comes back as is or quoted. |
| SqlIdentifierQuoter.NeedsQuotingIff | java-sql-jdbc/src/main/java/nbbrd/sql/jdbc/SqlIdentifierQuoter.java:80-89 | With a one-character quote, the reasons to quote are exactly these: the upper-cased identifier is a keyword, it holds an extra name character, it holds the quote character, or it holds a space. The storage rule never contributes. |
| SqlIdentifierQuoter.BreaksStorageRule | java-sql-jdbc/src/main/java/nbbrd/sql/jdbc/SqlIdentifierQuoter.java:126-130 | The storage rule check answers false for every identifier. |
| SqlIdentifierQuoter.ContainsExtraCharactersFrom | java-sql-jdbc/src/main/java/nbbrd/sql/jdbc/SqlIdentifierQuoter.java:132-139 | True exactly when some character of the identifier, from the given position on, is one of the extra name characters. |
| SqlIdentifierQuoter.NormalizeKeyword | java-sql-jdbc/src/main/java/nbbrd/sql/jdbc/SqlIdentifierQuoter.java:202-205 | Each character is upper-cased as `toUpperCase(Locale.ROOT)` does for ASCII letters, and others are kept. The length is kept, so the result is valid under the UPPER storage rule. |
| SqlIdentifierQuoter.QuoteIdentifier | java-sql-jdbc/src/main/java/nbbrd/sql/jdbc/SqlIdentifierQuoter.java:149-151 | The quoted form starts and ends with the quote string and is at least two quote strings longer than the identifier. |
| SqlIdentifierQuoter.ProperlyQuotedIff | java-sql-jdbc/src/main/java/nbbrd/sql/jdbc/SqlIdentifierQuoter.java:92-120 | With a one-character quote `c`, the scanning loop accepts an identifier exactly when it has at least two characters, starts and ends with `c`, and every `c` inside comes as a doubled pair. |
| SqlIdentifierQuoter.ScanIsPaired | java-sql-jdbc/src/main/java/nbbrd/sql/jdbc/SqlIdentifierQuoter.java:99-119 | From any position inside the quotes, the loop's verdict equals "the rest of the inside is made of doubled quotes and other characters". |
| SqlIdentifierQuoter.AsWrittenFinishes | java-sql-jdbc/src/main/java/nbbrd/sql/jdbc/SqlIdentifierQuoter.java:92-120 | With a non-empty quote string, the step-by-step loop finishes within one step more than the identifier's length, with the same verdict as the terminating definition. |
| SqlIdentifierQuoter.EmptyQuoteStringNeverFinishes | java-sql-jdbc/src/main/java/nbbrd/sql/jdbc/SqlIdentifierQuoter.java:99-118 | With an empty quote string and a non-empty identifier, the loop never reaches a verdict, however many steps it is given. |
| SqlIdentifierQuoter.UnescapeEscape | java-sql-jdbc/src/main/java/nbbrd/sql/jdbc/SqlIdentifierQuoter.java:150 | Doubling every quote character gives a paired string, and undoing the doubling gives the original back. |
| SqlIdentifierQuoter.EscapeUnescape | java-sql-jdbc/src/main/java/nbbrd/sql/jdbc/SqlIdentifierQuoter.java:150 | Every paired string is the doubling of its undoubled form. |
| SqlIdentifierQuoter.QuoteIdentifierRoundTrip | java-sql-jdbc/src/main/java/nbbrd/sql/jdbc/SqlIdentifierQuoter.java:149-151 | Quoting with a one-character quote always gives a properly quoted identifier, and unquoting it gives the original back. |
| SqlIdentifierQuoter.ProperlyQuotedIsQuoted | java-sql-jdbc/src/main/java/nbbrd/sql/jdbc/SqlIdentifierQuoter.java:92-120 | The properly quoted identifiers are exactly the outputs of `quoteIdentifier`, for a one-character quote. |
| SqlIdentifierQuoter.ForcedQuoteIsProperlyQuoted | java-sql-jdbc/src/main/java/nbbrd/sql/jdbc/SqlIdentifierQuoter.java:75-90 | A forced quote is always properly quoted. |
| SqlIdentifierQuoter.QuoteUnquote | java-sql-jdbc/src/main/java/nbbrd/sql/jdbc/SqlIdentifierQuoter.java:75-90 | Whenever `quote` changes an identifier, unquoting the result gives the identifier back. |
| SqlIdentifierQuoter.QuoteIdempotent | java-sql-jdbc/src/main/java/nbbrd/sql/jdbc/SqlIdentifierQuoter.java:75-90 | Quoting an already quoted result again changes nothing, provided the second call forces only if the first did. |
| SqlIdentifierQuoter.ForcingAfterNotForcingQuotes | java-sql-jdbc/src/main/java/nbbrd/sql/jdbc/SqlIdentifierQuoter.java:75-90 | `quote("abc", false)` is `abc`, yet forcing afterwards gives `'abc'`, so idempotence needs the restriction above. |
| SqlIdentifierQuoter.MultiCharQuoteNotIdempotent | java-sql-jdbc/src/main/java/nbbrd/sql/jdbc/SqlIdentifierQuoter.java:92-120 | With the self-overlapping quote `aa`, forced quoting of `a` gives `aaaaa`, which the loop does not accept as properly quoted. |
| SqlIdentifierQuoter.NewBuilder | java-sql-jdbc/src/main/java/nbbrd/sql/jdbc/SqlIdentifierQuoter.java:50-55 | A fresh builder has the double quote, the UPPER rule, no extra characters and no keywords. |
| SqlIdentifierQuoter.Build | java-sql-jdbc/src/main/java/nbbrd/sql/jdbc/SqlIdentifierQuoter.java:59-69 | Building succeeds exactly when the quote string, storage rule and extra characters are all set, and then carries them unchanged. The first missing one, in the order quote string, storage rule, extra characters, fails naming that field. |
| SqlIdentifierQuoter.BuildChecked | java-sql-jdbc/src/main/java/nbbrd/sql/jdbc/SqlIdentifierQuoter.java:59-60 | The corrected builder agrees with `Build` on every non-empty quote string, rejects the empty one, and only yields quoters the loop terminates on. |
| SqlIdentifierQuoter.DefaultQuoter | java-sql-jdbc/src/main/java/nbbrd/sql/jdbc/SqlIdentifierQuoter.java:57 | `DEFAULT` has quote `"`, no keywords, rule UPPER and no extra characters. |
| SqlIdentifierQuoter.LoadIdentifierQuoteString | java-sql-jdbc/src/main/java/nbbrd/sql/jdbc/SqlIdentifierQuoter.java:156-174 | The quote string is the reported one, unless that is null or blank (which includes the "not supported" space). In that case it is the double quote. Either way it holds a non-blank character, and a driver failure propagates. |
| SqlIdentifierQuoter.GetSpecificKeywords | java-sql-jdbc/src/main/java/nbbrd/sql/jdbc/SqlIdentifierQuoter.java:194-200 | The keywords are exactly the trimmed, upper-cased, non-empty pieces of the comma-separated list. None is empty and all are upper case. |
| SqlIdentifierQuoter.NormalizePieces | java-sql-jdbc/src/main/java/nbbrd/sql/jdbc/SqlIdentifierQuoter.java:196-199 | The same for pieces already split: blank pieces are dropped and the rest are trimmed and upper-cased. |
| SqlIdentifierQuoter.LoadSqlKeywords | java-sql-jdbc/src/main/java/nbbrd/sql/jdbc/SqlIdentifierQuoter.java:177-200 | The loaded set is exactly the standard reserved words together with the normalised, trimmed, non-empty pieces of the driver's comma-separated list. Anything added is non-empty and upper case. A null list adds nothing, and a driver failure propagates. |
| SqlIdentifierQuoter.LoadExtraNameCharacters | java-sql-jdbc/src/main/java/nbbrd/sql/jdbc/SqlIdentifierQuoter.java:207-210 | The reported extra characters, `""` for null; a driver failure propagates. |
| SqlIdentifierQuoter.LoadUnquotedIdentifierStorageRule | java-sql-jdbc/src/main/java/nbbrd/sql/jdbc/SqlIdentifierQuoter.java:212-224 | UPPER if upper-case storage is reported, else LOWER, else MIXED, else UPPER again. Each case is an if-and-only-if. The first failing question's error propagates. |
| SqlIdentifierQuoter.Of | java-sql-jdbc/src/main/java/nbbrd/sql/jdbc/SqlIdentifierQuoter.java:41-48 | Null metadata is rejected. A quoter is built exactly when all four loads succeed, and then its quote string, keywords, storage rule and extra characters are what the four loads give. Otherwise the error is that of the first load to fail, in the order quote string, keywords, storage rule, extra characters. |
| SqlIdentifierStorageRule.IsValidIff | java-sql-jdbc/src/main/java/nbbrd/sql/jdbc/SqlIdentifierStorageRule.java:29-44 | UPPER accepts exactly the strings with no lower-case letter, LOWER exactly those with no upper-case letter, and MIXED accepts everything. |
| SqlIdentifierStorageRule.UpperCasedIsValid | java-sql-jdbc/src/main/java/nbbrd/sql/jdbc/SqlIdentifierStorageRule.java:29-33 | An upper-cased string is always valid under UPPER. |
| JdbcUtil.SplitToStream | java-sql-jdbc/src/main/java/internal/sql/jdbc/JdbcUtil.java:32-35 | `split` compiles a one-character separator as a regular expression when it is a metacharacter: `.`, `$`, the vertical bar, `(`, `)`, `[`, `{`, `^`, `?`, `*`, `+` or `\`. The patterns `?*+()[{\` fail with `PatternSyntaxException`, and any separator outside that set is split on literally. For every valid separator there is at least one piece. |
| JdbcUtil.Split | java-sql-jdbc/src/main/java/internal/sql/jdbc/JdbcUtil.java:34 | Literal splitting, which is what `split` does for a separator that is not a metacharacter, such as the `,` every caller passes. There is at least one piece, and no piece holds the separator. |
| JdbcUtil.JoinSplit | java-sql-jdbc/src/main/java/internal/sql/jdbc/JdbcUtil.java:32-35 | For a separator that is not a metacharacter, `splitToStream` succeeds, and joining its pieces with the separator gives back the input, so empty leading and trailing pieces are kept. |
| JdbcUtil.SplitCount | java-sql-jdbc/src/main/java/internal/sql/jdbc/JdbcUtil.java:32-35 | For a separator that is not a metacharacter, there is one more piece than there are separators. |
| JdbcUtil.SplitJoin | java-sql-jdbc/src/main/java/internal/sql/jdbc/JdbcUtil.java:32-35 | For a separator that is not a metacharacter, splitting a join of separator-free pieces gives those pieces back. |
| JdbcUtil.SplitJoinFailsForBar | java-sql-jdbc/src/main/java/internal/sql/jdbc/JdbcUtil.java:34 | The round trip fails for a metacharacter. Joining `a` and `b` with a vertical bar and splitting on the bar gives four pieces: `a`, the bar, `b` and an empty piece. |
| JdbcUtil.SplitEmpty | java-sql-jdbc/src/main/java/internal/sql/jdbc/JdbcUtil.java:32-35 | For every separator, the empty string gives one empty piece, except for the separators that are not valid patterns, which fail. |
| JdbcUtil.BarSplitsEveryChar | java-sql-jdbc/src/main/java/internal/sql/jdbc/JdbcUtil.java:34 | The vertical bar, an empty alternative, matches the empty string at every position. Every character becomes a piece of its own, followed by an empty piece, and the empty string stays whole. |
| JdbcUtil.DotSplitsEveryChar | java-sql-jdbc/src/main/java/internal/sql/jdbc/JdbcUtil.java:34 | `.` matches every character except a line terminator. A string without line terminators gives one more empty piece than it has characters. |
| JdbcUtil.DotKeepsLineTerminators | java-sql-jdbc/src/main/java/internal/sql/jdbc/JdbcUtil.java:34 | A line terminator, which `.` does not match, survives as a piece: `"a\nb"` gives `["", "\n", ""]`. |
| JdbcUtil.CaretKeepsInput | java-sql-jdbc/src/main/java/internal/sql/jdbc/JdbcUtil.java:34 | `^` matches only at the start, where an empty match cuts nothing, so the input comes back whole. |
| JdbcUtil.DollarSplitsAtEnd | java-sql-jdbc/src/main/java/internal/sql/jdbc/JdbcUtil.java:34 | `$` matches at the end of an input that does not end with a line terminator. The result is the input, then an empty piece. |
| JdbcUtil.DollarSplitsBeforeTerminator | java-sql-jdbc/src/main/java/internal/sql/jdbc/JdbcUtil.java:34 | `$` also matches before a final line terminator, which becomes a piece of its own. |
| JdbcUtil.DollarSplitsBeforeCrLf | java-sql-jdbc/src/main/java/internal/sql/jdbc/JdbcUtil.java:34 | A final `\r\n` counts as one line terminator for `$` and stays in one piece. |
| JdbcUtil.UnexpectedNullToBlank | java-sql-jdbc/src/main/java/internal/sql/jdbc/JdbcUtil.java:37-44 | A non-null input comes back unchanged; null becomes `""`. |
| SqlFunc.Identity | java-sql-jdbc/src/main/java/nbbrd/sql/jdbc/SqlFunc.java:45-48 | The identity function succeeds with its argument on every input. |
| SqlFunc.Compose | java-sql-jdbc/src/main/java/nbbrd/sql/jdbc/SqlFunc.java:35-38 | A null `before` is rejected. Otherwise `f.compose(g)` applies `g` first and `f` to its result, and a failure of `g` is the result without `f` being applied. |
| SqlFunc.AndThen | java-sql-jdbc/src/main/java/nbbrd/sql/jdbc/SqlFunc.java:40-43 | A null `after` is rejected. Otherwise `f.andThen(g)` applies `f` first and `g` to its result, and a failure of `f` is the result without `g` being applied. |
| SqlFunc.ComposeIsFlippedAndThen | java-sql-jdbc/src/main/java/nbbrd/sql/jdbc/SqlFunc.java:35-43 | `f.compose(g)` and `g.andThen(f)` agree on every input. |
| SqlFunc.IdentityNeutral | java-sql-jdbc/src/main/java/nbbrd/sql/jdbc/SqlFunc.java:35-48 | Composing with the identity on either side changes nothing. |
| SqlFunc.AndThenAssociative | java-sql-jdbc/src/main/java/nbbrd/sql/jdbc/SqlFunc.java:40-43 | Chaining three failing functions gives the same result however it is bracketed. |
| SqlFunc.FirstFailureWins | java-sql-jdbc/src/main/java/nbbrd/sql/jdbc/SqlFunc.java:35-43 | When the function applied first fails, its error is the result of both `andThen` and `compose`. |
| SqlTable.Get | java-sql-jdbc/src/main/java/nbbrd/sql/jdbc/SqlTable.java:132-140 | The value of the first key whose value is not null, and null exactly when every key's value is null or missing. |
| SqlTable.GetTwo | java-sql-jdbc/src/main/java/nbbrd/sql/jdbc/SqlTable.java:132-140 | With two keys, the first key's value when present, else the second's. |
| SqlTable.FromMap | java-sql-jdbc/src/main/java/nbbrd/sql/jdbc/SqlTable.java:114-130 | The catalog comes from `TABLE_CAT`, else `TABLE_CATALOG`; the schema from `TABLE_SCHEM`, else `TABLE_SCHEMA`; each is null if neither is present. A missing name becomes `""`, and remarks stay null when absent. |
| SqlTable.FromMapOtherFields | java-sql-jdbc/src/main/java/nbbrd/sql/jdbc/SqlTable.java:118-125 | A missing table type becomes `""`. The type catalog, type schema, type name, self-referencing column and reference generation are read verbatim and stay null when absent. |
| SqlTable.NormalizedColumnNames | java-sql-jdbc/src/main/java/nbbrd/sql/jdbc/SqlTable.java:105-112 | One name per column, each the column name upper-cased, in column order. |
| SqlTable.PutRowAgrees | java-sql-jdbc/src/main/java/nbbrd/sql/jdbc/SqlTable.java:94-99 | Filling the shared row map with a row's values sets every column the same way, whatever the map held before. |
| SqlTable.ReusedRowIsFresh | java-sql-jdbc/src/main/java/nbbrd/sql/jdbc/SqlTable.java:94-99 | Since each row overwrites every column, reusing the map gives the same map as a fresh one. |
| SqlTable.LastPutWins | java-sql-jdbc/src/main/java/nbbrd/sql/jdbc/SqlTable.java:96-98 | When two columns normalise to the same name, the later column's value is the one read. |
| SqlTable.ReadRowsMeaning | java-sql-jdbc/src/main/java/nbbrd/sql/jdbc/SqlTable.java:94-101 | Reading the rows gives one table per row, in order, each what a fresh map filled with that row gives. |
| SqlTable.ReadRowsFirstError | java-sql-jdbc/src/main/java/nbbrd/sql/jdbc/SqlTable.java:94-101 | A failed read fails with the error of the first row that could not be read. |
| SqlTable.AllOf | java-sql-jdbc/src/main/java/nbbrd/sql/jdbc/SqlTable.java:75-88 | Null metadata and a null table-name pattern are rejected before any query. A failing query propagates, and a successful read has one table per result row. |
| SqlTable.AllOfNames | java-sql-jdbc/src/main/java/nbbrd/sql/jdbc/SqlTable.java:75-112 | Each table's name is the row's value in the last column whose upper-cased column name is `TABLE_NAME`. |
| SqlTable.RowNameRead | java-sql-jdbc/src/main/java/nbbrd/sql/jdbc/SqlTable.java:90-103 | Over already normalised column names, each table's name is the row's value in the last `TABLE_NAME` column. |
| SqlTable.AllOfEverything | java-sql-jdbc/src/main/java/nbbrd/sql/jdbc/SqlTable.java:44-52 | Listing every table rejects null metadata and propagates the failure of the `%` query. |
| OdbcConnectionString.FirstIndex | java-sql-odbc/src/main/java/nbbrd/sql/odbc/OdbcConnectionString.java:49-57 | The position of the first attribute whose key equals the given key ignoring case, or the length when there is none. |
| OdbcConnectionString.Get | java-sql-odbc/src/main/java/nbbrd/sql/odbc/OdbcConnectionString.java:49-57 | A value is found exactly when some key equals the given key ignoring case, and it is the value of the first such attribute. |
| OdbcConnectionString.GetDriver | java-sql-odbc/src/main/java/nbbrd/sql/odbc/OdbcConnectionString.java:45-47 | The driver is null exactly when no key equals `DRIVER` ignoring case. |
| OdbcConnectionString.Put | java-sql-odbc/src/main/java/nbbrd/sql/odbc/OdbcConnectionString.java:105-109 | Putting a key adds at most one entry to the case-insensitive attribute map. |
| OdbcConnectionString.PutThenLookup | java-sql-odbc/src/main/java/nbbrd/sql/odbc/OdbcConnectionString.java:105-109 | After a put, every key equal to it ignoring case reads the new value. |
| OdbcConnectionString.PutLeavesOthers | java-sql-odbc/src/main/java/nbbrd/sql/odbc/OdbcConnectionString.java:105-109 | A put leaves every key that differs ignoring case as it was. |
| OdbcConnectionString.With | java-sql-odbc/src/main/java/nbbrd/sql/odbc/OdbcConnectionString.java:105-109 | `with` records the key spelling and keeps every spelling recorded before. |
| OdbcConnectionString.Build | java-sql-odbc/src/main/java/nbbrd/sql/odbc/OdbcConnectionString.java:111-115 | One attribute per distinct key spelling, in first-insertion order. Each is paired with the value last given to any key equal to it ignoring case. |
| OdbcConnectionString.WithThenGet | java-sql-odbc/src/main/java/nbbrd/sql/odbc/OdbcConnectionString.java:103-115 | After `with(k, v)` and `build`, `get(k)` is `v`. |
| OdbcConnectionString.WithLeavesOthers | java-sql-odbc/src/main/java/nbbrd/sql/odbc/OdbcConnectionString.java:103-115 | `with(k, v)` does not change what `get` answers for a key that differs from `k` ignoring case. |
| OdbcConnectionString.CaseVariantKeysBothKept | java-sql-odbc/src/main/java/nbbrd/sql/odbc/OdbcConnectionString.java:103-115 | `with("a","1").with("A","2")` builds both spellings, `a` and `A`, and both carry `2`. |
| OdbcConnectionString.DriverThenDbqPrinted | java-sql-odbc/src/main/java/nbbrd/sql/odbc/OdbcConnectionString.java:59-83 | `with("DRIVER",d).with("DBQ",f)` prints as `DRIVER={d};DBQ=f`. |
| OdbcConnectionString.RunEnd | java-sql-odbc/src/main/java/nbbrd/sql/odbc/OdbcConnectionString.java:119-126 | The end of the longest run of characters of one class of the pattern, starting at a position. |
| OdbcConnectionString.MatchAt | java-sql-odbc/src/main/java/nbbrd/sql/odbc/OdbcConnectionString.java:119-126 | A match of the key-value pattern at the start of the text ends within the text and after its start. |
| OdbcConnectionString.MatchRendered | java-sql-odbc/src/main/java/nbbrd/sql/odbc/OdbcConnectionString.java:77-83 | The pattern matches one printed attribute, braced or plain, and gives back its key and value. |
| OdbcConnectionString.FindAllRendered | java-sql-odbc/src/main/java/nbbrd/sql/odbc/OdbcConnectionString.java:85-93 | Finding every match in the printed attributes gives back the attributes, in order. |
| OdbcConnectionString.ParseToString | java-sql-odbc/src/main/java/nbbrd/sql/odbc/OdbcConnectionString.java:59-93 | `parse(toString(c))` is `c` when the keys are word strings, no two equal ignoring case, and the values are non-empty and brace-free. Values of keys other than `DRIVER` must also hold no whitespace and no `;`. |
| OdbcDriver.ParseApiLevel | java-sql-odbc/src/main/java/nbbrd/sql/odbc/OdbcDriver.java:110-118 | Codes 0 to 2 parse to the level with that code; any other code fails with a message naming it. |
| OdbcDriver.ApiLevelRoundTrip | java-sql-odbc/src/main/java/nbbrd/sql/odbc/OdbcDriver.java:95-119 | Every API level parses back from its code. |
| OdbcDriver.ParseFileUsage | java-sql-odbc/src/main/java/nbbrd/sql/odbc/OdbcDriver.java:142-150 | Codes 0 to 2 parse to the usage with that code, the parsed usage is file based exactly when the code is not 0, and any other code fails naming it. |
| OdbcDriver.FileUsageRoundTrip | java-sql-odbc/src/main/java/nbbrd/sql/odbc/OdbcDriver.java:123-151 | Every file usage parses back from its code. |
| OdbcDriver.ParseSqlLevel | java-sql-odbc/src/main/java/nbbrd/sql/odbc/OdbcDriver.java:170-178 | Codes 0 to 3 parse to the SQL level with that code; any other code fails naming it. |
| OdbcDriver.SqlLevelRoundTrip | java-sql-odbc/src/main/java/nbbrd/sql/odbc/OdbcDriver.java:155-179 | Every SQL level parses back from its code. |
| OdbcDriver.ConnectFunctionsToString | java-sql-odbc/src/main/java/nbbrd/sql/odbc/OdbcDriver.java:187-190 | The printed form is three letters, each `Y` or `N`, as the input pattern requires. |
| OdbcDriver.ParseConnectFunctions | java-sql-odbc/src/main/java/nbbrd/sql/odbc/OdbcDriver.java:192-198 | Parsing succeeds exactly on three `Y`/`N` letters, and then prints back to the input. Anything else fails naming the input. |
| OdbcDriver.ConnectFunctionsRoundTrip | java-sql-odbc/src/main/java/nbbrd/sql/odbc/OdbcDriver.java:187-198 | Every flag triple parses back from its printed form. |
| OdbcDriver.ParseConnectFunctionsOr | java-sql-odbc/src/main/java/nbbrd/sql/odbc/OdbcDriver.java:200-206 | The deprecated form gives the parsed flags on valid input and the default otherwise. |
| OdbcDataSource.Build | java-sql-odbc/src/main/java/nbbrd/sql/odbc/OdbcDataSource.java:26-66 | A data source is built exactly when type, name, driver name and driver path are all set, and carries every field unchanged. A missing required field fails naming it. |
| WinOdbcRegistryUtil.Lookup | java-sql-odbc/src/main/java/internal/sql/odbc/win/WinOdbcRegistryUtil.java:96-106 | A value is found exactly when its name is among the key's value names, and it is a value of that name. |
| WinOdbcRegistryUtil.GetRoot | java-sql-odbc/src/main/java/internal/sql/odbc/win/WinOdbcRegistryUtil.java:108-116 | SYSTEM maps to `HKEY_LOCAL_MACHINE` and USER to the other root. FILE is an unsupported operation. |
| WinOdbcRegistryUtil.GetRootInjective | java-sql-odbc/src/main/java/internal/sql/odbc/win/WinOdbcRegistryUtil.java:108-116 | Two types that have a root share it only if they are the same type. |
| WinOdbcRegistryUtil.DataSourceNamesOfType | java-sql-odbc/src/main/java/internal/sql/odbc/win/WinOdbcRegistryUtil.java:67-74 | For one type, the value names under the data sources key of its root; nothing when the key is missing; an error for FILE. |
| WinOdbcRegistryUtil.GetDataSourceNames | java-sql-odbc/src/main/java/internal/sql/odbc/win/WinOdbcRegistryUtil.java:59-65 | No types give no names; one type gives that type's names, failure included. |
| WinOdbcRegistryUtil.GetDataSourceNamesAppend | java-sql-odbc/src/main/java/internal/sql/odbc/win/WinOdbcRegistryUtil.java:59-74 | Listing for two groups of types is listing for each, concatenated in argument order; the first failure wins. |
| WinOdbcRegistryUtil.ToStringOr | java-sql-odbc/src/main/java/internal/sql/odbc/win/WinOdbcRegistryUtil.java:155-157 | A string value's text; anything else, including a missing value, gives the default. |
| WinOdbcRegistryUtil.ToFile | java-sql-odbc/src/main/java/internal/sql/odbc/win/WinOdbcRegistryUtil.java:159-161 | A string value's text as a path; anything else gives the default. |
| WinOdbcRegistryUtil.ToInt | java-sql-odbc/src/main/java/internal/sql/odbc/win/WinOdbcRegistryUtil.java:163-165 | An integer value's number; anything else gives the default. |
| WinOdbcRegistryUtil.ToEnum | java-sql-odbc/src/main/java/internal/sql/odbc/win/WinOdbcRegistryUtil.java:167-177 | A constant exactly when the value's text is a 32-bit integer that the parser accepts, and then it is the parser's constant. A missing value gives none. |
| WinOdbcRegistryUtil.GetFileExtension | java-sql-odbc/src/main/java/internal/sql/odbc/win/WinOdbcRegistryUtil.java:193-196 | The text after the last dot; it holds no dot, and is `""` when the input has none. |
| WinOdbcRegistryUtil.ToFileExtensions | java-sql-odbc/src/main/java/internal/sql/odbc/win/WinOdbcRegistryUtil.java:179-186 | At most one extension per comma-separated piece. Each is non-empty and dot-free, and a missing value gives none. |
| WinOdbcRegistryUtil.FileExtensionsRoundTrip | java-sql-odbc/src/main/java/internal/sql/odbc/win/WinOdbcRegistryUtil.java:179-196 | Non-empty, dot- and comma-free extensions written as `*.ext` patterns joined by commas read back as those extensions. |
| WinOdbcRegistryUtil.ExcelExtensions | java-sql-odbc/src/main/java/internal/sql/odbc/win/WinOdbcRegistryUtil.java:179-196 | `*.xls,*.xlsx` reads as `[xls, xlsx]`. |
| WinOdbcRegistryUtil.ToConnectFunctions | java-sql-odbc/src/main/java/internal/sql/odbc/win/WinOdbcRegistryUtil.java:198-206 | The parsed flags when the value's text has the `Y`/`N` pattern; the default when it is missing or does not match. |
| WinOdbcRegistryUtil.DataSourceOf | java-sql-odbc/src/main/java/internal/sql/odbc/win/WinOdbcRegistryUtil.java:96-106 | A data source of the given type and name is made exactly when the driver name is a string and the `Driver` path is present. A missing one fails naming it. |
| WinOdbcRegistryUtil.DataSourceOfDetails | java-sql-odbc/src/main/java/internal/sql/odbc/win/WinOdbcRegistryUtil.java:96-106 | A data source written to the registry the way Windows stores it reads back unchanged. |
| WinOdbcRegistryUtil.DataSourcesOfType | java-sql-odbc/src/main/java/internal/sql/odbc/win/WinOdbcRegistryUtil.java:84-94 | For one type, FILE is an unsupported operation. A failure to ask about or read the data sources key propagates, and a missing key lists nothing. Otherwise listing succeeds exactly when every master entry is readable. The result is then one data source per master entry whose details key exists, in master order, each built from that entry and its details. |
| WinOdbcRegistryUtil.GetDataSources | java-sql-odbc/src/main/java/internal/sql/odbc/win/WinOdbcRegistryUtil.java:76-82 | No types list nothing, one type lists that type's data sources, and every data source listed is of a requested type. |
| WinOdbcRegistryUtil.GetDataSourcesAppend | java-sql-odbc/src/main/java/internal/sql/odbc/win/WinOdbcRegistryUtil.java:76-82 | Listing for two groups of types is listing for each, concatenated in argument order; the first failure wins. |
| WinOdbcRegistryUtil.PresentMasters | java-sql-odbc/src/main/java/internal/sql/odbc/win/WinOdbcRegistryUtil.java:86-91 | Keeps exactly the master entries whose details key exists, in order. |
| WinOdbcRegistryUtil.DataSourcesFrom | java-sql-odbc/src/main/java/internal/sql/odbc/win/WinOdbcRegistryUtil.java:86-92 | The loop over the master entries succeeds exactly when every entry is readable. It then yields one data source per present entry, in order, built from that entry and its details. |
| WinOdbcRegistryUtil.DataSourcesAreNamed | java-sql-odbc/src/main/java/internal/sql/odbc/win/WinOdbcRegistryUtil.java:59-94 | When the data sources are listed, the names are listed too, and every data source's name is among them. |
| WinOdbcRegistryUtil.OneTypeCoversNames | java-sql-odbc/src/main/java/internal/sql/odbc/win/WinOdbcRegistryUtil.java:67-94 | For one type, every listed name whose details key exists has a data source of that type and name. |
| WinOdbcRegistryUtil.DataSourcesCoverNames | java-sql-odbc/src/main/java/internal/sql/odbc/win/WinOdbcRegistryUtil.java:59-94 | Every name listed for a requested type whose details key exists has a data source of that type and name among all those listed. |
| WinOdbcRegistryUtil.GetDriverNames | java-sql-odbc/src/main/java/internal/sql/odbc/win/WinOdbcRegistryUtil.java:118-123 | No names when the drivers key is missing; otherwise the value names under it. |
| WinOdbcRegistryUtil.DriverOf | java-sql-odbc/src/main/java/internal/sql/odbc/win/WinOdbcRegistryUtil.java:139-153 | The driver keeps its name. Each level and usage is the constant its value's code parses to, and the default (API level NONE, file usage NONE, SQL level SQL_92_ENTRY) when the value is missing, not an integer or an unknown code. Connect functions, paths, version, extensions and usage count are the conversions of their values, with no connect functions when the value does not match and a usage count of -1 unless it is an integer. |
| WinOdbcRegistryUtil.DriverOfDetails | java-sql-odbc/src/main/java/internal/sql/odbc/win/WinOdbcRegistryUtil.java:139-153 | A driver written to the registry the way Windows stores it reads back unchanged. |
| WinOdbcRegistryUtil.DriverOfNoDetails | java-sql-odbc/src/main/java/internal/sql/odbc/win/WinOdbcRegistryUtil.java:139-153 | A driver key with no values reads as the name with every default. |
| WinOdbcRegistryUtil.GetDrivers | java-sql-odbc/src/main/java/internal/sql/odbc/win/WinOdbcRegistryUtil.java:125-137 | A failure to ask about or read the drivers key propagates, and a missing key lists nothing. Otherwise listing succeeds exactly when every driver name is readable. The result is then one driver per name whose details key exists, in name order, each read from its details. |
| WinOdbcRegistryUtil.PresentDriverNames | java-sql-odbc/src/main/java/internal/sql/odbc/win/WinOdbcRegistryUtil.java:129-132 | Keeps exactly the driver names whose details key exists, in order. |
| WinOdbcRegistryUtil.DriversFrom | java-sql-odbc/src/main/java/internal/sql/odbc/win/WinOdbcRegistryUtil.java:129-134 | The loop over the driver names succeeds exactly when every name is readable. It then yields one driver per present name, in order, read from its details. |
| WinOdbcRegistryUtil.DriversAreNamed | java-sql-odbc/src/main/java/internal/sql/odbc/win/WinOdbcRegistryUtil.java:118-137 | When the drivers are listed, the names are listed too, and every driver's name is among them. |
| WinOdbcRegistryUtil.DriverNamesCovered | java-sql-odbc/src/main/java/internal/sql/odbc/win/WinOdbcRegistryUtil.java:118-137 | Every listed driver name whose details key exists has its driver listed. |
| RegOdbcRegistry.ToValues | java-sql-odbc/src/main/java/internal/sql/odbc/win/RegOdbcRegistry.java:116-122 | The values of one key succeed exactly when their names are distinct, and keep the entries in order. A repeated name is an illegal state. |
| RegOdbcRegistry.GetValues | java-sql-odbc/src/main/java/internal/sql/odbc/win/RegOdbcRegistry.java:116-122 | The values stored for exactly `ROOT\key`, and none for a key that was not loaded. |
| RegOdbcRegistry.MapRegistry | java-sql-odbc/src/main/java/internal/sql/odbc/win/RegOdbcRegistry.java:106-123 | The registry built from the loaded keys answers `keyExists` by prefix and `getValues` by exact key. |
| RegOdbcRegistry.AncestorsExist | java-sql-odbc/src/main/java/internal/sql/odbc/win/RegOdbcRegistry.java:110-114 | A key exists as soon as some loaded key lies beneath it. |
| RegOdbcRegistry.Load | java-sql-odbc/src/main/java/internal/sql/odbc/win/RegOdbcRegistry.java:126-137 | A successful query adds its keys, and nothing loaded before is lost. A query failing with `Invalid exit value: 1` adds nothing and succeeds; any other failure propagates. |
| RegOdbcRegistry.LoadAll | java-sql-odbc/src/main/java/internal/sql/odbc/win/RegOdbcRegistry.java:59-75 | Loading for several types keeps what was loaded and fails when FILE is requested. |
| RegOdbcRegistry.LoadAllMeaning | java-sql-odbc/src/main/java/internal/sql/odbc/win/RegOdbcRegistry.java:59-75 | Loading for several types fails exactly when some type is FILE or its query fails other than by a missing key. Otherwise the keys loaded are the ones held before together with every key some type's query answered for that type's root and subkey, recursively when asked. Each key has the values of the last answer that holds it. |
| RegOdbcRegistry.GetName | java-sql-odbc/src/main/java/internal/sql/odbc/win/RegOdbcRegistry.java:44-47 | The registry has a non-empty name. |
| RegOdbcRegistry.GetCost | java-sql-odbc/src/main/java/internal/sql/odbc/win/RegOdbcRegistry.java:54-57 | The cost is the high cost. |
| RegOdbcRegistry.IsAvailable | java-sql-odbc/src/main/java/internal/sql/odbc/win/RegOdbcRegistry.java:49-52 | Never available off Windows. On Windows it is what the command search answers, with an I/O failure of the search counting as unavailable. |
| RegOdbcRegistry.GetDataSourceNamesOf | java-sql-odbc/src/main/java/internal/sql/odbc/win/RegOdbcRegistry.java:59-66 | Loads the data sources key of each type, not recursively, then lists. A load failure is the result, and FILE fails. Otherwise the result is the names `WinOdbcRegistryUtil` lists over the loaded keys. |
| RegOdbcRegistry.GetDataSourcesOf | java-sql-odbc/src/main/java/internal/sql/odbc/win/RegOdbcRegistry.java:68-75 | Loads each type's data source keys recursively, then lists. A load failure is the result, and FILE fails. Otherwise the result is the data sources `WinOdbcRegistryUtil` lists over the loaded keys, each of a requested type. |
| RegOdbcRegistry.GetDriverNamesOf | java-sql-odbc/src/main/java/internal/sql/odbc/win/RegOdbcRegistry.java:77-84 | A drivers key the command cannot find gives no names. |
| RegOdbcRegistry.DriverNamesFromQuery | java-sql-odbc/src/main/java/internal/sql/odbc/win/RegOdbcRegistry.java:77-84 | The names listed are the value names the command answered for the drivers key, in order. |
| RegOdbcRegistry.DuplicateDriverNameFails | java-sql-odbc/src/main/java/internal/sql/odbc/win/RegOdbcRegistry.java:116-122 | A value name repeated under the drivers key makes the listing fail with an illegal state. |
| RegOdbcRegistry.GetDriversOf | java-sql-odbc/src/main/java/internal/sql/odbc/win/RegOdbcRegistry.java:86-93 | A driver key the command cannot find gives no drivers. |
| Failsafe.OrFallback | java-sql-odbc/src/main/java/internal/sql/odbc/FailsafeOdbcRegistry.java:54-73 | A normal value passes through without report. A runtime failure or a null gives the fallback with exactly one error or null report. A checked failure propagates unreported. |
| Failsafe.OrDefault | java-sql-odbc/src/main/java/internal/sql/odbc/FailsafeOdbcRegistry.java:75-95 | A value passes through without report; a runtime failure gives the default with exactly one error report. |
| Failsafe.OrFail | java-sql-odbc/src/main/java/internal/sql/odbc/FailsafeOdbcRegistry.java:97-118 | A value passes through without report. A runtime failure becomes a checked exception caused by it, and a null becomes one without cause; each comes with exactly one report. A checked failure propagates unreported. |
| Failsafe.CheckedError | java-sql-odbc/src/main/java/internal/sql/odbc/FailsafeOdbcRegistry.java:106-115 | The exception thrown instead is never a runtime one, and carries the given message and cause. |
| Failsafe.OrFallbackStable | java-sql-odbc/src/main/java/internal/sql/odbc/FailsafeOdbcRegistry.java:37-43 | Guarding an already guarded call again changes nothing and reports nothing. |
| Failsafe.OrDefaultStable | java-sql-odbc/src/main/java/internal/sql/odbc/FailsafeOdbcRegistry.java:37-43 | The same for the default case. |
| Failsafe.OrFailStable | java-sql-odbc/src/main/java/internal/sql/odbc/FailsafeOdbcRegistry.java:37-43 | The same for the failing case. |
| FailsafeOdbcRegistry.GetName | java-sql-odbc/src/main/java/internal/sql/odbc/FailsafeOdbcRegistry.java:54-73 | The delegate's name; on a runtime failure or null, the delegate's class name with exactly one report. |
| FailsafeOdbcRegistry.IsAvailable | java-sql-odbc/src/main/java/internal/sql/odbc/FailsafeOdbcRegistry.java:75-84 | The delegate's answer, or false with one error report when it fails. |
| FailsafeOdbcRegistry.GetCost | java-sql-odbc/src/main/java/internal/sql/odbc/FailsafeOdbcRegistry.java:86-95 | The delegate's cost, or `Integer.MAX_VALUE` with one error report when it fails. |
| FailsafeOdbcRegistry.GetDataSources | java-sql-odbc/src/main/java/internal/sql/odbc/FailsafeOdbcRegistry.java:97-118 | Null types are rejected before the delegate is called. A failure becomes an IOException caused by it, and a null an IOException without cause, each with one report. Messages name the method and the delegate class. |
| FailsafeOdbcRegistry.GetDrivers | java-sql-odbc/src/main/java/internal/sql/odbc/FailsafeOdbcRegistry.java:120-139 | The same for the drivers, without the null check. |
| FailsafeOdbcRegistry.Wrap | java-sql-odbc/src/main/java/internal/sql/odbc/FailsafeOdbcRegistry.java:37-43 | The wrapper is a registry of the wrapper's class that never answers a null name or null drivers. |
| FailsafeOdbcRegistry.WrapTwice | java-sql-odbc/src/main/java/internal/sql/odbc/FailsafeOdbcRegistry.java:37-139 | Wrapping a wrapper again gives the same answers and no further reports. |
| FailsafeOdbcRegistrySpi.GetName | java-sql-odbc/src/main/java/internal/sql/odbc/win/FailsafeOdbcRegistrySpi.java:54-72 | The delegate's name; on a runtime failure or null, its class name with exactly one report. The messages use the delegate's string form. |
| FailsafeOdbcRegistrySpi.IsAvailable | java-sql-odbc/src/main/java/internal/sql/odbc/win/FailsafeOdbcRegistrySpi.java:75-83 | The delegate's answer, or false with one error report when it fails. |
| FailsafeOdbcRegistrySpi.GetCost | java-sql-odbc/src/main/java/internal/sql/odbc/win/FailsafeOdbcRegistrySpi.java:86-94 | The delegate's cost, or `Integer.MAX_VALUE` with one error report when it fails. |
| FailsafeOdbcRegistrySpi.GetDataSources | java-sql-odbc/src/main/java/internal/sql/odbc/win/FailsafeOdbcRegistrySpi.java:97-115 | A failure becomes an IOException caused by it, and a null one without cause, each with one report. There is no null check of the types. |
| FailsafeOdbcRegistrySpi.GetDrivers | java-sql-odbc/src/main/java/internal/sql/odbc/win/FailsafeOdbcRegistrySpi.java:118-136 | The same for the drivers. |
| FailsafeOdbcRegistrySpi.Wrap | java-sql-odbc/src/main/java/internal/sql/odbc/win/FailsafeOdbcRegistrySpi.java:36-42 | The wrapper never answers a null name or null drivers. |
| FailsafeOdbcRegistrySpi.WrapTwice | java-sql-odbc/src/main/java/internal/sql/odbc/win/FailsafeOdbcRegistrySpi.java:36-136 | Wrapping a wrapper again gives the same answers and no further reports. |
| FailsafeOdbcConnectionSupplier.GetName | java-sql-odbc/src/main/java/internal/sql/odbc/FailsafeOdbcConnectionSupplier.java:53-71 | The delegate's name; on a runtime failure or null, its class name with exactly one report. |
| FailsafeOdbcConnectionSupplier.IsAvailable | java-sql-odbc/src/main/java/internal/sql/odbc/FailsafeOdbcConnectionSupplier.java:74-82 | The delegate's answer, or false with one error report when it fails. |
| FailsafeOdbcConnectionSupplier.GetCost | java-sql-odbc/src/main/java/internal/sql/odbc/FailsafeOdbcConnectionSupplier.java:85-93 | The delegate's cost, or `Integer.MAX_VALUE` with one error report when it fails. |
| FailsafeOdbcConnectionSupplier.GetConnection | java-sql-odbc/src/main/java/internal/sql/odbc/FailsafeOdbcConnectionSupplier.java:96-116 | A null connection string is rejected before delegation. A failure becomes a SQLException caused by it, and a null a SQLException without cause, each with one report. |
| FailsafeOdbcConnectionSupplier.Wrap | java-sql-odbc/src/main/java/internal/sql/odbc/FailsafeOdbcConnectionSupplier.java:35-41 | The wrapper is a supplier of the wrapper's class that never answers a null name. |
| FailsafeOdbcConnectionSupplier.WrapTwice | java-sql-odbc/src/main/java/internal/sql/odbc/FailsafeOdbcConnectionSupplier.java:35-116 | Wrapping a wrapper again gives the same answers and no further reports. |
| FailsafeOdbcConnectionSupplierSpi.TextOf | java-sql-odbc/src/main/java/internal/sql/odbc/FailsafeOdbcConnectionSupplierSpi.java:101 | A connection string as string concatenation prints it, `null` for null. |
| FailsafeOdbcConnectionSupplierSpi.GetName | java-sql-odbc/src/main/java/internal/sql/odbc/FailsafeOdbcConnectionSupplierSpi.java:52-70 | The delegate's name; on a runtime failure or null, its class name with one report naming the delegate's string form. |
| FailsafeOdbcConnectionSupplierSpi.IsAvailable | java-sql-odbc/src/main/java/internal/sql/odbc/FailsafeOdbcConnectionSupplierSpi.java:73-81 | The delegate's answer, or false with one error report when it fails. |
| FailsafeOdbcConnectionSupplierSpi.GetCost | java-sql-odbc/src/main/java/internal/sql/odbc/FailsafeOdbcConnectionSupplierSpi.java:84-92 | The delegate's cost, or `Integer.MAX_VALUE` with one error report when it fails. |
| FailsafeOdbcConnectionSupplierSpi.GetConnection | java-sql-odbc/src/main/java/internal/sql/odbc/FailsafeOdbcConnectionSupplierSpi.java:95-113 | A failure becomes a SQLException caused by it, and a null a SQLException without cause. Both messages name the connection string, and each anomaly gives exactly one report. |
| FailsafeOdbcConnectionSupplierSpi.Wrap | java-sql-odbc/src/main/java/internal/sql/odbc/FailsafeOdbcConnectionSupplierSpi.java:34-40 | The wrapper never answers a null name. |
| FailsafeOdbcConnectionSupplierSpi.WrapTwice | java-sql-odbc/src/main/java/internal/sql/odbc/FailsafeOdbcConnectionSupplierSpi.java:34-113 | Wrapping a wrapper again gives the same answers and no further reports. |
| TabDataReader.ParseError | java-sql-lhod/src/main/java/internal/sql/lhod/TabDataReader.java:85-105 | The line after an empty one is a remote error exactly when it has a code and a message and the code is an integer. Anything else, including a missing line, is a format error. |
| TabDataReader.ReadHeader | java-sql-lhod/src/main/java/internal/sql/lhod/TabDataReader.java:126-139 | A header line is read exactly when there is a line with a field. A missing line is "Expected header" plus its name, and an empty line announces a remote error. |
| TabDataReader.ToColumns | java-sql-lhod/src/main/java/internal/sql/lhod/TabDataReader.java:115-123 | The columns pair each name with its type, in order, exactly when every type is an integer; otherwise a format error. |
| TabDataReader.ReadColumnHeaders | java-sql-lhod/src/main/java/internal/sql/lhod/TabDataReader.java:107-124 | Succeeds exactly when a non-empty names line is followed by a types line of the same length whose every field is an integer. It then consumes both lines, giving one column per name with the parsed type code. A missing line is "Expected header names" or "Expected header types", an empty line is read as an error reply, unequal lengths are "Invalid data type length", and a type that does not parse is "Cannot parse type code". |
| TabDataReader.Of | java-sql-lhod/src/main/java/internal/sql/lhod/TabDataReader.java:41-46 | A reader opens exactly when the headers read. It is then open, before the first row, with one empty slot per column. |
| TabDataReader.ReadNextRow | java-sql-lhod/src/main/java/internal/sql/lhod/TabDataReader.java:61-73 | At the end of input it answers false. A line with fields fills the row positions from 0 in order and answers true. An empty line announces a remote error, and a line longer than the row is out of bounds. |
| TabDataReader.Get | java-sql-lhod/src/main/java/internal/sql/lhod/TabDataReader.java:75-77 | The value at a position of the current row; out of bounds otherwise. |
| TabDataReader.Close | java-sql-lhod/src/main/java/internal/sql/lhod/TabDataReader.java:79-83 | After close the reader reports closed and nothing else changes. |
| TabDataReader.ReadWrittenHeaders | java-sql-lhod/src/main/java/internal/sql/lhod/TabDataReader.java:107-124 | Columns written as a names line and a type codes line read back as the same columns. |
| TabDataReader.ReplyRoundTrip | java-sql-lhod/src/main/java/internal/sql/lhod/TabDataReader.java:41-124 | A reply written from columns and rows reads back as those columns and exactly those rows, in order. |
| TabDataReader.ReplyErrorRoundTrip | java-sql-lhod/src/main/java/internal/sql/lhod/TabDataReader.java:61-105 | A reply whose rows are followed by an error announcement reads its rows, then fails with that code and message. |
| TabDataReader.HeaderErrorRoundTrip | java-sql-lhod/src/main/java/internal/sql/lhod/TabDataReader.java:126-139 | An error announced instead of the headers is the remote error with that code and message. |
| TabDataReader.SingleLineReply | java-sql-lhod/src/main/java/internal/sql/lhod/TabDataReader.java:107-124 | The single-line reply `helloworld` fails with "Expected header types". |
| LhodDriver.AcceptsURL | java-sql-lhod/src/main/java/internal/sql/lhod/LhodDriver.java:77-83 | A null URL fails with "URL cannot be null". An accepted URL starts with `jdbc:lhod:` ignoring case, and one that starts with it exactly is accepted. |
| LhodDriver.AcceptedTrim | java-sql-lhod/src/main/java/internal/sql/lhod/LhodDriver.java:90-92 | Trimming an accepted URL keeps its whole prefix, so cutting the prefix off never fails. |
| LhodDriver.ConnectionStringOf | java-sql-lhod/src/main/java/internal/sql/lhod/LhodDriver.java:90-92 | The connection string is what follows the prefix in the trimmed URL. |
| LhodDriver.Connect | java-sql-lhod/src/main/java/internal/sql/lhod/LhodDriver.java:65-75 | A URL of another driver gives no connection and no error. An I/O failure to get an executor becomes "Cannot instantiate executor" caused by it. Otherwise a connection on the executor with the URL's connection string and nothing loaded. |
| LhodDriver.ConnectionStringRoundTrip | java-sql-lhod/src/main/java/internal/sql/lhod/LhodDriver.java:65-92 | A connection string behind the prefix, in any case and followed by whitespace, is the one the connection gets. |
| LhodDriver.OtherDriverIgnored | java-sql-lhod/src/main/java/internal/sql/lhod/LhodDriver.java:66-69 | A URL that does not start with the prefix gives no connection, whatever the engine. |
| LhodDriver.JdbcCompliant | java-sql-lhod/src/main/java/internal/sql/lhod/LhodDriver.java:85-88 | The driver does not claim JDBC compliance. |
| LhodConnection.IsClosed | java-sql-lhod/src/main/java/internal/sql/lhod/LhodConnection.java:48-55 | The executor's closed flag; an I/O failure to read it becomes a SQLException. |
| LhodConnection.Close | java-sql-lhod/src/main/java/internal/sql/lhod/LhodConnection.java:57-64 | Closing succeeds exactly when the executor closes, and the connection then reports closed. An I/O failure becomes a SQLException and leaves the connection as it was. |
| LhodConnection.CheckState | java-sql-lhod/src/main/java/internal/sql/lhod/LhodConnection.java:150-154 | Passes exactly when the executor reports open. A closed connection fails with a message naming the connection string. |
| LhodConnection.ClosedRefuses | java-sql-lhod/src/main/java/internal/sql/lhod/LhodConnection.java:57-64 | After a successful close, the state check fails naming the connection string. |
| LhodConnection.Exec | java-sql-lhod/src/main/java/internal/sql/lhod/LhodConnection.java:117-120 | The executor's reply read as a tab data reader; an executor failure propagates. |
| LhodConnection.DbPropertiesQuery | java-sql-lhod/src/main/java/internal/sql/lhod/LhodConnection.java:122-128 | The `DbProperties` query passes the connection string, then the four property keys in declaration order. |
| LhodConnection.PropertiesOf | java-sql-lhod/src/main/java/internal/sql/lhod/LhodConnection.java:139-148 | The properties are exactly the known keys present with a non-null value among the raw rows, with values copied. |
| LhodConnection.LoadProperties | java-sql-lhod/src/main/java/internal/sql/lhod/LhodConnection.java:122-137 | A failing query propagates its error. |
| LhodConnection.LoadWrittenProperties | java-sql-lhod/src/main/java/internal/sql/lhod/LhodConnection.java:122-148 | A two-column listing loads, for each property key present, the value of its last row; other keys are ignored. |
| LhodConnection.FoldLast | java-sql-lhod/src/main/java/internal/sql/lhod/LhodConnection.java:130-134 | Putting the rows one by one into a map leaves each key with its last row's value, and keys not in the rows as they were. |
| LhodConnection.GetProperty | java-sql-lhod/src/main/java/internal/sql/lhod/LhodConnection.java:108-115 | A null property is rejected. With properties cached, the cached value is answered and nothing changes. Otherwise they are loaded once and cached. A failed load leaves the connection unchanged. |
| LhodConnection.PropertiesLoadedOnce | java-sql-lhod/src/main/java/internal/sql/lhod/LhodConnection.java:108-115 | Once loaded, every property comes from the cache, whatever the executor would now reply. |
| LhodConnection.GetCatalog | java-sql-lhod/src/main/java/internal/sql/lhod/LhodConnection.java:72-82 | The current catalog property, after the state check. A failure to read it is rethrown naming the connection string. |
| LhodConnection.GetSchema | java-sql-lhod/src/main/java/internal/sql/lhod/LhodConnection.java:84-88 | Null on an open connection; the state check's error otherwise. |
| LhodConnection.IsReadOnly | java-sql-lhod/src/main/java/internal/sql/lhod/LhodConnection.java:102-106 | True on an open connection; the state check's error otherwise. |
| LhodConnection.OnOpen | java-sql-lhod/src/main/java/internal/sql/lhod/LhodConnection.java:66-100 | Metadata access and statement creation succeed exactly on an open connection, and give that connection. |
| LhodPreparedStatement.Of | java-sql-lhod/src/main/java/internal/sql/lhod/LhodPreparedStatement.java:34-42 | A statement is made exactly when connection and SQL are non-null: open, with no parameter set. |
| LhodPreparedStatement.Prepare | java-sql-lhod/src/main/java/internal/sql/lhod/LhodConnection.java:96-100 | A statement is prepared only on an open connection. |
| LhodPreparedStatement.CheckState | java-sql-lhod/src/main/java/internal/sql/lhod/LhodPreparedStatement.java:97-102 | Passes exactly when the connection is open and the statement is not closed. The connection's error comes first, then "PreparedStatement closed". |
| LhodPreparedStatement.Close | java-sql-lhod/src/main/java/internal/sql/lhod/LhodPreparedStatement.java:71-73 | Closing marks the statement closed and keeps its connection, SQL and parameters. |
| LhodPreparedStatement.CloseIdempotent | java-sql-lhod/src/main/java/internal/sql/lhod/LhodPreparedStatement.java:71-73 | Closing twice is closing once. |
| LhodPreparedStatement.ClosedStatementRefuses | java-sql-lhod/src/main/java/internal/sql/lhod/LhodPreparedStatement.java:97-102 | A closed statement fails its state check, with "PreparedStatement closed" when the connection is open. |
| LhodPreparedStatement.SetString | java-sql-lhod/src/main/java/internal/sql/lhod/LhodPreparedStatement.java:76-80 | Setting succeeds exactly on an open statement with an index from 1, and replaces only that index's value. A lower index fails naming it. |
| LhodPreparedStatement.GetConnection | java-sql-lhod/src/main/java/internal/sql/lhod/LhodPreparedStatement.java:83-86 | The connection, exactly when the state check passes. |
| LhodPreparedStatement.SortedKeys | java-sql-lhod/src/main/java/internal/sql/lhod/LhodPreparedStatement.java:90-93 | The parameter indexes in strictly increasing order, each once. |
| LhodPreparedStatement.ParameterList | java-sql-lhod/src/main/java/internal/sql/lhod/LhodPreparedStatement.java:88-95 | One value per index set, ordered by ascending index, with gaps collapsed. |
| LhodPreparedStatement.ParametersInIndexOrder | java-sql-lhod/src/main/java/internal/sql/lhod/LhodPreparedStatement.java:88-95 | With indexes 1 to n set, in whatever order, position i of the list holds index i + 1's value. |
| LhodPreparedStatement.SetStringReplaces | java-sql-lhod/src/main/java/internal/sql/lhod/LhodPreparedStatement.java:76-95 | Setting 1 and 2, then 2 again, lists the first value and the last value of 2. |
| LhodPreparedStatement.ExecuteQueryQuery | java-sql-lhod/src/main/java/internal/sql/lhod/LhodPreparedStatement.java:45-54 | `executeQuery` sends the connection string, the SQL, then the parameter list to `PreparedStatement`. |
| LhodPreparedStatement.ExecuteQuery | java-sql-lhod/src/main/java/internal/sql/lhod/LhodPreparedStatement.java:45-63 | The state check's error first. Then the script's reply as a result set, with a script failure rethrown naming the SQL. |
| LhodResultSetMetaData.TypeOfValue | java-sql-lhod/src/main/java/internal/sql/lhod/LhodResultSetMetaData.java:131-138 | A type found for a code has that code. |
| LhodResultSetMetaData.TypeOfValueRoundTrip | java-sql-lhod/src/main/java/internal/sql/lhod/LhodResultSetMetaData.java:85-138 | Every ADO type is found again from its code, so codes are distinct. |
| LhodResultSetMetaData.Parse | java-sql-lhod/src/main/java/internal/sql/lhod/LhodResultSetMetaData.java:131-138 | The type with the given code when there is one, `adIUnknown` otherwise. |
| LhodResultSetMetaData.ParseValue | java-sql-lhod/src/main/java/internal/sql/lhod/LhodResultSetMetaData.java:131-138 | Every type parses back from its code. |
| LhodResultSetMetaData.Of | java-sql-lhod/src/main/java/internal/sql/lhod/LhodResultSetMetaData.java:30-39 | A null list fails with a bare null pointer exception when its size is read, since its non-null annotation adds no check. Otherwise one name and one type per column, in order, each type parsed from the column's code. |
| LhodResultSetMetaData.ColumnCount | java-sql-lhod/src/main/java/internal/sql/lhod/LhodResultSetMetaData.java:47-50 | The number of columns. |
| LhodResultSetMetaData.ColumnName | java-sql-lhod/src/main/java/internal/sql/lhod/LhodResultSetMetaData.java:52-55 | Column i's name for 1 ≤ i ≤ count. Any other index is out of bounds at i − 1, with 32-bit wrap-around. |
| LhodResultSetMetaData.ColumnType | java-sql-lhod/src/main/java/internal/sql/lhod/LhodResultSetMetaData.java:57-60 | The SQL type of column i's ADO type, or out of bounds. |
| LhodResultSetMetaData.ColumnTypeName | java-sql-lhod/src/main/java/internal/sql/lhod/LhodResultSetMetaData.java:78-81 | The name of column i's ADO type, or out of bounds. |
| LhodResultSetMetaData.ColumnClassName | java-sql-lhod/src/main/java/internal/sql/lhod/LhodResultSetMetaData.java:62-66 | Every column reports `java.lang.String`. |
| LhodResultSetMetaData.ColumnDisplaySize | java-sql-lhod/src/main/java/internal/sql/lhod/LhodResultSetMetaData.java:68-71 | Every column reports a display size of -1. |
| LhodResultSetMetaData.HeaderReadBack | java-sql-lhod/src/main/java/internal/sql/lhod/LhodResultSetMetaData.java:30-81 | The metadata of a header reports each column's name and label. A known code reports that type's SQL type and name; an unknown code reports `OTHER` and `adIUnknown`. |
| LhodResultSetMetaData.IntegerAndDoubleColumns | java-sql-lhod/src/main/java/internal/sql/lhod/LhodResultSetMetaData.java:47-60 | Codes 3 and 5 report `INTEGER` and `DOUBLE`; columns 0 and 3 are out of bounds. |
| LhodCommon.PropertyKeys | java-sql-lhod/src/main/java/internal/sql/lhod/LhodConnection.java:156 | Four keys, in the declaration order of the properties. |
| LhodCommon.KeyInjective | java-sql-lhod/src/main/java/internal/sql/lhod/LhodConnection.java:161-168 | Distinct properties have distinct keys. |
| LhodCommon.PropertyOf | java-sql-lhod/src/main/java/internal/sql/lhod/LhodConnection.java:141-146 | The property with the given key, and none exactly when no property has it. |
| LhodCommon.PropertyOfKey | java-sql-lhod/src/main/java/internal/sql/lhod/LhodConnection.java:141-146 | Every property is found again from its key. |
| LhodCommon.LastValue | java-sql-lhod/src/main/java/internal/sql/lhod/LhodConnection.java:130-134 | The value of the last row with the key, and none exactly when no row has it. |
| LhodCommon.CaseTypeOf | java-sql-lhod/src/main/java/internal/sql/lhod/LhodDatabaseMetaData.java:165-182 | The case type with the given value, and none exactly when the value is not 1, 2, 4 or 8. |
| LhodCommon.CaseTypeRoundTrip | java-sql-lhod/src/main/java/internal/sql/lhod/LhodDatabaseMetaData.java:165-182 | Every case type is found again from its value. |
| LhodCommon.ParseIdentifierCaseType | java-sql-lhod/src/main/java/internal/sql/lhod/LhodDatabaseMetaData.java:151-171 | An absent property gives none, and a non-integer one is a number format failure. An integer gives its case type, or none for other values. |
| LhodCommon.IdentifierCaseTypeRoundTrip | java-sql-lhod/src/main/java/internal/sql/lhod/LhodDatabaseMetaData.java:151-171 | A case type's value printed as a property parses back to that case type. |
| LhodCommon.StringFunctionsOf | java-sql-lhod/src/main/java/internal/sql/lhod/LhodDatabaseMetaData.java:198-206 | A function is listed exactly when all bits of its mask are set in the value, in declaration order. |
| LhodCommon.BitmaskIsBit | java-sql-lhod/src/main/java/internal/sql/lhod/LhodDatabaseMetaData.java:211-235 | Each function's mask is the single bit of its declaration position. |
| LhodCommon.MaskOf | java-sql-lhod/src/main/java/internal/sql/lhod/LhodDatabaseMetaData.java:211-239 | The mask of a set of functions is a non-negative 32-bit int with exactly their bits set. |
| LhodCommon.StringFunctionsRoundTrip | java-sql-lhod/src/main/java/internal/sql/lhod/LhodDatabaseMetaData.java:198-206 | The functions listed for the mask of a set are exactly that set. |
| LhodCommon.ParseStringFunctions | java-sql-lhod/src/main/java/internal/sql/lhod/LhodDatabaseMetaData.java:184-196 | An absent property lists none, and a non-integer one is a number format failure. An integer lists the functions of its mask. |
| LhodCommon.OpenSchemaParameters | java-sql-lhod/src/main/java/internal/sql/lhod/LhodDatabaseMetaData.java:120-127 | The connection string first and the types last, after three restriction arguments. |
| LhodCommon.OpenSchemaReadBack | java-sql-lhod/src/main/java/internal/sql/lhod/LhodDatabaseMetaData.java:120-127 | The script reads the catalog back, and the patterns with `%` and null both as no restriction. |
| LhodCommon.ToSqlError | java-sql-lhod/src/main/java/internal/sql/lhod/LhodDatabaseMetaData.java:44-50 | A remote error becomes a SQLException with its message and code and no cause. Any other failure becomes one with code 0, caused by it, with the given message. |
| LhodCommon.CatchIO | java-sql-lhod/src/main/java/internal/sql/lhod/LhodDatabaseMetaData.java:43-50 | Only I/O failures are converted; values and other failures pass through. |
| LhodDatabaseMetaData.Of | java-sql-lhod/src/main/java/internal/sql/lhod/LhodDatabaseMetaData.java:35-39 | Null connection rejected; otherwise the metadata of that connection. |
| LhodDatabaseMetaData.IdentifierCaseTypeOf | java-sql-lhod/src/main/java/internal/sql/lhod/LhodDatabaseMetaData.java:151-171 | The case type parsed from the case property; a failure to read it is rethrown. |
| LhodDatabaseMetaData.StoresIdentifiers | java-sql-lhod/src/main/java/internal/sql/lhod/LhodDatabaseMetaData.java:41-75 | Each question is answered yes exactly when the case property is the integer value of the case type it asks about. An absent or other value answers no, and a non-integer value fails. |
| LhodDatabaseMetaData.StoresWrittenCase | java-sql-lhod/src/main/java/internal/sql/lhod/LhodDatabaseMetaData.java:41-75 | With the property holding the value of one case type, exactly that question is answered yes. An absent property, or SENSITIVE, answers no to all three. |
| LhodDatabaseMetaData.GetIdentifierQuoteString | java-sql-lhod/src/main/java/internal/sql/lhod/LhodDatabaseMetaData.java:77-81 | Null on an open connection; the state check's error otherwise. |
| LhodDatabaseMetaData.GetSQLKeywords | java-sql-lhod/src/main/java/internal/sql/lhod/LhodDatabaseMetaData.java:83-87 | `""` on an open connection; the state check's error otherwise. |
| LhodDatabaseMetaData.GetConnection | java-sql-lhod/src/main/java/internal/sql/lhod/LhodDatabaseMetaData.java:139-143 | The connection, exactly when it is open. |
| LhodDatabaseMetaData.IsReadOnly | java-sql-lhod/src/main/java/internal/sql/lhod/LhodDatabaseMetaData.java:145-149 | True exactly when the connection is open, agreeing with the connection's answer. |
| LhodDatabaseMetaData.GetStringFunctions | java-sql-lhod/src/main/java/internal/sql/lhod/LhodDatabaseMetaData.java:89-102 | The labels of the listed functions, sorted and comma-joined; `""` exactly when none is listed. Read and parse failures are rethrown. |
| LhodDatabaseMetaData.JoiningSplits | java-sql-lhod/src/main/java/internal/sql/lhod/LhodDatabaseMetaData.java:97-98 | The joined labels split back into the sorted labels. |
| LhodDatabaseMetaData.StringFunctionsOfWrittenMask | java-sql-lhod/src/main/java/internal/sql/lhod/LhodDatabaseMetaData.java:89-102 | With the property holding the mask of a set of functions, the answer splits into exactly that set's labels, sorted; the empty set gives `""`. |
| LhodDatabaseMetaData.GetExtraNameCharacters | java-sql-lhod/src/main/java/internal/sql/lhod/LhodDatabaseMetaData.java:104-114 | The special characters property, after the state check; a failure to read it is rethrown. |
| LhodDatabaseMetaData.ExtraNameCharactersOfListing | java-sql-lhod/src/main/java/internal/sql/lhod/LhodDatabaseMetaData.java:104-114 | With nothing loaded yet, the answer is the value of the last special characters row the script lists. |
| LhodDatabaseMetaData.TablesQuery | java-sql-lhod/src/main/java/internal/sql/lhod/LhodDatabaseMetaData.java:118-128 | `getTables` sends the `OpenSchema` arguments to the `OpenSchema` script. |
| LhodDatabaseMetaData.GetTables | java-sql-lhod/src/main/java/internal/sql/lhod/LhodDatabaseMetaData.java:116-137 | The state check's error first. Then the script's reply as a result set, with a failure rethrown naming every argument and the connection string. |
| LhodContext.Of | java-sql-lhod/src/main/java/internal/sql/lhod/LhodContext.java:36-50 | A context is made exactly when connection string and creation instant are non-null, with nothing loaded. |
| LhodContext.PropertyOfCell | java-sql-lhod/src/main/java/internal/sql/lhod/LhodContext.java:66-68 | A first field names a property exactly when it is that property's key. |
| LhodContext.PropertiesFromRows | java-sql-lhod/src/main/java/internal/sql/lhod/LhodContext.java:62-70 | Rows of two fields always load; only a missing field can fail. |
| LhodContext.PropertiesFromRowsLast | java-sql-lhod/src/main/java/internal/sql/lhod/LhodContext.java:62-70 | Each property maps to its last row's second field; a property with no row keeps its earlier value. |
| LhodContext.DbPropertiesQuery | java-sql-lhod/src/main/java/internal/sql/lhod/LhodContext.java:157-166 | The `DbProperties.vbs` query passes the connection string, then the four keys in order. |
| LhodContext.GetProperties | java-sql-lhod/src/main/java/internal/sql/lhod/LhodContext.java:58-74 | A cache is answered and nothing changes. Otherwise the properties are loaded once and cached, and a failed load leaves the context unchanged. |
| LhodContext.GetProperty | java-sql-lhod/src/main/java/internal/sql/lhod/LhodContext.java:52-56 | A null property is rejected; otherwise it is the property's value from the loaded properties. |
| LhodContext.PropertiesLoadedOnce | java-sql-lhod/src/main/java/internal/sql/lhod/LhodContext.java:58-74 | Once loaded, every property comes from the cache, whatever another executor would reply. |
| LhodContext.LoadListedProperties | java-sql-lhod/src/main/java/internal/sql/lhod/LhodContext.java:58-83 | Loading a two-field listing gives each property its last row's value, or none when no row has it. |
| LhodContext.GetIdentifierCaseType | java-sql-lhod/src/main/java/internal/sql/lhod/LhodContext.java:85-105 | The case type parsed from the case property: none when absent, a failure when not an integer, and none for values other than 1, 2, 4 and 8. |
| LhodContext.GetStringFunctions | java-sql-lhod/src/main/java/internal/sql/lhod/LhodContext.java:107-129 | The functions whose mask is all set in the property's value; none when the property is absent. |
| LhodContext.PreparedStatementQuery | java-sql-lhod/src/main/java/internal/sql/lhod/LhodContext.java:131-141 | The connection string, the SQL, then the parameters, sent to `PreparedStatement.vbs`. |
| LhodContext.OpenSchemaQuery | java-sql-lhod/src/main/java/internal/sql/lhod/LhodContext.java:143-155 | The connection string, a null catalog as `""`, the patterns, then the types, sent to `OpenSchema.vbs`. |
| LhodContextPool.FirstMatch | java-sql-lhod/src/main/java/internal/sql/lhod/LhodContextPool.java:44-50 | The position of the first recycled context that is still valid and has the connection string; none exactly when no valid context has it. |
| LhodContextPool.Valid | java-sql-lhod/src/main/java/internal/sql/lhod/LhodContextPool.java:44-50 | The contexts still valid, in order. |
| LhodContextPool.ScanTakesFirstMatch | java-sql-lhod/src/main/java/internal/sql/lhod/LhodContextPool.java:44-53 | The scan drops the expired contexts before the first match and takes the match out. It leaves the contexts after it untouched, and with no match keeps exactly the valid ones. |
| LhodContextPool.GetOrCreate | java-sql-lhod/src/main/java/internal/sql/lhod/LhodContextPool.java:41-56 | The first valid recycled context of the connection string, taken out with the expired ones before it. Otherwise a fresh context created now, and the pool keeps only its valid contexts. |
| LhodContextPool.ReusedIsValid | java-sql-lhod/src/main/java/internal/sql/lhod/LhodContextPool.java:41-56 | A reused context was in the pool, is valid, and the pool shrinks. |
| LhodContextPool.Recycle | java-sql-lhod/src/main/java/internal/sql/lhod/LhodContextPool.java:58-65 | A valid context is appended; an expired one leaves the pool unchanged. |
| LhodContextPool.RecycledIsReused | java-sql-lhod/src/main/java/internal/sql/lhod/LhodContextPool.java:41-65 | A context recycled while valid is the one handed out next for its connection string, as long as it is still valid and no other valid one precedes it. |
| LhodContextPool.ExpiredNotRecycled | java-sql-lhod/src/main/java/internal/sql/lhod/LhodContextPool.java:58-69 | A context recycled once `ttl` has elapsed (validity is `creation + ttl > now`) is dropped. |
| JavaLang.ToUpper | java-sql-jdbc/src/main/java/nbbrd/sql/jdbc/SqlIdentifierQuoter.java:204 | `toUpperCase(Locale.ROOT)` on ASCII: same length, each character upper-cased on its own. |
| JavaLang.ToLower | java-sql-lhod/src/main/java/internal/sql/lhod/LhodDriver.java:82 | `toLowerCase(Locale.ROOT)` on ASCII: same length, each character lower-cased on its own. |
| JavaLang.ToUpperFixedIff | java-sql-jdbc/src/main/java/nbbrd/sql/jdbc/SqlIdentifierStorageRule.java:32 | A string equals its upper-cased form exactly when it holds no lower-case letter. |
| JavaLang.ToLowerFixedIff | java-sql-jdbc/src/main/java/nbbrd/sql/jdbc/SqlIdentifierStorageRule.java:37 | A string equals its lower-cased form exactly when it holds no upper-case letter. |
| JavaLang.IndexOf | java-sql-jdbc/src/main/java/nbbrd/sql/jdbc/SqlIdentifierQuoter.java:104 | `indexOf(sub, from)` is the first position at or after `from` where `sub` occurs, and -1 exactly when there is none. |
| JavaLang.ContainsCharIff | java-sql-jdbc/src/main/java/nbbrd/sql/jdbc/SqlIdentifierQuoter.java:146 | `contains` of a one-character string holds exactly when that character is in the string. |
| JavaLang.LastIndexOfChar | java-sql-odbc/src/main/java/internal/sql/odbc/win/WinOdbcRegistryUtil.java:194 | `lastIndexOf(c)` is a position holding `c` with no `c` after it, or -1 when `c` is absent. |
| JavaLang.ReplaceNotShorter | java-sql-jdbc/src/main/java/nbbrd/sql/jdbc/SqlIdentifierQuoter.java:150 | `replace` with a replacement no shorter than the target never shortens the string. |
| JavaLang.Trim | java-sql-jdbc/src/main/java/nbbrd/sql/jdbc/SqlIdentifierQuoter.java:197 | `trim()` gives a contiguous part of the string, bounded by characters it does not remove, with only removable characters cut on either side. |
| JavaLang.TrimEmptyIff | java-sql-jdbc/src/main/java/nbbrd/sql/jdbc/SqlIdentifierQuoter.java:173 | A string trims to empty exactly when every character is one `trim()` removes. |
| JavaLang.ParseInt | java-sql-lhod/src/main/java/internal/sql/lhod/TabDataReader.java:118 | `Integer.parseInt` gives a 32-bit value, and fails on the empty string, a non-digit after the first character, or a first character that is neither a digit nor a sign. |
| JavaLang.ParseIntToString | java-sql-odbc/src/main/java/internal/sql/odbc/win/WinOdbcRegistryUtil.java:172 | Every 32-bit integer parses back from its decimal form. |
| JavaLang.LexLessTransitive | java-sql-lhod/src/main/java/internal/sql/lhod/LhodDatabaseMetaData.java:95 | The natural string order used by `sorted()` is transitive. |
| JavaLang.LexLessTotal | java-sql-lhod/src/main/java/internal/sql/lhod/LhodDatabaseMetaData.java:95 | Any two different strings are ordered one way or the other. |
| JavaLang.Sort | java-sql-lhod/src/main/java/internal/sql/lhod/LhodDatabaseMetaData.java:95 | `sorted()` gives the same strings, as a multiset, in ascending order. |

## Left out

- Strings: a Java string is a sequence of UTF-16 code units, but a Dafny string here is a sequence of Unicode scalar values. Outside the Basic Multilingual Plane, lengths and indexes differ, and lone surrogates cannot be written. `IndexOf`, `Trim`, `Split`, `Sort` and the quoting scans count characters, not code units.
- Character handling: case mapping follows ASCII only. `toUpperCase(Locale.ROOT)` on other letters, which can change a string's length, is not modelled. `trim` removes the characters up to U+0020, as Java's does. Digits are the ASCII digits only (see `JavaLang.ParseInt`).
- Hash order: `RegOdbcRegistry`'s `getValues` collects into a `HashMap`, whose iteration order Java leaves unspecified. The model keeps the order in which the registry command lists the values, so the name lists of `WinOdbcRegistryUtil` follow that order.
- Logging in the failsafe wrappers and in `JdbcUtil` is a list of reports returned with each result. Log levels and formatting are not modelled.
- Concurrency: the `synchronized` blocks of `LhodContextPool` are not modelled; the pool is a value.
- Outside the process: the registry command (`RegWrapper.query`), the `where` command search, the script executor and its engine are parameters. So are the operating system test, the clock (`now`), and the JDBC `DatabaseMetaData` and `ResultSet` answers.
- The tab-separated tokenizer (RFC 4180, section 2, with a tab delimiter) is not modelled. A reply is a sequence of lines, each a sequence of fields, where a line with no field is empty.
- `OdbcConnectionString.Parse` models the key-value pattern's find loop over the printed form. The round trip is proved only for strings that `toString` produces; arbitrary input is not characterised.
- JavaLang.ParseInt: accepts only the ASCII digits `0`-`9`. `Integer.parseInt` reads digits with `Character.digit`, which also accepts the other Unicode decimal digits, so `parseInt("\u0661")` is 1 in Java but fails here. The Unicode digit tables are not modelled.
- LhodPreparedStatement.SetString: the value is a `string`, never null. `setString(i, null)` in Java stores null in the parameter map, and `getParameterList` then sends it to the executor. The model cannot express that case. What the executor does with a null parameter is outside this model.
- SqlTable.AllOf: a result set's column names and rows are given answers. `getMetaData`, `getColumnCount` and `getColumnName` cannot fail here, though each can throw an `SQLException` in Java (SqlTable.java:91, 105-112). Closing the result set at the end of the try-with-resources (SqlTable.java:85-87) is not modelled either, so a close failure cannot turn a successful read into an error. A failing row read is modelled.
- JdbcUtil.SplitToStream: the `PatternSyntaxException` for an invalid separator carries only the pattern. Its description and error index are not modelled. For `$`, `.` and the vertical bar the pieces are stated for the cases the lemmas name. A general characterisation, for instance of inputs with several line terminators, is not stated.
- LhodDatabaseMetaData.GetTables: `types` is `Option<seq<string>>`, so a `String[]` holding null elements cannot be expressed. Java passes such an array on as query parameters (LhodDatabaseMetaData.java:127), and `Arrays.toString` prints its nulls as `null` in the failure message (LhodDatabaseMetaData.java:135).
- LhodContext.OpenSchemaQuery: the same holds here and for `LhodCommon.OpenSchemaParameters`. A `types` array with null elements, which Java forwards as parameters (LhodContext.java:152), cannot be expressed.
- `SqlKeywords` is not part of this model. Its reserved words are the `standardKeywords` parameter of `SqlIdentifierQuoter.Of`.
- `File` values are their path strings. `Object.toString()` of a delegate is a field of the delegate.
- `LhodResultSet`, `LhodStatement`, `SqlColumn`, `SqlTypes`, the connection suppliers, the resource extractors, the script engines and executors are not part of this model. The same goes for `UncheckedSQLException` and `module-info`.
- `OdbcRegistry` and `OdbcRegistrySpi` are interfaces; their operations are datatypes of answers. `OdbcDataSource` is used as a record.
- The commented-out storage-rule check stays inert: `breaksStorageRule` is always false.
- `FailsafeOdbcRegistry` has no `getDataSourceNames` or `getDriverNames`, so none is modelled for it.
- RegOdbcRegistry.GetName: states only that the name is non-empty. The name itself is the constant `OdbcRegistryOverRegCommand`.
- RegOdbcRegistry.GetDriverNamesOf and RegOdbcRegistry.GetDriversOf: the contracts state the not-found case; the listing itself is stated by `DriverNamesFromQuery` and by `WinOdbcRegistryUtil`.
- SqlIdentifierQuoter.ProperlyQuotedIff and the lemmas about quoting: the character-level characterisation assumes a one-character quote string, which is what drivers report in practice. For longer quote strings only `Quote`'s own contract and `AsWrittenFinishes` hold, and `MultiCharQuoteNotIdempotent` shows where they differ.
- SqlIdentifierQuoter.QuoteIdempotent: requires that the second call forces only if the first did. `ForcingAfterNotForcingQuotes` shows that the unrestricted statement is false.
- SqlIdentifierQuoter.IsProperlyQuotedAsWritten: the Java loop is run under a step bound, and `None` means the bound ran out.
- LhodResultSetMetaData.ColumnLabel: its own contract only says it answers as `ColumnName`. Its meaning is stated by `HeaderReadBack`.
- LhodContext.Of: the executor is passed to each operation instead of being held by the context, so the null check on it, which comes before the other two, is not modelled.
- LhodConnection.LoadProperties: its own contract states the failure case; the loaded content is stated by `LoadWrittenProperties`.
- `LhodConnection` and `LhodContext` send different procedure names (`DbProperties` and `DbProperties.vbs`). Each is modelled as its source writes it.
- The message of `FailsafeOdbcConnectionSupplierSpi.getConnection` contains a stray quote ("getting connection' for '"). It is kept as written.

## Findings

| source | as written | input that shows it | evidently intended | confidence | as-written member | corrected member |
|---|---|---|---|---|---|---|
| java-sql-jdbc/src/main/java/nbbrd/sql/jdbc/SqlIdentifierQuoter.java:92-120 | The builder accepts an empty `quoteString`. `isProperlyQuoted` then finds the empty string at `begin` on every turn, never advances, and loops forever on any non-empty identifier. | `SqlIdentifierQuoter.builder().quoteString("").build().quote("a")` | An empty quote string is rejected when the quoter is built, or the loop always advances. | not executed | SqlIdentifierQuoter.EmptyQuoteStringNeverFinishes | SqlIdentifierQuoter.BuildChecked |

=== FILE: exceptions.dfy ===
/** The Java exceptions the modelled code throws or passes on, as values.
    `cause` mirrors `Throwable.getCause()`. */
module Exceptions {
  import opened Wrappers

  datatype Exception =
      /** `message` is `None` for `Objects.requireNonNull(x)` without a message. */
    | NullPointer(npeMessage: Option<string>)
    | IllegalArgument(message: string)
    | IllegalState(message: string)
    | UnsupportedOperation(message: string)
    | IndexOutOfBounds(index: int)
      /** `java.util.regex.PatternSyntaxException` for the regular expression
          `pattern`; its description and error index are not modelled. */
    | PatternSyntax(pattern: string)
      /** Any other unchecked exception thrown by a collaborator. */
    | Runtime(message: string)
      /** `java.io.IOException`; `message` is `None` when it was built without one. */
    | IO(ioMessage: Option<string>, ioCause: Option<Exception>)
      /** `TabDataFormatError`, an `IOException` for a malformed reply. */
    | TabDataFormat(message: string)
      /** `TabDataRemoteError`, an `IOException` carrying the remote error number. */
    | TabDataRemote(message: string, number: int)
      /** `java.sql.SQLException` with its SQL state (null when not given),
          vendor code (0 when not given) and cause. */
    | Sql(message: string, sqlState: Option<string>, vendorCode: int, sqlCause: Option<Exception>)
  {
    /** Unchecked (`RuntimeException`) exceptions. */
    predicate IsRuntime() {
      NullPointer? || IllegalArgument? || PatternSyntax? || IllegalState? || UnsupportedOperation? || IndexOutOfBounds? || Runtime?
    }

    /** Checked `IOException` and its subclasses. */
    predicate IsIO() {
      IO? || TabDataFormat? || TabDataRemote?
    }
  }

  /** Message written by Lombok for a null `@NonNull` field or parameter. */
  function NonNullViolation(field: string): Exception {
    NullPointer(Some(field + " is marked non-null but is null"))
  }

  /** `Objects.requireNonNull(x)` on a null `x`. */
  function RequireNonNullFailure(): Exception {
    NullPointer(None)
  }

  /** `Objects.requireNonNull(x, message)` on a null `x`. */
  function RequireNonNullFailureWith(message: string): Exception {
    NullPointer(Some(message))
  }

  /** `new SQLException(message)`. */
  function SqlError(message: string): Exception {
    Sql(message, None, 0, None)
  }

  /** `new SQLException(message, cause)`. */
  function SqlErrorCausedBy(message: string, cause: Exception): Exception {
    Sql(message, None, 0, Some(cause))
  }
}

=== FILE: failsafe.dfy ===
/** What the failsafe wrappers share: a delegate call whose unchecked failure
    or unexpected null is reported once and replaced by a fallback value or a
    checked exception, while a normal answer passes through untouched. */
module Failsafe {
  import opened Wrappers
  import opened Exceptions
  import opened OdbcDriver
  import opened OdbcDataSource

  /** `Integer.MAX_VALUE`, the cost of a provider that cannot tell its cost. */
  const MAX_INT: int := 0x7fff_ffff

  /** What a call on the delegate did. */
  datatype Outcome<T> = Returned(value: T) | ReturnedNull | Threw(error: Exception)

  /** What the wrapper hands to `onUnexpectedError` / `onUnexpectedNull`. */
  datatype Report = UnexpectedError(message: string, error: Exception) | UnexpectedNull(message: string)

  /** What a call on the wrapper did: its answer and the reports it made. */
  datatype Call<T> = Call(result: Result<T, Exception>, reports: seq<Report>)

  /** The checked exception an operation declares. */
  datatype Checked = AsIO | AsSql

  /** `new IOException(message[, cause])` or `new SQLException(message[, cause])`. */
  function CheckedError(kind: Checked, message: string, cause: Option<Exception>): (r: Exception)
    ensures !r.IsRuntime()
    ensures kind == AsIO ==> r.IO? && r.ioMessage == Some(message) && r.ioCause == cause
    ensures kind == AsSql ==> r.Sql? && r.message == message && r.sqlCause == cause
  {
    match kind
    case AsIO => IO(Some(message), cause)
    case AsSql => Sql(message, None, 0, cause)
  }

  /** The outcome was not a normal answer, and the wrapper must step in. */
  predicate Anomalous<T>(outcome: Outcome<T>) {
    outcome.ReturnedNull? || (outcome.Threw? && outcome.error.IsRuntime())
  }

  /** A wrapper's call seen as the outcome of a delegate. */
  function AsOutcome<T>(c: Call<T>): (o: Outcome<T>)
    ensures !o.ReturnedNull?
    ensures c.result.Ok? <==> o.Returned?
  {
    match c.result
    case Ok(v) => Returned(v)
    case Err(e) => Threw(e)
  }

  /** For an answer that must not be null (`getName`): an unchecked failure or a
      null is reported and replaced by `fallback`. */
  function OrFallback<T>(outcome: Outcome<T>, fallback: T, errorMessage: string, nullMessage: string): (c: Call<T>)
    ensures |c.reports| == (if Anomalous(outcome) then 1 else 0)
    ensures c.result.Err? <==> outcome.Threw? && !outcome.error.IsRuntime()
    ensures c.result.Err? ==> c.result.error == outcome.error
    ensures outcome.Returned? ==> c.result == Ok(outcome.value)
    ensures Anomalous(outcome) ==> c.result == Ok(fallback)
    ensures outcome.ReturnedNull? ==> c.reports == [UnexpectedNull(nullMessage)]
    ensures outcome.Threw? && outcome.error.IsRuntime() ==> c.reports == [UnexpectedError(errorMessage, outcome.error)]
  {
    match outcome
    case Returned(v) => Call(Ok(v), [])
    case ReturnedNull => Call(Ok(fallback), [UnexpectedNull(nullMessage)])
    case Threw(e) =>
      if e.IsRuntime() then Call(Ok(fallback), [UnexpectedError(errorMessage, e)])
      else Call(Err(e), [])
  }

  /** For a primitive answer (`isAvailable`, `getCost`), which cannot be null:
      an unchecked failure is reported and replaced by `fallback`. */
  function OrDefault<T>(outcome: Result<T, Exception>, fallback: T, errorMessage: string): (c: Call<T>)
    ensures |c.reports| == (if outcome.Err? && outcome.error.IsRuntime() then 1 else 0)
    ensures c.result.Err? <==> outcome.Err? && !outcome.error.IsRuntime()
    ensures outcome.Ok? ==> c.result == outcome
    ensures outcome.Err? && outcome.error.IsRuntime() ==>
              c == Call(Ok(fallback), [UnexpectedError(errorMessage, outcome.error)])
    ensures outcome.Err? && !outcome.error.IsRuntime() ==> c.result == outcome
  {
    match outcome
    case Ok(v) => Call(Ok(v), [])
    case Err(e) =>
      if e.IsRuntime() then Call(Ok(fallback), [UnexpectedError(errorMessage, e)])
      else Call(Err(e), [])
  }

  /** For an answer the caller cannot do without (`getDataSources`,
      `getConnection`): an unchecked failure or a null is reported and turned
      into the operation's checked exception, with the failure as its cause. */
  function OrFail<T>(outcome: Outcome<T>, kind: Checked, errorMessage: string, nullMessage: string): (c: Call<T>)
    ensures |c.reports| == (if Anomalous(outcome) then 1 else 0)
    ensures c.result.Ok? <==> outcome.Returned?
    ensures c.result.Ok? ==> c.result.value == outcome.value
    ensures c.result.Err? ==> !c.result.error.IsRuntime()
    ensures outcome.ReturnedNull? ==>
              c == Call(Err(CheckedError(kind, nullMessage, None)), [UnexpectedNull(nullMessage)])
    ensures outcome.Threw? && outcome.error.IsRuntime() ==>
              c == Call(Err(CheckedError(kind, errorMessage, Some(outcome.error))), [UnexpectedError(errorMessage, outcome.error)])
    ensures outcome.Threw? && !outcome.error.IsRuntime() ==> c == Call(Err(outcome.error), [])
  {
    match outcome
    case Returned(v) => Call(Ok(v), [])
    case ReturnedNull => Call(Err(CheckedError(kind, nullMessage, None)), [UnexpectedNull(nullMessage)])
    case Threw(e) =>
      if e.IsRuntime() then Call(Err(CheckedError(kind, errorMessage, Some(e))), [UnexpectedError(errorMessage, e)])
      else Call(Err(e), [])
  }

  /** Guarding an already guarded call changes nothing and reports nothing. */
  lemma OrFallbackStable<T>(outcome: Outcome<T>, fallback: T, errorMessage: string, nullMessage: string,
                            fallback2: T, errorMessage2: string, nullMessage2: string)
    ensures var c := OrFallback(outcome, fallback, errorMessage, nullMessage);
      OrFallback(AsOutcome(c), fallback2, errorMessage2, nullMessage2) == Call(c.result, [])
  {
  }

  lemma OrDefaultStable<T>(outcome: Result<T, Exception>, fallback: T, errorMessage: string, fallback2: T, errorMessage2: string)
    ensures var c := OrDefault(outcome, fallback, errorMessage);
      OrDefault(c.result, fallback2, errorMessage2) == Call(c.result, [])
  {
  }

  lemma OrFailStable<T>(outcome: Outcome<T>, kind: Checked, errorMessage: string, nullMessage: string,
                        errorMessage2: string, nullMessage2: string)
    ensures var c := OrFail(outcome, kind, errorMessage, nullMessage);
      OrFail(AsOutcome(c), kind, errorMessage2, nullMessage2) == Call(c.result, [])
  {
  }

  // ---------------------------------------------------------------------------
  // The wrapped services

  /** An `OdbcRegistrySpi` as its answers. `className` is
      `getClass().getName()` and `text` is `toString()`; a data source listing
      receives the types array, `None` when it is null. */
  datatype RegistrySpi = RegistrySpi(
    className: string,
    text: string,
    name: Outcome<string>,
    available: Result<bool, Exception>,
    cost: Result<int, Exception>,
    dataSources: Option<seq<DataSourceType>> -> Outcome<seq<DataSource>>,
    drivers: Outcome<seq<Driver>>)

  /** An `OdbcConnectionSupplierSpi` as its answers; `C` stands for the
      `java.sql.Connection` it opens. */
  datatype SupplierSpi<C> = SupplierSpi(
    className: string,
    text: string,
    name: Outcome<string>,
    available: Result<bool, Exception>,
    cost: Result<int, Exception>,
    connect: Option<string> -> Outcome<C>)
}

=== FILE: failsafe_odbc_connection_supplier.dfy ===
/** `FailsafeOdbcConnectionSupplier`: a connection supplier that never lets an
    unchecked failure or an unexpected null of its delegate escape; messages
    name the delegate by its class name. */
module FailsafeOdbcConnectionSupplier {
  import opened Wrappers
  import opened Exceptions
  import opened Failsafe

  /** The class name of the wrapper itself. */
  const CLASS_NAME: string := "internal.sql.odbc.FailsafeOdbcConnectionSupplier"

  function ErrorMessage<C>(delegate: SupplierSpi<C>, operation: string): string {
    "Unexpected error while calling '" + operation + "' on '" + delegate.className + "'"
  }

  function NullMessage<C>(delegate: SupplierSpi<C>, operation: string): string {
    "Unexpected null while calling '" + operation + "' on '" + delegate.className + "'"
  }

  /** `getName()`: the delegate's name, or its class name when it has none. */
  function GetName<C>(delegate: SupplierSpi<C>): (c: Call<string>)
    ensures delegate.name.Returned? ==> c == Call(Ok(delegate.name.value), [])
    ensures delegate.name.ReturnedNull? ==> c == Call(Ok(delegate.className), [UnexpectedNull(NullMessage(delegate, "getName"))])
    ensures Anomalous(delegate.name) ==> c.result == Ok(delegate.className) && |c.reports| == 1
    ensures c.result.Err? ==> !c.result.error.IsRuntime()
  {
    OrFallback(delegate.name, delegate.className, ErrorMessage(delegate, "getName"), NullMessage(delegate, "getName"))
  }

  /** `isAvailable()`: a failing delegate is not available. */
  function IsAvailable<C>(delegate: SupplierSpi<C>): (c: Call<bool>)
    ensures delegate.available.Ok? ==> c == Call(delegate.available, [])
    ensures delegate.available.Err? && delegate.available.error.IsRuntime() ==>
              c == Call(Ok(false), [UnexpectedError(ErrorMessage(delegate, "isAvailable"), delegate.available.error)])
    ensures c.result.Err? ==> !c.result.error.IsRuntime()
  {
    OrDefault(delegate.available, false, ErrorMessage(delegate, "isAvailable"))
  }

  /** `getCost()`: a failing delegate costs the most. */
  function GetCost<C>(delegate: SupplierSpi<C>): (c: Call<int>)
    ensures delegate.cost.Ok? ==> c == Call(delegate.cost, [])
    ensures delegate.cost.Err? && delegate.cost.error.IsRuntime() ==>
              c == Call(Ok(MAX_INT), [UnexpectedError(ErrorMessage(delegate, "getCost"), delegate.cost.error)])
    ensures c.result.Err? ==> !c.result.error.IsRuntime()
  {
    OrDefault(delegate.cost, MAX_INT, ErrorMessage(delegate, "getCost"))
  }

  /** `getConnection(connectionString)`: a null string is refused before the
      delegate is asked; a failure or a null of the delegate becomes an
      `SQLException`. */
  function GetConnection<C>(delegate: SupplierSpi<C>, connectionString: Option<string>): (c: Call<C>)
    ensures connectionString.None? ==> c == Call(Err(RequireNonNullFailure()), [])
    ensures connectionString.Some? && delegate.connect(connectionString).Returned? ==>
              c == Call(Ok(delegate.connect(connectionString).value), [])
    ensures connectionString.Some? && delegate.connect(connectionString).ReturnedNull? ==>
              c.result == Err(SqlError(NullMessage(delegate, "getConnection")))
    ensures connectionString.Some? && delegate.connect(connectionString).Threw? && delegate.connect(connectionString).error.IsRuntime() ==>
              c.result == Err(SqlErrorCausedBy(ErrorMessage(delegate, "getConnection"), delegate.connect(connectionString).error))
    ensures connectionString.Some? ==> |c.reports| == (if Anomalous(delegate.connect(connectionString)) then 1 else 0)
    ensures connectionString.Some? && c.result.Err? ==> !c.result.error.IsRuntime()
  {
    if connectionString.None? then Call(Err(RequireNonNullFailure()), [])
    else OrFail(delegate.connect(connectionString), AsSql, ErrorMessage(delegate, "getConnection"), NullMessage(delegate, "getConnection"))
  }

  /** `wrap(delegate)`: the wrapper seen as a supplier itself. Its `toString()`
      is `Object`'s, whose hash part `identity` stands for. */
  function Wrap<C>(delegate: SupplierSpi<C>, identity: string): (w: SupplierSpi<C>)
    ensures w.className == CLASS_NAME
    ensures !w.name.ReturnedNull?
  {
    SupplierSpi(
      CLASS_NAME,
      CLASS_NAME + "@" + identity,
      AsOutcome(GetName(delegate)),
      IsAvailable(delegate).result,
      GetCost(delegate).result,
      (connectionString: Option<string>) => AsOutcome(GetConnection(delegate, connectionString)))
  }

  /** Wrapping a wrapped supplier gives the same answers and no new report. */
  lemma WrapTwice<C>(delegate: SupplierSpi<C>, identity: string, connectionString: Option<string>)
    ensures GetName(Wrap(delegate, identity)) == Call(GetName(delegate).result, [])
    ensures IsAvailable(Wrap(delegate, identity)) == Call(IsAvailable(delegate).result, [])
    ensures GetCost(Wrap(delegate, identity)) == Call(GetCost(delegate).result, [])
    ensures GetConnection(Wrap(delegate, identity), connectionString) == Call(GetConnection(delegate, connectionString).result, [])
  {
    var w := Wrap(delegate, identity);
    OrFallbackStable(delegate.name, delegate.className, ErrorMessage(delegate, "getName"), NullMessage(delegate, "getName"),
                     w.className, ErrorMessage(w, "getName"), NullMessage(w, "getName"));
    OrDefaultStable(delegate.available, false, ErrorMessage(delegate, "isAvailable"), false, ErrorMessage(w, "isAvailable"));
    OrDefaultStable(delegate.cost, MAX_INT, ErrorMessage(delegate, "getCost"), MAX_INT, ErrorMessage(w, "getCost"));
    if connectionString.Some? {
      OrFailStable(delegate.connect(connectionString), AsSql, ErrorMessage(delegate, "getConnection"), NullMessage(delegate, "getConnection"),
                   ErrorMessage(w, "getConnection"), NullMessage(w, "getConnection"));
    }
  }
}

=== FILE: failsafe_odbc_connection_supplier_spi.dfy ===
/** `FailsafeOdbcConnectionSupplierSpi`, the older failsafe connection
    supplier: the same guards as `FailsafeOdbcConnectionSupplier`, but messages
    name the delegate by its `toString()`, a connection failure is described by
    the connection string, and a null string is passed on to the delegate. */
module FailsafeOdbcConnectionSupplierSpi {
  import opened Wrappers
  import opened Exceptions
  import opened Failsafe

  /** The class name of the wrapper itself. */
  const CLASS_NAME: string := "internal.sql.odbc.FailsafeOdbcConnectionSupplierSpi"

  function ErrorMessage<C>(delegate: SupplierSpi<C>, operation: string): string {
    "Unexpected error while calling '" + operation + "' on '" + delegate.text + "'"
  }

  function NullMessage<C>(delegate: SupplierSpi<C>, operation: string): string {
    "Unexpected null while calling '" + operation + "' on '" + delegate.text + "'"
  }

  /** A string as Java concatenates it: `null` for a null reference. */
  function TextOf(s: Option<string>): (r: string)
    ensures s.Some? ==> r == s.value
    ensures s.None? ==> r == "null"
  {
    s.GetOr("null")
  }

  /** The messages of a failed connection, which keep the source's stray quote. */
  function ConnectErrorMessage(connectionString: Option<string>): string {
    "Unexpected error while getting connection' for '" + TextOf(connectionString) + "'"
  }

  function ConnectNullMessage(connectionString: Option<string>): string {
    "Unexpected null while getting connection' for '" + TextOf(connectionString) + "'"
  }

  /** `getName()`: the delegate's name, or its class name when it has none. */
  function GetName<C>(delegate: SupplierSpi<C>): (c: Call<string>)
    ensures delegate.name.Returned? ==> c == Call(Ok(delegate.name.value), [])
    ensures delegate.name.ReturnedNull? ==> c == Call(Ok(delegate.className), [UnexpectedNull(NullMessage(delegate, "getName"))])
    ensures Anomalous(delegate.name) ==> c.result == Ok(delegate.className) && |c.reports| == 1
    ensures c.result.Err? ==> !c.result.error.IsRuntime()
  {
    OrFallback(delegate.name, delegate.className, ErrorMessage(delegate, "getName"), NullMessage(delegate, "getName"))
  }

  /** `isAvailable()`: a failing delegate is not available. */
  function IsAvailable<C>(delegate: SupplierSpi<C>): (c: Call<bool>)
    ensures delegate.available.Ok? ==> c == Call(delegate.available, [])
    ensures delegate.available.Err? && delegate.available.error.IsRuntime() ==>
              c == Call(Ok(false), [UnexpectedError(ErrorMessage(delegate, "isAvailable"), delegate.available.error)])
    ensures c.result.Err? ==> !c.result.error.IsRuntime()
  {
    OrDefault(delegate.available, false, ErrorMessage(delegate, "isAvailable"))
  }

  /** `getCost()`: a failing delegate costs the most. */
  function GetCost<C>(delegate: SupplierSpi<C>): (c: Call<int>)
    ensures delegate.cost.Ok? ==> c == Call(delegate.cost, [])
    ensures delegate.cost.Err? && delegate.cost.error.IsRuntime() ==>
              c == Call(Ok(MAX_INT), [UnexpectedError(ErrorMessage(delegate, "getCost"), delegate.cost.error)])
    ensures c.result.Err? ==> !c.result.error.IsRuntime()
  {
    OrDefault(delegate.cost, MAX_INT, ErrorMessage(delegate, "getCost"))
  }

  /** `getConnection(connectionString)`: the string, null or not, goes to the
      delegate; a failure or a null of the delegate becomes an `SQLException`. */
  function GetConnection<C>(delegate: SupplierSpi<C>, connectionString: Option<string>): (c: Call<C>)
    ensures delegate.connect(connectionString).Returned? ==>
              c == Call(Ok(delegate.connect(connectionString).value), [])
    ensures delegate.connect(connectionString).ReturnedNull? ==>
              c.result == Err(SqlError(ConnectNullMessage(connectionString)))
    ensures delegate.connect(connectionString).Threw? && delegate.connect(connectionString).error.IsRuntime() ==>
              c.result == Err(SqlErrorCausedBy(ConnectErrorMessage(connectionString), delegate.connect(connectionString).error))
    ensures |c.reports| == (if Anomalous(delegate.connect(connectionString)) then 1 else 0)
    ensures c.result.Err? ==> !c.result.error.IsRuntime()
  {
    OrFail(delegate.connect(connectionString), AsSql, ConnectErrorMessage(connectionString), ConnectNullMessage(connectionString))
  }

  /** `wrap(delegate)`: the wrapper seen as a supplier itself. Its `toString()`
      is `Object`'s, whose hash part `identity` stands for. */
  function Wrap<C>(delegate: SupplierSpi<C>, identity: string): (w: SupplierSpi<C>)
    ensures w.className == CLASS_NAME
    ensures !w.name.ReturnedNull?
  {
    SupplierSpi(
      CLASS_NAME,
      CLASS_NAME + "@" + identity,
      AsOutcome(GetName(delegate)),
      IsAvailable(delegate).result,
      GetCost(delegate).result,
      (connectionString: Option<string>) => AsOutcome(GetConnection(delegate, connectionString)))
  }

  /** Wrapping a wrapped supplier gives the same answers and no new report. */
  lemma WrapTwice<C>(delegate: SupplierSpi<C>, identity: string, connectionString: Option<string>)
    ensures GetName(Wrap(delegate, identity)) == Call(GetName(delegate).result, [])
    ensures IsAvailable(Wrap(delegate, identity)) == Call(IsAvailable(delegate).result, [])
    ensures GetCost(Wrap(delegate, identity)) == Call(GetCost(delegate).result, [])
    ensures GetConnection(Wrap(delegate, identity), connectionString) == Call(GetConnection(delegate, connectionString).result, [])
  {
    var w := Wrap(delegate, identity);
    OrFallbackStable(delegate.name, delegate.className, ErrorMessage(delegate, "getName"), NullMessage(delegate, "getName"),
                     w.className, ErrorMessage(w, "getName"), NullMessage(w, "getName"));
    OrDefaultStable(delegate.available, false, ErrorMessage(delegate, "isAvailable"), false, ErrorMessage(w, "isAvailable"));
    OrDefaultStable(delegate.cost, MAX_INT, ErrorMessage(delegate, "getCost"), MAX_INT, ErrorMessage(w, "getCost"));
    OrFailStable(delegate.connect(connectionString), AsSql, ConnectErrorMessage(connectionString), ConnectNullMessage(connectionString),
                 ConnectErrorMessage(connectionString), ConnectNullMessage(connectionString));
  }
}

=== FILE: failsafe_odbc_registry.dfy ===
/** `FailsafeOdbcRegistry`: a registry that never lets an unchecked failure or
    an unexpected null of its delegate escape; messages name the delegate by
    its class name. */
module FailsafeOdbcRegistry {
  import opened Wrappers
  import opened Exceptions
  import opened OdbcDriver
  import opened OdbcDataSource
  import opened Failsafe

  /** The class name of the wrapper itself. */
  const CLASS_NAME: string := "internal.sql.odbc.FailsafeOdbcRegistry"

  function ErrorMessage(delegate: RegistrySpi, operation: string): string {
    "Unexpected error while calling '" + operation + "' on '" + delegate.className + "'"
  }

  function NullMessage(delegate: RegistrySpi, operation: string): string {
    "Unexpected null while calling '" + operation + "' on '" + delegate.className + "'"
  }

  /** `getName()`: the delegate's name, or its class name when it has none. */
  function GetName(delegate: RegistrySpi): (c: Call<string>)
    ensures delegate.name.Returned? ==> c == Call(Ok(delegate.name.value), [])
    ensures delegate.name.ReturnedNull? ==> c == Call(Ok(delegate.className), [UnexpectedNull(NullMessage(delegate, "getName"))])
    ensures Anomalous(delegate.name) ==> c.result == Ok(delegate.className) && |c.reports| == 1
    ensures c.result.Err? ==> !c.result.error.IsRuntime()
  {
    OrFallback(delegate.name, delegate.className, ErrorMessage(delegate, "getName"), NullMessage(delegate, "getName"))
  }

  /** `isAvailable()`: a failing delegate is not available. */
  function IsAvailable(delegate: RegistrySpi): (c: Call<bool>)
    ensures delegate.available.Ok? ==> c == Call(delegate.available, [])
    ensures delegate.available.Err? && delegate.available.error.IsRuntime() ==>
              c == Call(Ok(false), [UnexpectedError(ErrorMessage(delegate, "isAvailable"), delegate.available.error)])
    ensures c.result.Err? ==> !c.result.error.IsRuntime()
  {
    OrDefault(delegate.available, false, ErrorMessage(delegate, "isAvailable"))
  }

  /** `getCost()`: a failing delegate costs the most. */
  function GetCost(delegate: RegistrySpi): (c: Call<int>)
    ensures delegate.cost.Ok? ==> c == Call(delegate.cost, [])
    ensures delegate.cost.Err? && delegate.cost.error.IsRuntime() ==>
              c == Call(Ok(MAX_INT), [UnexpectedError(ErrorMessage(delegate, "getCost"), delegate.cost.error)])
    ensures c.result.Err? ==> !c.result.error.IsRuntime()
  {
    OrDefault(delegate.cost, MAX_INT, ErrorMessage(delegate, "getCost"))
  }

  /** `getDataSources(types)`: a null array is refused before the delegate is
      asked; a failure or a null of the delegate becomes an `IOException`. */
  function GetDataSources(delegate: RegistrySpi, types: Option<seq<DataSourceType>>): (c: Call<seq<DataSource>>)
    ensures types.None? ==> c == Call(Err(RequireNonNullFailure()), [])
    ensures types.Some? && delegate.dataSources(types).Returned? ==> c == Call(Ok(delegate.dataSources(types).value), [])
    ensures types.Some? && delegate.dataSources(types).ReturnedNull? ==>
              c.result == Err(IO(Some(NullMessage(delegate, "getDataSources")), None))
    ensures types.Some? && delegate.dataSources(types).Threw? && delegate.dataSources(types).error.IsRuntime() ==>
              c.result == Err(IO(Some(ErrorMessage(delegate, "getDataSources")), Some(delegate.dataSources(types).error)))
    ensures types.Some? ==> |c.reports| == (if Anomalous(delegate.dataSources(types)) then 1 else 0)
  {
    if types.None? then Call(Err(RequireNonNullFailure()), [])
    else OrFail(delegate.dataSources(types), AsIO, ErrorMessage(delegate, "getDataSources"), NullMessage(delegate, "getDataSources"))
  }

  /** `getDrivers()`: a failure or a null of the delegate becomes an `IOException`. */
  function GetDrivers(delegate: RegistrySpi): (c: Call<seq<Driver>>)
    ensures delegate.drivers.Returned? ==> c == Call(Ok(delegate.drivers.value), [])
    ensures delegate.drivers.ReturnedNull? ==> c.result == Err(IO(Some(NullMessage(delegate, "getDrivers")), None))
    ensures delegate.drivers.Threw? && delegate.drivers.error.IsRuntime() ==>
              c.result == Err(IO(Some(ErrorMessage(delegate, "getDrivers")), Some(delegate.drivers.error)))
    ensures |c.reports| == (if Anomalous(delegate.drivers) then 1 else 0)
    ensures c.result.Err? ==> !c.result.error.IsRuntime()
  {
    OrFail(delegate.drivers, AsIO, ErrorMessage(delegate, "getDrivers"), NullMessage(delegate, "getDrivers"))
  }

  /** `wrap(delegate)`: the wrapper seen as a registry itself. Its `toString()`
      is `Object`'s, whose hash part `identity` stands for. */
  function Wrap(delegate: RegistrySpi, identity: string): (w: RegistrySpi)
    ensures w.className == CLASS_NAME
    ensures !w.name.ReturnedNull? && !w.drivers.ReturnedNull?
  {
    RegistrySpi(
      CLASS_NAME,
      CLASS_NAME + "@" + identity,
      AsOutcome(GetName(delegate)),
      IsAvailable(delegate).result,
      GetCost(delegate).result,
      (types: Option<seq<DataSourceType>>) => AsOutcome(GetDataSources(delegate, types)),
      AsOutcome(GetDrivers(delegate)))
  }

  /** Wrapping a wrapped registry gives the same answers and no new report. */
  lemma WrapTwice(delegate: RegistrySpi, identity: string, types: Option<seq<DataSourceType>>)
    ensures GetName(Wrap(delegate, identity)) == Call(GetName(delegate).result, [])
    ensures IsAvailable(Wrap(delegate, identity)) == Call(IsAvailable(delegate).result, [])
    ensures GetCost(Wrap(delegate, identity)) == Call(GetCost(delegate).result, [])
    ensures GetDataSources(Wrap(delegate, identity), types) == Call(GetDataSources(delegate, types).result, [])
    ensures GetDrivers(Wrap(delegate, identity)) == Call(GetDrivers(delegate).result, [])
  {
    var w := Wrap(delegate, identity);
    OrFallbackStable(delegate.name, delegate.className, ErrorMessage(delegate, "getName"), NullMessage(delegate, "getName"),
                     w.className, ErrorMessage(w, "getName"), NullMessage(w, "getName"));
    OrDefaultStable(delegate.available, false, ErrorMessage(delegate, "isAvailable"), false, ErrorMessage(w, "isAvailable"));
    OrDefaultStable(delegate.cost, MAX_INT, ErrorMessage(delegate, "getCost"), MAX_INT, ErrorMessage(w, "getCost"));
    if types.Some? {
      OrFailStable(delegate.dataSources(types), AsIO, ErrorMessage(delegate, "getDataSources"), NullMessage(delegate, "getDataSources"),
                   ErrorMessage(w, "getDataSources"), NullMessage(w, "getDataSources"));
    }
    OrFailStable(delegate.drivers, AsIO, ErrorMessage(delegate, "getDrivers"), NullMessage(delegate, "getDrivers"),
                 ErrorMessage(w, "getDrivers"), NullMessage(w, "getDrivers"));
  }
}

=== FILE: failsafe_odbc_registry_spi.dfy ===
/** `FailsafeOdbcRegistrySpi`, the Windows registry's failsafe wrapper: the
    same guards as `FailsafeOdbcRegistry`, but messages name the delegate by
    its `toString()` and a null types array is passed on to the delegate. */
module FailsafeOdbcRegistrySpi {
  import opened Wrappers
  import opened Exceptions
  import opened OdbcDriver
  import opened OdbcDataSource
  import opened Failsafe

  /** The class name of the wrapper itself. */
  const CLASS_NAME: string := "internal.sql.odbc.win.FailsafeOdbcRegistrySpi"

  function ErrorMessage(delegate: RegistrySpi, operation: string): string {
    "Unexpected error while calling '" + operation + "' on '" + delegate.text + "'"
  }

  function NullMessage(delegate: RegistrySpi, operation: string): string {
    "Unexpected null while calling '" + operation + "' on '" + delegate.text + "'"
  }

  /** `getName()`: the delegate's name, or its class name when it has none. */
  function GetName(delegate: RegistrySpi): (c: Call<string>)
    ensures delegate.name.Returned? ==> c == Call(Ok(delegate.name.value), [])
    ensures delegate.name.ReturnedNull? ==> c == Call(Ok(delegate.className), [UnexpectedNull(NullMessage(delegate, "getName"))])
    ensures Anomalous(delegate.name) ==> c.result == Ok(delegate.className) && |c.reports| == 1
    ensures c.result.Err? ==> !c.result.error.IsRuntime()
  {
    OrFallback(delegate.name, delegate.className, ErrorMessage(delegate, "getName"), NullMessage(delegate, "getName"))
  }

  /** `isAvailable()`: a failing delegate is not available. */
  function IsAvailable(delegate: RegistrySpi): (c: Call<bool>)
    ensures delegate.available.Ok? ==> c == Call(delegate.available, [])
    ensures delegate.available.Err? && delegate.available.error.IsRuntime() ==>
              c == Call(Ok(false), [UnexpectedError(ErrorMessage(delegate, "isAvailable"), delegate.available.error)])
    ensures c.result.Err? ==> !c.result.error.IsRuntime()
  {
    OrDefault(delegate.available, false, ErrorMessage(delegate, "isAvailable"))
  }

  /** `getCost()`: a failing delegate costs the most. */
  function GetCost(delegate: RegistrySpi): (c: Call<int>)
    ensures delegate.cost.Ok? ==> c == Call(delegate.cost, [])
    ensures delegate.cost.Err? && delegate.cost.error.IsRuntime() ==>
              c == Call(Ok(MAX_INT), [UnexpectedError(ErrorMessage(delegate, "getCost"), delegate.cost.error)])
    ensures c.result.Err? ==> !c.result.error.IsRuntime()
  {
    OrDefault(delegate.cost, MAX_INT, ErrorMessage(delegate, "getCost"))
  }

  /** `getDataSources(types)`: the array, null or not, goes to the delegate; a
      failure or a null of the delegate becomes an `IOException`. */
  function GetDataSources(delegate: RegistrySpi, types: Option<seq<DataSourceType>>): (c: Call<seq<DataSource>>)
    ensures delegate.dataSources(types).Returned? ==> c == Call(Ok(delegate.dataSources(types).value), [])
    ensures delegate.dataSources(types).ReturnedNull? ==>
              c.result == Err(IO(Some(NullMessage(delegate, "getDataSources")), None))
    ensures delegate.dataSources(types).Threw? && delegate.dataSources(types).error.IsRuntime() ==>
              c.result == Err(IO(Some(ErrorMessage(delegate, "getDataSources")), Some(delegate.dataSources(types).error)))
    ensures |c.reports| == (if Anomalous(delegate.dataSources(types)) then 1 else 0)
    ensures c.result.Err? ==> !c.result.error.IsRuntime()
  {
    OrFail(delegate.dataSources(types), AsIO, ErrorMessage(delegate, "getDataSources"), NullMessage(delegate, "getDataSources"))
  }

  /** `getDrivers()`: a failure or a null of the delegate becomes an `IOException`. */
  function GetDrivers(delegate: RegistrySpi): (c: Call<seq<Driver>>)
    ensures delegate.drivers.Returned? ==> c == Call(Ok(delegate.drivers.value), [])
    ensures delegate.drivers.ReturnedNull? ==> c.result == Err(IO(Some(NullMessage(delegate, "getDrivers")), None))
    ensures delegate.drivers.Threw? && delegate.drivers.error.IsRuntime() ==>
              c.result == Err(IO(Some(ErrorMessage(delegate, "getDrivers")), Some(delegate.drivers.error)))
    ensures |c.reports| == (if Anomalous(delegate.drivers) then 1 else 0)
    ensures c.result.Err? ==> !c.result.error.IsRuntime()
  {
    OrFail(delegate.drivers, AsIO, ErrorMessage(delegate, "getDrivers"), NullMessage(delegate, "getDrivers"))
  }

  /** `wrap(delegate)`: the wrapper seen as a registry itself. Its `toString()`
      is `Object`'s, whose hash part `identity` stands for. */
  function Wrap(delegate: RegistrySpi, identity: string): (w: RegistrySpi)
    ensures w.className == CLASS_NAME
    ensures !w.name.ReturnedNull? && !w.drivers.ReturnedNull?
  {
    RegistrySpi(
      CLASS_NAME,
      CLASS_NAME + "@" + identity,
      AsOutcome(GetName(delegate)),
      IsAvailable(delegate).result,
      GetCost(delegate).result,
      (types: Option<seq<DataSourceType>>) => AsOutcome(GetDataSources(delegate, types)),
      AsOutcome(GetDrivers(delegate)))
  }

  /** Wrapping a wrapped registry gives the same answers and no new report. */
  lemma WrapTwice(delegate: RegistrySpi, identity: string, types: Option<seq<DataSourceType>>)
    ensures GetName(Wrap(delegate, identity)) == Call(GetName(delegate).result, [])
    ensures IsAvailable(Wrap(delegate, identity)) == Call(IsAvailable(delegate).result, [])
    ensures GetCost(Wrap(delegate, identity)) == Call(GetCost(delegate).result, [])
    ensures GetDataSources(Wrap(delegate, identity), types) == Call(GetDataSources(delegate, types).result, [])
    ensures GetDrivers(Wrap(delegate, identity)) == Call(GetDrivers(delegate).result, [])
  {
    var w := Wrap(delegate, identity);
    OrFallbackStable(delegate.name, delegate.className, ErrorMessage(delegate, "getName"), NullMessage(delegate, "getName"),
                     w.className, ErrorMessage(w, "getName"), NullMessage(w, "getName"));
    OrDefaultStable(delegate.available, false, ErrorMessage(delegate, "isAvailable"), false, ErrorMessage(w, "isAvailable"));
    OrDefaultStable(delegate.cost, MAX_INT, ErrorMessage(delegate, "getCost"), MAX_INT, ErrorMessage(w, "getCost"));
    OrFailStable(delegate.dataSources(types), AsIO, ErrorMessage(delegate, "getDataSources"), NullMessage(delegate, "getDataSources"),
                 ErrorMessage(w, "getDataSources"), NullMessage(w, "getDataSources"));
    OrFailStable(delegate.drivers, AsIO, ErrorMessage(delegate, "getDrivers"), NullMessage(delegate, "getDrivers"),
                 ErrorMessage(w, "getDrivers"), NullMessage(w, "getDrivers"));
  }
}

=== FILE: java_lang.dfy ===
/** The parts of `java.lang.String` and `java.lang.Integer` the modelled code
    relies on. Case mapping is ASCII-only: `toUpperCase(Locale.ROOT)` and
    `toLowerCase(Locale.ROOT)` change only `a`..`z` / `A`..`Z` here. */
module JavaLang {
  import opened Wrappers

  const INT_MIN: int := -0x8000_0000
  const INT_MAX: int := 0x7FFF_FFFF

  /** A value of Java's 32-bit `int`. */
  predicate IsInt32(n: int) {
    INT_MIN <= n <= INT_MAX
  }

  // ---------------------------------------------------------------------------
  // Case mapping

  predicate IsLowerLetter(c: char) {
    'a' <= c <= 'z'
  }

  predicate IsUpperLetter(c: char) {
    'A' <= c <= 'Z'
  }

  function UpperChar(c: char): (r: char)
    ensures IsLowerLetter(c) ==> IsUpperLetter(r)
    ensures !IsLowerLetter(c) ==> r == c
  {
    if IsLowerLetter(c) then (c as int - 32) as char else c
  }

  function LowerChar(c: char): (r: char)
    ensures IsUpperLetter(c) ==> IsLowerLetter(r)
    ensures !IsUpperLetter(c) ==> r == c
  {
    if IsUpperLetter(c) then (c as int + 32) as char else c
  }

  /** `s.toUpperCase(Locale.ROOT)`. */
  function ToUpper(s: string): (r: string)
    ensures |r| == |s|
    ensures forall i :: 0 <= i < |s| ==> r[i] == UpperChar(s[i])
  {
    seq(|s|, i requires 0 <= i < |s| => UpperChar(s[i]))
  }

  /** `s.toLowerCase(Locale.ROOT)`. */
  function ToLower(s: string): (r: string)
    ensures |r| == |s|
    ensures forall i :: 0 <= i < |s| ==> r[i] == LowerChar(s[i])
  {
    seq(|s|, i requires 0 <= i < |s| => LowerChar(s[i]))
  }

  /** Upper-casing a string leaves it unchanged exactly when it has no lower-case letter. */
  lemma ToUpperFixedIff(s: string)
    ensures ToUpper(s) == s <==> forall i :: 0 <= i < |s| ==> !IsLowerLetter(s[i])
  {
    if ToUpper(s) == s {
      forall i | 0 <= i < |s| ensures !IsLowerLetter(s[i]) {
        assert ToUpper(s)[i] == s[i];
      }
    }
  }

  /** Lower-casing a string leaves it unchanged exactly when it has no upper-case letter. */
  lemma ToLowerFixedIff(s: string)
    ensures ToLower(s) == s <==> forall i :: 0 <= i < |s| ==> !IsUpperLetter(s[i])
  {
    if ToLower(s) == s {
      forall i | 0 <= i < |s| ensures !IsUpperLetter(s[i]) {
        assert ToLower(s)[i] == s[i];
      }
    }
  }

  lemma ToUpperIdempotent(s: string)
    ensures ToUpper(ToUpper(s)) == ToUpper(s)
  {
  }

  /** `a.equalsIgnoreCase(b)`. */
  predicate EqualsIgnoreCase(a: string, b: string) {
    ToUpper(a) == ToUpper(b)
  }

  // ---------------------------------------------------------------------------
  // Prefixes, suffixes, search

  predicate StartsWith(s: string, prefix: string) {
    |prefix| <= |s| && s[..|prefix|] == prefix
  }

  predicate EndsWith(s: string, suffix: string) {
    |suffix| <= |s| && s[|s| - |suffix|..] == suffix
  }

  /** `sub` occurs in `s` at position `k`. */
  predicate OccursAt(s: string, sub: string, k: int) {
    0 <= k && k + |sub| <= |s| && s[k..k + |sub|] == sub
  }

  /** `s.indexOf(sub, from)`: the first occurrence at or after `from`, or -1. */
  function IndexOf(s: string, sub: string, from: nat): (r: int)
    requires from <= |s|
    ensures r == -1 || (from <= r && OccursAt(s, sub, r))
    ensures r == -1 ==> forall k :: from <= k <= |s| ==> !OccursAt(s, sub, k)
    ensures r != -1 ==> forall k :: from <= k < r ==> !OccursAt(s, sub, k)
    decreases |s| - from
  {
    if from + |sub| > |s| then -1
    else if s[from..from + |sub|] == sub then from
    else if from == |s| then -1
    else IndexOf(s, sub, from + 1)
  }

  /** `s.contains(sub)`. */
  predicate Contains(s: string, sub: string) {
    IndexOf(s, sub, 0) != -1
  }

  lemma ContainsIff(s: string, sub: string)
    ensures Contains(s, sub) <==> exists k :: OccursAt(s, sub, k)
  {
  }

  lemma ContainsCharIff(s: string, c: char)
    ensures Contains(s, [c]) <==> c in s
  {
    ContainsIff(s, [c]);
    if c in s {
      var k :| 0 <= k < |s| && s[k] == c;
      assert OccursAt(s, [c], k);
    }
    if Contains(s, [c]) {
      var k :| OccursAt(s, [c], k);
      assert s[k] == c;
    }
  }

  /** `s.lastIndexOf(c)`. */
  function LastIndexOfChar(s: string, c: char): (r: int)
    ensures -1 <= r < |s|
    ensures r >= 0 ==> s[r] == c
    ensures forall k :: r < k < |s| ==> s[k] != c
  {
    if |s| == 0 then -1
    else if s[|s| - 1] == c then |s| - 1
    else LastIndexOfChar(s[..|s| - 1], c)
  }

  /** `s.replace(target, replacement)`: left-to-right, non-overlapping. */
  function Replace(s: string, target: string, replacement: string): (r: string)
    requires |target| > 0
    decreases |s|
  {
    if |s| < |target| then s
    else if s[..|target|] == target then replacement + Replace(s[|target|..], target, replacement)
    else [s[0]] + Replace(s[1..], target, replacement)
  }

  lemma {:induction false} ReplaceNotShorter(s: string, target: string, replacement: string)
    requires |target| > 0 && |replacement| >= |target|
    ensures |Replace(s, target, replacement)| >= |s|
    decreases |s|
  {
    if |s| < |target| {
    } else if s[..|target|] == target {
      ReplaceNotShorter(s[|target|..], target, replacement);
    } else {
      ReplaceNotShorter(s[1..], target, replacement);
    }
  }

  // ---------------------------------------------------------------------------
  // Trimming

  /** Characters `String.trim()` removes. */
  predicate IsTrimmable(c: char) {
    c <= ' '
  }

  function TrimStart(s: string): (r: string)
    ensures |r| <= |s| && r == s[|s| - |r|..]
    ensures |r| > 0 ==> !IsTrimmable(r[0])
    ensures forall i :: 0 <= i < |s| - |r| ==> IsTrimmable(s[i])
  {
    if |s| > 0 && IsTrimmable(s[0]) then TrimStart(s[1..]) else s
  }

  function TrimEnd(s: string): (r: string)
    ensures |r| <= |s| && r == s[..|r|]
    ensures |r| > 0 ==> !IsTrimmable(r[|r| - 1])
    ensures forall i :: |r| <= i < |s| ==> IsTrimmable(s[i])
  {
    if |s| > 0 && IsTrimmable(s[|s| - 1]) then TrimEnd(s[..|s| - 1]) else s
  }

  predicate AllTrimmable(s: string) {
    forall i :: 0 <= i < |s| ==> IsTrimmable(s[i])
  }

  /** `s.trim()`: the middle part of `s` left once every leading and trailing
      character up to U+0020 is removed. */
  function Trim(s: string): (r: string)
    ensures |r| <= |s|
    ensures |r| > 0 ==> !IsTrimmable(r[0]) && !IsTrimmable(r[|r| - 1])
    ensures exists i :: 0 <= i && i + |r| <= |s| && r == s[i..i + |r|]
                        && AllTrimmable(s[..i]) && AllTrimmable(s[i + |r|..])
  {
    var u := TrimStart(s);
    var t := TrimEnd(u);
    assert |t| > 0 ==> t[0] == u[0];
    TrimSlice(s, u, t);
    TrimmedSides(s, u, t);
    t
  }

  /** The trimmed text is the slice of the input where `TrimStart` left off. */
  lemma TrimSlice(s: string, u: string, t: string)
    requires |u| <= |s| && u == s[|s| - |u|..]
    requires |t| <= |u| && t == u[..|t|]
    ensures 0 <= |s| - |u| && |s| - |u| + |t| <= |s|
    ensures t == s[|s| - |u|..|s| - |u| + |t|]
  {
    var i := |s| - |u|;
    forall k | 0 <= k < |t| ensures t[k] == s[i + k] {
      assert t[k] == u[k];
    }
  }

  /** What trimming cut off on either side was all trimmable. */
  lemma TrimmedSides(s: string, u: string, t: string)
    requires |u| <= |s| && u == s[|s| - |u|..]
    requires forall i :: 0 <= i < |s| - |u| ==> IsTrimmable(s[i])
    requires |t| <= |u| && forall i :: |t| <= i < |u| ==> IsTrimmable(u[i])
    ensures 0 <= |s| - |u| && |s| - |u| + |t| <= |s|
    ensures AllTrimmable(s[..|s| - |u|]) && AllTrimmable(s[|s| - |u| + |t|..])
  {
    var i := |s| - |u|;
    var head := s[..i];
    forall k | 0 <= k < |head| ensures IsTrimmable(head[k]) {
      assert head[k] == s[k];
    }
    var tail := s[i + |t|..];
    forall k | 0 <= k < |tail| ensures IsTrimmable(tail[k]) {
      assert tail[k] == u[|t| + k];
    }
  }

  /** A trimmed string is empty exactly when every character is trimmable. */
  lemma TrimEmptyIff(s: string)
    ensures Trim(s) == [] <==> AllTrimmable(s)
  {
  }

  /** A trimmed string neither starts nor ends with a trimmable character. */
  lemma TrimEnds(s: string)
    ensures var t := Trim(s); |t| > 0 ==> !IsTrimmable(t[0]) && !IsTrimmable(t[|t| - 1])
  {
    var u := TrimStart(s);
    var t := TrimEnd(u);
    if |t| > 0 {
      assert t[0] == u[0];
    }
  }

  // ---------------------------------------------------------------------------
  // Decimal integers

  predicate IsDigit(c: char) {
    '0' <= c <= '9'
  }

  function DigitValue(c: char): nat
    requires IsDigit(c)
  {
    c as int - '0' as int
  }

  function DigitChar(d: nat): (c: char)
    requires d < 10
    ensures IsDigit(c) && DigitValue(c) == d
  {
    ('0' as int + d) as char
  }

  predicate AllDigits(s: string) {
    forall i :: 0 <= i < |s| ==> IsDigit(s[i])
  }

  /** The value of a string of decimal digits, most significant first. */
  function DigitsValue(s: string): nat
    requires AllDigits(s)
  {
    if |s| == 0 then 0 else DigitsValue(s[..|s| - 1]) * 10 + DigitValue(s[|s| - 1])
  }

  /** The shortest decimal digits of `n`. */
  function NatToDigits(n: nat): (r: string)
    ensures |r| > 0 && AllDigits(r)
  {
    if n < 10 then [DigitChar(n)] else NatToDigits(n / 10) + [DigitChar(n % 10)]
  }

  lemma {:induction false} NatToDigitsValue(n: nat)
    ensures DigitsValue(NatToDigits(n)) == n
  {
    if n >= 10 {
      NatToDigitsValue(n / 10);
      var d := NatToDigits(n);
      assert d[..|d| - 1] == NatToDigits(n / 10);
    }
  }

  /** `Integer.toString(n)`. */
  function IntToString(n: int): (r: string)
    ensures |r| > 0
  {
    if n < 0 then "-" + NatToDigits(-n) else NatToDigits(n)
  }

  /** `Integer.parseInt(s)` for ASCII digits: an optional sign, at least one digit,
      and a value inside the 32-bit range; `None` stands for `NumberFormatException`. */
  function ParseInt(s: string): (r: Option<int>)
    ensures r.Some? ==> IsInt32(r.value)
    ensures s == [] ==> r.None?
    ensures forall i :: 0 < i < |s| && !IsDigit(s[i]) ==> r.None?
    ensures |s| > 0 && !IsDigit(s[0]) && s[0] != '-' && s[0] != '+' ==> r.None?
  {
    if |s| == 0 then None
    else
      var negative := s[0] == '-';
      var digits := if s[0] == '-' || s[0] == '+' then s[1..] else s;
      if |digits| == 0 || !AllDigits(digits) then None
      else
        var v: int := if negative then 0 - (DigitsValue(digits) as int) else DigitsValue(digits) as int;
        if IsInt32(v) then Some(v) else None
  }

  /** Printing a Java `int` and parsing it back gives the same value. */
  lemma ParseIntToString(n: int)
    requires IsInt32(n)
    ensures ParseInt(IntToString(n)) == Some(n)
  {
    if n < 0 {
      NatToDigitsValue(-n);
      assert IntToString(n)[1..] == NatToDigits(-n);
    } else {
      NatToDigitsValue(n);
    }
  }

  // ---------------------------------------------------------------------------
  // Natural string order (`String.compareTo`) and sorting

  /** `a.compareTo(b) < 0`: lexicographic on UTF-16 code units. */
  predicate LexLess(a: string, b: string)
    decreases |a|
  {
    if |a| == 0 then |b| > 0
    else if |b| == 0 then false
    else if a[0] != b[0] then a[0] < b[0]
    else LexLess(a[1..], b[1..])
  }

  predicate LexLeq(a: string, b: string) {
    a == b || LexLess(a, b)
  }

  lemma {:induction false} LexLessIrreflexive(a: string)
    ensures !LexLess(a, a)
    decreases |a|
  {
    if |a| > 0 {
      LexLessIrreflexive(a[1..]);
    }
  }

  lemma {:induction false} LexLessTransitive(a: string, b: string, c: string)
    requires LexLess(a, b) && LexLess(b, c)
    ensures LexLess(a, c)
    decreases |a|
  {
    if |a| > 0 && a[0] == b[0] && b[0] == c[0] {
      LexLessTransitive(a[1..], b[1..], c[1..]);
    }
  }

  lemma {:induction false} LexLessTotal(a: string, b: string)
    ensures a == b || LexLess(a, b) || LexLess(b, a)
    decreases |a|
  {
    if |a| > 0 && |b| > 0 && a[0] == b[0] {
      LexLessTotal(a[1..], b[1..]);
      if a[1..] == b[1..] {
        assert a == [a[0]] + a[1..] && b == [b[0]] + b[1..];
      }
    }
  }

  lemma LexLeqTransitive(a: string, b: string, c: string)
    requires LexLeq(a, b) && LexLeq(b, c)
    ensures LexLeq(a, c)
  {
    if a != b && b != c {
      LexLessTransitive(a, b, c);
    }
  }

  predicate SortedStrings(s: seq<string>) {
    forall i, j :: 0 <= i < j < |s| ==> LexLeq(s[i], s[j])
  }

  /** Insert `x` into a sorted sequence before the first element greater than it. */
  function Insert(x: string, s: seq<string>): (r: seq<string>)
    requires SortedStrings(s)
    ensures SortedStrings(r)
    ensures multiset(r) == multiset(s) + multiset{x}
    ensures |r| == |s| + 1
  {
    if |s| == 0 then [x]
    else if LexLeq(x, s[0]) then
      InsertFirst(x, s);
      [x] + s
    else
      var rest := Insert(x, s[1..]);
      LexLessTotal(x, s[0]);
      assert s == [s[0]] + s[1..];
      InsertLater(x, s, rest);
      [s[0]] + rest
  }

  lemma InsertFirst(x: string, s: seq<string>)
    requires SortedStrings(s) && |s| > 0 && LexLeq(x, s[0])
    ensures SortedStrings([x] + s)
  {
    forall j | 0 < j < |s| ensures LexLeq(x, s[j]) {
      LexLeqTransitive(x, s[0], s[j]);
    }
  }

  lemma InsertLater(x: string, s: seq<string>, rest: seq<string>)
    requires SortedStrings(s) && |s| > 0 && LexLeq(s[0], x)
    requires SortedStrings(rest) && multiset(rest) == multiset(s[1..]) + multiset{x}
    ensures SortedStrings([s[0]] + rest)
  {
    forall j | 0 <= j < |rest| ensures LexLeq(s[0], rest[j]) {
      assert rest[j] in multiset(rest);
      if rest[j] != x {
        assert rest[j] in multiset(s[1..]);
        var k :| 0 <= k < |s[1..]| && s[1..][k] == rest[j];
        assert s[k + 1] == rest[j];
      }
    }
  }

  /** `stream.sorted()` on strings: an ascending permutation of the input. */
  function Sort(s: seq<string>): (r: seq<string>)
    ensures SortedStrings(r)
    ensures multiset(r) == multiset(s)
    ensures |r| == |s|
  {
    if |s| == 0 then []
    else
      assert s == [s[0]] + s[1..];
      Insert(s[0], Sort(s[1..]))
  }
}

=== FILE: jdbc_util.dfy ===
/** Small helpers shared by the JDBC utilities: splitting a string on a
    separator character and replacing an unexpected null by a blank. */
module JdbcUtil {
  import opened Wrappers
  import opened Exceptions

  /** Number of occurrences of `c` in `s`. */
  function CountChar(s: string, c: char): nat {
    if |s| == 0 then 0 else CountChar(s[1..], c) + (if s[0] == c then 1 else 0)
  }

  /** Index of the first `sep` in `s`, or `|s|` if there is none. */
  function FirstSep(s: string, sep: char): (r: nat)
    ensures r <= |s|
    ensures r < |s| ==> s[r] == sep
    ensures forall i :: 0 <= i < r ==> s[i] != sep
  {
    if |s| == 0 || s[0] == sep then 0 else 1 + FirstSep(s[1..], sep)
  }

  /** Literal splitting, which is what `input.split(String.valueOf(separator), -1)`
      does for a separator outside `Metacharacters`: every piece between two
      separators, empty pieces and a trailing empty piece included. */
  function Split(sep: char, s: string): (r: seq<string>)
    ensures |r| > 0
    ensures forall k :: 0 <= k < |r| ==> sep !in r[k]
    decreases |s|
  {
    var i := FirstSep(s, sep);
    if i == |s| then [s] else [s[..i]] + Split(sep, s[i + 1..])
  }

  /** `String.join(separator, pieces)`. */
  function Join(sep: char, pieces: seq<string>): string
    requires |pieces| > 0
  {
    if |pieces| == 1 then pieces[0] else pieces[0] + [sep] + Join(sep, pieces[1..])
  }

  /** The one-character separators that `String.split` hands to the
      regular-expression engine; every other character is split on literally. */
  const Metacharacters: string := ".$|()[{^?*+\\"

  /** The one-character patterns `Pattern.compile` rejects: a dangling
      quantifier, an unclosed group or class, an unmatched `)`, a lone `{`
      and a trailing backslash. */
  const RejectedPatterns: string := "?*+()[{\\"

  predicate LiteralSeparator(sep: char) {
    sep !in Metacharacters
  }

  /** Java's line terminators: `.` matches none of them, and `$` also matches
      just before one that ends the input. */
  predicate IsLineTerminator(c: char) {
    c == '\n' || c == '\r' || c == '\U{85}' || c == '\U{2028}' || c == '\U{2029}'
  }

  /** One match of a pattern: the characters `start..end` of the input. */
  datatype Match = Match(start: nat, end: nat)

  /** The matches `ms` lie in `s` at or after `index`, in order and without overlap. */
  predicate Ordered(s: string, index: nat, ms: seq<Match>)
    decreases |ms|
  {
    index <= |s|
    && (|ms| > 0 ==> index <= ms[0].start <= ms[0].end <= |s| && Ordered(s, ms[0].end, ms[1..]))
  }

  /** The loop of `Pattern.split(input, limit)` for a negative limit, from
      `index` on, over the remaining matches `ms`, with `pieces` the pieces cut
      so far. An empty match at the very start cuts nothing, and an input in
      which nothing was cut comes back whole. */
  function SplitAtMatches(s: string, ms: seq<Match>, index: nat, pieces: seq<string>): (r: seq<string>)
    requires Ordered(s, index, ms)
    ensures |r| > 0
    decreases |ms|
  {
    if |ms| == 0 then
      if index == 0 then [s] else pieces + [s[index..]]
    else if index == 0 && ms[0].start == 0 && ms[0].end == 0 then
      SplitAtMatches(s, ms[1..], index, pieces)
    else
      SplitAtMatches(s, ms[1..], ms[0].end, pieces + [s[index..ms[0].start]])
  }

  /** The matches of the pattern `.` found from `i` on: each character that is
      not a line terminator (a Dafny character is a whole code point, as `.`
      matches one). */
  function DotMatches(s: string, i: nat): (ms: seq<Match>)
    requires i <= |s|
    ensures Ordered(s, i, ms)
    ensures forall k :: 0 <= k < |ms| ==> i <= ms[k].start < |s| && ms[k].end == ms[k].start + 1
    ensures forall k :: 0 <= k < |ms| ==> !IsLineTerminator(s[ms[k].start])
    decreases |s| - i
  {
    if i == |s| then []
    else if IsLineTerminator(s[i]) then DotMatches(s, i + 1)
    else [Match(i, i + 1)] + DotMatches(s, i + 1)
  }

  /** The zero-width patterns among the one-character separators: `|` (an
      empty alternative, matching everywhere), `^` and `$`. */
  datatype Anchor = Anywhere | Begin | End

  /** Whether the zero-width pattern matches at position `p` of `s`. Without
      MULTILINE, `$` matches at the end of the input and before a line
      terminator or `\r\n` that ends it, but never between `\r` and `\n`. */
  predicate AnchorAt(a: Anchor, s: string, p: nat) {
    match a
    case Anywhere => p <= |s|
    case Begin => p == 0
    case End =>
      p == |s|
      || (p + 1 == |s| && IsLineTerminator(s[p]) && !(s[p] == '\n' && p > 0 && s[p - 1] == '\r'))
      || (p + 2 == |s| && s[p] == '\r' && s[p + 1] == '\n')
  }

  /** The empty matches of `a` found from `i` on: after an empty match the
      search resumes one position further. */
  function EmptyMatches(s: string, i: nat, a: Anchor): (ms: seq<Match>)
    requires i <= |s|
    ensures Ordered(s, i, ms)
    ensures forall k :: 0 <= k < |ms| ==> ms[k].end == ms[k].start && AnchorAt(a, s, ms[k].start)
    decreases |s| - i
  {
    var rest := if i == |s| then [] else EmptyMatches(s, i + 1, a);
    OrderedFrom(s, i, if i == |s| then i else i + 1, rest);
    if AnchorAt(a, s, i) then
      var ms := [Match(i, i)] + rest;
      assert ms[1..] == rest;
      ms
    else
      rest
  }

  /** Matches that lie after `j` also lie after any `i <= j`. */
  lemma OrderedFrom(s: string, i: nat, j: nat, ms: seq<Match>)
    requires i <= j && Ordered(s, j, ms)
    ensures Ordered(s, i, ms)
  {
  }

  /** `splitToStream(separator, input)`, that is
      `input.split(String.valueOf(separator), -1)` with trailing empty pieces
      kept. A separator outside `Metacharacters` is split on literally; the
      others are compiled as a regular expression, which either fails or
      splits at its matches. */
  function SplitToStream(sep: char, s: string): (r: Result<seq<string>, Exception>)
    ensures r.Err? <==> sep in RejectedPatterns
    ensures r.Err? ==> r.error == PatternSyntax([sep])
    ensures r.Ok? ==> |r.value| > 0
    ensures LiteralSeparator(sep) ==> r == Ok(Split(sep, s))
  {
    if sep in RejectedPatterns then Err(PatternSyntax([sep]))
    else if sep == '.' then Ok(SplitAtMatches(s, DotMatches(s, 0), 0, []))
    else if sep == '|' then Ok(SplitAtMatches(s, EmptyMatches(s, 0, Anywhere), 0, []))
    else if sep == '^' then Ok(SplitAtMatches(s, EmptyMatches(s, 0, Begin), 0, []))
    else if sep == '$' then Ok(SplitAtMatches(s, EmptyMatches(s, 0, End), 0, []))
    else Ok(Split(sep, s))
  }

  lemma {:induction false} CountCharAppend(a: string, b: string, c: char)
    ensures CountChar(a + b, c) == CountChar(a, c) + CountChar(b, c)
    decreases |a|
  {
    if |a| > 0 {
      assert (a + b)[1..] == a[1..] + b;
      CountCharAppend(a[1..], b, c);
    } else {
      assert a + b == b;
    }
  }

  lemma {:induction false} CountCharAbsent(s: string, c: char)
    requires c !in s
    ensures CountChar(s, c) == 0
    decreases |s|
  {
    if |s| > 0 {
      CountCharAbsent(s[1..], c);
    }
  }

  /** Joining the pieces back with the separator gives the input: nothing is lost. */
  lemma {:induction false} JoinSplit(sep: char, s: string)
    ensures Join(sep, Split(sep, s)) == s
    ensures LiteralSeparator(sep) ==> SplitToStream(sep, s).Ok? && Join(sep, SplitToStream(sep, s).value) == s
    decreases |s|
  {
    var i := FirstSep(s, sep);
    if i < |s| {
      var rest := s[i + 1..];
      JoinSplit(sep, rest);
      JoinCons(sep, s[..i], Split(sep, rest));
      assert s == s[..i] + [sep] + rest;
    }
  }

  lemma JoinCons(sep: char, piece: string, pieces: seq<string>)
    requires |pieces| > 0
    ensures Join(sep, [piece] + pieces) == piece + [sep] + Join(sep, pieces)
  {
    assert ([piece] + pieces)[1..] == pieces;
  }

  /** There is one more piece than there are separators. */
  lemma {:induction false} SplitCount(sep: char, s: string)
    ensures |Split(sep, s)| == CountChar(s, sep) + 1
    ensures LiteralSeparator(sep) ==> SplitToStream(sep, s).Ok? && |SplitToStream(sep, s).value| == CountChar(s, sep) + 1
    decreases |s|
  {
    var i := FirstSep(s, sep);
    if i == |s| {
      assert sep !in s;
      CountCharAbsent(s, sep);
    } else {
      SplitCount(sep, s[i + 1..]);
      assert s == s[..i] + [sep] + s[i + 1..];
      CountCharAppend(s[..i] + [sep], s[i + 1..], sep);
      CountCharAppend(s[..i], [sep], sep);
      assert sep !in s[..i];
      CountCharAbsent(s[..i], sep);
    }
  }

  /** Splitting the join of separator-free pieces gives the pieces back. */
  lemma {:induction false} SplitJoin(sep: char, pieces: seq<string>)
    requires |pieces| > 0
    requires forall k :: 0 <= k < |pieces| ==> sep !in pieces[k]
    ensures Split(sep, Join(sep, pieces)) == pieces
    ensures LiteralSeparator(sep) ==> SplitToStream(sep, Join(sep, pieces)) == Ok(pieces)
    decreases |pieces|
  {
    var s := Join(sep, pieces);
    if |pieces| == 1 {
      assert FirstSep(s, sep) == |s|;
    } else {
      var head := pieces[0];
      var tail := Join(sep, pieces[1..]);
      assert s == head + [sep] + tail;
      FirstSepAfter(head, tail, sep);
      assert s[..|head|] == head;
      assert s[|head| + 1..] == tail;
      SplitJoin(sep, pieces[1..]);
    }
  }

  lemma {:induction false} FirstSepAfter(head: string, tail: string, sep: char)
    requires sep !in head
    ensures FirstSep(head + [sep] + tail, sep) == |head|
    decreases |head|
  {
    if |head| > 0 {
      assert (head + [sep] + tail)[1..] == head[1..] + [sep] + tail;
      FirstSepAfter(head[1..], tail, sep);
    }
  }

  /** The empty input gives a single empty piece, whatever the separator,
      unless the separator is not a valid pattern. */
  lemma SplitEmpty(sep: char)
    ensures Split(sep, "") == [""]
    ensures SplitToStream(sep, "") == if sep in RejectedPatterns then Err(PatternSyntax([sep])) else Ok([""])
  {
    assert DotMatches("", 0) == [];
    assert EmptyMatches("", 0, Anywhere) == [Match(0, 0)];
    assert EmptyMatches("", 0, Begin) == [Match(0, 0)];
    assert EmptyMatches("", 0, End) == [Match(0, 0)];
  }

  /** Each character of `s` as a one-character string. */
  function Singletons(s: string): (r: seq<string>)
    ensures |r| == |s|
    ensures forall k :: 0 <= k < |s| ==> r[k] == [s[k]]
  {
    seq(|s|, k requires 0 <= k < |s| => [s[k]])
  }

  /** `n` empty strings. */
  function Blanks(n: nat): (r: seq<string>)
    ensures |r| == n
    ensures forall k :: 0 <= k < n ==> r[k] == ""
  {
    seq(n, _ => "")
  }

  /** `|` is an empty alternative that matches at every position, so every
      character becomes a piece of its own, followed by an empty piece. */
  lemma BarSplitsEveryChar(s: string)
    ensures SplitToStream('|', s) == Ok(if s == [] then [""] else Singletons(s) + [""])
  {
    var ms := EmptyMatches(s, 0, Anywhere);
    assert '|' !in RejectedPatterns;
    assert SplitToStream('|', s) == Ok(SplitAtMatches(s, ms, 0, []));
    if s != [] {
      assert ms == [Match(0, 0)] + EmptyMatches(s, 1, Anywhere);
      assert ms[1..] == EmptyMatches(s, 1, Anywhere);
      assert SplitAtMatches(s, ms, 0, []) == SplitAtMatches(s, ms[1..], 0, []);
      BarFrom(s, 1, []);
      assert s[0..] == s;
      assert [] + Singletons(s) + [""] == Singletons(s) + [""];
    } else {
      assert ms == [Match(0, 0)];
      assert SplitAtMatches(s, ms, 0, []) == SplitAtMatches(s, [], 0, []);
    }
  }

  lemma {:induction false} BarFrom(s: string, i: nat, pieces: seq<string>)
    requires 1 <= i <= |s|
    ensures SplitAtMatches(s, EmptyMatches(s, i, Anywhere), i - 1, pieces) == pieces + Singletons(s[i - 1..]) + [""]
    decreases |s| - i
  {
    var ms := EmptyMatches(s, i, Anywhere);
    var rest := if i == |s| then [] else EmptyMatches(s, i + 1, Anywhere);
    assert ms == [Match(i, i)] + rest;
    assert ms[1..] == rest;
    var next := pieces + [s[i - 1..i]];
    assert SplitAtMatches(s, ms, i - 1, pieces) == SplitAtMatches(s, rest, i, next);
    assert s[i - 1..i] == [s[i - 1]];
    if i == |s| {
      assert SplitAtMatches(s, rest, i, next) == next + [s[i..]];
      assert s[i..] == "";
      assert Singletons(s[i - 1..]) == [[s[i - 1]]];
    } else {
      BarFrom(s, i + 1, next);
      assert Singletons(s[i - 1..]) == [[s[i - 1]]] + Singletons(s[i..]);
    }
  }

  /** `.` matches every character that is not a line terminator, so a string
      without line terminators splits into one more empty piece than it has
      characters. */
  lemma DotSplitsEveryChar(s: string)
    requires forall k :: 0 <= k < |s| ==> !IsLineTerminator(s[k])
    ensures SplitToStream('.', s) == Ok(Blanks(|s| + 1))
  {
    DotFrom(s, 0, []);
    assert [] + Blanks(|s| + 1) == Blanks(|s| + 1);
  }

  lemma {:induction false} DotFrom(s: string, i: nat, pieces: seq<string>)
    requires i <= |s|
    requires forall k :: 0 <= k < |s| ==> !IsLineTerminator(s[k])
    requires i == 0 ==> pieces == []
    ensures SplitAtMatches(s, DotMatches(s, i), i, pieces) == pieces + Blanks(|s| - i + 1)
    decreases |s| - i
  {
    if i < |s| {
      DotStep(s, i, pieces);
      DotFrom(s, i + 1, pieces + [""]);
      assert [""] + Blanks(|s| - i) == Blanks(|s| - i + 1);
      assert pieces + [""] + Blanks(|s| - i) == pieces + Blanks(|s| - i + 1);
    } else {
      assert DotMatches(s, i) == [];
      assert Blanks(1) == [""];
      if i > 0 {
        assert s[i..] == "";
      }
    }
  }

  /** A character that `.` matches cuts an empty piece off. */
  lemma DotStep(s: string, i: nat, pieces: seq<string>)
    requires i < |s| && !IsLineTerminator(s[i])
    ensures SplitAtMatches(s, DotMatches(s, i), i, pieces) == SplitAtMatches(s, DotMatches(s, i + 1), i + 1, pieces + [""])
  {
    var ms := DotMatches(s, i);
    assert ms == [Match(i, i + 1)] + DotMatches(s, i + 1);
    assert ms[1..] == DotMatches(s, i + 1);
    assert s[i..i] == "";
  }

  /** Without MULTILINE, `^` matches only at the start, and an empty match
      there cuts nothing: the input comes back whole. */
  lemma CaretKeepsInput(s: string)
    ensures SplitToStream('^', s) == Ok([s])
  {
    var ms := EmptyMatches(s, 0, Begin);
    assert '^' !in RejectedPatterns;
    assert SplitToStream('^', s) == Ok(SplitAtMatches(s, ms, 0, []));
    if s != [] {
      EmptyMatchesNone(s, 1, Begin);
    }
    assert ms == [Match(0, 0)];
    assert SplitAtMatches(s, ms, 0, []) == SplitAtMatches(s, ms[1..], 0, []);
  }

  /** `.` does not match a line terminator, so the terminator survives as a piece. */
  lemma DotKeepsLineTerminators()
    ensures SplitToStream('.', "a\nb") == Ok(["", "\n", ""])
  {
    var s := "a\nb";
    var ms := DotMatches(s, 0);
    assert '.' !in RejectedPatterns;
    assert SplitToStream('.', s) == Ok(SplitAtMatches(s, ms, 0, []));
    assert DotMatches(s, 3) == [];
    assert DotMatches(s, 2) == [Match(2, 3)] + [];
    assert DotMatches(s, 1) == DotMatches(s, 2);
    assert ms == [Match(0, 1)] + [Match(2, 3)];
    CutAt(s, Match(0, 1), [Match(2, 3)], 0, []);
    var none: seq<string> := [];
    assert none + [s[0..0]] == [""];
    assert [Match(2, 3)] == [Match(2, 3)] + [];
    CutAt(s, Match(2, 3), [], 1, [""]);
    assert s[1..2] == "\n";
    assert [""] + [s[1..2]] == ["", "\n"];
    CutEnd(s, 3, ["", "\n"]);
    assert s[3..] == "";
    assert ["", "\n"] + [s[3..]] == ["", "\n", ""];
  }

  /** `$` matches only at the end of an input that does not end with a line
      terminator: the input, then an empty piece. */
  lemma DollarSplitsAtEnd(s: string)
    requires s != [] && !IsLineTerminator(s[|s| - 1])
    ensures SplitToStream('$', s) == Ok([s, ""])
  {
    var ms := EmptyMatches(s, 0, End);
    assert '$' !in RejectedPatterns;
    assert SplitToStream('$', s) == Ok(SplitAtMatches(s, ms, 0, []));
    EmptyMatchesSkip(s, 0, |s|, End);
    assert ms == [Match(|s|, |s|)] + [];
    CutAt(s, Match(|s|, |s|), [], 0, []);
    assert s[0..|s|] == s;
    var none: seq<string> := [];
    assert none + [s[0..|s|]] == [s];
    CutEnd(s, |s|, [s]);
    assert [s] + [s[|s|..]] == [s, ""];
    assert SplitAtMatches(s, ms, 0, []) == [s, ""];
  }

  /** Before a final line terminator `$` matches as well, so the terminator
      becomes a piece of its own. */
  lemma DollarSplitsBeforeTerminator(u: string, t: char)
    requires u != [] && IsLineTerminator(t)
    requires !(t == '\n' && u[|u| - 1] == '\r')
    ensures SplitToStream('$', u + [t]) == Ok([u, [t], ""])
  {
    var s := u + [t];
    var ms := EmptyMatches(s, 0, End);
    assert '$' !in RejectedPatterns;
    assert SplitToStream('$', s) == Ok(SplitAtMatches(s, ms, 0, []));
    assert s[|u|] == t && s[|u| - 1] == u[|u| - 1];
    EmptyMatchesSkip(s, 0, |u|, End);
    assert AnchorAt(End, s, |u|);
    assert EmptyMatches(s, |u| + 1, End) == [Match(|s|, |s|)];
    assert ms == [Match(|u|, |u|)] + [Match(|s|, |s|)];
    CutAt(s, Match(|u|, |u|), [Match(|s|, |s|)], 0, []);
    assert s[0..|u|] == u;
    var none: seq<string> := [];
    assert none + [s[0..|u|]] == [u];
    assert [Match(|s|, |s|)] == [Match(|s|, |s|)] + [];
    CutAt(s, Match(|s|, |s|), [], |u|, [u]);
    assert s[|u|..|s|] == [t];
    assert [u] + [s[|u|..|s|]] == [u, [t]];
    CutEnd(s, |s|, [u, [t]]);
    assert s[|s|..] == [];
    assert [u, [t]] + [s[|s|..]] == [u, [t], ""];
    assert SplitAtMatches(s, ms, 0, []) == [u, [t], ""];
  }

  /** A final `\r\n` is one line terminator for `$`: it stays in one piece. */
  lemma DollarSplitsBeforeCrLf(u: string)
    requires u != []
    ensures SplitToStream('$', u + "\r\n") == Ok([u, "\r\n", ""])
  {
    var s := u + "\r\n";
    var ms := EmptyMatches(s, 0, End);
    assert '$' !in RejectedPatterns;
    assert SplitToStream('$', s) == Ok(SplitAtMatches(s, ms, 0, []));
    assert s[|u|] == '\r' && s[|u| + 1] == '\n';
    EmptyMatchesSkip(s, 0, |u|, End);
    assert !AnchorAt(End, s, |u| + 1);
    assert EmptyMatches(s, |u| + 1, End) == [Match(|s|, |s|)];
    assert AnchorAt(End, s, |u|);
    assert ms == [Match(|u|, |u|)] + [Match(|s|, |s|)];
    CutAt(s, Match(|u|, |u|), [Match(|s|, |s|)], 0, []);
    assert s[0..|u|] == u;
    var none: seq<string> := [];
    assert none + [s[0..|u|]] == [u];
    assert [Match(|s|, |s|)] == [Match(|s|, |s|)] + [];
    CutAt(s, Match(|s|, |s|), [], |u|, [u]);
    assert s[|u|..|s|] == "\r\n";
    assert [u] + [s[|u|..|s|]] == [u, "\r\n"];
    CutEnd(s, |s|, [u, "\r\n"]);
    assert s[|s|..] == [];
    assert [u, "\r\n"] + [s[|s|..]] == [u, "\r\n", ""];
    assert SplitAtMatches(s, ms, 0, []) == [u, "\r\n", ""];
  }

  /** One step of the split loop: a match that is not an empty match at the
      very start cuts the piece before it. */
  lemma CutAt(s: string, m: Match, rest: seq<Match>, index: nat, pieces: seq<string>)
    requires Ordered(s, index, [m] + rest)
    requires !(index == 0 && m.start == 0 && m.end == 0)
    ensures Ordered(s, m.end, rest)
    ensures SplitAtMatches(s, [m] + rest, index, pieces) == SplitAtMatches(s, rest, m.end, pieces + [s[index..m.start]])
  {
    assert ([m] + rest)[1..] == rest;
  }

  /** The end of the split loop once something was cut: the rest of the input
      is the last piece. */
  lemma CutEnd(s: string, index: nat, pieces: seq<string>)
    requires 0 < index <= |s|
    ensures SplitAtMatches(s, [], index, pieces) == pieces + [s[index..]]
  {
  }

  /** Splitting and joining are not inverse for a metacharacter separator:
      joining `["a", "b"]` with `|` and splitting again gives four pieces. */
  lemma SplitJoinFailsForBar()
    ensures Join('|', ["a", "b"]) == "a|b"
    ensures SplitToStream('|', "a|b") == Ok(["a", "|", "b", ""])
  {
    var s := "a|b";
    BarSplitsEveryChar(s);
    assert s != [];
    assert Singletons(s) == ["a", "|", "b"];
    assert Singletons(s) + [""] == ["a", "|", "b", ""];
  }

  lemma {:induction false} EmptyMatchesNone(s: string, i: nat, a: Anchor)
    requires i <= |s|
    requires forall p :: i <= p <= |s| ==> !AnchorAt(a, s, p)
    ensures EmptyMatches(s, i, a) == []
    decreases |s| - i
  {
    if i < |s| {
      EmptyMatchesNone(s, i + 1, a);
    }
  }

  lemma {:induction false} EmptyMatchesSkip(s: string, i: nat, j: nat, a: Anchor)
    requires i <= j <= |s|
    requires forall p :: i <= p < j ==> !AnchorAt(a, s, p)
    ensures EmptyMatches(s, i, a) == EmptyMatches(s, j, a)
    decreases j - i
  {
    if i < j {
      EmptyMatchesSkip(s, i + 1, j, a);
    }
  }

  /** `unexpectedNullToBlank(input, source)`: the input itself, or `""` for null.
      The log record on the null path is left out. */
  function UnexpectedNullToBlank(input: Option<string>): (r: string)
    ensures input.Some? ==> r == input.value
    ensures input.None? ==> r == ""
  {
    input.GetOr("")
  }
}

=== FILE: lhod_common.dfy ===
/** What the LHOD connection, its metadata and its context share: the dynamic
    ADO properties asked for, the identifier case codes, the ODBC string
    function bitmask, the script queries and the mapping of script failures to
    `SQLException`. The source declares the enumerations twice, once in
    `LhodConnection`/`LhodDatabaseMetaData` and once in `LhodContext`, with the
    same constants. */
module LhodCommon {
  import opened Wrappers
  import opened Exceptions
  import opened JavaLang

  // ---------------------------------------------------------------------------
  // Dynamic properties

  datatype DynamicProperty = CURRENT_CATALOG | SPECIAL_CHARACTERS | IDENTIFIER_CASE_SENSITIVITY | STRING_FUNCTIONS

  /** The ADO name of a property. */
  function Key(p: DynamicProperty): string {
    match p
    case CURRENT_CATALOG => "Current Catalog"
    case SPECIAL_CHARACTERS => "Special Characters"
    case IDENTIFIER_CASE_SENSITIVITY => "Identifier Case Sensitivity"
    case STRING_FUNCTIONS => "String Functions"
  }

  /** `DynamicProperty.values()`, in declaration order. */
  const PROPERTIES: seq<DynamicProperty> := [CURRENT_CATALOG, SPECIAL_CHARACTERS, IDENTIFIER_CASE_SENSITIVITY, STRING_FUNCTIONS]

  /** `DYNAMIC_PROPERTY_KEYS`: the keys of all properties, in declaration order. */
  function PropertyKeys(): (r: seq<string>)
    ensures |r| == |PROPERTIES| == 4
    ensures forall i :: 0 <= i < 4 ==> r[i] == Key(PROPERTIES[i])
  {
    [Key(CURRENT_CATALOG), Key(SPECIAL_CHARACTERS), Key(IDENTIFIER_CASE_SENSITIVITY), Key(STRING_FUNCTIONS)]
  }

  lemma KeyInjective(p: DynamicProperty, q: DynamicProperty)
    requires Key(p) == Key(q)
    ensures p == q
  {
  }

  /** `getPropertyOrNull(key)`: the property with exactly that key. */
  function PropertyOf(key: string): (r: Option<DynamicProperty>)
    ensures r.Some? ==> Key(r.value) == key
    ensures r.None? <==> forall p: DynamicProperty :: Key(p) != key
  {
    if key == Key(CURRENT_CATALOG) then Some(CURRENT_CATALOG)
    else if key == Key(SPECIAL_CHARACTERS) then Some(SPECIAL_CHARACTERS)
    else if key == Key(IDENTIFIER_CASE_SENSITIVITY) then Some(IDENTIFIER_CASE_SENSITIVITY)
    else if key == Key(STRING_FUNCTIONS) then Some(STRING_FUNCTIONS)
    else None
  }

  lemma PropertyOfKey(p: DynamicProperty)
    ensures PropertyOf(Key(p)) == Some(p)
  {
  }

  /** Rows read from a property listing: a key cell and a value cell at least. */
  predicate KeyValueRows(rows: seq<seq<Option<string>>>) {
    forall k :: 0 <= k < |rows| ==> |rows[k]| >= 2
  }

  /** The value cell of the last row whose key cell is `key`, which is what a
      map filled row after row keeps for that key. */
  function LastValue(rows: seq<seq<Option<string>>>, key: Option<string>): (r: Option<Option<string>>)
    requires KeyValueRows(rows)
    ensures r.None? <==> forall k :: 0 <= k < |rows| ==> rows[k][0] != key
    ensures r.Some? ==> exists k :: 0 <= k < |rows| && rows[k][0] == key && rows[k][1] == r.value &&
                                    forall j :: k < j < |rows| ==> rows[j][0] != key
  {
    if |rows| == 0 then None
    else
      var later := LastValue(rows[1..], key);
      if later.Some? then
        LastValueShift(rows, key, later.value);
        later
      else if rows[0][0] == key then
        assert forall j :: 0 < j < |rows| ==> rows[j] == rows[1..][j - 1];
        Some(rows[0][1])
      else
        assert forall j :: 0 < j < |rows| ==> rows[j] == rows[1..][j - 1];
        None
  }

  lemma LastValueShift(rows: seq<seq<Option<string>>>, key: Option<string>, v: Option<string>)
    requires KeyValueRows(rows) && |rows| > 0
    requires exists k :: 0 <= k < |rows[1..]| && rows[1..][k][0] == key && rows[1..][k][1] == v &&
                         forall j :: k < j < |rows[1..]| ==> rows[1..][j][0] != key
    ensures exists k :: 0 <= k < |rows| && rows[k][0] == key && rows[k][1] == v &&
                        forall j :: k < j < |rows| ==> rows[j][0] != key
  {
    var k :| 0 <= k < |rows[1..]| && rows[1..][k][0] == key && rows[1..][k][1] == v &&
             forall j :: k < j < |rows[1..]| ==> rows[1..][j][0] != key;
    assert rows[k + 1] == rows[1..][k];
    forall j | k + 1 < j < |rows| ensures rows[j][0] != key {
      assert rows[j] == rows[1..][j - 1];
    }
  }

  // ---------------------------------------------------------------------------
  // Identifier case

  datatype IdentifierCaseType = LOWER | MIXED | SENSITIVE | UPPER

  /** The value of `DBPROP_IDENTIFIERCASE`. */
  function CaseValue(t: IdentifierCaseType): int {
    match t
    case LOWER => 2
    case MIXED => 8
    case SENSITIVE => 4
    case UPPER => 1
  }

  /** `getIdentifierCaseTypeOrNull(value)`: the first type, in declaration
      order, with that value. */
  function CaseTypeOf(value: int): (r: Option<IdentifierCaseType>)
    ensures r.Some? ==> CaseValue(r.value) == value
    ensures r.None? <==> value !in {1, 2, 4, 8}
  {
    if value == CaseValue(LOWER) then Some(LOWER)
    else if value == CaseValue(MIXED) then Some(MIXED)
    else if value == CaseValue(SENSITIVE) then Some(SENSITIVE)
    else if value == CaseValue(UPPER) then Some(UPPER)
    else None
  }

  lemma CaseTypeRoundTrip(t: IdentifierCaseType)
    ensures CaseTypeOf(CaseValue(t)) == Some(t)
  {
  }

  /** The cause `Integer.parseInt` gives for text that is not an integer. */
  function NumberFormat(input: string): Exception {
    IllegalArgument("For input string: \"" + input + "\"")
  }

  /** `getIdentifierCaseType()` once the property is known: none when the
      property is absent, an I/O failure when it is not an integer. */
  function ParseIdentifierCaseType(property: Option<string>): (r: Result<Option<IdentifierCaseType>, Exception>)
    ensures property.None? ==> r == Ok(None)
    ensures property.Some? && ParseInt(property.value).None? ==>
              r == Err(IO(Some("Cannot parse identifier case type"), Some(NumberFormat(property.value))))
    ensures property.Some? && ParseInt(property.value).Some? ==> r == Ok(CaseTypeOf(ParseInt(property.value).value))
  {
    match property
    case None => Ok(None)
    case Some(text) =>
      match ParseInt(text)
      case None => Err(IO(Some("Cannot parse identifier case type"), Some(NumberFormat(text))))
      case Some(value) => Ok(CaseTypeOf(value))
  }

  /** The property text a case type is written as reads back as that type. */
  lemma IdentifierCaseTypeRoundTrip(t: IdentifierCaseType)
    ensures ParseIdentifierCaseType(Some(IntToString(CaseValue(t)))) == Ok(Some(t))
  {
    ParseIntToString(CaseValue(t));
  }

  // ---------------------------------------------------------------------------
  // String functions

  /** The `SQL_FN_STR_*` flags of `SQLGetInfo(SQL_STRING_FUNCTIONS)`. */
  datatype SqlStringFunction =
      SQL_FN_STR_CONCAT | SQL_FN_STR_INSERT | SQL_FN_STR_LEFT | SQL_FN_STR_LTRIM
    | SQL_FN_STR_LENGTH | SQL_FN_STR_LOCATE | SQL_FN_STR_LCASE | SQL_FN_STR_REPEAT
    | SQL_FN_STR_REPLACE | SQL_FN_STR_RIGHT | SQL_FN_STR_RTRIM | SQL_FN_STR_SUBSTRING
    | SQL_FN_STR_UCASE | SQL_FN_STR_ASCII | SQL_FN_STR_CHAR | SQL_FN_STR_DIFFERENCE
    | SQL_FN_STR_LOCATE_2 | SQL_FN_STR_SOUNDEX | SQL_FN_STR_SPACE | SQL_FN_STR_BIT_LENGTH
    | SQL_FN_STR_CHAR_LENGTH | SQL_FN_STR_CHARACTER_LENGTH | SQL_FN_STR_OCTET_LENGTH | SQL_FN_STR_POSITION

  /** `SqlStringFunction.values()`, in declaration order. */
  const FUNCTIONS: seq<SqlStringFunction> := [
    SQL_FN_STR_CONCAT, SQL_FN_STR_INSERT, SQL_FN_STR_LEFT, SQL_FN_STR_LTRIM,
    SQL_FN_STR_LENGTH, SQL_FN_STR_LOCATE, SQL_FN_STR_LCASE, SQL_FN_STR_REPEAT,
    SQL_FN_STR_REPLACE, SQL_FN_STR_RIGHT, SQL_FN_STR_RTRIM, SQL_FN_STR_SUBSTRING,
    SQL_FN_STR_UCASE, SQL_FN_STR_ASCII, SQL_FN_STR_CHAR, SQL_FN_STR_DIFFERENCE,
    SQL_FN_STR_LOCATE_2, SQL_FN_STR_SOUNDEX, SQL_FN_STR_SPACE, SQL_FN_STR_BIT_LENGTH,
    SQL_FN_STR_CHAR_LENGTH, SQL_FN_STR_CHARACTER_LENGTH, SQL_FN_STR_OCTET_LENGTH, SQL_FN_STR_POSITION]

  /** The flag's bitmask, as the bits of a Java `int`. */
  function Bitmask(f: SqlStringFunction): bv32 {
    match f
    case SQL_FN_STR_CONCAT => 0x00000001
    case SQL_FN_STR_INSERT => 0x00000002
    case SQL_FN_STR_LEFT => 0x00000004
    case SQL_FN_STR_LTRIM => 0x00000008
    case SQL_FN_STR_LENGTH => 0x00000010
    case SQL_FN_STR_LOCATE => 0x00000020
    case SQL_FN_STR_LCASE => 0x00000040
    case SQL_FN_STR_REPEAT => 0x00000080
    case SQL_FN_STR_REPLACE => 0x00000100
    case SQL_FN_STR_RIGHT => 0x00000200
    case SQL_FN_STR_RTRIM => 0x00000400
    case SQL_FN_STR_SUBSTRING => 0x00000800
    case SQL_FN_STR_UCASE => 0x00001000
    case SQL_FN_STR_ASCII => 0x00002000
    case SQL_FN_STR_CHAR => 0x00004000
    case SQL_FN_STR_DIFFERENCE => 0x00008000
    case SQL_FN_STR_LOCATE_2 => 0x00010000
    case SQL_FN_STR_SOUNDEX => 0x00020000
    case SQL_FN_STR_SPACE => 0x00040000
    case SQL_FN_STR_BIT_LENGTH => 0x00080000
    case SQL_FN_STR_CHAR_LENGTH => 0x00100000
    case SQL_FN_STR_CHARACTER_LENGTH => 0x00200000
    case SQL_FN_STR_OCTET_LENGTH => 0x00400000
    case SQL_FN_STR_POSITION => 0x00800000
  }

  function Label(f: SqlStringFunction): string {
    match f
    case SQL_FN_STR_CONCAT => "CONCAT"
    case SQL_FN_STR_INSERT => "INSERT"
    case SQL_FN_STR_LEFT => "LEFT"
    case SQL_FN_STR_LTRIM => "LTRIM"
    case SQL_FN_STR_LENGTH => "LENGTH"
    case SQL_FN_STR_LOCATE => "LOCATE"
    case SQL_FN_STR_LCASE => "LCASE"
    case SQL_FN_STR_REPEAT => "REPEAT"
    case SQL_FN_STR_REPLACE => "REPLACE"
    case SQL_FN_STR_RIGHT => "RIGHT"
    case SQL_FN_STR_RTRIM => "RTRIM"
    case SQL_FN_STR_SUBSTRING => "SUBSTRING"
    case SQL_FN_STR_UCASE => "UCASE"
    case SQL_FN_STR_ASCII => "ASCII"
    case SQL_FN_STR_CHAR => "CHAR"
    case SQL_FN_STR_DIFFERENCE => "DIFFERENCE"
    case SQL_FN_STR_LOCATE_2 => "LOCATE_2"
    case SQL_FN_STR_SOUNDEX => "SOUNDEX"
    case SQL_FN_STR_SPACE => "SPACE"
    case SQL_FN_STR_BIT_LENGTH => "BIT_LENGTH"
    case SQL_FN_STR_CHAR_LENGTH => "CHAR_LENGTH"
    case SQL_FN_STR_CHARACTER_LENGTH => "CHARACTER_LENGTH"
    case SQL_FN_STR_OCTET_LENGTH => "OCTET_LENGTH"
    case SQL_FN_STR_POSITION => "POSITION"
  }

  /** The two's complement bits of a Java `int`. */
  function Bits(v: int): bv32
    requires IsInt32(v)
  {
    if v < 0 then (v + 0x1_0000_0000) as bv32 else v as bv32
  }

  /** `hasBitmask(value, bitmask)`: every bit of the mask is set in the value. */
  predicate HasBitmask(value: int, bitmask: bv32)
    requires IsInt32(value)
  {
    Bits(value) & bitmask == bitmask
  }

  /** `getStringFunctionStream(value)`: the functions whose mask is set in
      `value`, in declaration order. */
  function StringFunctionsOf(value: int): (r: seq<SqlStringFunction>)
    requires IsInt32(value)
    ensures forall f :: f in r <==> HasBitmask(value, Bitmask(f))
    ensures Subsequence(r, FUNCTIONS)
  {
    AllPositions();
    FunctionsFrom(value, 0)
  }

  /** The index of a function in `FUNCTIONS`. */
  function Position(f: SqlStringFunction): (r: nat)
    ensures r < |FUNCTIONS| && FUNCTIONS[r] == f
  {
    match f
    case SQL_FN_STR_CONCAT => 0
    case SQL_FN_STR_INSERT => 1
    case SQL_FN_STR_LEFT => 2
    case SQL_FN_STR_LTRIM => 3
    case SQL_FN_STR_LENGTH => 4
    case SQL_FN_STR_LOCATE => 5
    case SQL_FN_STR_LCASE => 6
    case SQL_FN_STR_REPEAT => 7
    case SQL_FN_STR_REPLACE => 8
    case SQL_FN_STR_RIGHT => 9
    case SQL_FN_STR_RTRIM => 10
    case SQL_FN_STR_SUBSTRING => 11
    case SQL_FN_STR_UCASE => 12
    case SQL_FN_STR_ASCII => 13
    case SQL_FN_STR_CHAR => 14
    case SQL_FN_STR_DIFFERENCE => 15
    case SQL_FN_STR_LOCATE_2 => 16
    case SQL_FN_STR_SOUNDEX => 17
    case SQL_FN_STR_SPACE => 18
    case SQL_FN_STR_BIT_LENGTH => 19
    case SQL_FN_STR_CHAR_LENGTH => 20
    case SQL_FN_STR_CHARACTER_LENGTH => 21
    case SQL_FN_STR_OCTET_LENGTH => 22
    case SQL_FN_STR_POSITION => 23
  }

  lemma AllPositions()
    ensures forall i :: 0 <= i < |FUNCTIONS| ==> Position(FUNCTIONS[i]) == i
  {
  }

  /** The masks are single bits: the mask at position i is `1 << i`. */
  lemma BitmaskIsBit(f: SqlStringFunction)
    ensures Bitmask(f) == Bit(Position(f))
  {
    if Position(f) < 12 {
      LowBitmaskIsBit(f);
    } else {
      HighBitmaskIsBit(f);
    }
  }

  lemma LowBitmaskIsBit(f: SqlStringFunction)
    requires Position(f) < 12
    ensures Bitmask(f) == Bit(Position(f))
  {
  }

  lemma HighBitmaskIsBit(f: SqlStringFunction)
    requires Position(f) >= 12
    ensures Bitmask(f) == Bit(Position(f))
  {
  }

  function FunctionsFrom(value: int, from: nat): (r: seq<SqlStringFunction>)
    requires IsInt32(value) && from <= |FUNCTIONS|
    requires forall i :: 0 <= i < |FUNCTIONS| ==> Position(FUNCTIONS[i]) == i
    ensures forall f :: f in r <==> Position(f) >= from && HasBitmask(value, Bitmask(f))
    ensures Subsequence(r, FUNCTIONS[from..])
    decreases |FUNCTIONS| - from
  {
    if from == |FUNCTIONS| then []
    else
      var f := FUNCTIONS[from];
      var rest := FunctionsFrom(value, from + 1);
      assert FUNCTIONS[from..][1..] == FUNCTIONS[from + 1..];
      if HasBitmask(value, Bitmask(f)) then [f] + rest else rest
  }

  /** `r` is `s` with some elements left out, the others kept in order. */
  predicate Subsequence<T(==)>(r: seq<T>, s: seq<T>)
    decreases |s|
  {
    |r| == 0 || (|s| > 0 && if r[0] == s[0] then Subsequence(r[1..], s[1..]) else Subsequence(r, s[1..]))
  }

  /** The bitmask the functions of `fs` make together. */
  function MaskOf(fs: set<SqlStringFunction>): (r: int)
    ensures IsInt32(r) && r >= 0
    ensures Bits(r) == MaskBits(fs, 0)
  {
    MaskBitsBounded(fs, 0);
    MaskBits(fs, 0) as int
  }

  /** The bit of position `k`, which is the mask of `FUNCTIONS[k]`. */
  function Bit(k: nat): bv32
    requires k < 32
  {
    (1 as bv32) << k
  }

  /** The bits of the functions of `fs` at positions `from` and later. */
  function MaskBits(fs: set<SqlStringFunction>, from: nat): bv32
    requires from <= |FUNCTIONS|
    decreases |FUNCTIONS| - from
  {
    if from == |FUNCTIONS| then 0
    else (if FUNCTIONS[from] in fs then Bit(from) else 0) | MaskBits(fs, from + 1)
  }

  lemma {:induction false} MaskBitsBounded(fs: set<SqlStringFunction>, from: nat)
    requires from <= |FUNCTIONS|
    ensures MaskBits(fs, from) < 0x0100_0000
    decreases |FUNCTIONS| - from
  {
    if from < |FUNCTIONS| {
      MaskBitsBounded(fs, from + 1);
      var head: bv32 := if FUNCTIONS[from] in fs then Bit(from) else 0;
      LowBitBounded(from);
      OrBounded(head, MaskBits(fs, from + 1));
    }
  }

  lemma LowBitBounded(k: nat)
    requires k < 24
    ensures Bit(k) < 0x0100_0000
  {
  }

  lemma OrBounded(a: bv32, b: bv32)
    requires a < 0x0100_0000 && b < 0x0100_0000
    ensures a | b < 0x0100_0000
  {
  }

  /** Bit `k` of `MaskBits(fs, from)` is set exactly when the function at
      position `k >= from` is in `fs`. */
  lemma {:induction false} MaskBitsBit(fs: set<SqlStringFunction>, from: nat, k: nat)
    requires from <= |FUNCTIONS| && k < |FUNCTIONS|
    ensures (MaskBits(fs, from) & Bit(k) == Bit(k)) <==> (FUNCTIONS[k] in fs && k >= from)
    decreases |FUNCTIONS| - from
  {
    if from < |FUNCTIONS| {
      MaskBitsBit(fs, from + 1, k);
      var present := FUNCTIONS[from] in fs;
      var head: bv32 := if present then Bit(from) else 0;
      OrBitStep(head, MaskBits(fs, from + 1), present, from, k);
    }
  }

  /** Bit `k` of `head | rest`, where `head` is bit `j` or nothing. */
  lemma OrBitStep(head: bv32, rest: bv32, present: bool, j: nat, k: nat)
    requires j < 32 && k < 32
    requires head == if present then Bit(j) else 0
    ensures ((head | rest) & Bit(k) == Bit(k)) <==> (present && j == k) || (rest & Bit(k) == Bit(k))
  {
    SingleBitOr(head, rest, k);
    SingleBitOfBit(j, k);
  }

  lemma SingleBitOr(a: bv32, b: bv32, k: nat)
    requires k < 32
    ensures ((a | b) & Bit(k) == Bit(k)) <==> (a & Bit(k) == Bit(k)) || (b & Bit(k) == Bit(k))
  {
  }

  lemma SingleBitOfBit(j: nat, k: nat)
    requires j < 32 && k < 32
    ensures (Bit(j) & Bit(k) == Bit(k)) <==> j == k
    ensures (0 as bv32) & Bit(k) != Bit(k)
  {
  }

  /** Decoding the mask of a set of functions gives back that set. */
  lemma StringFunctionsRoundTrip(fs: set<SqlStringFunction>)
    ensures forall f :: f in StringFunctionsOf(MaskOf(fs)) <==> f in fs
  {
    var value := MaskOf(fs);
    forall f ensures HasBitmask(value, Bitmask(f)) <==> f in fs {
      BitmaskIsBit(f);
      MaskBitsBit(fs, 0, Position(f));
    }
  }

  /** `getStringFunctions()` once the property is known: none when the property
      is absent, an I/O failure when it is not an integer. */
  function ParseStringFunctions(property: Option<string>): (r: Result<seq<SqlStringFunction>, Exception>)
    ensures property.None? ==> r == Ok([])
    ensures property.Some? && ParseInt(property.value).None? ==>
              r == Err(IO(Some("Cannot parse string functions bitmask"), Some(NumberFormat(property.value))))
    ensures property.Some? && ParseInt(property.value).Some? ==> r == Ok(StringFunctionsOf(ParseInt(property.value).value))
  {
    match property
    case None => Ok([])
    case Some(text) =>
      match ParseInt(text)
      case None => Err(IO(Some("Cannot parse string functions bitmask"), Some(NumberFormat(text))))
      case Some(value) => Ok(StringFunctionsOf(value))
  }

  // ---------------------------------------------------------------------------
  // Script queries

  /** `TabDataQuery` / `TabularDataQuery`: a script and its arguments. */
  datatype Query = Query(procedure: string, parameters: seq<string>)

  /** The argument standing for "no restriction". */
  const EMPTY_ARG: string := "\"\""

  /** A catalog argument: the catalog, or `EMPTY_ARG` when null. */
  function CatalogArg(catalog: Option<string>): string {
    if catalog.Some? then catalog.value else EMPTY_ARG
  }

  /** A pattern argument: the pattern, or `EMPTY_ARG` when null or `%`. */
  function PatternArg(pattern: Option<string>): string {
    if pattern.Some? && pattern.value != "%" then pattern.value else EMPTY_ARG
  }

  /** The arguments of an `OpenSchema` query. */
  function OpenSchemaParameters(connectionString: string, catalog: Option<string>, schemaPattern: Option<string>,
                                tableNamePattern: Option<string>, types: Option<seq<string>>): (r: seq<string>)
    ensures |r| >= 4 && r[0] == connectionString
    ensures r[4..] == (if types.Some? then types.value else [])
  {
    [connectionString, CatalogArg(catalog), PatternArg(schemaPattern), PatternArg(tableNamePattern)] +
    (if types.Some? then types.value else [])
  }

  /** How the script reads an argument back: `EMPTY_ARG` means no restriction. */
  function ReadArg(arg: string): Option<string> {
    if arg == EMPTY_ARG then None else Some(arg)
  }

  /** A pattern with `%` meaning "anything", as null does. */
  function Restriction(pattern: Option<string>): Option<string> {
    if pattern == Some("%") then None else pattern
  }

  /** The script reads back the restrictions asked for: the catalog, and the
      patterns with `%` taken as no restriction, then the types. */
  lemma OpenSchemaReadBack(connectionString: string, catalog: Option<string>, schemaPattern: Option<string>,
                           tableNamePattern: Option<string>, types: Option<seq<string>>)
    requires catalog != Some(EMPTY_ARG) && schemaPattern != Some(EMPTY_ARG) && tableNamePattern != Some(EMPTY_ARG)
    ensures var args := OpenSchemaParameters(connectionString, catalog, schemaPattern, tableNamePattern, types);
      ReadArg(args[1]) == catalog &&
      ReadArg(args[2]) == Restriction(schemaPattern) &&
      ReadArg(args[3]) == Restriction(tableNamePattern)
  {
  }

  // ---------------------------------------------------------------------------
  // Failures

  /** The `SQLException` an I/O failure of a script becomes: a remote error
      keeps its message and number, with an empty SQL state and no cause; any
      other failure gets `message` and becomes the cause. */
  function ToSqlError(ex: Exception, message: string): (r: Exception)
    ensures r.Sql?
    ensures ex.TabDataRemote? ==> r == Sql(ex.message, Some(""), ex.number, None)
    ensures !ex.TabDataRemote? ==> r == SqlErrorCausedBy(message, ex) && r.vendorCode == 0
  {
    if ex.TabDataRemote? then Sql(ex.message, Some(""), ex.number, None)
    else SqlErrorCausedBy(message, ex)
  }

  /** A `catch (IOException ex)` around a script call: I/O failures become
      `SQLException`s, other failures pass through. */
  function CatchIO<T>(r: Result<T, Exception>, message: string): (s: Result<T, Exception>)
    ensures r.Ok? ==> s == r
    ensures r.Err? && r.error.IsIO() ==> s == Err(ToSqlError(r.error, message))
    ensures r.Err? && !r.error.IsIO() ==> s == r
  {
    match r
    case Ok(_) => r
    case Err(e) => if e.IsIO() then Err(ToSqlError(e, message)) else r
  }
}

=== FILE: lhod_connection.dfy ===
/** `LhodConnection`: a read-only JDBC connection whose every request runs a
    script through an executor. The connection is a value here; an operation
    that can fill the property cache returns the connection as it is after the
    call together with the call's answer. */
module LhodConnection {
  import opened Wrappers
  import opened Exceptions
  import opened JavaLang
  import opened TabDataReader
  import opened LhodCommon

  /** `TabDataExecutor` as its answers: `state` is what `isClosed()` gives,
      `closing` the failure of `close()` if it fails, and `reply` the lines a
      script writes for a query. */
  datatype Executor = Executor(
    state: Result<bool, Exception>,
    closing: Option<Exception>,
    reply: Query -> Result<seq<Line>, Exception>)

  /** The connection and its property cache, `None` until first loaded. */
  datatype Connection = Connection(
    executor: Executor,
    connectionString: string,
    lazyProperties: Option<map<DynamicProperty, string>>)

  /** The value a `catch (IOException ex)` turns a script failure into, with
      `message` for anything but a remote error. */
  function Rethrow(e: Exception, message: string): Exception {
    if e.IsIO() then ToSqlError(e, message) else e
  }

  /** `isClosed()`: the executor's state, an I/O failure wrapped. */
  function IsClosed(c: Connection): (r: Result<bool, Exception>)
    ensures c.executor.state.Ok? ==> r == c.executor.state
    ensures c.executor.state.Err? && c.executor.state.error.IsIO() ==>
              r == Err(SqlErrorCausedBy("Failed to check executor state", c.executor.state.error))
    ensures c.executor.state.Err? && !c.executor.state.error.IsIO() ==> r == c.executor.state
  {
    match c.executor.state
    case Ok(closed) => Ok(closed)
    case Err(e) => if e.IsIO() then Err(SqlErrorCausedBy("Failed to check executor state", e)) else Err(e)
  }

  /** `close()`: closes the executor, which then reports itself closed; an I/O
      failure is wrapped and leaves the executor as it was. */
  function Close(c: Connection): (r: (Connection, Result<(), Exception>))
    ensures r.1.Ok? <==> c.executor.closing.None?
    ensures r.1.Ok? ==> IsClosed(r.0) == Ok(true)
    ensures r.1.Ok? ==> r.0 == c.(executor := c.executor.(state := Ok(true)))
    ensures r.1.Err? ==> r.0 == c
    ensures c.executor.closing.Some? && c.executor.closing.value.IsIO() ==>
              r.1 == Err(SqlErrorCausedBy("Failed to close executor", c.executor.closing.value))
  {
    match c.executor.closing
    case None => (c.(executor := c.executor.(state := Ok(true))), Ok(()))
    case Some(e) =>
      if e.IsIO() then (c, Err(SqlErrorCausedBy("Failed to close executor", e))) else (c, Err(e))
  }

  /** `checkState()`: fails when the connection is closed or its state
      cannot be read. */
  function CheckState(c: Connection): (r: Result<(), Exception>)
    ensures r.Ok? <==> c.executor.state == Ok(false)
    ensures c.executor.state == Ok(true) ==> r == Err(SqlError("Connection '" + c.connectionString + "' closed"))
    ensures c.executor.state.Err? ==> r == Err(IsClosed(c).error)
  {
    match IsClosed(c)
    case Err(e) => Err(e)
    case Ok(closed) =>
      if closed then Err(SqlError("Connection '" + c.connectionString + "' closed")) else Ok(())
  }

  /** Once closed, the connection refuses every request that checks its
      state, naming the connection string. */
  lemma ClosedRefuses(c: Connection)
    requires Close(c).1.Ok?
    ensures CheckState(Close(c).0).Err?
    ensures CheckState(Close(c).0).error.message == "Connection '" + c.connectionString + "' closed"
  {
  }

  /** `exec(query)`: the reply of the script, read by a `TabDataReader`. */
  function Exec(c: Connection, query: Query): (r: Result<Reader, Exception>)
    ensures c.executor.reply(query).Err? ==> r == Err(c.executor.reply(query).error)
    ensures c.executor.reply(query).Ok? ==> r == Of(c.executor.reply(query).value)
  {
    match c.executor.reply(query)
    case Err(e) => Err(e)
    case Ok(lines) => Of(lines)
  }

  /** The query `loadProperties` runs: the connection string then every
      property key. */
  function DbPropertiesQuery(connectionString: string): (q: Query)
    ensures q.procedure == "DbProperties"
    ensures |q.parameters| == 5 && q.parameters[0] == connectionString && q.parameters[1..] == PropertyKeys()
  {
    Query("DbProperties", [connectionString] + PropertyKeys())
  }

  /** The `HashMap` the `readNextRow` loop fills with `get(0)` to `get(1)`:
      later rows override earlier ones, and a one-column reply overflows the
      row at `get(1)` once a row is read. */
  function CollectRows(r: Reader, acc: map<Option<string>, Option<string>>): (result: Result<map<Option<string>, Option<string>>, Exception>)
    decreases |r.rest|
  {
    match ReadNextRow(r)
    case Err(e) => Err(e)
    case Ok((more, next)) =>
      if !more then Ok(acc)
      else
        match Get(next, 0)
        case Err(e) => Err(e)
        case Ok(key) =>
          match Get(next, 1)
          case Err(e) => Err(e)
          case Ok(value) => CollectRows(next, acc[key := value])
  }

  const ALL_PROPERTIES: set<DynamicProperty> := {CURRENT_CATALOG, SPECIAL_CHARACTERS, IDENTIFIER_CASE_SENSITIVITY, STRING_FUNCTIONS}

  /** `getProperties(properties)`: the properties whose key maps to a non-null
      value. */
  function PropertiesOf(raw: map<Option<string>, Option<string>>): (r: map<DynamicProperty, string>)
    ensures forall p :: p in r <==> Some(Key(p)) in raw && raw[Some(Key(p))].Some?
    ensures forall p :: p in r ==> Some(r[p]) == raw[Some(Key(p))]
  {
    map p | p in ALL_PROPERTIES && Some(Key(p)) in raw && raw[Some(Key(p))].Some? :: raw[Some(Key(p))].value
  }

  /** `loadProperties()`. */
  function LoadProperties(c: Connection): (r: Result<map<DynamicProperty, string>, Exception>)
    ensures Exec(c, DbPropertiesQuery(c.connectionString)).Err? ==> r == Err(Exec(c, DbPropertiesQuery(c.connectionString)).error)
  {
    match Exec(c, DbPropertiesQuery(c.connectionString))
    case Err(e) => Err(e)
    case Ok(reader) =>
      match CollectRows(reader, map[])
      case Err(e) => Err(e)
      case Ok(raw) => Ok(PropertiesOf(raw))
  }

  /** `EnumMap.get`: null when absent. */
  function Lookup(properties: map<DynamicProperty, string>, p: DynamicProperty): (r: Option<string>)
    ensures r.Some? <==> p in properties
    ensures r.Some? ==> r.value == properties[p]
  {
    if p in properties then Some(properties[p]) else None
  }

  /** `getProperty(property)`: the properties are loaded on first use and kept;
      a failed load leaves the connection as it was. */
  function GetProperty(c: Connection, property: Option<DynamicProperty>): (r: (Connection, Result<Option<string>, Exception>))
    ensures property.None? ==> r == (c, Err(RequireNonNullFailure()))
    ensures r.0.executor == c.executor && r.0.connectionString == c.connectionString
    ensures r.1.Err? ==> r.0 == c
    ensures r.1.Ok? ==> r.0.lazyProperties.Some? && r.1.value == Lookup(r.0.lazyProperties.value, property.value)
    ensures c.lazyProperties.Some? && property.Some? ==> r == (c, Ok(Lookup(c.lazyProperties.value, property.value)))
    ensures c.lazyProperties.None? && property.Some? ==>
              (r.1.Ok? <==> LoadProperties(c).Ok?) &&
              (LoadProperties(c).Ok? ==> r.0.lazyProperties == Some(LoadProperties(c).value)) &&
              (LoadProperties(c).Err? ==> r.1 == Err(LoadProperties(c).error))
  {
    match property
    case None => (c, Err(RequireNonNullFailure()))
    case Some(p) =>
      match c.lazyProperties
      case Some(properties) => (c, Ok(Lookup(properties, p)))
      case None =>
        match LoadProperties(c)
        case Err(e) => (c, Err(e))
        case Ok(properties) => (c.(lazyProperties := Some(properties)), Ok(Lookup(properties, p)))
  }

  /** Once a property was read, the connection never runs the properties query
      again: whatever the executor would now reply, every property comes from
      the cache and the connection stays as it is. */
  lemma PropertiesLoadedOnce(c: Connection, p: DynamicProperty, q: DynamicProperty,
                             reply: Query -> Result<seq<Line>, Exception>)
    requires GetProperty(c, Some(p)).1.Ok?
    ensures var loaded := GetProperty(c, Some(p)).0;
      var later := loaded.(executor := loaded.executor.(reply := reply));
      GetProperty(later, Some(q)) == (later, GetProperty(loaded, Some(q)).1) &&
      GetProperty(loaded, Some(p)) == (loaded, GetProperty(c, Some(p)).1)
  {
  }

  /** `getCatalog()`: the current catalog property. */
  function GetCatalog(c: Connection): (r: (Connection, Result<Option<string>, Exception>))
    ensures CheckState(c).Err? ==> r == (c, Err(CheckState(c).error))
    ensures CheckState(c).Ok? ==> r.0 == GetProperty(c, Some(CURRENT_CATALOG)).0
    ensures CheckState(c).Ok? && GetProperty(c, Some(CURRENT_CATALOG)).1.Ok? ==> r.1 == GetProperty(c, Some(CURRENT_CATALOG)).1
    ensures CheckState(c).Ok? && GetProperty(c, Some(CURRENT_CATALOG)).1.Err? ==>
              r.1 == Err(Rethrow(GetProperty(c, Some(CURRENT_CATALOG)).1.error,
                                 "Failed to get catalog name of '" + c.connectionString + "'"))
  {
    match CheckState(c)
    case Err(e) => (c, Err(e))
    case Ok(_) =>
      var (next, value) := GetProperty(c, Some(CURRENT_CATALOG));
      match value
      case Ok(v) => (next, Ok(v))
      case Err(e) => (next, Err(Rethrow(e, "Failed to get catalog name of '" + c.connectionString + "'")))
  }

  /** `getSchema()`: no schema. */
  function GetSchema(c: Connection): (r: Result<Option<string>, Exception>)
    ensures r.Ok? <==> CheckState(c).Ok?
    ensures r.Ok? ==> r.value.None?
    ensures r.Err? ==> r.error == CheckState(c).error
  {
    match CheckState(c)
    case Err(e) => Err(e)
    case Ok(_) => Ok(None)
  }

  /** `isReadOnly()`: always read-only. */
  function IsReadOnly(c: Connection): (r: Result<bool, Exception>)
    ensures r.Ok? <==> CheckState(c).Ok?
    ensures r.Ok? ==> r.value
    ensures r.Err? ==> r.error == CheckState(c).error
  {
    match CheckState(c)
    case Err(e) => Err(e)
    case Ok(_) => Ok(true)
  }

  /** `getMetaData()` and `createStatement()`: an object built on this
      connection, handed out only while it is open. */
  function OnOpen(c: Connection): (r: Result<Connection, Exception>)
    ensures r.Ok? <==> CheckState(c).Ok?
    ensures r.Ok? ==> r.value == c
    ensures r.Err? ==> r.error == CheckState(c).error
  {
    match CheckState(c)
    case Err(e) => Err(e)
    case Ok(_) => Ok(c)
  }

  // ---------------------------------------------------------------------------
  // Reading back a written property listing

  /** The map the loop builds from fully present rows. */
  function Fold(acc: map<Option<string>, Option<string>>, rows: seq<seq<Option<string>>>): map<Option<string>, Option<string>>
    requires KeyValueRows(rows)
    decreases |rows|
  {
    if |rows| == 0 then acc else Fold(acc[rows[0][0] := rows[0][1]], rows[1..])
  }

  /** Each key of the fold holds the value of its last row, or its earlier
      value when no row has it. */
  lemma {:induction false} FoldLast(acc: map<Option<string>, Option<string>>, rows: seq<seq<Option<string>>>, key: Option<string>)
    requires KeyValueRows(rows)
    ensures key in Fold(acc, rows) <==> key in acc || LastValue(rows, key).Some?
    ensures LastValue(rows, key).Some? ==> Fold(acc, rows)[key] == LastValue(rows, key).value
    ensures LastValue(rows, key).None? && key in acc ==> Fold(acc, rows)[key] == acc[key]
    decreases |rows|
  {
    if |rows| > 0 {
      FoldLast(acc[rows[0][0] := rows[0][1]], rows[1..], key);
    }
  }

  /** Reading rows two fields wide collects them in order. */
  lemma {:induction false} CollectWritten(r: Reader, rows: seq<Line>, acc: map<Option<string>, Option<string>>)
    requires r.rest == rows && |r.currentRow| == 2
    requires forall k :: 0 <= k < |rows| ==> |rows[k]| == 2
    ensures KeyValueRows(PresentRows(rows))
    ensures CollectRows(r, acc) == Ok(Fold(acc, PresentRows(rows)))
    decreases |rows|
  {
    if |rows| > 0 {
      var row := rows[0];
      var next := r.(rest := rows[1..], currentRow := Present(row));
      assert Fill(r.currentRow, row) == Present(row);
      assert ReadNextRow(r) == Ok((true, next));
      assert Get(next, 0) == Ok(Some(row[0]));
      assert Get(next, 1) == Ok(Some(row[1]));
      CollectWritten(next, rows[1..], acc[Some(row[0]) := Some(row[1])]);
      assert PresentRows(rows)[1..] == PresentRows(rows[1..]);
    }
  }

  /** A two-column property listing loads as the value of the last row of each
      property key; keys that are not properties are ignored. */
  lemma LoadWrittenProperties(c: Connection, columns: seq<Column>, rows: seq<Line>)
    requires |columns| == 2 && Writable(columns, rows)
    requires c.executor.reply(DbPropertiesQuery(c.connectionString)) == Ok(Reply(columns, rows))
    ensures KeyValueRows(PresentRows(rows))
    ensures LoadProperties(c).Ok?
    ensures forall p :: p in LoadProperties(c).value <==> LastValue(PresentRows(rows), Some(Key(p))).Some?
    ensures forall p :: p in LoadProperties(c).value ==>
              Some(LoadProperties(c).value[p]) == LastValue(PresentRows(rows), Some(Key(p))).value
  {
    ReadWrittenHeaders(columns, rows);
    var reader := Of(Reply(columns, rows)).value;
    CollectWritten(reader, rows, map[]);
    var present := PresentRows(rows);
    var raw := Fold(map[], present);
    assert LoadProperties(c) == Ok(PropertiesOf(raw));
    forall p ensures (Some(Key(p)) in raw && raw[Some(Key(p))].Some?) <==> LastValue(present, Some(Key(p))).Some?
      ensures LastValue(present, Some(Key(p))).Some? ==> raw[Some(Key(p))] == LastValue(present, Some(Key(p))).value
    {
      FoldLast(map[], present, Some(Key(p)));
      var last := LastValue(present, Some(Key(p)));
      if last.Some? {
        var k :| 0 <= k < |present| && present[k][0] == Some(Key(p)) && present[k][1] == last.value &&
                 forall j :: k < j < |present| ==> present[j][0] != Some(Key(p));
        assert present[k][1] == Some(rows[k][1]);
      }
    }
  }
}

=== FILE: lhod_context.dfy ===
/** `LhodContext`: what a pooled LHOD session knows about its database, with
    the dynamic properties loaded once and kept. The executor a context was
    made with is passed to each call that runs a script, as `exec`; it answers
    a query with the rows a `TabularDataReader` reads, each row being the
    header-wide array `readNextInto` fills. */
module LhodContext {
  import opened Wrappers
  import opened Exceptions
  import opened LhodCommon

  type Row = seq<Option<string>>

  /** `TabularDataExecutor.exec`, as the rows it answers a query with. */
  type Exec = Query -> Result<seq<Row>, Exception>

  /** The context: its connection string, its creation instant and its
      property cache, `None` until first loaded. */
  datatype Context = Context(
    connectionString: string,
    creation: int,
    lazyProperties: Option<map<DynamicProperty, Option<string>>>)

  /** `LhodContext.of(executor, connectionString, creation)`: a fresh context
      with nothing loaded; a null argument fails Lombok's check. */
  function Of(connectionString: Option<string>, creation: Option<int>): (r: Result<Context, Exception>)
    ensures connectionString.None? ==> r == Err(NonNullViolation("connectionString"))
    ensures connectionString.Some? && creation.None? ==> r == Err(NonNullViolation("creation"))
    ensures r.Ok? <==> connectionString.Some? && creation.Some?
    ensures r.Ok? ==> r.value.connectionString == connectionString.value && r.value.creation == creation.value
    ensures r.Ok? ==> r.value.lazyProperties.None?
  {
    if connectionString.None? then Err(NonNullViolation("connectionString"))
    else if creation.None? then Err(NonNullViolation("creation"))
    else Ok(Context(connectionString.value, creation.value, None))
  }

  /** The property a key cell names, if any; a null key names none. */
  function PropertyOfCell(cell: Option<string>): (r: Option<DynamicProperty>)
    ensures r.Some? <==> exists p :: cell == Some(Key(p))
    ensures r.Some? ==> cell == Some(Key(r.value))
  {
    match cell
    case None => None
    case Some(key) =>
      if PropertyOf(key).Some? then PropertyOf(key) else None
  }

  /** The `readNextInto` loop of `getProperties()`: a row whose first cell is a
      property key puts its second cell, null or not, for that property; a row
      too narrow for the cells read overflows the array. */
  function PropertiesFromRows(rows: seq<Row>, acc: map<DynamicProperty, Option<string>>): (r: Result<map<DynamicProperty, Option<string>>, Exception>)
    ensures r.Err? ==> r.error == IndexOutOfBounds(0) || r.error == IndexOutOfBounds(1)
    ensures KeyValueRows(rows) ==> r.Ok?
    decreases |rows|
  {
    if |rows| == 0 then Ok(acc)
    else
      var row := rows[0];
      if |row| == 0 then Err(IndexOutOfBounds(0))
      else
        match PropertyOfCell(row[0])
        case None => PropertiesFromRows(rows[1..], acc)
        case Some(p) =>
          if |row| < 2 then Err(IndexOutOfBounds(1))
          else PropertiesFromRows(rows[1..], acc[p := row[1]])
  }

  /** The query `dbProperties()` runs: the connection string then every
      property key. */
  function DbPropertiesQuery(connectionString: string): (q: Query)
    ensures q.procedure == "DbProperties.vbs"
    ensures |q.parameters| == 5 && q.parameters[0] == connectionString && q.parameters[1..] == PropertyKeys()
  {
    Query("DbProperties.vbs", [connectionString] + PropertyKeys())
  }

  /** `getProperties()`: the properties are loaded on first use and kept; a
      failed load leaves the context as it was. */
  function GetProperties(c: Context, exec: Exec): (r: (Context, Result<map<DynamicProperty, Option<string>>, Exception>))
    ensures r.0.connectionString == c.connectionString && r.0.creation == c.creation
    ensures r.1.Err? ==> r.0 == c
    ensures r.1.Ok? ==> r.0.lazyProperties == Some(r.1.value)
    ensures c.lazyProperties.Some? ==> r == (c, Ok(c.lazyProperties.value))
    ensures c.lazyProperties.None? && exec(DbPropertiesQuery(c.connectionString)).Err? ==>
              r == (c, Err(exec(DbPropertiesQuery(c.connectionString)).error))
    ensures c.lazyProperties.None? && exec(DbPropertiesQuery(c.connectionString)).Ok? ==>
              r.1 == PropertiesFromRows(exec(DbPropertiesQuery(c.connectionString)).value, map[])
  {
    match c.lazyProperties
    case Some(properties) => (c, Ok(properties))
    case None =>
      match exec(DbPropertiesQuery(c.connectionString))
      case Err(e) => (c, Err(e))
      case Ok(rows) =>
        match PropertiesFromRows(rows, map[])
        case Err(e) => (c, Err(e))
        case Ok(properties) => (c.(lazyProperties := Some(properties)), Ok(properties))
  }

  /** `getProperty(property)`: null when the property is absent or was
      listed with a null value. */
  function GetProperty(c: Context, exec: Exec, property: Option<DynamicProperty>): (r: (Context, Result<Option<string>, Exception>))
    ensures property.None? ==> r == (c, Err(RequireNonNullFailure()))
    ensures property.Some? ==> r.0 == GetProperties(c, exec).0
    ensures property.Some? && GetProperties(c, exec).1.Err? ==> r.1 == Err(GetProperties(c, exec).1.error)
    ensures property.Some? && GetProperties(c, exec).1.Ok? ==>
              var m := GetProperties(c, exec).1.value;
              r.1 == Ok(if property.value in m then m[property.value] else None)
  {
    match property
    case None => (c, Err(RequireNonNullFailure()))
    case Some(p) =>
      var (next, properties) := GetProperties(c, exec);
      match properties
      case Err(e) => (next, Err(e))
      case Ok(m) => (next, Ok(if p in m then m[p] else None))
  }

  /** Once the properties are loaded, the context never runs the query again:
      any executor gives the same answers, and the context stays as it is. */
  lemma PropertiesLoadedOnce(c: Context, exec: Exec, other: Exec, p: DynamicProperty)
    requires GetProperties(c, exec).1.Ok?
    ensures var loaded := GetProperties(c, exec).0;
      GetProperty(loaded, other, Some(p)) == (loaded, GetProperty(c, exec, Some(p)).1)
  {
  }

  /** `getIdentifierCaseType()`. */
  function GetIdentifierCaseType(c: Context, exec: Exec): (r: (Context, Result<Option<IdentifierCaseType>, Exception>))
    ensures r.0 == GetProperty(c, exec, Some(IDENTIFIER_CASE_SENSITIVITY)).0
    ensures GetProperty(c, exec, Some(IDENTIFIER_CASE_SENSITIVITY)).1.Err? ==>
              r.1 == Err(GetProperty(c, exec, Some(IDENTIFIER_CASE_SENSITIVITY)).1.error)
    ensures GetProperty(c, exec, Some(IDENTIFIER_CASE_SENSITIVITY)).1.Ok? ==>
              r.1 == ParseIdentifierCaseType(GetProperty(c, exec, Some(IDENTIFIER_CASE_SENSITIVITY)).1.value)
  {
    var (next, property) := GetProperty(c, exec, Some(IDENTIFIER_CASE_SENSITIVITY));
    match property
    case Err(e) => (next, Err(e))
    case Ok(text) => (next, ParseIdentifierCaseType(text))
  }

  /** `getStringFunctions()`, in declaration order. */
  function GetStringFunctions(c: Context, exec: Exec): (r: (Context, Result<seq<SqlStringFunction>, Exception>))
    ensures r.0 == GetProperty(c, exec, Some(STRING_FUNCTIONS)).0
    ensures GetProperty(c, exec, Some(STRING_FUNCTIONS)).1.Err? ==>
              r.1 == Err(GetProperty(c, exec, Some(STRING_FUNCTIONS)).1.error)
    ensures GetProperty(c, exec, Some(STRING_FUNCTIONS)).1.Ok? ==>
              r.1 == ParseStringFunctions(GetProperty(c, exec, Some(STRING_FUNCTIONS)).1.value)
  {
    var (next, property) := GetProperty(c, exec, Some(STRING_FUNCTIONS));
    match property
    case Err(e) => (next, Err(e))
    case Ok(text) => (next, ParseStringFunctions(text))
  }

  /** The query `preparedStatement(sql, parameters)` runs. */
  function PreparedStatementQuery(c: Context, sql: string, parameters: seq<string>): (q: Query)
    ensures q.procedure == "PreparedStatement.vbs"
    ensures |q.parameters| == 2 + |parameters|
    ensures q.parameters[0] == c.connectionString && q.parameters[1] == sql && q.parameters[2..] == parameters
  {
    Query("PreparedStatement.vbs", [c.connectionString, sql] + parameters)
  }

  /** The query `openSchema(catalog, schemaPattern, tableNamePattern, types)`
      runs. */
  function OpenSchemaQuery(c: Context, catalog: Option<string>, schemaPattern: Option<string>,
                           tableNamePattern: Option<string>, types: Option<seq<string>>): (q: Query)
    ensures q.procedure == "OpenSchema.vbs"
    ensures |q.parameters| >= 4 && q.parameters[0] == c.connectionString
    ensures q.parameters[1] == (if catalog.Some? then catalog.value else EMPTY_ARG)
    ensures q.parameters[4..] == (if types.Some? then types.value else [])
  {
    Query("OpenSchema.vbs", OpenSchemaParameters(c.connectionString, catalog, schemaPattern, tableNamePattern, types))
  }

  // ---------------------------------------------------------------------------
  // Reading back a written property listing

  /** Each property read from rows of two cells or more holds the value cell of
      the last row keyed by it, or its earlier value when no row is. */
  lemma {:induction false} PropertiesFromRowsLast(rows: seq<Row>, acc: map<DynamicProperty, Option<string>>, p: DynamicProperty)
    requires KeyValueRows(rows)
    ensures PropertiesFromRows(rows, acc).Ok?
    ensures var m := PropertiesFromRows(rows, acc).value;
      (p in m <==> p in acc || LastValue(rows, Some(Key(p))).Some?) &&
      (LastValue(rows, Some(Key(p))).Some? ==> m[p] == LastValue(rows, Some(Key(p))).value) &&
      (LastValue(rows, Some(Key(p))).None? && p in acc ==> m[p] == acc[p])
    decreases |rows|
  {
    if |rows| > 0 {
      var row := rows[0];
      assert KeyValueRows(rows[1..]) by {
        forall k | 0 <= k < |rows[1..]| ensures |rows[1..][k]| >= 2 {
          assert rows[1..][k] == rows[k + 1];
        }
      }
      PropertyOfKey(p);
      match PropertyOfCell(row[0])
      case None =>
        PropertiesFromRowsLast(rows[1..], acc, p);
      case Some(q) =>
        if q != p {
          assert Key(q) != Key(p) by {
            if Key(q) == Key(p) { KeyInjective(q, p); }
          }
        }
        PropertiesFromRowsLast(rows[1..], acc[q := row[1]], p);
    }
  }

  /** A fresh context loads a property listing as the value cell of the last
      row of each property key. */
  lemma LoadListedProperties(c: Context, exec: Exec, rows: seq<Row>)
    requires c.lazyProperties.None? && KeyValueRows(rows)
    requires exec(DbPropertiesQuery(c.connectionString)) == Ok(rows)
    ensures GetProperties(c, exec).1.Ok?
    ensures forall p :: GetProperty(c, exec, Some(p)).1 ==
              Ok(if LastValue(rows, Some(Key(p))).Some? then LastValue(rows, Some(Key(p))).value else None)
  {
    forall p ensures GetProperty(c, exec, Some(p)).1 ==
              Ok(if LastValue(rows, Some(Key(p))).Some? then LastValue(rows, Some(Key(p))).value else None)
    {
      PropertiesFromRowsLast(rows, map[], p);
    }
  }
}

=== FILE: lhod_context_pool.dfy ===
/** `LhodContextPool`: contexts handed back after use are kept for reuse by a
    later request on the same connection string, for as long as they are
    younger than the time-to-live. Instants and durations are integers on one
    clock; the clock reading of each call is a parameter. */
module LhodContextPool {
  import opened Wrappers
  import opened LhodContext

  /** The pool: its time-to-live and the recycled contexts, oldest first. */
  datatype Pool = Pool(ttl: int, recycled: seq<Context>)

  /** `isValid(context, now)`: the context expires at its creation plus the
      time-to-live, and is valid strictly before that instant. */
  predicate IsValid(ttl: int, context: Context, now: int) {
    context.creation + ttl > now
  }

  /** The position of the first context of `connectionString` still valid
      at `now`: the one `getOrCreate` hands out. */
  function FirstMatch(ttl: int, contexts: seq<Context>, now: int, connectionString: string): (r: Option<nat>)
    ensures r.Some? ==> r.value < |contexts| && IsValid(ttl, contexts[r.value], now) &&
                        contexts[r.value].connectionString == connectionString
    ensures r.Some? ==> forall i :: 0 <= i < r.value && IsValid(ttl, contexts[i], now) ==>
                          contexts[i].connectionString != connectionString
    ensures r.None? ==> forall i :: 0 <= i < |contexts| && IsValid(ttl, contexts[i], now) ==>
                          contexts[i].connectionString != connectionString
    decreases |contexts|
  {
    if |contexts| == 0 then None
    else if IsValid(ttl, contexts[0], now) && contexts[0].connectionString == connectionString then Some(0)
    else
      var later := FirstMatch(ttl, contexts[1..], now, connectionString);
      if later.Some? then
        assert forall i :: 0 < i <= later.value ==> contexts[i] == contexts[1..][i - 1];
        Some(later.value + 1)
      else
        assert forall i :: 0 < i < |contexts| ==> contexts[i] == contexts[1..][i - 1];
        None
  }

  /** The contexts still valid at `now`, in order. */
  function Valid(ttl: int, contexts: seq<Context>, now: int): (r: seq<Context>)
    ensures forall c :: c in r <==> c in contexts && IsValid(ttl, c, now)
    ensures |r| <= |contexts|
    decreases |contexts|
  {
    if |contexts| == 0 then []
    else if IsValid(ttl, contexts[0], now) then [contexts[0]] + Valid(ttl, contexts[1..], now)
    else Valid(ttl, contexts[1..], now)
  }

  /** The iterator loop of `getOrCreate`: the contexts left and the one taken. */
  function Scan(ttl: int, contexts: seq<Context>, now: int, connectionString: string): (r: (seq<Context>, Option<Context>))
    decreases |contexts|
  {
    if |contexts| == 0 then ([], None)
    else
      var head := contexts[0];
      if !IsValid(ttl, head, now) then Scan(ttl, contexts[1..], now, connectionString)
      else if head.connectionString == connectionString then (contexts[1..], Some(head))
      else
        var (kept, found) := Scan(ttl, contexts[1..], now, connectionString);
        ([head] + kept, found)
  }

  /** What the loop leaves and takes, given where the first match is. */
  predicate ScanAgrees(ttl: int, contexts: seq<Context>, now: int, connectionString: string) {
    var m := FirstMatch(ttl, contexts, now, connectionString);
    Scan(ttl, contexts, now, connectionString) ==
      if m.None? then (Valid(ttl, contexts, now), None)
      else (Valid(ttl, contexts[..m.value], now) + contexts[m.value + 1..], Some(contexts[m.value]))
  }

  /** The loop drops the expired contexts it meets before the first match,
      takes the match out, and leaves the contexts after it untouched; with no
      match, it keeps exactly the valid contexts. */
  lemma {:induction false} ScanTakesFirstMatch(ttl: int, contexts: seq<Context>, now: int, connectionString: string)
    ensures var m := FirstMatch(ttl, contexts, now, connectionString);
      Scan(ttl, contexts, now, connectionString) ==
        if m.None? then (Valid(ttl, contexts, now), None)
        else (Valid(ttl, contexts[..m.value], now) + contexts[m.value + 1..], Some(contexts[m.value]))
    decreases |contexts|
  {
    if |contexts| > 0 {
      var head := contexts[0];
      if IsValid(ttl, head, now) && head.connectionString == connectionString {
        ScanHeadMatches(ttl, contexts, now, connectionString);
      } else {
        ScanTakesFirstMatch(ttl, contexts[1..], now, connectionString);
        ScanHeadSkipped(ttl, contexts, now, connectionString);
      }
    }
  }

  lemma ScanHeadMatches(ttl: int, contexts: seq<Context>, now: int, connectionString: string)
    requires |contexts| > 0
    requires IsValid(ttl, contexts[0], now) && contexts[0].connectionString == connectionString
    ensures ScanAgrees(ttl, contexts, now, connectionString)
  {
    assert contexts[..0] == [];
    assert Valid(ttl, contexts[..0], now) + contexts[0 + 1..] == contexts[1..];
  }

  lemma ScanHeadSkipped(ttl: int, contexts: seq<Context>, now: int, connectionString: string)
    requires |contexts| > 0
    requires !(IsValid(ttl, contexts[0], now) && contexts[0].connectionString == connectionString)
    requires ScanAgrees(ttl, contexts[1..], now, connectionString)
    ensures ScanAgrees(ttl, contexts, now, connectionString)
  {
    var head := contexts[0];
    var tail := contexts[1..];
    ScanSkip(ttl, contexts, now, connectionString);
    var m := FirstMatch(ttl, tail, now, connectionString);
    if m.Some? {
      FirstMatchShift(ttl, contexts, now, connectionString, m.value);
      ScanLaterMatch(ttl, contexts, now, connectionString, m.value);
    } else {
      assert FirstMatch(ttl, contexts, now, connectionString) == None;
    }
  }

  lemma ScanLaterMatch(ttl: int, contexts: seq<Context>, now: int, connectionString: string, j: nat)
    requires j + 1 < |contexts|
    requires var tail := contexts[1..];
      Scan(ttl, tail, now, connectionString) == (Valid(ttl, tail[..j], now) + tail[j + 1..], Some(tail[j]))
    requires var rest := Scan(ttl, contexts[1..], now, connectionString);
      Scan(ttl, contexts, now, connectionString) ==
        ((if IsValid(ttl, contexts[0], now) then [contexts[0]] else []) + rest.0, rest.1)
    ensures Scan(ttl, contexts, now, connectionString) ==
              (Valid(ttl, contexts[..j + 1], now) + contexts[j + 2..], Some(contexts[j + 1]))
  {
    var tail := contexts[1..];
    var front: seq<Context> := if IsValid(ttl, contexts[0], now) then [contexts[0]] else [];
    ValidBeforeShift(ttl, contexts, now, j);
    var before := Valid(ttl, tail[..j], now);
    assert contexts[j + 2..] == tail[j + 1..];
    assert contexts[j + 1] == tail[j];
    assert front + (before + tail[j + 1..]) == (front + before) + tail[j + 1..];
  }

  lemma FirstMatchShift(ttl: int, contexts: seq<Context>, now: int, connectionString: string, j: nat)
    requires |contexts| > 0
    requires !(IsValid(ttl, contexts[0], now) && contexts[0].connectionString == connectionString)
    requires FirstMatch(ttl, contexts[1..], now, connectionString) == Some(j)
    ensures FirstMatch(ttl, contexts, now, connectionString) == Some(j + 1)
    ensures contexts[j + 1] == contexts[1..][j]
  {
  }

  lemma ValidBeforeShift(ttl: int, contexts: seq<Context>, now: int, j: nat)
    requires j + 1 < |contexts|
    ensures Valid(ttl, contexts[..j + 1], now) ==
              (if IsValid(ttl, contexts[0], now) then [contexts[0]] else []) + Valid(ttl, contexts[1..][..j], now)
  {
    ValidPrefixStep(ttl, contexts, j + 1, now);
    assert contexts[1..][..j + 1 - 1] == contexts[1..][..j];
  }

  /** One context of the loop that is not taken: kept when valid. */
  lemma ScanSkip(ttl: int, contexts: seq<Context>, now: int, connectionString: string)
    requires |contexts| > 0
    requires !(IsValid(ttl, contexts[0], now) && contexts[0].connectionString == connectionString)
    ensures var rest := Scan(ttl, contexts[1..], now, connectionString);
      Scan(ttl, contexts, now, connectionString) ==
        ((if IsValid(ttl, contexts[0], now) then [contexts[0]] else []) + rest.0, rest.1)
  {
    var rest := Scan(ttl, contexts[1..], now, connectionString);
    if !IsValid(ttl, contexts[0], now) {
      assert [] + rest.0 == rest.0;
    }
  }

  lemma ValidPrefixStep(ttl: int, contexts: seq<Context>, k: nat, now: int)
    requires 0 < k <= |contexts|
    ensures Valid(ttl, contexts[..k], now) ==
              (if IsValid(ttl, contexts[0], now) then [contexts[0]] else []) + Valid(ttl, contexts[1..][..k - 1], now)
  {
    assert contexts[..k][0] == contexts[0];
    assert contexts[..k][1..] == contexts[1..][..k - 1];
    if !IsValid(ttl, contexts[0], now) {
      assert [] + Valid(ttl, contexts[1..][..k - 1], now) == Valid(ttl, contexts[1..][..k - 1], now);
    }
  }

  /** `getOrCreate(executor, connectionString)` at instant `now`: the first
      recycled context of that connection string that is still valid, taken
      out of the pool along with the expired contexts before it; otherwise a
      fresh context created now, and the pool keeps only its valid contexts. */
  function GetOrCreate(pool: Pool, now: int, connectionString: string): (r: (Pool, Context))
    ensures r.0.ttl == pool.ttl
    ensures r.1.connectionString == connectionString
    ensures var m := FirstMatch(pool.ttl, pool.recycled, now, connectionString);
      if m.Some? then
        r == (Pool(pool.ttl, Valid(pool.ttl, pool.recycled[..m.value], now) + pool.recycled[m.value + 1..]), pool.recycled[m.value])
      else
        r == (Pool(pool.ttl, Valid(pool.ttl, pool.recycled, now)), Context(connectionString, now, None))
  {
    ScanTakesFirstMatch(pool.ttl, pool.recycled, now, connectionString);
    var (kept, found) := Scan(pool.ttl, pool.recycled, now, connectionString);
    match found
    case Some(c) => (Pool(pool.ttl, kept), c)
    case None => (Pool(pool.ttl, kept), Context(connectionString, now, None))
  }

  /** A reused context is valid, and the pool shrinks by at least that one. */
  lemma ReusedIsValid(pool: Pool, now: int, connectionString: string)
    requires FirstMatch(pool.ttl, pool.recycled, now, connectionString).Some?
    ensures var (next, c) := GetOrCreate(pool, now, connectionString);
      IsValid(pool.ttl, c, now) && c in pool.recycled && |next.recycled| < |pool.recycled|
  {
    var k := FirstMatch(pool.ttl, pool.recycled, now, connectionString).value;
    assert |Valid(pool.ttl, pool.recycled[..k], now)| <= k;
  }

  /** `recycle(context)` at instant `now`: a valid context is appended; an
      expired one is dropped. */
  function Recycle(pool: Pool, now: int, context: Context): (r: Pool)
    ensures r.ttl == pool.ttl
    ensures IsValid(pool.ttl, context, now) ==> r.recycled == pool.recycled + [context]
    ensures !IsValid(pool.ttl, context, now) ==> r == pool
  {
    if IsValid(pool.ttl, context, now) then Pool(pool.ttl, pool.recycled + [context]) else pool
  }

  /** A context recycled while valid is the one the next request for its
      connection string gets back, at any instant it is still valid, when the
      pool held no other valid context of that connection string. */
  lemma RecycledIsReused(pool: Pool, context: Context, now: int, later: int)
    requires IsValid(pool.ttl, context, now) && IsValid(pool.ttl, context, later)
    requires FirstMatch(pool.ttl, pool.recycled, later, context.connectionString).None?
    ensures GetOrCreate(Recycle(pool, now, context), later, context.connectionString) ==
              (Pool(pool.ttl, Valid(pool.ttl, pool.recycled, later)), context)
  {
    var contexts := pool.recycled + [context];
    var m := FirstMatch(pool.ttl, contexts, later, context.connectionString);
    var k := |pool.recycled|;
    assert contexts[k] == context;
    forall i | 0 <= i < k && IsValid(pool.ttl, contexts[i], later)
      ensures contexts[i].connectionString != context.connectionString
    {
      assert contexts[i] == pool.recycled[i];
    }
    assert m == Some(k) by {
      if m.None? {
        assert false;
      } else if m.value < k {
        assert false;
      }
    }
    assert contexts[..k] == pool.recycled;
    assert contexts[k + 1..] == [];
    assert Valid(pool.ttl, contexts[..k], later) + contexts[k + 1..] == Valid(pool.ttl, pool.recycled, later);
    var recycled := Recycle(pool, now, context);
    assert recycled == Pool(pool.ttl, contexts);
    assert GetOrCreate(recycled, later, context.connectionString) ==
             (Pool(pool.ttl, Valid(pool.ttl, contexts[..k], later) + contexts[k + 1..]), contexts[k]);
  }

  /** A context recycled once it has expired is never handed out again: the
      pool is unchanged. */
  lemma ExpiredNotRecycled(pool: Pool, context: Context, now: int)
    requires !IsValid(pool.ttl, context, now)
    ensures Recycle(pool, now, context) == pool
  {
  }
}

=== FILE: lhod_database_metadata.dfy ===
/** `LhodDatabaseMetaData`: what an LHOD connection tells about its database.
    Every request first checks that the connection is open; the answers that
    come from the dynamic properties go through the connection's property
    cache, so they return the connection as it is after the call. A script
    failure is reported as `TabDataRemoteError`'s own message and number, any
    other I/O failure as a message naming the connection string. */
module LhodDatabaseMetaData {
  import opened Wrappers
  import opened Exceptions
  import opened JavaLang
  import opened JdbcUtil
  import opened TabDataReader
  import opened LhodCommon
  import LhodConnection

  type Connection = LhodConnection.Connection

  /** `LhodDatabaseMetaData.of(conn)`: a null connection fails Lombok's check. */
  function Of(conn: Option<Connection>): (r: Result<Connection, Exception>)
    ensures conn.None? ==> r == Err(NonNullViolation("conn"))
    ensures conn.Some? ==> r == Ok(conn.value)
  {
    match conn
    case None => Err(NonNullViolation("conn"))
    case Some(c) => Ok(c)
  }

  // ---------------------------------------------------------------------------
  // Identifier case

  function CaseTypeMessage(c: Connection): string {
    "Failed to get identifier case type of '" + c.connectionString + "'"
  }

  /** `getIdentifierCaseType()`: the identifier case property parsed; none when
      it is absent or names no known type. */
  function IdentifierCaseTypeOf(c: Connection): (r: (Connection, Result<Option<IdentifierCaseType>, Exception>))
    ensures r.0 == LhodConnection.GetProperty(c, Some(IDENTIFIER_CASE_SENSITIVITY)).0
    ensures LhodConnection.GetProperty(c, Some(IDENTIFIER_CASE_SENSITIVITY)).1.Err? ==>
              r.1 == Err(LhodConnection.GetProperty(c, Some(IDENTIFIER_CASE_SENSITIVITY)).1.error)
    ensures LhodConnection.GetProperty(c, Some(IDENTIFIER_CASE_SENSITIVITY)).1.Ok? ==>
              r.1 == ParseIdentifierCaseType(LhodConnection.GetProperty(c, Some(IDENTIFIER_CASE_SENSITIVITY)).1.value)
  {
    var (next, property) := LhodConnection.GetProperty(c, Some(IDENTIFIER_CASE_SENSITIVITY));
    match property
    case Err(e) => (next, Err(e))
    case Ok(text) => (next, ParseIdentifierCaseType(text))
  }

  /** `storesUpperCaseIdentifiers()`, `storesLowerCaseIdentifiers()` and
      `storesMixedCaseIdentifiers()`, for the case type `t` each asks about:
      true exactly when the property is the integer value of `t`. */
  function StoresIdentifiers(c: Connection, t: IdentifierCaseType): (r: (Connection, Result<bool, Exception>))
    ensures LhodConnection.CheckState(c).Err? ==> r == (c, Err(LhodConnection.CheckState(c).error))
    ensures r.0.executor == c.executor && r.0.connectionString == c.connectionString
    ensures var p := LhodConnection.GetProperty(c, Some(IDENTIFIER_CASE_SENSITIVITY)).1;
      r.1.Ok? ==> p.Ok? && (r.1.value <==> p.value.Some? && ParseInt(p.value.value) == Some(CaseValue(t)))
    ensures var p := LhodConnection.GetProperty(c, Some(IDENTIFIER_CASE_SENSITIVITY)).1;
      LhodConnection.CheckState(c).Ok? ==>
        (r.1.Ok? <==> p.Ok? && (p.value.None? || ParseInt(p.value.value).Some?))
    ensures LhodConnection.CheckState(c).Ok? && r.1.Err? ==>
              r.1.error == LhodConnection.Rethrow(IdentifierCaseTypeOf(c).1.error, CaseTypeMessage(c))
  {
    match LhodConnection.CheckState(c)
    case Err(e) => (c, Err(e))
    case Ok(_) =>
      CaseTypeRoundTrip(t);
      var (next, caseType) := IdentifierCaseTypeOf(c);
      match caseType
      case Err(e) => (next, Err(LhodConnection.Rethrow(e, CaseTypeMessage(c))))
      case Ok(found) => (next, Ok(found == Some(t)))
  }

  function StoresUpperCaseIdentifiers(c: Connection): (Connection, Result<bool, Exception>) {
    StoresIdentifiers(c, UPPER)
  }

  function StoresLowerCaseIdentifiers(c: Connection): (Connection, Result<bool, Exception>) {
    StoresIdentifiers(c, LOWER)
  }

  function StoresMixedCaseIdentifiers(c: Connection): (Connection, Result<bool, Exception>) {
    StoresIdentifiers(c, MIXED)
  }

  /** With the identifier case property loaded as the value of case type `t`,
      or absent when `t` is none, each question is answered yes exactly for
      `t`: a case-sensitive database answers no to all three. */
  lemma StoresWrittenCase(c: Connection, m: map<DynamicProperty, string>, t: Option<IdentifierCaseType>, u: IdentifierCaseType)
    requires LhodConnection.CheckState(c).Ok? && c.lazyProperties == Some(m)
    requires LhodConnection.Lookup(m, IDENTIFIER_CASE_SENSITIVITY) ==
               (if t.Some? then Some(IntToString(CaseValue(t.value))) else None)
    ensures StoresIdentifiers(c, u) == (c, Ok(t == Some(u)))
  {
    if t.Some? {
      IdentifierCaseTypeRoundTrip(t.value);
    }
  }

  // ---------------------------------------------------------------------------
  // Constant answers

  /** `getIdentifierQuoteString()`: null, identifiers are never quoted. */
  function GetIdentifierQuoteString(c: Connection): (r: Result<Option<string>, Exception>)
    ensures r.Ok? <==> LhodConnection.CheckState(c).Ok?
    ensures r.Ok? ==> r.value.None?
    ensures r.Err? ==> r.error == LhodConnection.CheckState(c).error
  {
    match LhodConnection.CheckState(c)
    case Err(e) => Err(e)
    case Ok(_) => Ok(None)
  }

  /** `getSQLKeywords()`: no keywords beyond SQL:2003. */
  function GetSQLKeywords(c: Connection): (r: Result<string, Exception>)
    ensures r.Ok? <==> LhodConnection.CheckState(c).Ok?
    ensures r.Ok? ==> r.value == ""
    ensures r.Err? ==> r.error == LhodConnection.CheckState(c).error
  {
    match LhodConnection.CheckState(c)
    case Err(e) => Err(e)
    case Ok(_) => Ok("")
  }

  /** `getConnection()`: the connection itself, while open. */
  function GetConnection(c: Connection): (r: Result<Connection, Exception>)
    ensures r.Ok? <==> LhodConnection.CheckState(c).Ok?
    ensures r.Ok? ==> r.value == c
    ensures r.Err? ==> r.error == LhodConnection.CheckState(c).error
  {
    LhodConnection.OnOpen(c)
  }

  /** `isReadOnly()`: what the connection answers, which is always yes. */
  function IsReadOnly(c: Connection): (r: Result<bool, Exception>)
    ensures r.Ok? <==> LhodConnection.CheckState(c).Ok?
    ensures r.Ok? ==> r.value && r == LhodConnection.IsReadOnly(c)
    ensures r.Err? ==> r.error == LhodConnection.CheckState(c).error
  {
    match LhodConnection.CheckState(c)
    case Err(e) => Err(e)
    case Ok(_) => LhodConnection.IsReadOnly(c)
  }

  // ---------------------------------------------------------------------------
  // String functions

  function StringFunctionsMessage(c: Connection): string {
    "Failed to get string functions of '" + c.connectionString + "'"
  }

  function Labels(fs: seq<SqlStringFunction>): seq<string> {
    seq(|fs|, i requires 0 <= i < |fs| => Label(fs[i]))
  }

  /** `Collectors.joining(",")`: nothing for no pieces. */
  function Joining(pieces: seq<string>): string {
    if |pieces| == 0 then "" else Join(',', pieces)
  }

  /** `getStringFunctions()`: the labels of the functions whose bit is set in
      the string functions property, in natural order, joined by commas. The
      answer splits back into exactly those labels, sorted. */
  function GetStringFunctions(c: Connection): (r: (Connection, Result<string, Exception>))
    ensures LhodConnection.CheckState(c).Err? ==> r == (c, Err(LhodConnection.CheckState(c).error))
    ensures r.0.executor == c.executor && r.0.connectionString == c.connectionString
    ensures var p := LhodConnection.GetProperty(c, Some(STRING_FUNCTIONS)).1;
      LhodConnection.CheckState(c).Ok? && p.Err? ==>
        r.1 == Err(LhodConnection.Rethrow(p.error, StringFunctionsMessage(c)))
    ensures var p := LhodConnection.GetProperty(c, Some(STRING_FUNCTIONS)).1;
      LhodConnection.CheckState(c).Ok? && p.Ok? && ParseStringFunctions(p.value).Err? ==>
        r.1 == Err(SqlErrorCausedBy(StringFunctionsMessage(c), ParseStringFunctions(p.value).error))
    ensures var p := LhodConnection.GetProperty(c, Some(STRING_FUNCTIONS)).1;
      LhodConnection.CheckState(c).Ok? && p.Ok? && ParseStringFunctions(p.value).Ok? ==>
        var fs := ParseStringFunctions(p.value).value;
        r.1.Ok? && (r.1.value == "" <==> |fs| == 0) &&
        (|fs| > 0 ==> SortedStrings(Split(',', r.1.value)) &&
                      multiset(Split(',', r.1.value)) == multiset(Labels(fs)))
  {
    match LhodConnection.CheckState(c)
    case Err(e) => (c, Err(e))
    case Ok(_) =>
      var (next, property) := LhodConnection.GetProperty(c, Some(STRING_FUNCTIONS));
      match property
      case Err(e) => (next, Err(LhodConnection.Rethrow(e, StringFunctionsMessage(c))))
      case Ok(text) =>
        match ParseStringFunctions(text)
        case Err(e) => (next, Err(LhodConnection.Rethrow(e, StringFunctionsMessage(c))))
        case Ok(fs) =>
          var sorted := Sort(Labels(fs));
          JoiningSplits(sorted, fs);
          (next, Ok(Joining(sorted)))
  }

  /** No label is empty or holds a comma. */
  lemma LabelIsPiece(f: SqlStringFunction)
    ensures |Label(f)| > 0 && ',' !in Label(f)
  {
  }

  /** Joined by commas, a permutation of labels splits back into itself, and
      is empty only when there is no label. */
  lemma JoiningSplits(sorted: seq<string>, fs: seq<SqlStringFunction>)
    requires multiset(sorted) == multiset(Labels(fs))
    ensures Joining(sorted) == "" <==> |fs| == 0
    ensures |fs| > 0 ==> Split(',', Joining(sorted)) == sorted
  {
    if |fs| > 0 {
      assert |sorted| == |fs| by {
        assert |multiset(sorted)| == |sorted| && |multiset(Labels(fs))| == |Labels(fs)|;
      }
      forall k | 0 <= k < |sorted| ensures |sorted[k]| > 0 && ',' !in sorted[k] {
        assert sorted[k] in multiset(Labels(fs));
        var i :| 0 <= i < |fs| && Labels(fs)[i] == sorted[k];
        LabelIsPiece(fs[i]);
      }
      SplitJoin(',', sorted);
    }
  }

  /** With the string functions property loaded as the mask of a set of
      functions, the answer lists exactly the labels of that set, sorted;
      the empty set gives the empty string. */
  lemma StringFunctionsOfWrittenMask(c: Connection, m: map<DynamicProperty, string>, fs: set<SqlStringFunction>)
    requires LhodConnection.CheckState(c).Ok? && c.lazyProperties == Some(m)
    requires LhodConnection.Lookup(m, STRING_FUNCTIONS) == Some(IntToString(MaskOf(fs)))
    ensures GetStringFunctions(c).1.Ok?
    ensures var s := GetStringFunctions(c).1.value;
      (s == "" <==> fs == {}) &&
      (fs != {} ==> SortedStrings(Split(',', s)) &&
                    forall x :: x in Split(',', s) <==> exists f :: f in fs && Label(f) == x)
  {
    ParseIntToString(MaskOf(fs));
    var listed := StringFunctionsOf(MaskOf(fs));
    assert LhodConnection.GetProperty(c, Some(STRING_FUNCTIONS)).1 == Ok(Some(IntToString(MaskOf(fs))));
    assert ParseStringFunctions(Some(IntToString(MaskOf(fs)))) == Ok(listed);
    var s := GetStringFunctions(c).1.value;
    ListedLabels(fs, Split(',', s));
  }

  /** The labels listed for the mask of a set of functions are those of the
      set. */
  lemma ListedLabels(fs: set<SqlStringFunction>, pieces: seq<string>)
    ensures var listed := StringFunctionsOf(MaskOf(fs));
      (|listed| == 0 <==> fs == {}) &&
      (multiset(pieces) == multiset(Labels(listed)) ==>
         forall x :: x in pieces <==> exists f :: f in fs && Label(f) == x)
  {
    StringFunctionsRoundTrip(fs);
    LabelsOfMembers(StringFunctionsOf(MaskOf(fs)), fs, pieces);
  }

  lemma LabelsOfMembers(listed: seq<SqlStringFunction>, fs: set<SqlStringFunction>, pieces: seq<string>)
    requires forall f :: f in listed <==> f in fs
    ensures |listed| == 0 <==> fs == {}
    ensures multiset(pieces) == multiset(Labels(listed)) ==>
              forall x :: x in pieces <==> exists f :: f in fs && Label(f) == x
  {
    if |listed| > 0 {
      assert listed[0] in fs;
    }
    if fs != {} {
      var f0 :| f0 in fs;
      assert f0 in listed;
    }
    if multiset(pieces) == multiset(Labels(listed)) {
      forall x ensures x in pieces <==> exists f :: f in fs && Label(f) == x {
        if x in pieces {
          assert x in multiset(Labels(listed));
          var i :| 0 <= i < |listed| && Labels(listed)[i] == x;
          assert listed[i] in fs;
        }
        if f :| f in fs && Label(f) == x {
          var i :| 0 <= i < |listed| && listed[i] == f;
          assert Labels(listed)[i] == x;
          assert x in multiset(pieces);
        }
      }
    }
  }

  // ---------------------------------------------------------------------------
  // Extra name characters

  function ExtraNameCharactersMessage(c: Connection): string {
    "Failed to get extra name chars of '" + c.connectionString + "'"
  }

  /** `getExtraNameCharacters()`: the special characters property, null when
      absent. */
  function GetExtraNameCharacters(c: Connection): (r: (Connection, Result<Option<string>, Exception>))
    ensures LhodConnection.CheckState(c).Err? ==> r == (c, Err(LhodConnection.CheckState(c).error))
    ensures var g := LhodConnection.GetProperty(c, Some(SPECIAL_CHARACTERS));
      LhodConnection.CheckState(c).Ok? ==>
        r.0 == g.0 &&
        (g.1.Ok? ==> r.1 == g.1) &&
        (g.1.Err? ==> r.1 == Err(LhodConnection.Rethrow(g.1.error, ExtraNameCharactersMessage(c))))
  {
    match LhodConnection.CheckState(c)
    case Err(e) => (c, Err(e))
    case Ok(_) =>
      var (next, property) := LhodConnection.GetProperty(c, Some(SPECIAL_CHARACTERS));
      match property
      case Err(e) => (next, Err(LhodConnection.Rethrow(e, ExtraNameCharactersMessage(c))))
      case Ok(value) => (next, Ok(value))
  }

  /** An open connection that has not loaded its properties answers with the
      value of the last special characters row of a two-column listing. */
  lemma ExtraNameCharactersOfListing(c: Connection, columns: seq<Column>, rows: seq<Line>)
    requires LhodConnection.CheckState(c).Ok? && c.lazyProperties.None?
    requires |columns| == 2 && Writable(columns, rows)
    requires c.executor.reply(LhodConnection.DbPropertiesQuery(c.connectionString)) == Ok(Reply(columns, rows))
    ensures KeyValueRows(PresentRows(rows))
    ensures var last := LastValue(PresentRows(rows), Some(Key(SPECIAL_CHARACTERS)));
      GetExtraNameCharacters(c).1 == Ok(if last.Some? then last.value else None)
  {
    LhodConnection.LoadWrittenProperties(c, columns, rows);
  }

  // ---------------------------------------------------------------------------
  // Tables

  /** `String.format("%s", s)`: null prints as `null`. */
  function Formatted(s: Option<string>): string {
    if s.Some? then s.value else "null"
  }

  /** The items of `Arrays.toString(array)`, separated by a comma and a space. */
  function CommaSpaced(items: seq<string>): string
    decreases |items|
  {
    if |items| == 0 then ""
    else if |items| == 1 then items[0]
    else items[0] + ", " + CommaSpaced(items[1..])
  }

  /** `Arrays.toString(types)`, or null for a null array. */
  function TypesText(types: Option<seq<string>>): Option<string> {
    if types.Some? then Some("[" + CommaSpaced(types.value) + "]") else None
  }

  function TablesMessage(c: Connection, catalog: Option<string>, schemaPattern: Option<string>,
                         tableNamePattern: Option<string>, types: Option<seq<string>>): string {
    "Failed to list tables with catalog='" + Formatted(catalog) +
    "', schemaPattern='" + Formatted(schemaPattern) +
    "', tableNamePattern='" + Formatted(tableNamePattern) +
    "', types='" + Formatted(TypesText(types)) +
    "' of '" + c.connectionString + "'"
  }

  /** The query `getTables` runs. */
  function TablesQuery(c: Connection, catalog: Option<string>, schemaPattern: Option<string>,
                       tableNamePattern: Option<string>, types: Option<seq<string>>): (q: Query)
    ensures q.procedure == "OpenSchema"
    ensures q.parameters == OpenSchemaParameters(c.connectionString, catalog, schemaPattern, tableNamePattern, types)
  {
    Query("OpenSchema", OpenSchemaParameters(c.connectionString, catalog, schemaPattern, tableNamePattern, types))
  }

  /** `getTables(catalog, schemaPattern, tableNamePattern, types)`: the reply
      of the schema script, read as a result set. */
  function GetTables(c: Connection, catalog: Option<string>, schemaPattern: Option<string>,
                     tableNamePattern: Option<string>, types: Option<seq<string>>): (r: Result<Reader, Exception>)
    ensures LhodConnection.CheckState(c).Err? ==> r == Err(LhodConnection.CheckState(c).error)
    ensures var e := LhodConnection.Exec(c, TablesQuery(c, catalog, schemaPattern, tableNamePattern, types));
      LhodConnection.CheckState(c).Ok? ==>
        (e.Ok? ==> r == e) &&
        (e.Err? ==> r == Err(LhodConnection.Rethrow(e.error, TablesMessage(c, catalog, schemaPattern, tableNamePattern, types))))
  {
    match LhodConnection.CheckState(c)
    case Err(e) => Err(e)
    case Ok(_) =>
      var query := TablesQuery(c, catalog, schemaPattern, tableNamePattern, types);
      match LhodConnection.Exec(c, query)
      case Err(e) => Err(LhodConnection.Rethrow(e, TablesMessage(c, catalog, schemaPattern, tableNamePattern, types)))
      case Ok(reader) => Ok(reader)
  }
}

=== FILE: lhod_driver.dfy ===
/** `LhodDriver`: the JDBC driver of the `jdbc:lhod:` URLs. What follows the
    prefix is the connection string the scripts receive; connecting asks the
    script engine for an executor, which is passed in as the engine's answer. */
module LhodDriver {
  import opened Wrappers
  import opened Exceptions
  import opened JavaLang
  import LhodConnection

  const PREFIX: string := "jdbc:lhod:"

  /** `acceptsURL(url)`: the URL starts with the prefix, ignoring case. */
  function AcceptsURL(url: Option<string>): (r: Result<bool, Exception>)
    ensures url.None? ==> r == Err(SqlError("URL cannot be null"))
    ensures url.Some? ==> r.Ok?
    ensures url.Some? && r.value ==>
              |url.value| >= |PREFIX| && forall i :: 0 <= i < |PREFIX| ==> LowerChar(url.value[i]) == PREFIX[i]
    ensures url.Some? && |url.value| >= |PREFIX| && url.value[..|PREFIX|] == PREFIX ==> r == Ok(true)
  {
    match url
    case None => Err(SqlError("URL cannot be null"))
    case Some(u) => Ok(StartsWith(ToLower(u), PREFIX))
  }

  /** An accepted URL starts with a character that is not trimmed and keeps
      the whole prefix after trimming, so cutting the prefix off never fails. */
  lemma AcceptedTrim(url: string)
    requires AcceptsURL(Some(url)) == Ok(true)
    ensures Trim(url) == TrimEnd(url)
    ensures |Trim(url)| >= |PREFIX|
    ensures TrimEnd(url) == url[..|PREFIX|] + TrimEnd(url)[|PREFIX|..]
  {
    AcceptedEnds(url);
    TrimmedKeepsHead(url, |PREFIX|);
  }

  lemma TrimmedKeepsHead(url: string, n: nat)
    requires 0 < n <= |url| && !IsTrimmable(url[0]) && !IsTrimmable(url[n - 1])
    ensures Trim(url) == TrimEnd(url)
    ensures |TrimEnd(url)| >= n
    ensures TrimEnd(url) == url[..n] + TrimEnd(url)[n..]
  {
    assert TrimStart(url) == url;
    TrimEndKeeps(url, n - 1);
    var t := TrimEnd(url);
    assert t == t[..n] + t[n..];
  }

  /** The first and the last character of the prefix are not trimmed. */
  lemma AcceptedEnds(url: string)
    requires AcceptsURL(Some(url)) == Ok(true)
    ensures |url| >= |PREFIX| && !IsTrimmable(url[0]) && !IsTrimmable(url[|PREFIX| - 1])
  {
    assert LowerChar(url[0]) == 'j' && LowerChar(url[9]) == ':';
  }

  /** Trimming the end keeps everything up to a character that is not
      trimmed. */
  lemma TrimEndKeeps(s: string, k: nat)
    requires k < |s| && !IsTrimmable(s[k])
    ensures |TrimEnd(s)| > k && TrimEnd(s)[..k + 1] == s[..k + 1]
  {
  }

  /** `getConnectionString(url)`: the trimmed URL without its prefix. */
  function ConnectionStringOf(url: string): (r: string)
    requires AcceptsURL(Some(url)) == Ok(true)
    ensures TrimEnd(url) == url[..|PREFIX|] + r
  {
    AcceptedTrim(url);
    Trim(url)[|PREFIX|..]
  }

  /** `connect(url, info)`: no connection for a URL of another driver; a
      connection on a fresh executor otherwise, an I/O failure to get one
      reported with the URL. */
  function Connect(url: Option<string>, engine: Result<LhodConnection.Executor, Exception>): (r: Result<Option<LhodConnection.Connection>, Exception>)
    ensures url.None? ==> r == Err(SqlError("URL cannot be null"))
    ensures AcceptsURL(url) == Ok(false) ==> r == Ok(None)
    ensures AcceptsURL(url) == Ok(true) && engine.Err? && engine.error.IsIO() ==>
              r == Err(SqlErrorCausedBy("Cannot instantiate executor: '" + url.value + "'", engine.error))
    ensures AcceptsURL(url) == Ok(true) && engine.Err? && !engine.error.IsIO() ==> r == Err(engine.error)
    ensures AcceptsURL(url) == Ok(true) && engine.Ok? ==>
              r.Ok? && r.value.Some? && r.value.value.executor == engine.value &&
              r.value.value.lazyProperties.None? &&
              TrimEnd(url.value) == url.value[..|PREFIX|] + r.value.value.connectionString
  {
    match AcceptsURL(url)
    case Err(e) => Err(e)
    case Ok(accepted) =>
      if !accepted then Ok(None)
      else
        match engine
        case Err(e) =>
          if e.IsIO() then Err(SqlErrorCausedBy("Cannot instantiate executor: '" + url.value + "'", e)) else Err(e)
        case Ok(executor) => Ok(Some(LhodConnection.Connection(executor, ConnectionStringOf(url.value), None)))
  }

  /** `jdbcCompliant()`: the driver does not claim JDBC compliance. */
  function JdbcCompliant(): (r: bool)
    ensures !r
  {
    false
  }

  /** A connection string behind the prefix, written in any case and followed
      by any trimmed characters, is the one the connection gets, provided it
      does not itself end with a trimmed character. */
  lemma ConnectionStringRoundTrip(prefix: string, connectionString: string, padding: string,
                                  executor: LhodConnection.Executor)
    requires ToLower(prefix) == PREFIX
    requires AllTrimmable(padding)
    requires |connectionString| > 0 ==> !IsTrimmable(connectionString[|connectionString| - 1])
    ensures var url := prefix + connectionString + padding;
      Connect(Some(url), Ok(executor)) == Ok(Some(LhodConnection.Connection(executor, connectionString, None)))
  {
    var url := prefix + connectionString + padding;
    assert url == prefix + (connectionString + padding);
    PrefixAccepted(prefix, connectionString + padding);
    var kept := prefix + connectionString;
    TrimEndPadding(kept, padding);
    assert TrimEnd(url) == kept;
    var r := ConnectionStringOf(url);
    assert url[..|PREFIX|] == prefix;
    assert kept == prefix + r;
    assert r == kept[|prefix|..];
  }

  /** A URL that starts with the prefix, in any case, is accepted. */
  lemma PrefixAccepted(prefix: string, rest: string)
    requires ToLower(prefix) == PREFIX
    ensures AcceptsURL(Some(prefix + rest)) == Ok(true)
  {
    assert |prefix| == |PREFIX|;
    assert ToLower(prefix + rest)[..|PREFIX|] == ToLower(prefix);
  }

  /** Trimming the end of a string followed by trimmed characters removes
      exactly those characters when the string does not end with one. */
  lemma {:induction false} TrimEndPadding(s: string, padding: string)
    requires |s| > 0 && !IsTrimmable(s[|s| - 1])
    requires AllTrimmable(padding)
    ensures TrimEnd(s + padding) == s
    decreases |padding|
  {
    if |padding| == 0 {
      assert s + padding == s;
    } else {
      var shorter := padding[..|padding| - 1];
      assert (s + padding)[..|s + padding| - 1] == s + shorter;
      TrimEndPadding(s, shorter);
    }
  }

  /** A URL of another driver gives no connection, whatever the engine. */
  lemma OtherDriverIgnored(url: string, engine: Result<LhodConnection.Executor, Exception>)
    requires |url| < |PREFIX| || ToLower(url[..|PREFIX|]) != PREFIX
    ensures Connect(Some(url), engine) == Ok(None)
  {
    if |url| >= |PREFIX| {
      assert ToLower(url)[..|PREFIX|] == ToLower(url[..|PREFIX|]);
    }
  }
}

=== FILE: lhod_prepared_statement.dfy ===
/** `LhodPreparedStatement`: a statement whose `?` parameters are set one by
    one and sent, in index order, with the SQL text to the prepared statement
    script of its connection. */
module LhodPreparedStatement {
  import opened Wrappers
  import opened Exceptions
  import opened JavaLang
  import opened TabDataReader
  import opened LhodCommon
  import LhodConnection

  type Connection = LhodConnection.Connection

  /** The statement: its connection, its SQL text, the parameters set so far
      by index, and whether it was closed. */
  datatype Statement = Statement(conn: Connection, sql: string, parameters: map<int, string>, closed: bool)

  /** `LhodPreparedStatement.of(conn, sql)`: no parameter set, open; a null
      argument fails Lombok's check. */
  function Of(conn: Option<Connection>, sql: Option<string>): (r: Result<Statement, Exception>)
    ensures conn.None? ==> r == Err(NonNullViolation("conn"))
    ensures conn.Some? && sql.None? ==> r == Err(NonNullViolation("sql"))
    ensures r.Ok? <==> conn.Some? && sql.Some?
    ensures r.Ok? ==> r.value == Statement(conn.value, sql.value, map[], false)
  {
    if conn.None? then Err(NonNullViolation("conn"))
    else if sql.None? then Err(NonNullViolation("sql"))
    else Ok(Statement(conn.value, sql.value, map[], false))
  }

  /** `LhodConnection.prepareStatement(sql)`: only while the connection is open. */
  function Prepare(c: Connection, sql: Option<string>): (r: Result<Statement, Exception>)
    ensures LhodConnection.CheckState(c).Err? ==> r == Err(LhodConnection.CheckState(c).error)
    ensures LhodConnection.CheckState(c).Ok? ==> r == Of(Some(c), sql)
  {
    match LhodConnection.CheckState(c)
    case Err(e) => Err(e)
    case Ok(_) => Of(Some(c), sql)
  }

  /** `checkState()`: the connection first, then the statement itself. */
  function CheckState(s: Statement): (r: Result<(), Exception>)
    ensures r.Ok? <==> LhodConnection.CheckState(s.conn).Ok? && !s.closed
    ensures LhodConnection.CheckState(s.conn).Err? ==> r == Err(LhodConnection.CheckState(s.conn).error)
    ensures LhodConnection.CheckState(s.conn).Ok? && s.closed ==> r == Err(SqlError("PreparedStatement closed"))
  {
    match LhodConnection.CheckState(s.conn)
    case Err(e) => Err(e)
    case Ok(_) => if s.closed then Err(SqlError("PreparedStatement closed")) else Ok(())
  }

  /** `isClosed()`. */
  function IsClosed(s: Statement): (r: bool)
    ensures r <==> s.closed
  {
    s.closed
  }

  /** `close()`: closes the statement and never its connection; closing again
      changes nothing. */
  function Close(s: Statement): (r: Statement)
    ensures IsClosed(r) && r.conn == s.conn && r.sql == s.sql && r.parameters == s.parameters
  {
    s.(closed := true)
  }

  /** Closing twice is closing once. */
  lemma CloseIdempotent(s: Statement)
    ensures Close(Close(s)) == Close(s)
  {
  }

  /** A closed statement refuses every request that checks its state. */
  lemma ClosedStatementRefuses(s: Statement)
    ensures CheckState(Close(s)).Err?
    ensures LhodConnection.CheckState(s.conn).Ok? ==> CheckState(Close(s)).error == SqlError("PreparedStatement closed")
  {
  }

  /** `setString(parameterIndex, x)`: indexes start at 1; setting an index
      again replaces its value. */
  function SetString(s: Statement, parameterIndex: int, x: string): (r: Result<Statement, Exception>)
    ensures CheckState(s).Err? ==> r == Err(CheckState(s).error)
    ensures CheckState(s).Ok? && parameterIndex < 1 ==>
              r == Err(SqlError("Parameter index out of bounds: " + IntToString(parameterIndex)))
    ensures r.Ok? <==> CheckState(s).Ok? && parameterIndex >= 1
    ensures r.Ok? ==> r.value == s.(parameters := s.parameters[parameterIndex := x])
  {
    match CheckState(s)
    case Err(e) => Err(e)
    case Ok(_) =>
      if parameterIndex < 1 then Err(SqlError("Parameter index out of bounds: " + IntToString(parameterIndex)))
      else Ok(s.(parameters := s.parameters[parameterIndex := x]))
  }

  /** `getConnection()`. */
  function GetConnection(s: Statement): (r: Result<Connection, Exception>)
    ensures r.Ok? <==> CheckState(s).Ok?
    ensures r.Ok? ==> r.value == s.conn
    ensures r.Err? ==> r.error == CheckState(s).error
  {
    match CheckState(s)
    case Err(e) => Err(e)
    case Ok(_) => Ok(s.conn)
  }

  // ---------------------------------------------------------------------------
  // Parameters in index order

  predicate Increasing(keys: seq<int>) {
    forall i, j :: 0 <= i < j < |keys| ==> keys[i] < keys[j]
  }

  /** Every finite set of integers that is not empty has a least element. */
  lemma {:induction false} LeastExists(s: set<int>)
    requires s != {}
    ensures exists m :: m in s && forall x :: x in s ==> m <= x
    decreases |s|
  {
    var y := Pick(s);
    if s != {y} {
      LeastExists(s - {y});
      var m :| m in s - {y} && forall x :: x in s - {y} ==> m <= x;
      var least := if y < m then y else m;
      forall x | x in s ensures least <= x {
        if x != y {
          assert x in s - {y};
        }
      }
    } else {
      forall x | x in s ensures y <= x {
        assert x in {y};
      }
    }
  }

  lemma Pick(s: set<int>) returns (y: int)
    requires s != {}
    ensures y in s
  {
    assert exists x :: x in s by {
      if forall x :: x !in s {
        assert false;
      }
    }
    y :| y in s;
  }

  function Least(s: set<int>): (m: int)
    requires s != {}
    ensures m in s && forall x :: x in s ==> m <= x
  {
    LeastExists(s);
    var m :| m in s && forall x :: x in s ==> m <= x;
    m
  }

  /** The keys of a map in increasing order. */
  function SortedKeys(keys: set<int>): (r: seq<int>)
    ensures Increasing(r)
    ensures forall i :: 0 <= i < |r| ==> r[i] in keys
    ensures forall k :: k in r <==> k in keys
    ensures |r| == |keys|
    decreases |keys|
  {
    if keys == {} then []
    else
      var m := Least(keys);
      var rest := SortedKeys(keys - {m});
      assert forall i :: 0 <= i < |rest| ==> m < rest[i];
      [m] + rest
  }

  /** `getParameterList()`: the values set, ordered by their index. */
  function ParameterList(parameters: map<int, string>): (r: seq<string>)
    ensures |r| == |parameters.Keys|
    ensures var keys := SortedKeys(parameters.Keys);
      forall i :: 0 <= i < |r| ==> r[i] == parameters[keys[i]]
  {
    var keys := SortedKeys(parameters.Keys);
    seq(|keys|, i requires 0 <= i < |keys| => parameters[keys[i]])
  }

  /** Increasing keys that are exactly the integers `1` to `n` are
      `1, 2, ..., n`. */
  lemma KeysUpTo(keys: seq<int>, n: nat)
    requires Increasing(keys)
    requires forall k :: k in keys <==> 1 <= k <= n
    ensures |keys| == n
    ensures forall i :: 0 <= i < n ==> keys[i] == i + 1
  {
    forall i | 0 <= i < |keys| ensures keys[i] == i + 1 {
      KeyAt(keys, n, i);
    }
    if n > 0 {
      assert n in keys;
      var j :| 0 <= j < |keys| && keys[j] == n;
      KeyAt(keys, n, j);
    }
    if |keys| > 0 {
      KeyAt(keys, n, |keys| - 1);
      assert keys[|keys| - 1] in keys;
    }
  }

  lemma {:induction false} KeyAt(keys: seq<int>, n: nat, i: nat)
    requires Increasing(keys)
    requires forall k :: k in keys <==> 1 <= k <= n
    requires i < |keys|
    ensures keys[i] == i + 1
    decreases i
  {
    if i == 0 {
      assert keys[0] in keys;
      assert 1 in keys;
      var j :| 0 <= j < |keys| && keys[j] == 1;
    } else {
      KeyAt(keys, n, i - 1);
      assert keys[i] in keys;
      assert keys[i - 1] + 1 in keys;
      var j :| 0 <= j < |keys| && keys[j] == keys[i - 1] + 1;
    }
  }

  /** With the indexes `1` to `n` set, the list holds the value of each index
      at position index minus one, whatever order they were set in. */
  lemma ParametersInIndexOrder(parameters: map<int, string>, n: nat)
    requires forall k :: k in parameters <==> 1 <= k <= n
    ensures |ParameterList(parameters)| == n
    ensures forall i :: 0 <= i < n ==> ParameterList(parameters)[i] == parameters[i + 1]
  {
    var keys := SortedKeys(parameters.Keys);
    KeysUpTo(keys, n);
  }

  // ---------------------------------------------------------------------------
  // Execution

  /** The query `executeQuery()` runs: the connection string, the SQL text,
      then the parameters in index order. */
  function ExecuteQueryQuery(s: Statement): (q: Query)
    ensures q.procedure == "PreparedStatement"
    ensures |q.parameters| == 2 + |s.parameters.Keys|
    ensures q.parameters[0] == s.conn.connectionString && q.parameters[1] == s.sql
    ensures q.parameters[2..] == ParameterList(s.parameters)
  {
    Query("PreparedStatement", [s.conn.connectionString, s.sql] + ParameterList(s.parameters))
  }

  function ExecuteMessage(s: Statement): string {
    "Failed to execute query '" + s.sql + "'"
  }

  /** `executeQuery()`: the reply of the script, read as a result set. */
  function ExecuteQuery(s: Statement): (r: Result<Reader, Exception>)
    ensures CheckState(s).Err? ==> r == Err(CheckState(s).error)
    ensures var e := LhodConnection.Exec(s.conn, ExecuteQueryQuery(s));
      CheckState(s).Ok? ==>
        (e.Ok? ==> r == e) &&
        (e.Err? ==> r == Err(LhodConnection.Rethrow(e.error, ExecuteMessage(s))))
  {
    match CheckState(s)
    case Err(e) => Err(e)
    case Ok(_) =>
      match LhodConnection.Exec(s.conn, ExecuteQueryQuery(s))
      case Err(e) => Err(LhodConnection.Rethrow(e, ExecuteMessage(s)))
      case Ok(reader) => Ok(reader)
  }

  /** Setting the first parameter, then the second, then the second again
      leaves the first value and the last value of the second. */
  lemma SetStringReplaces(s: Statement, a: string, b: string, c: string)
    requires CheckState(s).Ok? && s.parameters == map[]
    ensures var s1 := SetString(s, 1, a);
      s1.Ok? && SetString(s1.value, 2, b).Ok? &&
      var s2 := SetString(s1.value, 2, b).value;
      ParameterList(s2.parameters) == [a, b] &&
      SetString(s2, 2, c).Ok? && ParameterList(SetString(s2, 2, c).value.parameters) == [a, c]
  {
    var s1 := SetString(s, 1, a).value;
    assert s1.parameters == map[1 := a];
    var s2 := SetString(s1, 2, b).value;
    assert s2.parameters == map[1 := a, 2 := b];
    var s3 := SetString(s2, 2, c).value;
    assert s3.parameters == map[1 := a, 2 := c];
    TwoParameters(a, b);
    TwoParameters(a, c);
  }

  lemma TwoParameters(a: string, b: string)
    ensures ParameterList(map[1 := a, 2 := b]) == [a, b]
  {
    var p := map[1 := a, 2 := b];
    ParametersInIndexOrder(p, 2);
  }
}

=== FILE: lhod_result_set_metadata.dfy ===
/** `LhodResultSetMetaData`: the names and types of the columns of a result
    set, as the header of a script reply gives them. Types arrive as ADO
    `DataTypeEnum` codes and are reported as `java.sql.Types` codes. Columns
    are numbered from 1. */
module LhodResultSetMetaData {
  import opened Wrappers
  import opened Exceptions
  import opened JavaLang
  import opened TabDataReader

  // ---------------------------------------------------------------------------
  // `java.sql.Types`

  const CHAR: int := 1
  const NUMERIC: int := 2
  const DECIMAL: int := 3
  const INTEGER: int := 4
  const SMALLINT: int := 5
  const DOUBLE: int := 8
  const VARCHAR: int := 12
  const BOOLEAN: int := 16
  const DATE: int := 91
  const TIME: int := 92
  const TIMESTAMP: int := 93
  const TINYINT: int := -6
  const BIGINT: int := -5
  const VARBINARY: int := -3
  const ARRAY: int := 2003
  const OTHER: int := 1111

  // ---------------------------------------------------------------------------
  // ADO data types

  /** `DataTypeEnum`, in declaration order. */
  datatype DataType =
      adEmpty
    | adSmallInt
    | adInteger
    | adSingle
    | adDouble
    | adCurrency
    | adDate
    | adBSTR
    | adIDispatch
    | adError
    | adBoolean
    | adVariant
    | adIUnknown
    | adDecimal
    | adTinyInt
    | adUnsignedTinyInt
    | adUnsignedSmallInt
    | adUnsignedInt
    | adBigInt
    | adUnsignedBigInt
    | adFileTime
    | adGUID
    | adBinary
    | adChar
    | adWChar
    | adNumeric
    | adUserDefined
    | adDBDate
    | adDBTime
    | adDBTimeStamp
    | adChapter
    | adPropVariant
    | adVarNumeric
    | adVarChar
    | adLongVarChar
    | adVarWChar
    | adLongVarWChar
    | adVarBinary
    | adLongVarBinary
    | adArray

  /** The ADO code of a type. */
  function Value(t: DataType): int {
    match t
    case adEmpty => 0
    case adSmallInt => 2
    case adInteger => 3
    case adSingle => 4
    case adDouble => 5
    case adCurrency => 6
    case adDate => 7
    case adBSTR => 8
    case adIDispatch => 9
    case adError => 10
    case adBoolean => 11
    case adVariant => 12
    case adIUnknown => 13
    case adDecimal => 14
    case adTinyInt => 16
    case adUnsignedTinyInt => 17
    case adUnsignedSmallInt => 18
    case adUnsignedInt => 19
    case adBigInt => 20
    case adUnsignedBigInt => 21
    case adFileTime => 64
    case adGUID => 72
    case adBinary => 128
    case adChar => 129
    case adWChar => 130
    case adNumeric => 131
    case adUserDefined => 132
    case adDBDate => 133
    case adDBTime => 134
    case adDBTimeStamp => 135
    case adChapter => 136
    case adPropVariant => 138
    case adVarNumeric => 139
    case adVarChar => 200
    case adLongVarChar => 201
    case adVarWChar => 202
    case adLongVarWChar => 203
    case adVarBinary => 204
    case adLongVarBinary => 205
    case adArray => 0x2000
  }

  /** The `java.sql.Types` code a type is reported as. */
  function SqlType(t: DataType): int {
    match t
    case adEmpty => OTHER
    case adSmallInt => SMALLINT
    case adInteger => INTEGER
    case adSingle => OTHER
    case adDouble => DOUBLE
    case adCurrency => OTHER
    case adDate => DATE
    case adBSTR => VARCHAR
    case adIDispatch => OTHER
    case adError => OTHER
    case adBoolean => BOOLEAN
    case adVariant => OTHER
    case adIUnknown => OTHER
    case adDecimal => DECIMAL
    case adTinyInt => TINYINT
    case adUnsignedTinyInt => TINYINT
    case adUnsignedSmallInt => SMALLINT
    case adUnsignedInt => INTEGER
    case adBigInt => BIGINT
    case adUnsignedBigInt => BIGINT
    case adFileTime => OTHER
    case adGUID => OTHER
    case adBinary => OTHER
    case adChar => CHAR
    case adWChar => OTHER
    case adNumeric => NUMERIC
    case adUserDefined => OTHER
    case adDBDate => DATE
    case adDBTime => TIME
    case adDBTimeStamp => TIMESTAMP
    case adChapter => OTHER
    case adPropVariant => OTHER
    case adVarNumeric => OTHER
    case adVarChar => VARCHAR
    case adLongVarChar => OTHER
    case adVarWChar => OTHER
    case adLongVarWChar => OTHER
    case adVarBinary => VARBINARY
    case adLongVarBinary => VARBINARY
    case adArray => ARRAY
  }

  /** `name()` of the enum constant. */
  function Name(t: DataType): string {
    match t
    case adEmpty => "adEmpty"
    case adSmallInt => "adSmallInt"
    case adInteger => "adInteger"
    case adSingle => "adSingle"
    case adDouble => "adDouble"
    case adCurrency => "adCurrency"
    case adDate => "adDate"
    case adBSTR => "adBSTR"
    case adIDispatch => "adIDispatch"
    case adError => "adError"
    case adBoolean => "adBoolean"
    case adVariant => "adVariant"
    case adIUnknown => "adIUnknown"
    case adDecimal => "adDecimal"
    case adTinyInt => "adTinyInt"
    case adUnsignedTinyInt => "adUnsignedTinyInt"
    case adUnsignedSmallInt => "adUnsignedSmallInt"
    case adUnsignedInt => "adUnsignedInt"
    case adBigInt => "adBigInt"
    case adUnsignedBigInt => "adUnsignedBigInt"
    case adFileTime => "adFileTime"
    case adGUID => "adGUID"
    case adBinary => "adBinary"
    case adChar => "adChar"
    case adWChar => "adWChar"
    case adNumeric => "adNumeric"
    case adUserDefined => "adUserDefined"
    case adDBDate => "adDBDate"
    case adDBTime => "adDBTime"
    case adDBTimeStamp => "adDBTimeStamp"
    case adChapter => "adChapter"
    case adPropVariant => "adPropVariant"
    case adVarNumeric => "adVarNumeric"
    case adVarChar => "adVarChar"
    case adLongVarChar => "adLongVarChar"
    case adVarWChar => "adVarWChar"
    case adLongVarWChar => "adLongVarWChar"
    case adVarBinary => "adVarBinary"
    case adLongVarBinary => "adLongVarBinary"
    case adArray => "adArray"
  }

  /** The type whose code is `value`, if any; codes are distinct, so the
      first one in declaration order is the only one. */
  function TypeOfValue(value: int): (r: Option<DataType>)
    ensures r.Some? ==> Value(r.value) == value
  {
    if value < 64 then SmallCodeType(value)
    else if value < 136 then MiddleCodeType(value)
    else LargeCodeType(value)
  }

  /** The types with a code below 64. */
  function SmallCodeType(value: int): (r: Option<DataType>)
    ensures r.Some? ==> Value(r.value) == value
  {
    if value == 0 then Some(adEmpty)
    else if value == 2 then Some(adSmallInt)
    else if value == 3 then Some(adInteger)
    else if value == 4 then Some(adSingle)
    else if value == 5 then Some(adDouble)
    else if value == 6 then Some(adCurrency)
    else if value == 7 then Some(adDate)
    else if value == 8 then Some(adBSTR)
    else if value == 9 then Some(adIDispatch)
    else if value == 10 then Some(adError)
    else if value == 11 then Some(adBoolean)
    else if value == 12 then Some(adVariant)
    else if value == 13 then Some(adIUnknown)
    else if value == 14 then Some(adDecimal)
    else if value == 16 then Some(adTinyInt)
    else if value == 17 then Some(adUnsignedTinyInt)
    else if value == 18 then Some(adUnsignedSmallInt)
    else if value == 19 then Some(adUnsignedInt)
    else if value == 20 then Some(adBigInt)
    else if value == 21 then Some(adUnsignedBigInt)
    else None
  }

  /** The types with a code from 64 to 135. */
  function MiddleCodeType(value: int): (r: Option<DataType>)
    ensures r.Some? ==> Value(r.value) == value
  {
    if value == 64 then Some(adFileTime)
    else if value == 72 then Some(adGUID)
    else if value == 128 then Some(adBinary)
    else if value == 129 then Some(adChar)
    else if value == 130 then Some(adWChar)
    else if value == 131 then Some(adNumeric)
    else if value == 132 then Some(adUserDefined)
    else if value == 133 then Some(adDBDate)
    else if value == 134 then Some(adDBTime)
    else if value == 135 then Some(adDBTimeStamp)
    else None
  }

  /** The types with a code of 136 or more. */
  function LargeCodeType(value: int): (r: Option<DataType>)
    ensures r.Some? ==> Value(r.value) == value
  {
    if value == 136 then Some(adChapter)
    else if value == 138 then Some(adPropVariant)
    else if value == 139 then Some(adVarNumeric)
    else if value == 200 then Some(adVarChar)
    else if value == 201 then Some(adLongVarChar)
    else if value == 202 then Some(adVarWChar)
    else if value == 203 then Some(adLongVarWChar)
    else if value == 204 then Some(adVarBinary)
    else if value == 205 then Some(adLongVarBinary)
    else if value == 0x2000 then Some(adArray)
    else None
  }

  /** Every type is found again from its code. */
  lemma TypeOfValueRoundTrip(t: DataType)
    ensures TypeOfValue(Value(t)) == Some(t)
  {
  }

  /** `DataTypeEnum.parse(value)`: the type with that code, or `adIUnknown`
      when no type has it. */
  function Parse(value: int): (r: DataType)
    ensures Value(r) == value || r == adIUnknown
    ensures (exists t :: Value(t) == value) ==> Value(r) == value
  {
    match TypeOfValue(value)
    case Some(t) => t
    case None =>
      assert forall t :: Value(t) != value by {
        forall t ensures Value(t) != value {
          TypeOfValueRoundTrip(t);
        }
      }
      adIUnknown
  }

  /** Parsing the code of a type gives the type back. */
  lemma ParseValue(t: DataType)
    ensures Parse(Value(t)) == t
  {
    TypeOfValueRoundTrip(t);
  }

  // ---------------------------------------------------------------------------
  // The metadata

  /** The names and types of the columns, column `i` at index `i - 1`. */
  datatype MetaData = MetaData(names: seq<string>, types: seq<DataType>)

  /** `LhodResultSetMetaData.of(columns)`: each column's name and parsed type.
      The parameter's non-null annotation adds no runtime check, so a null
      list fails with a bare `NullPointerException` when its size is read. */
  function Of(columns: Option<seq<Column>>): (r: Result<MetaData, Exception>)
    ensures columns.None? ==> r == Err(NullPointer(None))
    ensures columns.Some? ==> r.Ok? && |r.value.names| == |r.value.types| == |columns.value|
    ensures columns.Some? ==> forall i :: 0 <= i < |columns.value| ==>
              r.value.names[i] == columns.value[i].name && r.value.types[i] == Parse(columns.value[i].typeCode)
  {
    match columns
    case None => Err(NullPointer(None))
    case Some(cs) =>
      Ok(MetaData(seq(|cs|, i requires 0 <= i < |cs| => cs[i].name),
                  seq(|cs|, i requires 0 <= i < |cs| => Parse(cs[i].typeCode))))
  }

  /** `column - 1` on a Java `int`: the smallest `int` wraps to the largest. */
  function Previous(column: int): (r: int)
    requires IsInt32(column)
    ensures IsInt32(r)
    ensures column > -0x8000_0000 ==> r == column - 1
  {
    if column == -0x8000_0000 then 0x7fff_ffff else column - 1
  }

  /** `getColumnCount()`. */
  function ColumnCount(md: MetaData): (r: int)
    ensures r == |md.names|
  {
    |md.names|
  }

  /** `names[column - 1]`, failing outside the array. */
  function ColumnName(md: MetaData, column: int): (r: Result<string, Exception>)
    requires IsInt32(column)
    ensures 1 <= column <= |md.names| ==> r == Ok(md.names[column - 1])
    ensures !(1 <= column <= |md.names|) ==> r == Err(IndexOutOfBounds(Previous(column)))
  {
    if 1 <= column <= |md.names| then Ok(md.names[column - 1]) else Err(IndexOutOfBounds(Previous(column)))
  }

  /** `getColumnLabel(column)`: the name. */
  function ColumnLabel(md: MetaData, column: int): (r: Result<string, Exception>)
    requires IsInt32(column)
    ensures r == ColumnName(md, column)
  {
    ColumnName(md, column)
  }

  /** `getColumnType(column)`: the `java.sql.Types` code of the column's type. */
  function ColumnType(md: MetaData, column: int): (r: Result<int, Exception>)
    requires IsInt32(column)
    ensures 1 <= column <= |md.types| ==> r == Ok(SqlType(md.types[column - 1]))
    ensures !(1 <= column <= |md.types|) ==> r == Err(IndexOutOfBounds(Previous(column)))
  {
    if 1 <= column <= |md.types| then Ok(SqlType(md.types[column - 1])) else Err(IndexOutOfBounds(Previous(column)))
  }

  /** `getColumnTypeName(column)`: the ADO name of the column's type. */
  function ColumnTypeName(md: MetaData, column: int): (r: Result<string, Exception>)
    requires IsInt32(column)
    ensures 1 <= column <= |md.types| ==> r == Ok(Name(md.types[column - 1]))
    ensures !(1 <= column <= |md.types|) ==> r == Err(IndexOutOfBounds(Previous(column)))
  {
    if 1 <= column <= |md.types| then Ok(Name(md.types[column - 1])) else Err(IndexOutOfBounds(Previous(column)))
  }

  /** `getColumnClassName(column)`: every value is read as a string, whatever
      the column, even one that does not exist. */
  function ColumnClassName(md: MetaData, column: int): (r: string)
    ensures r == "java.lang.String"
  {
    "java.lang.String"
  }

  /** `getColumnDisplaySize(column)`: unknown, for every column. */
  function ColumnDisplaySize(md: MetaData, column: int): (r: int)
    ensures r == -1
  {
    -1
  }

  /** The metadata of a header reports each column, numbered from 1, with its
      name and, when its code is a known ADO type, that type's SQL type and
      name; an unknown code reads as `adIUnknown`, reported as `OTHER`. */
  lemma HeaderReadBack(columns: seq<Column>, column: int)
    requires IsInt32(column) && 1 <= column <= |columns|
    ensures var md := Of(Some(columns)).value;
      ColumnCount(md) == |columns| &&
      ColumnName(md, column) == Ok(columns[column - 1].name) &&
      ColumnLabel(md, column) == Ok(columns[column - 1].name) &&
      (forall t :: Value(t) == columns[column - 1].typeCode ==>
         ColumnType(md, column) == Ok(SqlType(t)) && ColumnTypeName(md, column) == Ok(Name(t))) &&
      ((forall t :: Value(t) != columns[column - 1].typeCode) ==>
         ColumnType(md, column) == Ok(OTHER) && ColumnTypeName(md, column) == Ok("adIUnknown"))
  {
    forall t | Value(t) == columns[column - 1].typeCode
      ensures Parse(columns[column - 1].typeCode) == t
    {
      ParseValue(t);
    }
  }

  /** An integer and a double column, read from codes 3 and 5, report
      `INTEGER` and `DOUBLE`; columns 0 and 3 do not exist. */
  lemma IntegerAndDoubleColumns()
    ensures var md := Of(Some([Column("INT_COLUMN", 3), Column("DOUBLE_COLUMN", 5)])).value;
      ColumnCount(md) == 2 &&
      ColumnName(md, 1) == Ok("INT_COLUMN") && ColumnName(md, 2) == Ok("DOUBLE_COLUMN") &&
      ColumnType(md, 1) == Ok(INTEGER) && ColumnType(md, 2) == Ok(DOUBLE) &&
      ColumnName(md, 0) == Err(IndexOutOfBounds(-1)) && ColumnName(md, 3) == Err(IndexOutOfBounds(2)) &&
      ColumnType(md, 0).Err? && ColumnType(md, 3).Err?
  {
    ParseValue(adInteger);
    ParseValue(adDouble);
  }
}

=== FILE: odbc_connection_string.dfy ===
/** `OdbcConnectionString`: an ordered set of `key=value` attributes, printed
    as `k1=v1;k2=v2` (the driver value in braces) and parsed back with the
    regular expression `(\w+)=\{*((?<=\{)[^\{\}]+(?=\})|[^\s;]+)\}*;?`. */
module OdbcConnectionString {
  import opened Wrappers
  import opened JavaLang

  const DRIVER_KEYWORD: string := "DRIVER"

  type Entry = (string, string)

  /** The attributes in insertion order; keys are distinct as Java strings. */
  datatype ConnectionString = ConnectionString(attributes: seq<Entry>)

  // ---------------------------------------------------------------------------
  // Reading and printing

  /** Position of the first entry whose key equals `key` ignoring case, or the
      length when there is none. */
  function FirstIndex(entries: seq<Entry>, key: string): (r: nat)
    ensures r <= |entries|
    ensures r < |entries| ==> EqualsIgnoreCase(entries[r].0, key)
    ensures forall j :: 0 <= j < r ==> !EqualsIgnoreCase(entries[j].0, key)
    decreases |entries|
  {
    if |entries| == 0 || EqualsIgnoreCase(entries[0].0, key) then 0
    else 1 + FirstIndex(entries[1..], key)
  }

  /** The value of the first entry whose key equals `key` ignoring case. */
  function Lookup(entries: seq<Entry>, key: string): Option<string> {
    var i := FirstIndex(entries, key);
    if i < |entries| then Some(entries[i].1) else None
  }

  /** `get(key)`: the value of the first attribute whose key equals `key`
      ignoring case. */
  function Get(cs: ConnectionString, key: string): (r: Option<string>)
    ensures r.Some? ==> exists i :: (0 <= i < |cs.attributes| && EqualsIgnoreCase(cs.attributes[i].0, key)
      && cs.attributes[i].1 == r.value && forall j :: 0 <= j < i ==> !EqualsIgnoreCase(cs.attributes[j].0, key))
    ensures r.None? <==> forall i :: 0 <= i < |cs.attributes| ==> !EqualsIgnoreCase(cs.attributes[i].0, key)
  {
    Lookup(cs.attributes, key)
  }

  /** `getDriver()`. */
  function GetDriver(cs: ConnectionString): (r: Option<string>)
    ensures r.None? <==> forall i :: 0 <= i < |cs.attributes| ==> !IsDriverKey(cs.attributes[i].0)
  {
    Get(cs, DRIVER_KEYWORD)
  }

  predicate IsDriverKey(key: string) {
    EqualsIgnoreCase(key, DRIVER_KEYWORD)
  }

  /** `append(b, entry)`: `key={value}` for the driver, `key=value` otherwise. */
  function Render(e: Entry): string {
    if IsDriverKey(e.0) then e.0 + "={" + e.1 + "}" else e.0 + "=" + e.1
  }

  function RenderAll(entries: seq<Entry>): string
    requires |entries| > 0
  {
    if |entries| == 1 then Render(entries[0]) else Render(entries[0]) + ";" + RenderAll(entries[1..])
  }

  /** `toString()`: the rendered attributes separated by `;`. */
  function ToString(cs: ConnectionString): string {
    if |cs.attributes| == 0 then "" else RenderAll(cs.attributes)
  }

  // ---------------------------------------------------------------------------
  // Building

  /** The builder: the keys in first-seen order (compared exactly) and the
      entries of a case-insensitive `TreeMap`, which keeps the first spelling
      of a key and the last value put. */
  datatype Builder = Builder(order: seq<string>, attributes: seq<Entry>) {
    /** Every key in `order` has an entry. */
    predicate Valid() {
      forall k :: k in order ==> FirstIndex(attributes, k) < |attributes|
    }
  }

  type ValidBuilder = b: Builder | b.Valid() witness Builder([], [])

  /** `TreeMap.put(key, value)` under `String.CASE_INSENSITIVE_ORDER`. */
  function Put(attributes: seq<Entry>, key: string, value: string): (r: seq<Entry>)
    ensures |r| == |attributes| || |r| == |attributes| + 1
    decreases |attributes|
  {
    if |attributes| == 0 then [(key, value)]
    else if EqualsIgnoreCase(attributes[0].0, key) then [(attributes[0].0, value)] + attributes[1..]
    else [attributes[0]] + Put(attributes[1..], key, value)
  }

  /** After `put(key, value)`, every spelling of `key` finds `value`. */
  lemma {:induction false} PutThenLookup(attributes: seq<Entry>, key: string, value: string, k: string)
    requires EqualsIgnoreCase(k, key)
    ensures Lookup(Put(attributes, key, value), k) == Some(value)
    decreases |attributes|
  {
    if |attributes| > 0 && !EqualsIgnoreCase(attributes[0].0, key) {
      PutThenLookup(attributes[1..], key, value, k);
    }
  }

  /** `put(key, value)` leaves every other key alone. */
  lemma {:induction false} PutLeavesOthers(attributes: seq<Entry>, key: string, value: string, k: string)
    requires !EqualsIgnoreCase(k, key)
    ensures Lookup(Put(attributes, key, value), k) == Lookup(attributes, k)
    decreases |attributes|
  {
    if |attributes| == 0 {
      LookupCons((key, value), [], k);
    } else {
      var head, rest := attributes[0], attributes[1..];
      assert attributes == [head] + rest;
      LookupCons(head, rest, k);
      if EqualsIgnoreCase(head.0, key) {
        LookupCons((head.0, value), rest, k);
      } else {
        PutLeavesOthers(rest, key, value, k);
        LookupCons(head, Put(rest, key, value), k);
      }
    }
  }

  /** Looking up in a sequence with a known first entry. */
  lemma LookupCons(head: Entry, rest: seq<Entry>, k: string)
    ensures Lookup([head] + rest, k) == if EqualsIgnoreCase(head.0, k) then Some(head.1) else Lookup(rest, k)
  {
    assert ([head] + rest)[1..] == rest;
  }

  lemma PutKeepsKeys(attributes: seq<Entry>, key: string, value: string)
    ensures forall k :: FirstIndex(attributes, k) < |attributes| ==>
      FirstIndex(Put(attributes, key, value), k) < |Put(attributes, key, value)|
  {
    forall k | FirstIndex(attributes, k) < |attributes|
      ensures FirstIndex(Put(attributes, key, value), k) < |Put(attributes, key, value)|
    {
      if EqualsIgnoreCase(k, key) {
        PutThenLookup(attributes, key, value, k);
      } else {
        PutLeavesOthers(attributes, key, value, k);
      }
    }
  }

  function NewBuilder(): ValidBuilder {
    Builder([], [])
  }

  /** `with(key, value)`. */
  function With(b: ValidBuilder, key: string, value: string): (r: ValidBuilder)
    ensures key in r.order
    ensures forall k :: k in b.order ==> k in r.order
  {
    PutKeepsKeys(b.attributes, key, value);
    PutThenLookup(b.attributes, key, value, key);
    Builder(if key in b.order then b.order else b.order + [key], Put(b.attributes, key, value))
  }

  /** `build()`: each key of `order`, in order, with the value the tree map holds for it. */
  function Build(b: ValidBuilder): (r: ConnectionString)
    ensures |r.attributes| == |b.order|
    ensures forall i :: 0 <= i < |b.order| ==>
      r.attributes[i].0 == b.order[i] && Some(r.attributes[i].1) == Lookup(b.attributes, b.order[i])
  {
    ConnectionString(seq(|b.order|, i requires 0 <= i < |b.order| => (b.order[i], Lookup(b.attributes, b.order[i]).value)))
  }

  /** After `with(key, value)`, `get(key)` on the built string answers `value`. */
  lemma WithThenGet(b: ValidBuilder, key: string, value: string)
    ensures Get(Build(With(b, key, value)), key) == Some(value)
  {
    var b2 := With(b, key, value);
    var cs := Build(b2);
    var i :| 0 <= i < |b2.order| && b2.order[i] == key;
    assert EqualsIgnoreCase(cs.attributes[i].0, key);
    var j := FirstIndex(cs.attributes, key);
    PutThenLookup(b.attributes, key, value, b2.order[j]);
  }

  /** `with(key, value)` does not change what `get` answers for a key that
      differs from `key` ignoring case. */
  lemma WithLeavesOthers(b: ValidBuilder, key: string, value: string, k: string)
    requires !EqualsIgnoreCase(k, key)
    ensures Get(Build(With(b, key, value)), k) == Get(Build(b), k)
  {
    var b2 := With(b, key, value);
    var a, a2 := Build(b).attributes, Build(b2).attributes;
    BuildWithKeys(b, key, value);
    FirstIndexExtended(a, a2, k, key);
    var j := FirstIndex(a, k);
    if j < |a| {
      assert a[j].0 == b.order[j] == b2.order[j];
      PutLeavesOthers(b.attributes, key, value, b.order[j]);
    }
  }

  /** The keys built after `with(key, value)`: the keys built before, then
      `key` if it was new. */
  lemma BuildWithKeys(b: ValidBuilder, key: string, value: string)
    ensures var a, a2 := Build(b).attributes, Build(With(b, key, value)).attributes;
      |a| <= |a2| &&
      (forall i :: 0 <= i < |a| ==> a2[i].0 == a[i].0) &&
      (forall i :: |a| <= i < |a2| ==> a2[i].0 == key)
  {
  }

  /** Appending entries keyed by `key` does not change where a key that differs
      from `key` ignoring case is first found, except that "not found" now
      points past the new end. */
  lemma FirstIndexExtended(a: seq<Entry>, a2: seq<Entry>, k: string, key: string)
    requires !EqualsIgnoreCase(k, key)
    requires |a| <= |a2|
    requires forall i :: 0 <= i < |a| ==> a2[i].0 == a[i].0
    requires forall i :: |a| <= i < |a2| ==> a2[i].0 == key
    ensures FirstIndex(a2, k) == if FirstIndex(a, k) < |a| then FirstIndex(a, k) else |a2|
  {
    var j, j2 := FirstIndex(a, k), FirstIndex(a2, k);
    if j < |a| {
      assert EqualsIgnoreCase(a2[j].0, k);
    }
  }

  /** A later `with` of the same key spelled differently keeps both spellings,
      each holding the last value. */
  lemma CaseVariantKeysBothKept()
    ensures Build(With(With(NewBuilder(), "a", "1"), "A", "2")) == ConnectionString([("a", "2"), ("A", "2")])
  {
    FirstWith();
    SecondWith();
    BuildBothSpellings();
  }

  lemma FirstWith()
    ensures With(NewBuilder(), "a", "1") == Builder(["a"], [("a", "1")])
  {
  }

  lemma SecondWith()
    ensures Builder(["a"], [("a", "1")]).Valid()
    ensures With(Builder(["a"], [("a", "1")]), "A", "2") == Builder(["a", "A"], [("a", "2")])
  {
    assert EqualsIgnoreCase("a", "a");
    assert EqualsIgnoreCase("a", "A") by {
      assert ToUpper("a") == ['A'] == ToUpper("A");
    }
  }

  lemma BuildBothSpellings()
    ensures Builder(["a", "A"], [("a", "2")]).Valid()
    ensures Build(Builder(["a", "A"], [("a", "2")])) == ConnectionString([("a", "2"), ("A", "2")])
  {
    assert EqualsIgnoreCase("a", "a");
    assert EqualsIgnoreCase("a", "A") by {
      assert ToUpper("a") == ['A'] == ToUpper("A");
    }
    assert Lookup([("a", "2")], "A") == Some("2");
    assert Lookup([("a", "2")], "a") == Some("2");
  }

  /** The driver is printed braced, the other attributes plain, in the order
      they were first given. */
  lemma DriverThenDbqPrinted(d: string, f: string)
    ensures ToString(Build(With(With(NewBuilder(), "DRIVER", d), "DBQ", f))) == "DRIVER={" + d + "};DBQ=" + f
  {
    DriverThenDbqBuilt(d, f);
    DriverThenDbqRendered(d, f);
  }

  lemma DriverThenDbqBuilt(d: string, f: string)
    ensures Build(With(With(NewBuilder(), "DRIVER", d), "DBQ", f)) == ConnectionString([("DRIVER", d), ("DBQ", f)])
  {
    DriverNotDbq();
    assert With(NewBuilder(), "DRIVER", d) == Builder(["DRIVER"], [("DRIVER", d)]);
    DbqAfterDriver(d, f);
    BuildDriverDbq(d, f);
  }

  lemma DriverNotDbq()
    ensures !EqualsIgnoreCase("DRIVER", "DBQ") && !EqualsIgnoreCase("DBQ", "DRIVER")
  {
    assert ToUpper("DRIVER")[1] == 'R' && ToUpper("DBQ")[1] == 'B';
  }

  lemma DbqAfterDriver(d: string, f: string)
    requires !EqualsIgnoreCase("DRIVER", "DBQ")
    ensures Builder(["DRIVER"], [("DRIVER", d)]).Valid()
    ensures With(Builder(["DRIVER"], [("DRIVER", d)]), "DBQ", f) == Builder(["DRIVER", "DBQ"], [("DRIVER", d), ("DBQ", f)])
  {
    assert EqualsIgnoreCase("DRIVER", "DRIVER");
    assert Put([("DRIVER", d)], "DBQ", f) == [("DRIVER", d)] + Put([], "DBQ", f);
  }

  lemma BuildDriverDbq(d: string, f: string)
    requires !EqualsIgnoreCase("DRIVER", "DBQ") && !EqualsIgnoreCase("DBQ", "DRIVER")
    ensures Builder(["DRIVER", "DBQ"], [("DRIVER", d), ("DBQ", f)]).Valid()
    ensures Build(Builder(["DRIVER", "DBQ"], [("DRIVER", d), ("DBQ", f)])) == ConnectionString([("DRIVER", d), ("DBQ", f)])
  {
    var a := [("DRIVER", d), ("DBQ", f)];
    assert EqualsIgnoreCase("DRIVER", "DRIVER") && EqualsIgnoreCase("DBQ", "DBQ");
    LookupCons(a[0], a[1..], "DRIVER");
    LookupCons(a[0], a[1..], "DBQ");
    assert a[1..] == [("DBQ", f)];
    assert Lookup(a, "DRIVER") == Some(d);
    assert Lookup(a, "DBQ") == Some(f);
  }

  lemma DriverThenDbqRendered(d: string, f: string)
    ensures ToString(ConnectionString([("DRIVER", d), ("DBQ", f)])) == "DRIVER={" + d + "};DBQ=" + f
  {
    var a := [("DRIVER", d), ("DBQ", f)];
    assert IsDriverKey("DRIVER") by {
      assert ToUpper("DRIVER") == "DRIVER";
    }
    assert !IsDriverKey("DBQ") by {
      assert ToUpper("DBQ")[1] == 'B';
    }
    assert a[1..] == [("DBQ", f)];
    assert RenderAll(a[1..]) == "DBQ=" + f;
    assert Render(a[0]) == "DRIVER={" + d + "}";
    assert RenderAll(a) == "DRIVER={" + d + "}" + ";" + ("DBQ=" + f);
  }

  // ---------------------------------------------------------------------------
  // Parsing

  /** `\w`: ASCII letters, digits and underscore. */
  predicate IsWordChar(c: char) {
    'a' <= c <= 'z' || 'A' <= c <= 'Z' || '0' <= c <= '9' || c == '_'
  }

  /** `\s`: space, tab, line feed, vertical tab, form feed, carriage return. */
  predicate IsRegexSpace(c: char) {
    c == ' ' || c == '\t' || c == '\n' || c == '\U{000B}' || c == '\U{000C}' || c == '\r'
  }

  predicate IsNotBrace(c: char) { c != '{' && c != '}' }

  predicate IsNotSpaceOrSemicolon(c: char) { !IsRegexSpace(c) && c != ';' }

  /** The character classes of the runs the expression reads. */
  datatype CharClass = Word | OpenBraces | CloseBraces | NotBrace | NotSpaceOrSemicolon

  predicate InClass(c: char, cls: CharClass) {
    match cls
    case Word => IsWordChar(c)
    case OpenBraces => c == '{'
    case CloseBraces => c == '}'
    case NotBrace => IsNotBrace(c)
    case NotSpaceOrSemicolon => IsNotSpaceOrSemicolon(c)
  }

  /** End of the longest run of characters of class `cls` starting at `p`. */
  function RunEnd(s: string, p: nat, cls: CharClass): (e: nat)
    requires p <= |s|
    ensures p <= e <= |s|
    ensures forall i :: p <= i < e ==> InClass(s[i], cls)
    ensures e < |s| ==> !InClass(s[e], cls)
    decreases |s| - p
  {
    if p == |s| || !InClass(s[p], cls) then p else RunEnd(s, p + 1, cls)
  }

  /** A run is determined by its characters: if `[p, e)` is in the run and
      `s[e]` is not (or `e` is the end), `RunEnd` is `e`. */
  lemma RunEndIs(s: string, p: nat, e: nat, cls: CharClass)
    requires p <= e <= |s|
    requires forall i :: p <= i < e ==> InClass(s[i], cls)
    requires e < |s| ==> !InClass(s[e], cls)
    ensures RunEnd(s, p, cls) == e
  {
  }

  datatype Match = Match(key: string, value: string, end: nat)

  /** The value group at `q`: the first alternative needs a `{` before `q`, a
      run of non-braces and a `}` after it; the second is a run of characters
      other than whitespace and `;`. Greedy runs never need to give characters
      back here, because what follows them is fixed. Answers the value bounds. */
  function ValueAt(s: string, q: nat): (r: Option<(nat, nat)>)
    requires q <= |s|
    ensures r.Some? ==> q == r.value.0 < r.value.1 <= |s|
  {
    var r1 := RunEnd(s, q, NotBrace);
    if q > 0 && s[q - 1] == '{' && r1 > q && r1 < |s| && s[r1] == '}' then Some((q, r1))
    else
      var r2 := RunEnd(s, q, NotSpaceOrSemicolon);
      if r2 > q then Some((q, r2)) else None
  }

  /** `\{*` gives back braces one at a time until the value group matches. */
  function ValueFrom(s: string, b: nat, q: nat): (r: Option<(nat, nat)>)
    requires b <= q <= |s|
    ensures r.Some? ==> b <= r.value.0 < r.value.1 <= |s|
    decreases q - b
  {
    match ValueAt(s, q)
    case Some(v) => Some(v)
    case None => if q > b then ValueFrom(s, b, q - 1) else None
  }

  /** The regular expression matched at the start of `s`. The lookbehind only
      ever looks at characters after the `=`, so matching at a position of a
      longer input is matching at the start of its suffix. */
  function MatchAt(s: string): (r: Option<Match>)
    ensures r.Some? ==> 0 < r.value.end <= |s|
  {
    var e := RunEnd(s, 0, Word);
    if e == 0 || e == |s| || s[e] != '=' then None
    else
      var b := e + 1;
      var q := RunEnd(s, b, OpenBraces);
      match ValueFrom(s, b, q)
      case None => None
      case Some(v) =>
        var afterBraces := RunEnd(s, v.1, CloseBraces);
        var end := if afterBraces < |s| && s[afterBraces] == ';' then afterBraces + 1 else afterBraces;
        Some(Match(s[..e], s[v.0..v.1], end))
  }

  /** The `while (m.find())` loop: every match, scanning left to right. */
  function FindAll(s: string): (r: seq<Entry>)
    decreases |s|
  {
    if |s| == 0 then []
    else match MatchAt(s)
      case Some(m) => [(m.key, m.value)] + FindAll(s[m.end..])
      case None => FindAll(s[1..])
  }

  function WithAll(b: ValidBuilder, entries: seq<Entry>): ValidBuilder
    decreases |entries|
  {
    if |entries| == 0 then b else WithAll(With(b, entries[0].0, entries[0].1), entries[1..])
  }

  /** `parse(input)`: every match fed to a new builder. */
  function Parse(input: string): ConnectionString {
    Build(WithAll(NewBuilder(), FindAll(input)))
  }

  // ---------------------------------------------------------------------------
  // Printing then parsing

  predicate IsWord(s: string) {
    |s| > 0 && forall i :: 0 <= i < |s| ==> IsWordChar(s[i])
  }

  predicate BraceFree(s: string) {
    forall i :: 0 <= i < |s| ==> IsNotBrace(s[i])
  }

  /** An attribute `toString` prints in a form `parse` reads back: a word key,
      a non-empty value without braces, and, unless it is the driver (which is
      braced), without whitespace or `;`. */
  predicate Printable(e: Entry) {
    IsWord(e.0) && |e.1| > 0 && BraceFree(e.1)
    && (!IsDriverKey(e.0) ==> forall i :: 0 <= i < |e.1| ==> IsNotSpaceOrSemicolon(e.1[i]))
  }

  /** No two keys are equal ignoring case. */
  predicate DistinctKeys(entries: seq<Entry>) {
    forall i, j :: 0 <= i < j < |entries| ==> !EqualsIgnoreCase(entries[i].0, entries[j].0)
  }

  /** `MatchAt` read off the ends of its runs: the key run ending at `e` on
      an `=`, the opening braces ending at `q`, the value `v` and the closing
      braces ending at `after`. */
  lemma MatchAtFrom(s: string, e: nat, q: nat, v: (nat, nat), after: nat)
    requires 0 < e < |s| && s[e] == '=' && RunEnd(s, 0, Word) == e
    requires e + 1 <= q <= |s| && RunEnd(s, e + 1, OpenBraces) == q
    requires ValueFrom(s, e + 1, q) == Some(v)
    requires v.1 <= after <= |s| && RunEnd(s, v.1, CloseBraces) == after
    ensures MatchAt(s) == Some(Match(s[..e], s[v.0..v.1], if after < |s| && s[after] == ';' then after + 1 else after))
  {
  }

  /** Between `{` and `}` a non-empty brace-free value is the first alternative. */
  lemma ValueBraced(s: string, k: nat, n: nat)
    requires 0 < n && k + n + 3 <= |s|
    requires s[k + 1] == '{' && s[k + 2 + n] == '}'
    requires forall i :: k + 2 <= i < k + 2 + n ==> IsNotBrace(s[i])
    ensures ValueFrom(s, k + 1, k + 2) == Some((k + 2, k + 2 + n))
  {
    RunEndIs(s, k + 2, k + 2 + n, NotBrace);
    assert ValueAt(s, k + 2) == Some((k + 2, k + 2 + n));
  }

  /** With no brace, a non-empty value without whitespace or `;`, ended by `;`
      or the end, is the second alternative. */
  lemma ValuePlain(s: string, k: nat, n: nat)
    requires 0 < n && k + n + 1 <= |s|
    requires s[k] == '='
    requires forall i :: k + 1 <= i < k + 1 + n ==> IsNotBrace(s[i]) && IsNotSpaceOrSemicolon(s[i])
    requires k + 1 + n == |s| || s[k + 1 + n] == ';'
    ensures ValueFrom(s, k + 1, k + 1) == Some((k + 1, k + 1 + n))
  {
    RunEndIs(s, k + 1, k + 1 + n, NotSpaceOrSemicolon);
    var r1 := RunEnd(s, k + 1, NotBrace);
    assert ValueAt(s, k + 1) == Some((k + 1, k + 1 + n));
  }

  /** `s` starts with a word key, `=`, one `{`, a non-empty brace-free
      value and `}`, followed by `;` or nothing; the match ends at `end`. */
  predicate BracedLayoutOf(s: string, key: string, value: string, end: nat) {
    var k, n := |key|, |value|;
    0 < k && 0 < n && k + n + 3 <= |s|
    && (forall i :: 0 <= i < k ==> IsWordChar(s[i]))
    && s[k] == '=' && s[k + 1] == '{' && s[k + 2 + n] == '}'
    && (forall i :: k + 2 <= i < k + 2 + n ==> IsNotBrace(s[i]))
    && (k + 3 + n == |s| || s[k + 3 + n] == ';')
    && s[..k] == key && s[k + 2..k + 2 + n] == value
    && end == (if k + 3 + n == |s| then |s| else k + 4 + n)
  }

  /** `s` starts with a word key, `=` and a non-empty value with no brace,
      whitespace or `;`, followed by `;` or nothing; the match ends at `end`. */
  predicate PlainLayoutOf(s: string, key: string, value: string, end: nat) {
    var k, n := |key|, |value|;
    0 < k && 0 < n && k + n + 1 <= |s|
    && (forall i :: 0 <= i < k ==> IsWordChar(s[i]))
    && s[k] == '='
    && (forall i :: k + 1 <= i < k + 1 + n ==> IsNotBrace(s[i]) && IsNotSpaceOrSemicolon(s[i]))
    && (k + 1 + n == |s| || s[k + 1 + n] == ';')
    && s[..k] == key && s[k + 1..k + 1 + n] == value
    && end == (if k + 1 + n == |s| then |s| else k + 2 + n)
  }

  /** The braced form: the first alternative takes the value inside the braces. */
  lemma MatchBracedAt(s: string, key: string, value: string, end: nat)
    requires BracedLayoutOf(s, key, value, end)
    ensures MatchAt(s) == Some(Match(key, value, end))
  {
    var k, n := |key|, |value|;
    RunEndIs(s, 0, k, Word);
    RunEndIs(s, k + 1, k + 2, OpenBraces);
    ValueBraced(s, k, n);
    RunEndIs(s, k + 2 + n, k + 3 + n, CloseBraces);
    MatchAtFrom(s, k, k + 2, (k + 2, k + 2 + n), k + 3 + n);
  }

  /** The plain form: the second alternative takes the value. */
  lemma MatchPlainAt(s: string, key: string, value: string, end: nat)
    requires PlainLayoutOf(s, key, value, end)
    ensures MatchAt(s) == Some(Match(key, value, end))
  {
    var k, n := |key|, |value|;
    RunEndIs(s, 0, k, Word);
    RunEndIs(s, k + 1, k + 1, OpenBraces);
    ValuePlain(s, k, n);
    RunEndIs(s, k + 1 + n, k + 1 + n, CloseBraces);
    MatchAtFrom(s, k, k + 1, (k + 1, k + 1 + n), k + 1 + n);
  }

  /** The layout of `key={value}` followed by `t`. */
  lemma BracedLayout(key: string, value: string, t: string)
    ensures var s := key + "={" + value + "}" + t;
      var k, n := |key|, |value|;
      |s| == k + n + 3 + |t| &&
      (forall i :: 0 <= i < k ==> s[i] == key[i]) &&
      (forall i :: k + 2 <= i < k + 2 + n ==> s[i] == value[i - k - 2]) &&
      s[k] == '=' && s[k + 1] == '{' && s[k + 2 + n] == '}' &&
      (|t| > 0 ==> s[k + 3 + n] == t[0]) &&
      s[..k] == key && s[k + 2..k + 2 + n] == value
  {
    var s := key + "={" + value + "}" + t;
    assert s == key + ("={" + value + "}" + t);
    assert s[..|key|] == key;
    assert s[|key| + 2..|key| + 2 + |value|] == value;
  }

  /** The layout of `key=value` followed by `t`. */
  lemma PlainLayout(key: string, value: string, t: string)
    ensures var s := key + "=" + value + t;
      var k, n := |key|, |value|;
      |s| == k + n + 1 + |t| &&
      (forall i :: 0 <= i < k ==> s[i] == key[i]) &&
      (forall i :: k + 1 <= i < k + 1 + n ==> s[i] == value[i - k - 1]) &&
      s[k] == '=' &&
      (|t| > 0 ==> s[k + 1 + n] == t[0]) &&
      s[..k] == key && s[k + 1..k + 1 + n] == value
  {
    var s := key + "=" + value + t;
    assert s == key + ("=" + value + t);
    assert s[..|key|] == key;
    assert s[|key| + 1..|key| + 1 + |value|] == value;
  }

  /** `key={value}` followed by `;` or nothing matches with the value inside
      the braces, up to and including the `;`. */
  lemma MatchBracedText(s: string, key: string, value: string, t: string, end: nat)
    requires s == key + "={" + value + "}" + t
    requires IsWord(key) && |value| > 0 && BraceFree(value)
    requires |t| == 0 || t[0] == ';'
    requires end == |s| - |t| + (if |t| == 0 then 0 else 1)
    ensures MatchAt(s) == Some(Match(key, value, end))
  {
    BracedShape(s, key, value, t);
    MatchBracedAt(s, key, value, end);
  }

  /** `key={value}` followed by `t` is laid out as `MatchBracedAt` needs. */
  lemma BracedShape(s: string, key: string, value: string, t: string)
    requires s == key + "={" + value + "}" + t
    requires IsWord(key) && |value| > 0 && BraceFree(value)
    requires |t| == 0 || t[0] == ';'
    ensures BracedLayoutOf(s, key, value, |s| - |t| + (if |t| == 0 then 0 else 1))
  {
    var k, n := |key|, |value|;
    BracedLayout(key, value, t);
    forall i | k + 2 <= i < k + 2 + n ensures IsNotBrace(s[i]) {
      assert s[i] == value[i - k - 2];
    }
  }

  /** `key=value` followed by `;` or nothing matches with the value, up to
      and including the `;`. */
  lemma MatchPlainText(s: string, key: string, value: string, t: string, end: nat)
    requires s == key + "=" + value + t
    requires IsWord(key) && |value| > 0 && BraceFree(value)
    requires forall i :: 0 <= i < |value| ==> IsNotSpaceOrSemicolon(value[i])
    requires |t| == 0 || t[0] == ';'
    requires end == |s| - |t| + (if |t| == 0 then 0 else 1)
    ensures MatchAt(s) == Some(Match(key, value, end))
  {
    PlainShape(s, key, value, t);
    MatchPlainAt(s, key, value, end);
  }

  /** `key=value` followed by `t` is laid out as `MatchPlainAt` needs. */
  lemma PlainShape(s: string, key: string, value: string, t: string)
    requires s == key + "=" + value + t
    requires IsWord(key) && |value| > 0 && BraceFree(value)
    requires forall i :: 0 <= i < |value| ==> IsNotSpaceOrSemicolon(value[i])
    requires |t| == 0 || t[0] == ';'
    ensures PlainLayoutOf(s, key, value, |s| - |t| + (if |t| == 0 then 0 else 1))
  {
    var k, n := |key|, |value|;
    PlainLayout(key, value, t);
    forall i | k + 1 <= i < k + 1 + n ensures IsNotBrace(s[i]) && IsNotSpaceOrSemicolon(s[i]) {
      assert s[i] == value[i - k - 1];
    }
  }

  /** A printed attribute followed by nothing or by `;` matches as itself. */
  lemma MatchRendered(s: string, e: Entry, t: string, end: nat)
    requires s == Render(e) + t
    requires Printable(e)
    requires |t| == 0 || t[0] == ';'
    requires end == |Render(e)| + (if |t| == 0 then 0 else 1)
    ensures MatchAt(s) == Some(Match(e.0, e.1, end))
  {
    if IsDriverKey(e.0) {
      MatchBracedText(s, e.0, e.1, t, end);
    } else {
      MatchPlainText(s, e.0, e.1, t, end);
    }
  }

  /** A match that ends where the text ends is the only one found. */
  lemma FindAllLast(s: string, m: Match)
    requires |s| > 0 && MatchAt(s) == Some(m) && m.end == |s|
    ensures FindAll(s) == [(m.key, m.value)]
  {
    assert s[m.end..] == [];
  }

  /** A match that ends before the text ends is followed by the matches of the rest. */
  lemma FindAllNext(s: string, m: Match)
    requires |s| > 0 && MatchAt(s) == Some(m)
    ensures FindAll(s) == [(m.key, m.value)] + FindAll(s[m.end..])
  {
  }

  lemma DropSeparated(head: string, rest: string)
    ensures (head + (";" + rest))[|head| + 1..] == rest
  {
    var s := head + (";" + rest);
    assert s[|head|..] == ";" + rest;
    assert s[|head| + 1..] == s[|head|..][1..];
  }

  /** A printed attribute followed by `;` is found, then the rest is searched. */
  lemma FindAllStep(s: string, e: Entry, rest: string)
    requires s == Render(e) + (";" + rest)
    requires Printable(e)
    ensures FindAll(s) == [e] + FindAll(rest)
  {
    var t := ";" + rest;
    assert |t| > 0 && t[0] == ';';
    MatchRendered(s, e, t, |Render(e)| + 1);
    DropSeparated(Render(e), rest);
    FindAllAfter(s, e, |Render(e)| + 1, rest);
  }

  /** A match of `head` ending where `rest` starts is followed by the matches of `rest`. */
  lemma FindAllAfter(s: string, head: Entry, end: nat, rest: string)
    requires |s| > 0 && MatchAt(s) == Some(Match(head.0, head.1, end))
    requires end <= |s| && s[end..] == rest
    ensures FindAll(s) == [head] + FindAll(rest)
  {
    FindAllNext(s, Match(head.0, head.1, end));
  }

  /** A printed attribute alone is found alone. */
  lemma FindAllSingle(e: Entry)
    requires Printable(e)
    ensures FindAll(Render(e)) == [e]
  {
    var s := Render(e);
    assert s == Render(e) + [];
    MatchRendered(s, e, [], |s|);
    FindAllLast(s, Match(e.0, e.1, |s|));
  }

  lemma {:induction false} FindAllRendered(entries: seq<Entry>)
    requires |entries| > 0
    requires forall i :: 0 <= i < |entries| ==> Printable(entries[i])
    ensures FindAll(RenderAll(entries)) == entries
    decreases |entries|
  {
    if |entries| == 1 {
      FindAllSingle(entries[0]);
    } else {
      var rest := RenderAll(entries[1..]);
      FindAllStep(RenderAll(entries), entries[0], rest);
      FindAllRendered(entries[1..]);
      assert entries == [entries[0]] + entries[1..];
    }
  }

  /** Feeding attributes with distinct keys to a builder that already holds
      other distinct ones appends them. */
  lemma {:induction false} WithAllAppends(done: seq<Entry>, entries: seq<Entry>)
    requires DistinctKeys(done + entries)
    ensures var b := Builder(KeysOf(done), done);
      b.Valid() && WithAll(b, entries) == Builder(KeysOf(done + entries), done + entries)
    decreases |entries|
  {
    DistinctPrefix(done, entries, 0);
    assert done + entries[..0] == done;
    DistinctValid(done);
    if |entries| > 0 {
      var e := entries[0];
      DistinctPrefix(done, entries, 1);
      assert done + entries[..1] == done + [e];
      WithFresh(done, e);
      assert done + entries == (done + [e]) + entries[1..];
      WithAllAppends(done + [e], entries[1..]);
    } else {
      assert done + entries == done;
    }
  }

  /** Distinct keys stay distinct in a prefix. */
  lemma DistinctPrefix(done: seq<Entry>, entries: seq<Entry>, n: nat)
    requires DistinctKeys(done + entries) && n <= |entries|
    ensures DistinctKeys(done + entries[..n])
  {
    var all, part := done + entries, done + entries[..n];
    assert forall i :: 0 <= i < |part| ==> part[i] == all[i];
  }

  /** `with` of a key not yet present appends its entry. */
  lemma WithFresh(done: seq<Entry>, e: Entry)
    requires DistinctKeys(done + [e])
    ensures Builder(KeysOf(done), done).Valid()
    ensures With(Builder(KeysOf(done), done), e.0, e.1) == Builder(KeysOf(done + [e]), done + [e])
  {
    var all := done + [e];
    assert forall i :: 0 <= i < |done| ==> all[i] == done[i];
    assert DistinctKeys(done);
    DistinctValid(done);
    assert forall i :: 0 <= i < |done| ==> !EqualsIgnoreCase(done[i].0, e.0) by {
      forall i | 0 <= i < |done| ensures !EqualsIgnoreCase(done[i].0, e.0) {
        assert all[|done|] == e;
      }
    }
    PutFresh(done, e.0, e.1);
    KeysOfFresh(done, e);
  }

  function KeysOf(entries: seq<Entry>): (r: seq<string>)
    ensures |r| == |entries|
    ensures forall i :: 0 <= i < |entries| ==> r[i] == entries[i].0
  {
    seq(|entries|, i requires 0 <= i < |entries| => entries[i].0)
  }

  lemma DistinctValid(entries: seq<Entry>)
    requires DistinctKeys(entries)
    ensures forall i :: 0 <= i < |entries| ==> FirstIndex(entries, entries[i].0) == i
    ensures Builder(KeysOf(entries), entries).Valid()
  {
    forall i | 0 <= i < |entries| ensures FirstIndex(entries, entries[i].0) == i {
      assert EqualsIgnoreCase(entries[i].0, entries[i].0);
    }
  }

  lemma {:induction false} PutFresh(entries: seq<Entry>, key: string, value: string)
    requires forall i :: 0 <= i < |entries| ==> !EqualsIgnoreCase(entries[i].0, key)
    ensures Put(entries, key, value) == entries + [(key, value)]
    decreases |entries|
  {
    if |entries| > 0 {
      PutFresh(entries[1..], key, value);
      assert entries == [entries[0]] + entries[1..];
    }
  }

  lemma KeysOfFresh(done: seq<Entry>, e: Entry)
    requires forall i :: 0 <= i < |done| ==> !EqualsIgnoreCase(done[i].0, e.0)
    ensures e.0 !in KeysOf(done)
    ensures KeysOf(done) + [e.0] == KeysOf(done + [e])
  {
    forall i | 0 <= i < |done| ensures KeysOf(done)[i] != e.0 {
      assert EqualsIgnoreCase(e.0, e.0);
    }
  }

  /** Printing a connection string with printable attributes and keys that are
      distinct ignoring case, then parsing it, gives it back. */
  lemma ParseToString(cs: ConnectionString)
    requires forall i :: 0 <= i < |cs.attributes| ==> Printable(cs.attributes[i])
    requires DistinctKeys(cs.attributes)
    ensures Parse(ToString(cs)) == cs
  {
    if |cs.attributes| > 0 {
      FindAllRendered(cs.attributes);
    }
    assert [] + cs.attributes == cs.attributes;
    WithAllAppends([], cs.attributes);
    DistinctValid(cs.attributes);
  }
}

=== FILE: odbc_data_source.dfy ===
/** `OdbcDataSource`: a configured data source name (DSN). */
module OdbcDataSource {
  import opened Wrappers
  import opened Exceptions

  /** Where the data source is declared. */
  datatype DataSourceType = SYSTEM | USER | FILE

  /** A data source. Paths are kept as the strings read from the registry. */
  datatype DataSource = DataSource(
    dsType: DataSourceType,
    name: string,
    description: Option<string>,
    driverName: string,
    driverPath: string,
    serverName: Option<string>)

  /** The Lombok builder: a field left unset is null. */
  datatype Builder = Builder(
    dsType: Option<DataSourceType>,
    name: Option<string>,
    description: Option<string>,
    driverName: Option<string>,
    driverPath: Option<string>,
    serverName: Option<string>)

  /** `build()`: the non-null fields are checked in declaration order. */
  function Build(b: Builder): (r: Result<DataSource, Exception>)
    ensures r.Ok? <==> b.dsType.Some? && b.name.Some? && b.driverName.Some? && b.driverPath.Some?
    ensures r.Ok? ==> r.value == DataSource(b.dsType.value, b.name.value, b.description,
                                            b.driverName.value, b.driverPath.value, b.serverName)
    ensures b.dsType.None? ==> r == Err(NonNullViolation("type"))
    ensures b.dsType.Some? && b.name.None? ==> r == Err(NonNullViolation("name"))
    ensures b.dsType.Some? && b.name.Some? && b.driverName.None? ==> r == Err(NonNullViolation("driverName"))
    ensures b.dsType.Some? && b.name.Some? && b.driverName.Some? && b.driverPath.None? ==>
              r == Err(NonNullViolation("driverPath"))
  {
    if b.dsType.None? then Err(NonNullViolation("type"))
    else if b.name.None? then Err(NonNullViolation("name"))
    else if b.driverName.None? then Err(NonNullViolation("driverName"))
    else if b.driverPath.None? then Err(NonNullViolation("driverPath"))
    else Ok(DataSource(b.dsType.value, b.name.value, b.description, b.driverName.value, b.driverPath.value, b.serverName))
  }
}

=== FILE: odbc_driver.dfy ===
/** `OdbcDriver`: an ODBC driver as described by its registry entries, with the
    integer-coded levels and the `Y`/`N` coded connect functions. */
module OdbcDriver {
  import opened Wrappers
  import opened Exceptions
  import opened JavaLang

  /** ODBC interface conformance level. */
  datatype ApiLevel = API_NONE | LEVEL1 | LEVEL2

  function ApiLevelToInt(x: ApiLevel): int {
    match x
    case API_NONE => 0
    case LEVEL1 => 1
    case LEVEL2 => 2
  }

  /** `ApiLevel.parse(value)`: the level whose code is `value`. */
  function ParseApiLevel(value: int): (r: Result<ApiLevel, Exception>)
    ensures r.Ok? ==> ApiLevelToInt(r.value) == value
    ensures r.Err? <==> value !in {0, 1, 2}
    ensures r.Err? ==> r.error == IllegalArgument("Cannot parse " + IntToString(value))
  {
    if value == 0 then Ok(API_NONE)
    else if value == 1 then Ok(LEVEL1)
    else if value == 2 then Ok(LEVEL2)
    else Err(IllegalArgument("Cannot parse " + IntToString(value)))
  }

  lemma ApiLevelRoundTrip(x: ApiLevel)
    ensures ParseApiLevel(ApiLevelToInt(x)) == Ok(x)
  {
  }

  /** How a file-based driver treats files. */
  datatype FileUsage = USAGE_NONE | TABLE | CATALOG {
    /** `isFileBased()`. */
    predicate IsFileBased() {
      this != USAGE_NONE
    }
  }

  function FileUsageToInt(x: FileUsage): int {
    match x
    case USAGE_NONE => 0
    case TABLE => 1
    case CATALOG => 2
  }

  /** `FileUsage.parse(value)`. */
  function ParseFileUsage(value: int): (r: Result<FileUsage, Exception>)
    ensures r.Ok? ==> FileUsageToInt(r.value) == value
    ensures r.Err? <==> value !in {0, 1, 2}
    ensures r.Err? ==> r.error == IllegalArgument("Cannot parse " + IntToString(value))
    ensures r.Ok? ==> (r.value.IsFileBased() <==> value != 0)
  {
    if value == 0 then Ok(USAGE_NONE)
    else if value == 1 then Ok(TABLE)
    else if value == 2 then Ok(CATALOG)
    else Err(IllegalArgument("Cannot parse " + IntToString(value)))
  }

  lemma FileUsageRoundTrip(x: FileUsage)
    ensures ParseFileUsage(FileUsageToInt(x)) == Ok(x)
  {
  }

  /** SQL-92 grammar supported by the driver. */
  datatype SqlLevel = SQL_92_ENTRY | FIPS127_2_TRANSACTIONAL | SQL_92_INTERMEDIATE | SQL_92_FULL

  function SqlLevelToInt(x: SqlLevel): int {
    match x
    case SQL_92_ENTRY => 0
    case FIPS127_2_TRANSACTIONAL => 1
    case SQL_92_INTERMEDIATE => 2
    case SQL_92_FULL => 3
  }

  /** `SqlLevel.parse(value)`. */
  function ParseSqlLevel(value: int): (r: Result<SqlLevel, Exception>)
    ensures r.Ok? ==> SqlLevelToInt(r.value) == value
    ensures r.Err? <==> value !in {0, 1, 2, 3}
    ensures r.Err? ==> r.error == IllegalArgument("Cannot parse " + IntToString(value))
  {
    if value == 0 then Ok(SQL_92_ENTRY)
    else if value == 1 then Ok(FIPS127_2_TRANSACTIONAL)
    else if value == 2 then Ok(SQL_92_INTERMEDIATE)
    else if value == 3 then Ok(SQL_92_FULL)
    else Err(IllegalArgument("Cannot parse " + IntToString(value)))
  }

  lemma SqlLevelRoundTrip(x: SqlLevel)
    ensures ParseSqlLevel(SqlLevelToInt(x)) == Ok(x)
  {
  }

  /** Which of SQLConnect, SQLDriverConnect and SQLBrowseConnect the driver supports. */
  datatype ConnectFunctions = ConnectFunctions(sqlConnect: bool, sqlDriverConnect: bool, sqlBrowseConnect: bool)

  function YesNo(b: bool): char {
    if b then 'Y' else 'N'
  }

  /** `ConnectFunctions.toString()`: three `Y`/`N` letters. */
  function ConnectFunctionsToString(x: ConnectFunctions): (r: string)
    ensures |r| == 3 && MatchesInputPattern(r)
  {
    [YesNo(x.sqlConnect), YesNo(x.sqlDriverConnect), YesNo(x.sqlBrowseConnect)]
  }

  /** The whole input matches `([YN]){3}`. */
  predicate MatchesInputPattern(s: string) {
    |s| == 3 && forall i :: 0 <= i < 3 ==> s[i] in {'Y', 'N'}
  }

  /** `ConnectFunctions.parse(input)`. */
  function ParseConnectFunctions(input: string): (r: Result<ConnectFunctions, Exception>)
    ensures r.Ok? <==> MatchesInputPattern(input)
    ensures r.Ok? ==> ConnectFunctionsToString(r.value) == input
    ensures r.Err? ==> r.error == IllegalArgument("Cannot parse '" + input + "'")
  {
    if !MatchesInputPattern(input) then Err(IllegalArgument("Cannot parse '" + input + "'"))
    else Ok(ConnectFunctions(input[0] == 'Y', input[1] == 'Y', input[2] == 'Y'))
  }

  /** Printing and parsing back gives the same flags. */
  lemma ConnectFunctionsRoundTrip(x: ConnectFunctions)
    ensures ParseConnectFunctions(ConnectFunctionsToString(x)) == Ok(x)
  {
  }

  /** The deprecated `ConnectFunctions.parse(input, defaultValue)`: the default
      instead of an exception. */
  function ParseConnectFunctionsOr(input: string, defaultValue: Option<ConnectFunctions>): (r: Option<ConnectFunctions>)
    ensures MatchesInputPattern(input) ==> r == Some(ParseConnectFunctions(input).value)
    ensures !MatchesInputPattern(input) ==> r == defaultValue
  {
    if MatchesInputPattern(input) then Some(ConnectFunctions(input[0] == 'Y', input[1] == 'Y', input[2] == 'Y'))
    else defaultValue
  }

  /** An installed driver. Paths are kept as the strings read from the registry. */
  datatype Driver = Driver(
    name: string,
    apiLevel: ApiLevel,
    connectFunctions: Option<ConnectFunctions>,
    driverPath: Option<string>,
    driverOdbcVer: Option<string>,
    fileExtensions: seq<string>,
    fileUsage: FileUsage,
    setupPath: Option<string>,
    sqlLevel: SqlLevel,
    usageCount: int)
}

=== FILE: reg_odbc_registry.dfy ===
/** `RegOdbcRegistry`: the ODBC registry read through the `reg query` command.
    The command's answers are loaded into a map of full key names to values,
    which then serves as the registry of `WinOdbcRegistryUtil`. */
module RegOdbcRegistry {
  import opened Wrappers
  import opened Exceptions
  import opened JavaLang
  import opened OdbcDriver
  import opened OdbcDataSource
  import opened WinOdbcRegistryUtil

  const NAME: string := "OdbcRegistryOverRegCommand"

  /** `OdbcRegistrySpi.HIGH_COST`. */
  const HIGH_COST: int := 1000

  /** The marker in the message of a query that found no such key. */
  const NOT_FOUND_MARKER: string := "Invalid exit value: 1"

  /** `RegWrapper.RegValue`: a named, typed value. */
  datatype RegEntry = RegEntry(name: string, dataType: string, value: RegValue)

  /** Full key name (`ROOT\sub\key`) to the values under it. */
  type Keys = map<string, seq<RegEntry>>

  /** `RegWrapper.query(keyName, recursive)`, which runs a process. */
  type Query = (string, bool) -> Result<Keys, Exception>

  /** `root + KEY_SEPARATOR + key`. */
  function FullKey(root: Root, key: string): string {
    RootName(root) + KEY_SEPARATOR + key
  }

  // ---------------------------------------------------------------------------
  // MapRegistry

  /** `MapRegistry.keyExists(root, key)`: some loaded key starts with the full
      key, so a key exists as soon as one of its descendants was loaded. */
  predicate KeyExists(keys: Keys, root: Root, key: string) {
    exists k :: k in keys && StartsWith(k, FullKey(root, key))
  }

  /** `Collectors.toMap(getName, getValue)` over the entries: the first repeated
      name fails with `IllegalStateException`. */
  function ToValues(entries: seq<RegEntry>): (r: Result<Values, Exception>)
    ensures r.Ok? ==> NamesOf(r.value) == EntryNames(entries)
    ensures r.Ok? ==> forall k :: 0 <= k < |entries| ==> r.value[k] == (entries[k].name, entries[k].value)
    ensures r.Ok? <==> DistinctStrings(EntryNames(entries))
    ensures r.Err? ==> r.error.IllegalState?
  {
    var r := ToValuesFrom([], entries);
    assert NamesOf([]) + EntryNames(entries) == EntryNames(entries);
    assert r.Ok? ==> forall k :: 0 <= k < |entries| ==> r.value[k] == r.value[0 + k];
    r
  }

  function EntryNames(entries: seq<RegEntry>): (r: seq<string>)
    ensures |r| == |entries|
    ensures forall k :: 0 <= k < |entries| ==> r[k] == entries[k].name
  {
    seq(|entries|, k requires 0 <= k < |entries| => entries[k].name)
  }

  predicate DistinctStrings(s: seq<string>) {
    forall i, j :: 0 <= i < j < |s| ==> s[i] != s[j]
  }

  /** The message of `Collectors.toMap` on a repeated key. */
  function DuplicateKey(name: string, first: RegValue, second: RegValue): Exception {
    IllegalState("Duplicate key " + name + " (attempted merging values " + ValueText(first) + " and " + ValueText(second) + ")")
  }

  function ToValuesFrom(done: Values, rest: seq<RegEntry>): (r: Result<Values, Exception>)
    requires DistinctStrings(NamesOf(done))
    ensures r.Ok? ==> |r.value| == |done| + |rest| && r.value[..|done|] == done
    ensures r.Ok? ==> forall k :: 0 <= k < |rest| ==> r.value[|done| + k] == (rest[k].name, rest[k].value)
    ensures r.Ok? <==> DistinctStrings(NamesOf(done) + EntryNames(rest))
    ensures r.Err? ==> r.error.IllegalState?
    decreases |rest|
  {
    if |rest| == 0 then
      assert NamesOf(done) + EntryNames(rest) == NamesOf(done);
      Ok(done)
    else
      var e := rest[0];
      var next := done + [(e.name, e.value)];
      assert NamesOf(next) == NamesOf(done) + [e.name];
      assert NamesOf(done) + EntryNames(rest) == NamesOf(next) + EntryNames(rest[1..]);
      match Lookup(done, e.name)
      case Some(first) =>
        var i :| 0 <= i < |done| && done[i] == (e.name, first);
        assert (NamesOf(done) + EntryNames(rest))[i] == (NamesOf(done) + EntryNames(rest))[|done|];
        Err(DuplicateKey(e.name, first, e.value))
      case None =>
        var r := ToValuesFrom(next, rest[1..]);
        if r.Ok? then
          assert r.value[..|done|] == next[..|done|] == done;
          assert forall k :: 1 <= k < |rest| ==> rest[k] == rest[1..][k - 1];
          r
        else r
  }

  /** `MapRegistry.getValues(root, key)`: the values of exactly that key, or
      none when it was not loaded. */
  function GetValues(keys: Keys, root: Root, key: string): (r: Result<Values, Exception>)
    ensures FullKey(root, key) !in keys ==> r == Ok([])
    ensures FullKey(root, key) in keys ==> r == ToValues(keys[FullKey(root, key)])
  {
    var target := FullKey(root, key);
    if target in keys then ToValues(keys[target]) else Ok([])
  }

  /** The `MapRegistry` as a registry. */
  function MapRegistry(keys: Keys): (r: Registry)
    ensures forall root, key :: r.keyExists(root, key) == Ok(KeyExists(keys, root, key))
    ensures forall root, key :: r.getValues(root, key) == GetValues(keys, root, key)
  {
    Registry((root: Root, key: string) => Ok(KeyExists(keys, root, key)), (root: Root, key: string) => GetValues(keys, root, key))
  }

  /** A loaded key and every ancestor of it exist. */
  lemma AncestorsExist(keys: Keys, root: Root, key: string, sub: string)
    requires FullKey(root, key + sub) in keys
    ensures KeyExists(keys, root, key)
  {
    assert FullKey(root, key + sub) == FullKey(root, key) + sub;
  }

  // ---------------------------------------------------------------------------
  // MapRegistry.Builder

  /** `Builder.load(root, subkey, recursive)`: adds what the query answers; a
      query that fails because the key does not exist adds nothing; any other
      failure is passed on. */
  function Load(keys: Keys, query: Query, root: Root, subkey: string, recursive: bool): (r: Result<Keys, Exception>)
    ensures query(FullKey(root, subkey), recursive).Ok? ==> r == Ok(keys + query(FullKey(root, subkey), recursive).value)
    ensures r.Ok? ==> keys.Keys <= r.value.Keys
    ensures IsNotFound(query(FullKey(root, subkey), recursive)) ==> r == Ok(keys)
    ensures r.Err? <==> query(FullKey(root, subkey), recursive).Err? && !IsNotFound(query(FullKey(root, subkey), recursive))
  {
    match query(FullKey(root, subkey), recursive)
    case Ok(found) => Ok(keys + found)
    case Err(e) =>
      if e.IO? then
        match e.ioMessage
        case None => Err(NullPointer(None))
        case Some(message) => if Contains(message, NOT_FOUND_MARKER) then Ok(keys) else Err(e)
      else Err(e)
  }

  /** The query failed with an I/O error whose message carries the marker. */
  predicate IsNotFound(outcome: Result<Keys, Exception>) {
    outcome.Err? && outcome.error.IO? && outcome.error.ioMessage.Some? && Contains(outcome.error.ioMessage.value, NOT_FOUND_MARKER)
  }

  /** Loads `subkey` for each type's root, in order; a file type has no root. */
  function LoadAll(keys: Keys, query: Query, types: seq<DataSourceType>, subkey: string, recursive: bool): (r: Result<Keys, Exception>)
    ensures FILE in types ==> r.Err?
    ensures r.Ok? ==> keys.Keys <= r.value.Keys
    decreases |types|
  {
    if |types| == 0 then Ok(keys)
    else
      var root :- GetRoot(types[0]);
      var loaded :- Load(keys, query, root, subkey, recursive);
      assert FILE in types[1..] <== FILE in types && types[0] != FILE;
      LoadAll(loaded, query, types[1..], subkey, recursive)
  }

  /** Loading `subkey` for one type fails: a file type has no root, and a
      query failure other than a missing key is passed on. */
  predicate LoadFails(query: Query, t: DataSourceType, subkey: string, recursive: bool) {
    t == FILE || (var answer := query(FullKey(GetRoot(t).value, subkey), recursive); answer.Err? && !IsNotFound(answer))
  }

  /** The keys the query answers for one type's root; none when it fails. */
  function Found(query: Query, t: DataSourceType, subkey: string, recursive: bool): Keys {
    if t == FILE then map[]
    else match query(FullKey(GetRoot(t).value, subkey), recursive)
      case Ok(found) => found
      case Err(_) => map[]
  }

  /** The values of the full key `k` in the answer of the last type whose
      answer holds `k`; a later answer replaces an earlier one. */
  function LastFound(query: Query, types: seq<DataSourceType>, subkey: string, recursive: bool, k: string): Option<seq<RegEntry>>
    decreases |types|
  {
    if |types| == 0 then None
    else match LastFound(query, types[1..], subkey, recursive, k)
      case Some(v) => Some(v)
      case None =>
        var found := Found(query, types[0], subkey, recursive);
        if k in found then Some(found[k]) else None
  }

  /** `LoadAll` fails exactly when some type's load fails; otherwise it holds
      the keys it started with together with every key some type's query
      answered, each with the values of the last answer that holds it. */
  lemma {:induction false} LoadAllMeaning(keys: Keys, query: Query, types: seq<DataSourceType>, subkey: string, recursive: bool)
    ensures LoadAll(keys, query, types, subkey, recursive).Err? <==>
      exists i :: 0 <= i < |types| && LoadFails(query, types[i], subkey, recursive)
    ensures LoadAll(keys, query, types, subkey, recursive).Ok? ==> forall k ::
      k in LoadAll(keys, query, types, subkey, recursive).value <==>
      k in keys || LastFound(query, types, subkey, recursive, k).Some?
    ensures LoadAll(keys, query, types, subkey, recursive).Ok? ==> forall k ::
      LastFound(query, types, subkey, recursive, k).Some? ==>
      LoadAll(keys, query, types, subkey, recursive).value[k] == LastFound(query, types, subkey, recursive, k).value
    ensures LoadAll(keys, query, types, subkey, recursive).Ok? ==> forall k ::
      k in keys && LastFound(query, types, subkey, recursive, k).None? ==>
      LoadAll(keys, query, types, subkey, recursive).value[k] == keys[k]
    decreases |types|
  {
    if |types| > 0 {
      var t := types[0];
      if LoadFails(query, t, subkey, recursive) {
        assert LoadAll(keys, query, types, subkey, recursive).Err?;
      } else {
        var loaded := keys + Found(query, t, subkey, recursive);
        assert Load(keys, query, GetRoot(t).value, subkey, recursive) == Ok(loaded) by {
          assert keys + map[] == keys;
        }
        assert LoadAll(keys, query, types, subkey, recursive) == LoadAll(loaded, query, types[1..], subkey, recursive);
        LoadAllMeaning(loaded, query, types[1..], subkey, recursive);
        if exists i :: 0 <= i < |types| && LoadFails(query, types[i], subkey, recursive) {
          var i :| 0 <= i < |types| && LoadFails(query, types[i], subkey, recursive);
          assert types[1..][i - 1] == types[i];
        }
        if exists j :: 0 <= j < |types[1..]| && LoadFails(query, types[1..][j], subkey, recursive) {
          var j :| 0 <= j < |types[1..]| && LoadFails(query, types[1..][j], subkey, recursive);
          assert types[j + 1] == types[1..][j];
        }
      }
    }
  }

  // ---------------------------------------------------------------------------
  // The registry operations

  /** `getName()`. */
  function GetName(): (r: string)
    ensures |r| > 0
  {
    NAME
  }

  /** `getCost()`. */
  function GetCost(): (r: int)
    ensures r == HIGH_COST
  {
    HIGH_COST
  }

  /** `isAvailable()`: on Windows, when the `reg` command can be found; a
      failure to look for the command counts as unavailable. `isWindows` and
      `whereAnswer` stand for the operating system and the command search. */
  function IsAvailable(isWindows: bool, whereAnswer: Result<bool, Exception>): (r: Result<bool, Exception>)
    ensures !isWindows ==> r == Ok(false)
    ensures isWindows && whereAnswer.Ok? ==> r == whereAnswer
    ensures isWindows && whereAnswer.Err? && whereAnswer.error.IO? ==> r == Ok(false)
    ensures r.Err? ==> isWindows && whereAnswer.Err? && !whereAnswer.error.IO?
  {
    if !isWindows then Ok(false)
    else match whereAnswer
      case Ok(b) => Ok(b)
      case Err(e) => if e.IO? then Ok(false) else Err(e)
  }

  /** `getDataSourceNames(types)`: loads the names key of each type, then lists. */
  function GetDataSourceNamesOf(query: Query, types: seq<DataSourceType>): (r: Result<seq<string>, Exception>)
    ensures FILE in types ==> r.Err?
    ensures LoadAll(map[], query, types, DATA_SOURCES_KEY, false).Err? ==>
      r == Err(LoadAll(map[], query, types, DATA_SOURCES_KEY, false).error)
    ensures LoadAll(map[], query, types, DATA_SOURCES_KEY, false).Ok? ==>
      r == GetDataSourceNames(MapRegistry(LoadAll(map[], query, types, DATA_SOURCES_KEY, false).value), types)
  {
    var keys :- LoadAll(map[], query, types, DATA_SOURCES_KEY, false);
    GetDataSourceNames(MapRegistry(keys), types)
  }

  /** `getDataSources(types)`: loads each type's data source keys recursively, then lists. */
  function GetDataSourcesOf(query: Query, types: seq<DataSourceType>): (r: Result<seq<DataSource>, Exception>)
    ensures FILE in types ==> r.Err?
    ensures r.Ok? ==> forall k :: 0 <= k < |r.value| ==> r.value[k].dsType in types
    ensures LoadAll(map[], query, types, DATA_SOURCE_KEY, true).Err? ==>
      r == Err(LoadAll(map[], query, types, DATA_SOURCE_KEY, true).error)
    ensures LoadAll(map[], query, types, DATA_SOURCE_KEY, true).Ok? ==>
      r == GetDataSources(MapRegistry(LoadAll(map[], query, types, DATA_SOURCE_KEY, true).value), types)
  {
    var keys :- LoadAll(map[], query, types, DATA_SOURCE_KEY, true);
    GetDataSources(MapRegistry(keys), types)
  }

  /** `getDriverNames()`. */
  function GetDriverNamesOf(query: Query): (r: Result<seq<string>, Exception>)
    ensures IsNotFound(query(FullKey(HKEY_LOCAL_MACHINE, DRIVERS_KEY), false)) ==> r == Ok([])
  {
    var keys :- Load(map[], query, HKEY_LOCAL_MACHINE, DRIVERS_KEY, false);
    NothingLoadedNoKey(HKEY_LOCAL_MACHINE, DRIVERS_KEY);
    GetDriverNames(MapRegistry(keys))
  }

  /** `getDrivers()`. */
  function GetDriversOf(query: Query): (r: Result<seq<Driver>, Exception>)
    ensures IsNotFound(query(FullKey(HKEY_LOCAL_MACHINE, DRIVER_KEY), true)) ==> r == Ok([])
  {
    var keys :- Load(map[], query, HKEY_LOCAL_MACHINE, DRIVER_KEY, true);
    NothingLoadedNoKey(HKEY_LOCAL_MACHINE, DRIVERS_KEY);
    GetDrivers(MapRegistry(keys))
  }

  lemma NothingLoadedNoKey(root: Root, key: string)
    ensures !KeyExists(map[], root, key)
  {
  }

  /** The driver names listed are the value names the query answered for the
      drivers key, in order, when they are distinct. */
  lemma DriverNamesFromQuery(query: Query)
    requires query(FullKey(HKEY_LOCAL_MACHINE, DRIVERS_KEY), false).Ok?
    requires FullKey(HKEY_LOCAL_MACHINE, DRIVERS_KEY) in query(FullKey(HKEY_LOCAL_MACHINE, DRIVERS_KEY), false).value
    requires DistinctStrings(EntryNames(query(FullKey(HKEY_LOCAL_MACHINE, DRIVERS_KEY), false).value[FullKey(HKEY_LOCAL_MACHINE, DRIVERS_KEY)]))
    ensures GetDriverNamesOf(query) ==
      Ok(EntryNames(query(FullKey(HKEY_LOCAL_MACHINE, DRIVERS_KEY), false).value[FullKey(HKEY_LOCAL_MACHINE, DRIVERS_KEY)]))
  {
    var target := FullKey(HKEY_LOCAL_MACHINE, DRIVERS_KEY);
    var found := query(target, false).value;
    var keys := map[] + found;
    assert keys == found;
    assert KeyExists(keys, HKEY_LOCAL_MACHINE, DRIVERS_KEY) by {
      assert StartsWith(target, target);
    }
  }

  /** A value name repeated under the drivers key makes listing the names fail. */
  lemma DuplicateDriverNameFails(query: Query)
    requires query(FullKey(HKEY_LOCAL_MACHINE, DRIVERS_KEY), false).Ok?
    requires FullKey(HKEY_LOCAL_MACHINE, DRIVERS_KEY) in query(FullKey(HKEY_LOCAL_MACHINE, DRIVERS_KEY), false).value
    requires !DistinctStrings(EntryNames(query(FullKey(HKEY_LOCAL_MACHINE, DRIVERS_KEY), false).value[FullKey(HKEY_LOCAL_MACHINE, DRIVERS_KEY)]))
    ensures GetDriverNamesOf(query).Err?
    ensures GetDriverNamesOf(query).error.IllegalState?
  {
    var target := FullKey(HKEY_LOCAL_MACHINE, DRIVERS_KEY);
    var found := query(target, false).value;
    var keys := map[] + found;
    assert keys == found;
    assert KeyExists(keys, HKEY_LOCAL_MACHINE, DRIVERS_KEY) by {
      assert StartsWith(target, target);
    }
  }
}

=== FILE: sql_func.dfy ===
/** `SqlFunc`: a function that may fail with an `SQLException`, and its
    composition helpers. */
module SqlFunc {
  import opened Wrappers
  import opened Exceptions

  /** `applyWithSql`: a result or the exception thrown. */
  type Func<!T, R> = T -> Result<R, Exception>

  /** Feeds the result of `f` to `g`; the first failure wins. */
  function Then<A, B, C>(f: Func<A, B>, g: Func<B, C>): Func<A, C> {
    (a: A) => var b :- f(a); g(b)
  }

  /** `identity()`. */
  function Identity<T(!new)>(): (r: Func<T, T>)
    ensures forall t :: r(t) == Ok(t)
  {
    (t: T) => Ok(t)
  }

  /** `f.compose(before)`: applies `before`, then `f`; a null
      `before` fails at once. */
  function Compose<V(!new), T, R>(f: Func<T, R>, before: Option<Func<V, T>>): (r: Result<Func<V, R>, Exception>)
    ensures before.None? ==> r == Err(RequireNonNullFailure())
    ensures before.Some? ==> r.Ok? && forall v ::
      r.value(v) == (if before.value(v).Err? then Err(before.value(v).error) else f(before.value(v).value))
  {
    if before.None? then Err(RequireNonNullFailure())
    else Ok(Then(before.value, f))
  }

  /** `f.andThen(after)`: applies `f`, then `after`; a null
      `after` fails at once. */
  function AndThen<T(!new), R, V>(f: Func<T, R>, after: Option<Func<R, V>>): (r: Result<Func<T, V>, Exception>)
    ensures after.None? ==> r == Err(RequireNonNullFailure())
    ensures after.Some? ==> r.Ok? && forall t ::
      r.value(t) == (if f(t).Err? then Err(f(t).error) else after.value(f(t).value))
  {
    if after.None? then Err(RequireNonNullFailure())
    else Ok(Then(f, after.value))
  }

  /** `f.compose(g)` and `g.andThen(f)` are the same function. */
  lemma ComposeIsFlippedAndThen<V(!new), T, R>(f: Func<T, R>, g: Func<V, T>, v: V)
    ensures Compose(f, Some(g)).value(v) == AndThen(g, Some(f)).value(v)
  {
  }

  /** The identity is neutral on both sides. */
  lemma IdentityNeutral<T(!new), R(!new)>(f: Func<T, R>, t: T)
    ensures Compose(f, Some(Identity<T>())).value(t) == f(t)
    ensures AndThen(f, Some(Identity<R>())).value(t) == f(t)
  {
    match f(t)
    case Ok(_) =>
    case Err(_) =>
  }

  /** Chaining with `andThen` is associative. */
  lemma AndThenAssociative<A(!new), B(!new), C, D>(f: Func<A, B>, g: Func<B, C>, h: Func<C, D>, a: A)
    ensures AndThen(AndThen(f, Some(g)).value, Some(h)).value(a) == AndThen(f, Some(AndThen(g, Some(h)).value)).value(a)
  {
  }

  /** When both functions fail, the composition fails with the error of the one
      applied first. */
  lemma FirstFailureWins<A(!new), B, C>(f: Func<A, B>, g: Func<B, C>, a: A)
    requires f(a).Err?
    ensures AndThen(f, Some(g)).value(a) == Err(f(a).error)
    ensures Compose(g, Some(f)).value(a) == Err(f(a).error)
  {
  }
}

=== FILE: sql_identifier_quoter.dfy ===
/** `SqlIdentifierQuoter`: decides whether an SQL identifier must be quoted and
    quotes it, doubling every quote string inside it. A quoter is built from a
    builder or loaded from a database's metadata. */
module SqlIdentifierQuoter {
  import opened Wrappers
  import opened Exceptions
  import opened JavaLang
  import opened JdbcUtil
  import opened SqlIdentifierStorageRule

  const DEFAULT_IDENTIFIER_QUOTE_STRING: string := "\""
  const NOT_SUPPORTED_IDENTIFIER_QUOTE_STRING: string := " "

  datatype Quoter = Quoter(
    quoteString: string,
    sqlKeywords: set<string>,
    unquotedStorageRule: StorageRule,
    extraNameCharacters: string)
  {
    /** A quoter whose quote string is not empty: the only kind whose
        proper-quoting scan finishes (see `EmptyQuoteStringNeverFinishes`). */
    predicate Valid() {
      |quoteString| > 0
    }
  }

  // ---------------------------------------------------------------------------
  // Recognising a properly quoted identifier

  /** State of the scan over the inside of a candidate quoted identifier:
      where the next search starts and whether the quotes seen so far pair up. */
  datatype ScanState = ScanState(begin: nat, even: bool)

  datatype ScanStep = Done(result: bool) | Next(state: ScanState)

  /** The identifier starts and ends with the quote string and is long enough to hold both. */
  predicate HasQuoteEnds(q: string, id: string) {
    StartsWith(id, q) && EndsWith(id, q) && |id| >= 2 * |q|
  }

  /** One iteration of the loop of `isProperlyQuoted`, with `end` the start of
      the closing quote string. Nothing here needs the quote string to be non-empty. */
  function ScanStepOf(q: string, id: string, st: ScanState): (r: ScanStep)
    requires |q| <= |id| && st.begin <= |id|
    ensures r.Next? ==> st.begin + |q| <= r.state.begin <= |id| - |q| + |q|
    ensures r.Next? ==> OccursAt(id, q, r.state.begin - |q|) && r.state.even != st.even
    ensures r.Next? && r.state.even ==> r.state.begin == st.begin + |q|
  {
    var end := |id| - |q|;
    if st.begin >= end then Done(st.even)
    else
      var next := IndexOf(id, q, st.begin);
      if next == -1 || next == end then Done(st.even)
      else if st.even then Next(ScanState(next + |q|, false))
      else if st.begin == next then Next(ScanState(next + |q|, true))
      else Done(false)
  }

  /** The loop of `isProperlyQuoted` run for at most `fuel` iterations; `None`
      when it has not finished by then. This is the loop as written, for any
      quote string. */
  function ScanFuel(q: string, id: string, st: ScanState, fuel: nat): (r: Option<bool>)
    requires |q| <= |id| && st.begin <= |id|
    decreases fuel
  {
    if fuel == 0 then None
    else match ScanStepOf(q, id, st)
      case Done(b) => Some(b)
      case Next(st2) => ScanFuel(q, id, st2, fuel - 1)
  }

  /** `isProperlyQuoted` as written, given a bound on the loop's iterations. */
  function IsProperlyQuotedAsWritten(q: string, id: string, fuel: nat): Option<bool> {
    if !HasQuoteEnds(q, id) then Some(false)
    else ScanFuel(q, id, ScanState(|q|, true), fuel)
  }

  /** With an empty quote string, `indexOf` finds the empty string where the
      search starts, the scan state flips between even and odd without moving,
      and the loop never ends on a non-empty identifier. */
  lemma {:induction false} EmptyQuoteStringNeverFinishes(id: string, fuel: nat)
    requires |id| > 0
    ensures IsProperlyQuotedAsWritten("", id, fuel) == None
  {
    EmptyQuoteStringStalls(id, true, fuel);
  }

  lemma {:induction false} EmptyQuoteStringStalls(id: string, even: bool, fuel: nat)
    requires |id| > 0
    ensures ScanFuel("", id, ScanState(0, even), fuel) == None
    decreases fuel
  {
    if fuel > 0 {
      assert IndexOf(id, "", 0) == 0 by {
        assert id[0..0] == "";
      }
      assert ScanStepOf("", id, ScanState(0, even)) == Next(ScanState(0, !even));
      EmptyQuoteStringStalls(id, !even, fuel - 1);
    }
  }

  /** The scan with a non-empty quote string: each iteration moves `begin`
      forward, so it always finishes. */
  function Scan(q: string, id: string, st: ScanState): bool
    requires 0 < |q| <= |id| && st.begin <= |id|
    decreases |id| - st.begin
  {
    match ScanStepOf(q, id, st)
    case Done(b) => b
    case Next(st2) => Scan(q, id, st2)
  }

  /** `isProperlyQuoted(identifier)` for a non-empty quote string. */
  predicate IsProperlyQuoted(q: string, id: string)
    requires |q| > 0
  {
    HasQuoteEnds(q, id) && Scan(q, id, ScanState(|q|, true))
  }

  /** With a non-empty quote string the loop as written finishes within
      `|id| + 1` iterations and agrees with `Scan`. */
  lemma {:induction false} ScanFuelFinishes(q: string, id: string, st: ScanState, fuel: nat)
    requires 0 < |q| <= |id| && st.begin <= |id|
    requires fuel > |id| - st.begin
    ensures ScanFuel(q, id, st, fuel) == Some(Scan(q, id, st))
    decreases |id| - st.begin
  {
    match ScanStepOf(q, id, st)
    case Done(b) =>
    case Next(st2) =>
      ScanFuelFinishes(q, id, st2, fuel - 1);
  }

  lemma AsWrittenFinishes(q: string, id: string)
    requires |q| > 0
    ensures IsProperlyQuotedAsWritten(q, id, |id| + 1) == Some(IsProperlyQuoted(q, id))
  {
    if HasQuoteEnds(q, id) {
      ScanFuelFinishes(q, id, ScanState(|q|, true), |id| + 1);
    }
  }

  // ---------------------------------------------------------------------------
  // Deciding whether to quote, and quoting

  /** `normalizeKeyword(input)`. */
  function NormalizeKeyword(input: string): (r: string)
    ensures |r| == |input|
    ensures forall i :: 0 <= i < |input| ==> r[i] == UpperChar(input[i])
    ensures IsValid(UPPER, r)
  {
    UpperCasedIsValid(input);
    ToUpper(input)
  }

  predicate IsSqlKeyword(qt: Quoter, id: string) {
    NormalizeKeyword(id) in qt.sqlKeywords
  }

  /** `breaksStorageRule` always answers false: the check against the storage
      rule is disabled in the code. */
  function BreaksStorageRule(qt: Quoter, id: string): (r: bool)
    ensures !r
  {
    false
  }

  /** The loop of `containsExtraCharacters` from position `i` on. */
  function ContainsExtraCharactersFrom(extras: string, id: string, i: nat): (r: bool)
    requires i <= |id|
    ensures r <==> exists k :: i <= k < |id| && id[k] in extras
    decreases |id| - i
  {
    if i == |id| then false
    else if id[i] in extras then true
    else ContainsExtraCharactersFrom(extras, id, i + 1)
  }

  predicate ContainsExtraCharacters(qt: Quoter, id: string) {
    ContainsExtraCharactersFrom(qt.extraNameCharacters, id, 0)
  }

  predicate ContainsQuoteStrings(qt: Quoter, id: string) {
    Contains(id, qt.quoteString)
  }

  predicate ContainsSpaces(id: string) {
    Contains(id, " ")
  }

  /** The reasons, other than `force`, for quoting an identifier. */
  predicate NeedsQuoting(qt: Quoter, id: string) {
    IsSqlKeyword(qt, id)
    || ContainsExtraCharacters(qt, id)
    || ContainsQuoteStrings(qt, id)
    || ContainsSpaces(id)
    || BreaksStorageRule(qt, id)
  }

  /** The same reasons, stated on characters rather than through the search helpers. */
  lemma NeedsQuotingIff(qt: Quoter, id: string)
    requires |qt.quoteString| == 1
    ensures NeedsQuoting(qt, id) <==>
      ToUpper(id) in qt.sqlKeywords
      || (exists k :: 0 <= k < |id| && id[k] in qt.extraNameCharacters)
      || qt.quoteString[0] in id
      || ' ' in id
  {
    ContainsCharIff(id, ' ');
    assert qt.quoteString == [qt.quoteString[0]];
    ContainsCharIff(id, qt.quoteString[0]);
  }

  /** `quoteIdentifier(identifier)`: the identifier between two quote strings,
      each inner quote string doubled. */
  function QuoteIdentifier(q: string, id: string): (r: string)
    requires |q| > 0
    ensures |r| >= |id| + 2 * |q|
    ensures StartsWith(r, q) && EndsWith(r, q)
  {
    ReplaceNotShorter(id, q, q + q);
    var r := q + Replace(id, q, q + q) + q;
    assert r[..|q|] == q;
    assert r[|r| - |q|..] == q;
    r
  }

  /** `quote(identifier, force)`. A properly quoted identifier comes back as it
      is; otherwise it is quoted when forced or when it needs quoting. */
  function Quote(qt: Quoter, id: string, force: bool): (r: string)
    requires qt.Valid()
    ensures IsProperlyQuoted(qt.quoteString, id) ==> r == id
    ensures r == id || r == QuoteIdentifier(qt.quoteString, id)
    ensures r == id <==> IsProperlyQuoted(qt.quoteString, id) || (!force && !NeedsQuoting(qt, id))
  {
    if IsProperlyQuoted(qt.quoteString, id) then id
    else if force || NeedsQuoting(qt, id) then QuoteIdentifier(qt.quoteString, id)
    else id
  }

  /** `quote(identifier)`: not forced. */
  function QuoteDefault(qt: Quoter, id: string): (r: string)
    requires qt.Valid()
    ensures r == id <==> IsProperlyQuoted(qt.quoteString, id) || !NeedsQuoting(qt, id)
  {
    Quote(qt, id, false)
  }

  /** `quote` with a possibly null identifier: null fails the non-null check. */
  function QuoteNullable(qt: Quoter, id: Option<string>, force: bool): (r: Result<string, Exception>)
    requires qt.Valid()
    ensures id.None? ==> r == Err(NonNullViolation("identifier"))
    ensures id.Some? ==> r.Ok? && (r.value == id.value || r.value == QuoteIdentifier(qt.quoteString, id.value))
  {
    match id
    case None => Err(NonNullViolation("identifier"))
    case Some(s) => Ok(Quote(qt, s, force))
  }

  // ---------------------------------------------------------------------------
  // Single-character quote strings: the scan recognises doubled quotes

  /** Every `c` in `t` belongs to an adjacent pair `cc`: `t` is an escaped body. */
  predicate Paired(c: char, t: string)
    decreases |t|
  {
    if |t| == 0 then true
    else if t[0] != c then Paired(c, t[1..])
    else |t| >= 2 && t[1] == c && Paired(c, t[2..])
  }

  /** Doubling every `c`, as `identifier.replace(q, q + q)` does. */
  function Escape(c: char, u: string): string {
    Replace(u, [c], [c, c])
  }

  /** The inverse of `Escape` on paired strings: each pair `cc` becomes `c`. */
  function Unescape(c: char, t: string): (r: string)
    requires Paired(c, t)
    ensures |r| <= |t|
    decreases |t|
  {
    if |t| == 0 then []
    else if t[0] != c then [t[0]] + Unescape(c, t[1..])
    else [c] + Unescape(c, t[2..])
  }

  /** Strips the outer quotes of a properly quoted identifier and undoes the doubling. */
  function Unquote(c: char, id: string): (r: string)
    requires |id| >= 2 && Paired(c, id[1..|id| - 1])
  {
    Unescape(c, id[1..|id| - 1])
  }

  lemma {:induction false} EscapeUnfold(c: char, u: string)
    requires |u| > 0
    ensures u[0] == c ==> Escape(c, u) == [c, c] + Escape(c, u[1..])
    ensures u[0] != c ==> Escape(c, u) == [u[0]] + Escape(c, u[1..])
  {
    assert u[..1] == [u[0]];
  }

  lemma {:induction false} EscapeIsPaired(c: char, u: string)
    ensures Paired(c, Escape(c, u))
    decreases |u|
  {
    if |u| > 0 {
      EscapeUnfold(c, u);
      EscapeIsPaired(c, u[1..]);
      var e := Escape(c, u);
      if u[0] == c {
        assert e[2..] == Escape(c, u[1..]);
      } else {
        assert e[1..] == Escape(c, u[1..]);
      }
    }
  }

  lemma {:induction false} UnescapeEscape(c: char, u: string)
    ensures Paired(c, Escape(c, u)) && Unescape(c, Escape(c, u)) == u
    decreases |u|
  {
    EscapeIsPaired(c, u);
    if |u| > 0 {
      EscapeUnfold(c, u);
      EscapeIsPaired(c, u[1..]);
      UnescapeEscape(c, u[1..]);
      var e := Escape(c, u);
      if u[0] == c {
        assert e[2..] == Escape(c, u[1..]);
      } else {
        assert e[1..] == Escape(c, u[1..]);
      }
      assert u == [u[0]] + u[1..];
    }
  }

  lemma {:induction false} EscapeUnescape(c: char, t: string)
    requires Paired(c, t)
    ensures Escape(c, Unescape(c, t)) == t
    decreases |t|
  {
    if |t| > 0 {
      var u := Unescape(c, t);
      if t[0] != c {
        EscapeUnescape(c, t[1..]);
        assert u[1..] == Unescape(c, t[1..]);
        EscapeUnfold(c, u);
        assert t == [t[0]] + t[1..];
      } else {
        EscapeUnescape(c, t[2..]);
        assert u[1..] == Unescape(c, t[2..]);
        EscapeUnfold(c, u);
        assert t == [c, c] + t[2..];
      }
    }
  }

  /** Searching for `[c]` from a position holding another character finds
      what searching from the next position finds. */
  lemma IndexOfSkip(id: string, c: char, b: nat)
    requires b < |id| && id[b] != c
    ensures IndexOf(id, [c], b) == IndexOf(id, [c], b + 1)
  {
    assert id[b..b + 1] == [id[b]];
  }

  lemma IndexOfHit(id: string, c: char, b: nat)
    requires b < |id| && id[b] == c
    ensures IndexOf(id, [c], b) == b
  {
    assert id[b..b + 1] == [id[b]];
  }

  /** Past a character that is not the quote, an even scan behaves as if it
      started one position later. */
  lemma ScanSkipsOther(c: char, id: string, b: nat)
    requires 2 <= |id| && id[|id| - 1] == c
    requires 1 <= b < |id| - 1 && id[b] != c
    ensures Scan([c], id, ScanState(b, true)) == Scan([c], id, ScanState(b + 1, true))
  {
    var end := |id| - 1;
    IndexOfSkip(id, c, b);
    if b + 1 == end {
      IndexOfHit(id, c, end);
    } else {
      assert ScanStepOf([c], id, ScanState(b, true)) == ScanStepOf([c], id, ScanState(b + 1, true));
    }
  }

  /** At a doubled quote an even scan goes on past both quotes. */
  lemma ScanAtDoubled(c: char, id: string, b: nat)
    requires 2 <= |id| && id[|id| - 1] == c
    requires 1 <= b && b + 1 < |id| - 1 && id[b] == c && id[b + 1] == c
    ensures Scan([c], id, ScanState(b, true)) == Scan([c], id, ScanState(b + 2, true))
  {
    IndexOfHit(id, c, b);
    assert ScanStepOf([c], id, ScanState(b, true)) == Next(ScanState(b + 1, false));
    IndexOfHit(id, c, b + 1);
    assert ScanStepOf([c], id, ScanState(b + 1, false)) == Next(ScanState(b + 2, true));
  }

  /** At a quote that is not doubled an even scan fails. */
  lemma ScanAtSingle(c: char, id: string, b: nat)
    requires 2 <= |id| && id[|id| - 1] == c
    requires 1 <= b < |id| - 1 && id[b] == c
    requires !(b + 1 < |id| - 1 && id[b + 1] == c)
    ensures !Scan([c], id, ScanState(b, true))
  {
    var end := |id| - 1;
    IndexOfHit(id, c, b);
    assert ScanStepOf([c], id, ScanState(b, true)) == Next(ScanState(b + 1, false));
    if b + 1 < end {
      assert OccursAt(id, [c], end);
      var next := IndexOf(id, [c], b + 1);
      assert next != -1 && next != b + 1;
      assert ScanStepOf([c], id, ScanState(b + 1, false)) == Done(false);
    }
  }

  /** From an even state the scan answers whether the rest of the body is paired. */
  lemma {:induction false} ScanIsPaired(c: char, id: string, b: nat)
    requires 2 <= |id| && id[|id| - 1] == c
    requires 1 <= b <= |id| - 1
    ensures Scan([c], id, ScanState(b, true)) == PairedFrom(c, id, b, |id| - 1)
    decreases |id| - b
  {
    var end := |id| - 1;
    if b == end {
      ScanAtEnd(c, id);
    } else if id[b] != c {
      ScanSkipsOther(c, id, b);
      ScanIsPaired(c, id, b + 1);
    } else if b + 1 < end && id[b + 1] == c {
      ScanAtDoubled(c, id, b);
      ScanIsPaired(c, id, b + 2);
    } else {
      ScanAtSingle(c, id, b);
    }
  }

  /** `Paired` read by position, on the part of `id` from `b` up to `end`. */
  predicate PairedFrom(c: char, id: string, b: nat, end: nat)
    requires b <= end <= |id|
    decreases end - b
  {
    if b == end then true
    else if id[b] != c then PairedFrom(c, id, b + 1, end)
    else b + 1 < end && id[b + 1] == c && PairedFrom(c, id, b + 2, end)
  }

  lemma {:induction false} PairedFromSlice(c: char, id: string, b: nat, end: nat)
    requires b <= end <= |id|
    ensures PairedFrom(c, id, b, end) == Paired(c, id[b..end])
    decreases end - b
  {
    if b < end {
      var t := id[b..end];
      if id[b] != c {
        PairedFromSlice(c, id, b + 1, end);
        assert t[1..] == id[b + 1..end];
      } else if b + 1 < end && id[b + 1] == c {
        PairedFromSlice(c, id, b + 2, end);
        assert t[2..] == id[b + 2..end];
      }
    }
  }

  lemma ScanAtEnd(c: char, id: string)
    requires 2 <= |id| && id[|id| - 1] == c
    ensures Scan([c], id, ScanState(|id| - 1, true))
  {
  }

  /** With a one-character quote string, an identifier is properly quoted
      exactly when it is quoted at both ends and every quote inside is doubled. */
  lemma ProperlyQuotedIff(c: char, id: string)
    ensures IsProperlyQuoted([c], id) <==>
      |id| >= 2 && id[0] == c && id[|id| - 1] == c && Paired(c, id[1..|id| - 1])
  {
    if |id| >= 2 && id[0] == c && id[|id| - 1] == c {
      assert id[..1] == [c];
      assert id[|id| - 1..] == [c];
      ScanIsPaired(c, id, 1);
      PairedFromSlice(c, id, 1, |id| - 1);
    }
  }

  /** Quoting always yields a properly quoted identifier, and unquoting it
      gives the original back. */
  lemma QuoteIdentifierRoundTrip(c: char, u: string)
    ensures IsProperlyQuoted([c], QuoteIdentifier([c], u))
    ensures var r := QuoteIdentifier([c], u); Paired(c, r[1..|r| - 1]) && Unquote(c, r) == u
  {
    var r := QuoteIdentifier([c], u);
    assert [c] + [c] == [c, c];
    assert r == [c] + Escape(c, u) + [c];
    assert r[1..|r| - 1] == Escape(c, u);
    EscapeIsPaired(c, u);
    UnescapeEscape(c, u);
    ProperlyQuotedIff(c, r);
  }

  /** The properly quoted identifiers are exactly the quoted ones. */
  lemma ProperlyQuotedIsQuoted(c: char, id: string)
    ensures IsProperlyQuoted([c], id) <==> exists u :: id == QuoteIdentifier([c], u)
  {
    if IsProperlyQuoted([c], id) {
      ProperlyQuotedIff(c, id);
      var u := Unquote(c, id);
      EscapeUnescape(c, id[1..|id| - 1]);
      assert id == [c] + id[1..|id| - 1] + [c];
      assert [c] + [c] == [c, c];
      assert id == QuoteIdentifier([c], u);
    }
    if exists u :: id == QuoteIdentifier([c], u) {
      var u :| id == QuoteIdentifier([c], u);
      QuoteIdentifierRoundTrip(c, u);
    }
  }

  /** Forced quoting with a one-character quote string always yields a properly
      quoted identifier. */
  lemma ForcedQuoteIsProperlyQuoted(qt: Quoter, id: string)
    requires |qt.quoteString| == 1
    ensures IsProperlyQuoted(qt.quoteString, Quote(qt, id, true))
  {
    var c := qt.quoteString[0];
    assert qt.quoteString == [c];
    QuoteIdentifierRoundTrip(c, id);
  }

  /** Whatever `quote` changes, unquoting gives the identifier back. */
  lemma QuoteUnquote(qt: Quoter, id: string, force: bool)
    requires |qt.quoteString| == 1
    ensures var r := Quote(qt, id, force);
      r != id ==> |r| >= 2 && Paired(qt.quoteString[0], r[1..|r| - 1]) && Unquote(qt.quoteString[0], r) == id
  {
    var c := qt.quoteString[0];
    assert qt.quoteString == [c];
    QuoteIdentifierRoundTrip(c, id);
  }

  /** Quoting a second time changes nothing, provided the second call is not
      forced when the first was not. */
  lemma QuoteIdempotent(qt: Quoter, id: string, first: bool, second: bool)
    requires |qt.quoteString| == 1
    requires second ==> first
    ensures Quote(qt, Quote(qt, id, first), second) == Quote(qt, id, first)
  {
    var c := qt.quoteString[0];
    assert qt.quoteString == [c];
    QuoteIdentifierRoundTrip(c, id);
  }

  /** The quoter used throughout the quoting expectations of the code's tests. */
  function TestQuoter(): (r: Quoter)
    ensures r.Valid()
  {
    Quoter("'", {"SELECT"}, UPPER, "+#")
  }

  /** A forced second call does quote an identifier the first call left alone. */
  lemma ForcingAfterNotForcingQuotes()
    ensures Quote(TestQuoter(), "abc", false) == "abc"
    ensures Quote(TestQuoter(), Quote(TestQuoter(), "abc", false), true) == "'abc'"
  {
    AbcLeftAlone();
    AbcQuoted();
  }

  lemma AbcLeftAlone()
    ensures !IsProperlyQuoted("'", "abc")
    ensures !NeedsQuoting(TestQuoter(), "abc")
  {
    assert "abc"[..1][0] == 'a';
    NeedsQuotingIff(TestQuoter(), "abc");
    assert ToUpper("abc") == "ABC";
  }

  lemma AbcQuoted()
    ensures QuoteIdentifier("'", "abc") == "'abc'"
  {
    EscapeAbsent('\'', "abc");
    assert "'" + "abc" + "'" == "'abc'";
  }

  /** Text without the quote character is not changed by escaping. */
  lemma {:induction false} EscapeAbsent(c: char, u: string)
    requires c !in u
    ensures Escape(c, u) == u
    decreases |u|
  {
    if |u| > 0 {
      EscapeUnfold(c, u);
      EscapeAbsent(c, u[1..]);
      assert u == [u[0]] + u[1..];
    }
  }

  /** With a two-character quote string forced quoting can yield an identifier
      the scan does not accept, so quoting again changes it. */
  lemma MultiCharQuoteNotIdempotent()
    ensures Quote(Quoter("aa", {}, UPPER, ""), "a", true) == "aaaaa"
    ensures !IsProperlyQuoted("aa", "aaaaa")
  {
    var qt := Quoter("aa", {}, UPPER, "");
    assert !HasQuoteEnds("aa", "a");
    assert Replace("a", "aa", "aaaa") == "a";
    assert QuoteIdentifier("aa", "a") == "aaaaa";
    assert HasQuoteEnds("aa", "aaaaa");
    IndexOfHitPair();
    assert ScanStepOf("aa", "aaaaa", ScanState(2, true)) == Next(ScanState(4, false));
    assert ScanStepOf("aa", "aaaaa", ScanState(4, false)) == Done(false);
  }

  lemma IndexOfHitPair()
    ensures IndexOf("aaaaa", "aa", 2) == 2
  {
    assert "aaaaa"[2..4] == "aa";
  }

  // ---------------------------------------------------------------------------
  // Building

  /** The Lombok builder: a field left unset is null. */
  datatype Builder = Builder(
    quoteString: Option<string>,
    sqlKeywords: set<string>,
    unquotedStorageRule: Option<StorageRule>,
    extraNameCharacters: Option<string>)

  /** `SqlIdentifierQuoter.builder()`: the double-quote, UPPER and no extra characters. */
  function NewBuilder(): (r: Builder)
    ensures r.quoteString == Some(DEFAULT_IDENTIFIER_QUOTE_STRING)
    ensures r.sqlKeywords == {} && r.extraNameCharacters == Some("")
    ensures r.unquotedStorageRule == Some(UPPER)
  {
    Builder(Some(DEFAULT_IDENTIFIER_QUOTE_STRING), {}, Some(UPPER), Some(""))
  }

  /** `build()`: the non-null fields are checked in declaration order. This
      accepts an empty quote string. */
  function Build(b: Builder): (r: Result<Quoter, Exception>)
    ensures r.Ok? <==> b.quoteString.Some? && b.unquotedStorageRule.Some? && b.extraNameCharacters.Some?
    ensures r.Ok? ==> r.value == Quoter(b.quoteString.value, b.sqlKeywords, b.unquotedStorageRule.value, b.extraNameCharacters.value)
    ensures b.quoteString.None? ==> r == Err(NonNullViolation("quoteString"))
    ensures b.quoteString.Some? && b.unquotedStorageRule.None? ==> r == Err(NonNullViolation("unquotedStorageRule"))
    ensures b.quoteString.Some? && b.unquotedStorageRule.Some? && b.extraNameCharacters.None? ==>
      r == Err(NonNullViolation("extraNameCharacters"))
  {
    if b.quoteString.None? then Err(NonNullViolation("quoteString"))
    else if b.unquotedStorageRule.None? then Err(NonNullViolation("unquotedStorageRule"))
    else if b.extraNameCharacters.None? then Err(NonNullViolation("extraNameCharacters"))
    else Ok(Quoter(b.quoteString.value, b.sqlKeywords, b.unquotedStorageRule.value, b.extraNameCharacters.value))
  }

  /** `build()` with the empty quote string refused, so that every quoter it
      yields can quote without looping. */
  function BuildChecked(b: Builder): (r: Result<Quoter, Exception>)
    ensures r.Ok? ==> r.value.Valid() && Build(b) == r
    ensures Build(b).Ok? && |Build(b).value.quoteString| > 0 ==> r == Build(b)
    ensures b.quoteString == Some("") ==> r.Err? && r.error.IllegalArgument?
  {
    if b.quoteString == Some("") then Err(IllegalArgument("quoteString is empty"))
    else Build(b)
  }

  /** `SqlIdentifierQuoter.DEFAULT`. */
  lemma DefaultQuoter()
    ensures BuildChecked(NewBuilder()) == Ok(Quoter("\"", {}, UPPER, ""))
  {
  }

  // ---------------------------------------------------------------------------
  // Loading from database metadata

  /** The answers a `DatabaseMetaData` gives to the calls made while loading a
      quoter; each call may fail with an `SQLException` and the string calls may
      answer null. */
  datatype DatabaseMetaData = DatabaseMetaData(
    identifierQuoteString: Result<Option<string>, Exception>,
    sqlKeywords: Result<Option<string>, Exception>,
    storesUpperCaseIdentifiers: Result<bool, Exception>,
    storesLowerCaseIdentifiers: Result<bool, Exception>,
    storesMixedCaseIdentifiers: Result<bool, Exception>,
    extraNameCharacters: Result<Option<string>, Exception>)

  /** `isUnexpectedIdentifierQuoteString`: the string is blank once trimmed. */
  predicate IsUnexpectedIdentifierQuoteString(s: string) {
    Trim(s) == []
  }

  /** `loadIdentifierQuoteString`: the reported quote string, or the double
      quote when the driver reports null, blanks or the "not supported" space. */
  function LoadIdentifierQuoteString(md: DatabaseMetaData): (r: Result<string, Exception>)
    ensures md.identifierQuoteString.Err? ==> r == Err(md.identifierQuoteString.error)
    ensures md.identifierQuoteString == Ok(None) ==> r == Ok(DEFAULT_IDENTIFIER_QUOTE_STRING)
    ensures md.identifierQuoteString.Ok? && md.identifierQuoteString.value.Some? ==>
      r == Ok(if AllTrimmable(md.identifierQuoteString.value.value) then DEFAULT_IDENTIFIER_QUOTE_STRING
               else md.identifierQuoteString.value.value)
    ensures r.Ok? ==> exists i :: 0 <= i < |r.value| && !IsTrimmable(r.value[i])
  {
    var reported :- md.identifierQuoteString;
    var s := UnexpectedNullToBlank(reported);
    TrimEmptyIff(s);
    TrimEmptyIff(DEFAULT_IDENTIFIER_QUOTE_STRING);
    assert !IsTrimmable(DEFAULT_IDENTIFIER_QUOTE_STRING[0]);
    if s == NOT_SUPPORTED_IDENTIFIER_QUOTE_STRING then Ok(DEFAULT_IDENTIFIER_QUOTE_STRING)
    else if IsUnexpectedIdentifierQuoteString(s) then Ok(DEFAULT_IDENTIFIER_QUOTE_STRING)
    else Ok(s)
  }

  /** The trimmed, non-empty, upper-cased pieces of a list of pieces. */
  function NormalizePieces(pieces: seq<string>): (r: seq<string>)
    ensures forall x :: x in r ==> x != [] && IsValid(UPPER, x)
    ensures forall x :: x in r <==> exists p :: p in pieces && Trim(p) != [] && x == NormalizeKeyword(Trim(p))
  {
    if |pieces| == 0 then []
    else
      var rest := NormalizePieces(pieces[1..]);
      assert forall p :: p in pieces <==> p == pieces[0] || p in pieces[1..];
      var t := Trim(pieces[0]);
      if t == [] then rest else [NormalizeKeyword(t)] + rest
  }

  /** `getSpecificKeywords(input)`: split on commas, trim, drop empty pieces,
      upper-case. */
  function GetSpecificKeywords(input: string): (r: seq<string>)
    ensures forall x :: x in r ==> x != [] && IsValid(UPPER, x)
    ensures forall x :: x in r <==>
      exists p :: p in Split(',', input) && Trim(p) != [] && x == NormalizeKeyword(Trim(p))
  {
    NormalizePieces(Split(',', input))
  }

  /** `loadSqlKeywords`: the driver's own keywords together with the standard
      reserved words, which are a parameter here. */
  function LoadSqlKeywords(md: DatabaseMetaData, standardKeywords: set<string>): (r: Result<set<string>, Exception>)
    ensures md.sqlKeywords.Err? ==> r == Err(md.sqlKeywords.error)
    ensures md.sqlKeywords.Ok? ==> r.Ok? && standardKeywords <= r.value
    ensures md.sqlKeywords.Ok? ==> forall x :: x in r.value - standardKeywords ==> x != [] && IsValid(UPPER, x)
    ensures md.sqlKeywords.Ok? ==> forall p :: p in Split(',', md.sqlKeywords.value.GetOr("")) && Trim(p) != [] ==>
      NormalizeKeyword(Trim(p)) in r.value
    ensures md.sqlKeywords.Ok? ==> forall x :: x in r.value ==>
      (x in standardKeywords
       || exists p :: p in Split(',', md.sqlKeywords.value.GetOr("")) && Trim(p) != [] && x == NormalizeKeyword(Trim(p)))
  {
    var reported :- md.sqlKeywords;
    var specific := GetSpecificKeywords(UnexpectedNullToBlank(reported));
    Ok((set x | x in specific) + standardKeywords)
  }

  /** `loadExtraNameCharacters`: the reported characters, null read as none. */
  function LoadExtraNameCharacters(md: DatabaseMetaData): (r: Result<string, Exception>)
    ensures md.extraNameCharacters.Err? ==> r == Err(md.extraNameCharacters.error)
    ensures md.extraNameCharacters == Ok(None) ==> r == Ok("")
    ensures md.extraNameCharacters.Ok? && md.extraNameCharacters.value.Some? ==> r == Ok(md.extraNameCharacters.value.value)
  {
    var reported :- md.extraNameCharacters;
    Ok(UnexpectedNullToBlank(reported))
  }

  /** `loadUnquotedIdentifierStorageRule`: upper, then lower, then mixed, asking
      each question only when the previous answer was no; UPPER by default. */
  function LoadUnquotedIdentifierStorageRule(md: DatabaseMetaData): (r: Result<StorageRule, Exception>)
    ensures r == Ok(LOWER) <==>
      md.storesUpperCaseIdentifiers == Ok(false) && md.storesLowerCaseIdentifiers == Ok(true)
    ensures r == Ok(MIXED) <==>
      md.storesUpperCaseIdentifiers == Ok(false) && md.storesLowerCaseIdentifiers == Ok(false)
      && md.storesMixedCaseIdentifiers == Ok(true)
    ensures r == Ok(UPPER) <==>
      md.storesUpperCaseIdentifiers == Ok(true)
      || (md.storesUpperCaseIdentifiers == Ok(false) && md.storesLowerCaseIdentifiers == Ok(false)
          && md.storesMixedCaseIdentifiers == Ok(false))
    ensures md.storesUpperCaseIdentifiers.Err? ==> r == Err(md.storesUpperCaseIdentifiers.error)
    ensures md.storesUpperCaseIdentifiers == Ok(false) && md.storesLowerCaseIdentifiers.Err? ==>
      r == Err(md.storesLowerCaseIdentifiers.error)
    ensures (md.storesUpperCaseIdentifiers == Ok(false) && md.storesLowerCaseIdentifiers == Ok(false)
             && md.storesMixedCaseIdentifiers.Err?) ==>
      r == Err(md.storesMixedCaseIdentifiers.error)
  {
    var upper :- md.storesUpperCaseIdentifiers;
    if upper then Ok(UPPER)
    else
      var lower :- md.storesLowerCaseIdentifiers;
      if lower then Ok(LOWER)
      else
        var mixed :- md.storesMixedCaseIdentifiers;
        if mixed then Ok(MIXED) else Ok(UPPER)
  }

  /** `SqlIdentifierQuoter.of(metaData)`: the four loads in order, the first
      failure ending the call; a null metadata fails the non-null check. */
  function Of(md: Option<DatabaseMetaData>, standardKeywords: set<string>): (r: Result<Quoter, Exception>)
    ensures md.None? ==> r == Err(NonNullViolation("metaData"))
    ensures r.Ok? ==> r.value.Valid() && standardKeywords <= r.value.sqlKeywords
    ensures r.Ok? ==> "" in r.value.sqlKeywords ==> "" in standardKeywords
    ensures md.Some? ==> (r.Ok? <==>
      LoadIdentifierQuoteString(md.value).Ok? && LoadSqlKeywords(md.value, standardKeywords).Ok?
      && LoadUnquotedIdentifierStorageRule(md.value).Ok? && LoadExtraNameCharacters(md.value).Ok?)
    ensures md.Some? && r.Ok? ==> r.value == Quoter(
      LoadIdentifierQuoteString(md.value).value, LoadSqlKeywords(md.value, standardKeywords).value,
      LoadUnquotedIdentifierStorageRule(md.value).value, LoadExtraNameCharacters(md.value).value)
    ensures md.Some? && md.value.identifierQuoteString.Err? ==> r == Err(md.value.identifierQuoteString.error)
    ensures md.Some? && md.value.identifierQuoteString.Ok? && md.value.sqlKeywords.Err? ==>
      r == Err(md.value.sqlKeywords.error)
    ensures (md.Some? && md.value.identifierQuoteString.Ok? && md.value.sqlKeywords.Ok?
             && LoadUnquotedIdentifierStorageRule(md.value).Err?) ==>
      r == Err(LoadUnquotedIdentifierStorageRule(md.value).error)
    ensures (md.Some? && md.value.identifierQuoteString.Ok? && md.value.sqlKeywords.Ok?
             && LoadUnquotedIdentifierStorageRule(md.value).Ok? && md.value.extraNameCharacters.Err?) ==>
      r == Err(md.value.extraNameCharacters.error)
  {
    if md.None? then Err(NonNullViolation("metaData"))
    else
      var m := md.value;
      var q :- LoadIdentifierQuoteString(m);
      var keywords :- LoadSqlKeywords(m, standardKeywords);
      var rule :- LoadUnquotedIdentifierStorageRule(m);
      var extras :- LoadExtraNameCharacters(m);
      Ok(Quoter(q, keywords, rule, extras))
  }
}

=== FILE: sql_identifier_storage_rule.dfy ===
/** How a database stores identifiers that were written without quotes. */
module SqlIdentifierStorageRule {
  import opened JavaLang

  datatype StorageRule = UPPER | LOWER | MIXED

  /** `rule.isValid(identifier)`: the identifier is already in the case the
      database stores unquoted identifiers in. */
  predicate IsValid(rule: StorageRule, identifier: string) {
    match rule
    case UPPER => ToUpper(identifier) == identifier
    case LOWER => ToLower(identifier) == identifier
    case MIXED => true
  }

  /** An identifier is valid under UPPER exactly when it holds no lower-case
      letter, and under LOWER exactly when it holds no upper-case letter. */
  lemma IsValidIff(rule: StorageRule, identifier: string)
    ensures rule == UPPER ==>
      (IsValid(rule, identifier) <==> forall i :: 0 <= i < |identifier| ==> !IsLowerLetter(identifier[i]))
    ensures rule == LOWER ==>
      (IsValid(rule, identifier) <==> forall i :: 0 <= i < |identifier| ==> !IsUpperLetter(identifier[i]))
    ensures rule == MIXED ==> IsValid(rule, identifier)
  {
    ToUpperFixedIff(identifier);
    ToLowerFixedIff(identifier);
  }

  /** Upper-casing makes any identifier valid under UPPER. */
  lemma UpperCasedIsValid(identifier: string)
    ensures IsValid(UPPER, ToUpper(identifier))
  {
    ToUpperIdempotent(identifier);
  }
}

=== FILE: sql_table.dfy ===
/** `SqlTable`: the description of a table as listed by
    `DatabaseMetaData.getTables`, read column by column into a map keyed by the
    upper-cased column names. */
module SqlTable {
  import opened Wrappers
  import opened Exceptions
  import opened JavaLang
  import opened JdbcUtil

  /** One table; the fields that may be null are `Option`s. */
  datatype Table = Table(
    catalog: Option<string>,
    schema: Option<string>,
    name: string,
    tableType: string,
    remarks: Option<string>,
    typesCatalog: Option<string>,
    typesSchema: Option<string>,
    typeName: Option<string>,
    selfReferencingColumnName: Option<string>,
    refGeneration: Option<string>)

  /** The result set of `getTables`: its column names and its rows, each row
      either the column values (null as `None`) or the error reading it. */
  datatype ResultSet = ResultSet(columnNames: seq<string>, rows: seq<Result<seq<Option<string>>, Exception>>) {
    /** Every row holds one value per column, as JDBC guarantees. */
    predicate WellFormed() {
      forall k :: 0 <= k < |rows| && rows[k].Ok? ==> |rows[k].value| == |columnNames|
    }
  }

  type TableResultSet = rs: ResultSet | rs.WellFormed() witness ResultSet([], [])

  /** What `getTables(catalog, schemaPattern, tableNamePattern, types)` answers. */
  type GetTables = (Option<string>, Option<string>, string, Option<seq<string>>) -> Result<TableResultSet, Exception>

  /** The `HashMap<String, String>` holding the current row. */
  type Row = map<string, Option<string>>

  /** `map.get(key)`: null both for a missing key and for a null value. */
  function Lookup(m: Row, key: string): Option<string> {
    if key in m then m[key] else None
  }

  /** `get(map, keys...)`: the value of the first key whose value is not null. */
  function Get(m: Row, keys: seq<string>): (r: Option<string>)
    ensures r.Some? ==>
              exists i :: 0 <= i < |keys| && Lookup(m, keys[i]) == r && (forall j :: 0 <= j < i ==> Lookup(m, keys[j]).None?)
    ensures r.None? <==> forall i :: 0 <= i < |keys| ==> Lookup(m, keys[i]).None?
  {
    if |keys| == 0 then None
    else if Lookup(m, keys[0]).Some? then Lookup(m, keys[0])
    else
      var rest := Get(m, keys[1..]);
      assert forall i :: 1 <= i < |keys| ==> keys[i] == keys[1..][i - 1];
      rest
  }

  /** A two-key `get` prefers the first key. */
  lemma GetTwo(m: Row, first: string, second: string)
    ensures Get(m, [first, second]) == if Lookup(m, first).Some? then Lookup(m, first) else Lookup(m, second)
  {
    assert [first, second][1..] == [second];
  }

  /** `fromMap(map)`: the catalog and schema fall back on their JDBC 4 column
      names; the name and type are never null, since `nullToEmpty` reads null
      as `""` just as `JdbcUtil.unexpectedNullToBlank` does. */
  function FromMap(m: Row): (r: Table)
    ensures r.catalog == (if Lookup(m, "TABLE_CAT").Some? then Lookup(m, "TABLE_CAT") else Lookup(m, "TABLE_CATALOG"))
    ensures r.schema == (if Lookup(m, "TABLE_SCHEM").Some? then Lookup(m, "TABLE_SCHEM") else Lookup(m, "TABLE_SCHEMA"))
    ensures Lookup(m, "TABLE_NAME").Some? ==> r.name == Lookup(m, "TABLE_NAME").value
    ensures Lookup(m, "TABLE_NAME").None? ==> r.name == ""
    ensures r.remarks == Lookup(m, "REMARKS")
  {
    GetTwo(m, "TABLE_CAT", "TABLE_CATALOG");
    GetTwo(m, "TABLE_SCHEM", "TABLE_SCHEMA");
    Table(
      Get(m, ["TABLE_CAT", "TABLE_CATALOG"]),
      Get(m, ["TABLE_SCHEM", "TABLE_SCHEMA"]),
      UnexpectedNullToBlank(Get(m, ["TABLE_NAME"])),
      UnexpectedNullToBlank(Get(m, ["TABLE_TYPE"])),
      Get(m, ["REMARKS"]),
      Get(m, ["TYPE_CAT"]),
      Get(m, ["TYPE_SCHEM"]),
      Get(m, ["TYPE_NAME"]),
      Get(m, ["SELF_REFERENCING_COL_NAME"]),
      Get(m, ["REF_GENERATION"]))
  }

  /** The type is never null either; the other fields are the values of
      their own columns, null when missing. */
  lemma FromMapOtherFields(m: Row)
    ensures Lookup(m, "TABLE_TYPE").Some? ==> FromMap(m).tableType == Lookup(m, "TABLE_TYPE").value
    ensures Lookup(m, "TABLE_TYPE").None? ==> FromMap(m).tableType == ""
    ensures FromMap(m).typesCatalog == Lookup(m, "TYPE_CAT") && FromMap(m).typesSchema == Lookup(m, "TYPE_SCHEM")
    ensures FromMap(m).typeName == Lookup(m, "TYPE_NAME")
    ensures FromMap(m).selfReferencingColumnName == Lookup(m, "SELF_REFERENCING_COL_NAME")
    ensures FromMap(m).refGeneration == Lookup(m, "REF_GENERATION")
  {
  }

  /** `getNormalizedColumnNames`: the column names upper-cased, because some
      drivers report them in lower case. */
  function NormalizedColumnNames(names: seq<string>): (r: seq<string>)
    ensures |r| == |names|
    ensures forall i :: 0 <= i < |names| ==> r[i] == ToUpper(names[i])
  {
    seq(|names|, i requires 0 <= i < |names| => ToUpper(names[i]))
  }

  /** The inner loop of `allOf(rs)`: `row.put(names[i], values[i])` in order. */
  function PutRow(m: Row, names: seq<string>, values: seq<Option<string>>): (r: Row)
    requires |names| == |values|
    ensures forall k :: k in r <==> k in m || k in names
    decreases |names|
  {
    if |names| == 0 then m else PutRow(m[names[0] := values[0]], names[1..], values[1..])
  }

  /** `PutRow` leaves a key that is not a column name alone. */
  lemma {:induction false} PutRowKeeps(m: Row, names: seq<string>, values: seq<Option<string>>, k: string)
    requires |names| == |values| && k in m && k !in names
    ensures PutRow(m, names, values)[k] == m[k]
    decreases |names|
  {
    if |names| > 0 {
      PutRowKeeps(m[names[0] := values[0]], names[1..], values[1..], k);
    }
  }

  /** Two maps filled with the same row agree on every column name, whatever
      they held before. */
  lemma {:induction false} PutRowAgrees(m1: Row, m2: Row, names: seq<string>, values: seq<Option<string>>)
    requires |names| == |values|
    ensures forall k :: k in names ==> PutRow(m1, names, values)[k] == PutRow(m2, names, values)[k]
    decreases |names|
  {
    if |names| > 0 {
      PutRowAgrees(m1[names[0] := values[0]], m2[names[0] := values[0]], names[1..], values[1..]);
      forall k | k in names && k !in names[1..]
        ensures PutRow(m1, names, values)[k] == PutRow(m2, names, values)[k]
      {
        assert k == names[0];
        PutRowKeeps(m1[names[0] := values[0]], names[1..], values[1..], k);
        PutRowKeeps(m2[names[0] := values[0]], names[1..], values[1..], k);
      }
    }
  }

  /** Re-using the row map from one row to the next makes no difference as long
      as it only ever held these column names: every key gets overwritten. */
  lemma ReusedRowIsFresh(m: Row, names: seq<string>, values: seq<Option<string>>)
    requires |names| == |values|
    requires forall k :: k in m ==> k in names
    ensures PutRow(m, names, values) == PutRow(map[], names, values)
  {
    PutRowAgrees(m, map[], names, values);
  }

  /** The outer loop of `allOf(rs)`, with the map `row` carried from row to
      row; the first row that cannot be read ends the loop. */
  function ReadRows(names: seq<string>, rows: seq<Result<seq<Option<string>>, Exception>>, row: Row): (r: Result<seq<Table>, Exception>)
    requires forall k :: 0 <= k < |rows| && rows[k].Ok? ==> |rows[k].value| == |names|
    ensures r.Ok? ==> |r.value| == |rows|
  {
    if |rows| == 0 then Ok([])
    else if rows[0].Err? then Err(rows[0].error)
    else
      var next := PutRow(row, names, rows[0].value);
      var rest :- ReadRows(names, rows[1..], next);
      Ok([FromMap(next)] + rest)
  }

  /** The table a fresh map filled with one row gives. */
  function TableOfRow(names: seq<string>, values: seq<Option<string>>): Table
    requires |names| == |values|
  {
    FromMap(PutRow(map[], names, values))
  }

  /** The table is what a fresh map filled with the row gives. */
  predicate RowGives(names: seq<string>, row: Result<seq<Option<string>>, Exception>, table: Table) {
    row.Ok? && |row.value| == |names| && table == TableOfRow(names, row.value)
  }

  /** Each table is what a fresh map filled with the matching row gives. */
  predicate TablesOfRows(names: seq<string>, rows: seq<Result<seq<Option<string>>, Exception>>, tables: seq<Table>) {
    |tables| == |rows| && forall k :: 0 <= k < |rows| ==> RowGives(names, rows[k], tables[k])
  }

  /** Reading the rows through the shared map gives, for every row, the table a
      fresh map would give. */
  lemma {:induction false} ReadRowsMeaning(names: seq<string>, rows: seq<Result<seq<Option<string>>, Exception>>, row: Row)
    requires forall k :: 0 <= k < |rows| && rows[k].Ok? ==> |rows[k].value| == |names|
    requires forall k :: k in row ==> k in names
    requires ReadRows(names, rows, row).Ok?
    ensures TablesOfRows(names, rows, ReadRows(names, rows, row).value)
    decreases |rows|
  {
    if |rows| > 0 {
      var next := PutRow(row, names, rows[0].value);
      ReadRowsCons(names, rows, row);
      ReadRowsMeaning(names, rows[1..], next);
      var tables := ReadRows(names, rows, row).value;
      assert tables[1..] == ReadRows(names, rows[1..], next).value;
      TablesOfRowsCons(names, rows, tables);
    }
  }

  /** The first table of the rows is the one of the first row, read afresh. */
  lemma ReadRowsCons(names: seq<string>, rows: seq<Result<seq<Option<string>>, Exception>>, row: Row)
    requires forall k :: 0 <= k < |rows| && rows[k].Ok? ==> |rows[k].value| == |names|
    requires forall k :: k in row ==> k in names
    requires |rows| > 0 && ReadRows(names, rows, row).Ok?
    ensures rows[0].Ok?
    ensures ReadRows(names, rows[1..], PutRow(row, names, rows[0].value)).Ok?
    ensures ReadRows(names, rows, row).value ==
              [TableOfRow(names, rows[0].value)] + ReadRows(names, rows[1..], PutRow(row, names, rows[0].value)).value
  {
    ReusedRowIsFresh(row, names, rows[0].value);
  }

  lemma TablesOfRowsCons(names: seq<string>, rows: seq<Result<seq<Option<string>>, Exception>>, tables: seq<Table>)
    requires |rows| > 0 && |tables| == |rows|
    requires RowGives(names, rows[0], tables[0]) && TablesOfRows(names, rows[1..], tables[1..])
    ensures TablesOfRows(names, rows, tables)
  {
    forall k | 0 < k < |rows| ensures RowGives(names, rows[k], tables[k]) {
      assert rows[k] == rows[1..][k - 1];
      assert tables[k] == tables[1..][k - 1];
    }
  }

  /** Reading fails with the error of the first row that cannot be read. */
  lemma {:induction false} ReadRowsFirstError(names: seq<string>, rows: seq<Result<seq<Option<string>>, Exception>>, row: Row)
    requires forall k :: 0 <= k < |rows| && rows[k].Ok? ==> |rows[k].value| == |names|
    requires ReadRows(names, rows, row).Err?
    ensures var e := ReadRows(names, rows, row).error;
      exists k :: 0 <= k < |rows| && rows[k] == Err(e) && (forall j :: 0 <= j < k ==> rows[j].Ok?)
    decreases |rows|
  {
    var e := ReadRows(names, rows, row).error;
    if rows[0].Err? {
      assert rows[0] == Err(e);
    } else {
      var next := PutRow(row, names, rows[0].value);
      ReadRowsFirstError(names, rows[1..], next);
      assert ReadRows(names, rows[1..], next) == Err(e);
      var k :| 0 <= k < |rows[1..]| && rows[1..][k] == Err(e) && (forall j :: 0 <= j < k ==> rows[1..][j].Ok?);
      assert rows[k + 1] == Err(e);
      forall j | 0 < j < k + 1 ensures rows[j].Ok? {
        assert rows[j] == rows[1..][j - 1];
      }
    }
  }

  /** `allOf(md, catalog, schemaPattern, tableNamePattern, types)`; a null
      metadata or table name pattern fails before the query. */
  function AllOf(
    md: Option<GetTables>,
    catalog: Option<string>,
    schemaPattern: Option<string>,
    tableNamePattern: Option<string>,
    types: Option<seq<string>>): (r: Result<seq<Table>, Exception>)
    ensures md.None? ==> r == Err(RequireNonNullFailureWith("md"))
    ensures md.Some? && tableNamePattern.None? ==> r == Err(RequireNonNullFailureWith("tableNamePattern"))
    ensures md.Some? && tableNamePattern.Some? ==>
      var rs := md.value(catalog, schemaPattern, tableNamePattern.value, types);
      (rs.Err? ==> r == Err(rs.error))
      && (r.Ok? ==> rs.Ok? && |r.value| == |rs.value.rows|)
  {
    if md.None? then Err(RequireNonNullFailureWith("md"))
    else if tableNamePattern.None? then Err(RequireNonNullFailureWith("tableNamePattern"))
    else
      var rs :- md.value(catalog, schemaPattern, tableNamePattern.value, types);
      ReadRows(NormalizedColumnNames(rs.columnNames), rs.rows, map[])
  }

  /** Every table read from a row names the table of that row's TABLE_NAME
      column, whatever the case in which the driver spells the column. */
  lemma AllOfNames(md: GetTables, catalog: Option<string>, schemaPattern: Option<string>, tableNamePattern: string,
                   types: Option<seq<string>>, k: nat, i: nat)
    requires AllOf(Some(md), catalog, schemaPattern, Some(tableNamePattern), types).Ok?
    requires var rs := md(catalog, schemaPattern, tableNamePattern, types).value;
      k < |rs.rows| && i < |rs.columnNames| && ToUpper(rs.columnNames[i]) == "TABLE_NAME"
      && (forall j :: i < j < |rs.columnNames| ==> ToUpper(rs.columnNames[j]) != "TABLE_NAME")
      && rs.rows[k].Ok? && rs.rows[k].value[i].Some?
    ensures var rs := md(catalog, schemaPattern, tableNamePattern, types).value;
      AllOf(Some(md), catalog, schemaPattern, Some(tableNamePattern), types).value[k].name == rs.rows[k].value[i].value
  {
    var rs := md(catalog, schemaPattern, tableNamePattern, types).value;
    var names := NormalizedColumnNames(rs.columnNames);
    assert ReadRows(names, rs.rows, map[]) == AllOf(Some(md), catalog, schemaPattern, Some(tableNamePattern), types);
    RowNameRead(names, rs.rows, AllOf(Some(md), catalog, schemaPattern, Some(tableNamePattern), types).value, k, i);
  }

  /** The table read from a row is named by the last `TABLE_NAME` column. */
  lemma RowNameRead(names: seq<string>, rows: seq<Result<seq<Option<string>>, Exception>>, tables: seq<Table>, k: nat, i: nat)
    requires forall k :: 0 <= k < |rows| && rows[k].Ok? ==> |rows[k].value| == |names|
    requires ReadRows(names, rows, map[]) == Ok(tables)
    requires k < |rows| && i < |names| && names[i] == "TABLE_NAME"
    requires forall j :: i < j < |names| ==> names[j] != "TABLE_NAME"
    requires rows[k].Ok? && rows[k].value[i].Some?
    ensures tables[k].name == rows[k].value[i].value
  {
    ReadRowsMeaning(names, rows, map[]);
    LastPutWins(map[], names, rows[k].value, i);
  }

  /** After `PutRow`, a column holds the value of its last occurrence. */
  lemma {:induction false} LastPutWins(m: Row, names: seq<string>, values: seq<Option<string>>, i: nat)
    requires |names| == |values| && i < |names|
    requires forall j :: i < j < |names| ==> names[j] != names[i]
    ensures PutRow(m, names, values)[names[i]] == values[i]
    decreases |names|
  {
    if i > 0 {
      LastPutWins(m[names[0] := values[0]], names[1..], values[1..], i - 1);
    } else {
      assert names[0] !in names[1..];
      PutRowKeeps(m[names[0] := values[0]], names[1..], values[1..], names[0]);
    }
  }

  /** `allOf(md)`: every catalog, schema, name and type. */
  function AllOfEverything(md: Option<GetTables>): (r: Result<seq<Table>, Exception>)
    ensures md.None? ==> r == Err(RequireNonNullFailureWith("md"))
    ensures md.Some? && md.value(None, None, "%", None).Err? ==> r == Err(md.value(None, None, "%", None).error)
  {
    AllOf(md, None, None, Some("%"), None)
  }
}

=== FILE: tab_data_reader.dfy ===
/** `TabDataReader`: the tab-separated reply of a LHOD script. A reply starts
    with two header lines, the column names and the column type codes; data
    lines follow. A line with no field announces a remote error, described by
    the next line as an error code and a message.

    The tokenizer is not modelled: a reply is given as its lines, each the
    sequence of its fields, where `[]` is a line with no field. */
module TabDataReader {
  import opened Wrappers
  import opened Exceptions
  import opened JavaLang

  type Line = seq<string>

  /** `TabDataColumn`: a column name and its ADO type code. */
  datatype Column = Column(name: string, typeCode: int)

  /** The reader: the lines not read yet, the columns, the current row (null
      until written) and the closed flag. */
  datatype Reader = Reader(rest: seq<Line>, columns: seq<Column>, currentRow: seq<Option<string>>, closed: bool)

  // ---------------------------------------------------------------------------
  // Reading

  /** `parseError(reader)`: the error announced by a line with no field, read
      from the lines after it. */
  function ParseError(lines: seq<Line>): (e: Exception)
    ensures e.TabDataFormat? || e.TabDataRemote?
    ensures e.TabDataRemote? <==> |lines| > 0 && |lines[0]| >= 2 && ParseInt(lines[0][0]).Some?
    ensures e.TabDataRemote? ==> e == TabDataRemote(lines[0][1], ParseInt(lines[0][0]).value)
    ensures |lines| == 0 ==> e == TabDataFormat("Expected error on next row")
  {
    if |lines| == 0 then TabDataFormat("Expected error on next row")
    else if |lines[0]| == 0 then TabDataFormat("Expected error code on next field")
    else if |lines[0]| == 1 then TabDataFormat("Expected error description on next field")
    else match ParseInt(lines[0][0])
      case None => TabDataFormat("Cannot parse error code")
      case Some(code) => TabDataRemote(lines[0][1], code)
  }

  /** `readHeader(reader, id)`: the fields of the next line, which must exist
      and have at least one field. */
  function ReadHeader(lines: seq<Line>, id: string): (r: Result<(Line, seq<Line>), Exception>)
    ensures |lines| == 0 ==> r == Err(TabDataFormat("Expected header " + id))
    ensures |lines| > 0 && |lines[0]| == 0 ==> r == Err(ParseError(lines[1..]))
    ensures r.Ok? <==> |lines| > 0 && |lines[0]| > 0
    ensures r.Ok? ==> r.value == (lines[0], lines[1..])
  {
    if |lines| == 0 then Err(TabDataFormat("Expected header " + id))
    else if |lines[0]| == 0 then Err(ParseError(lines[1..]))
    else Ok((lines[0], lines[1..]))
  }

  /** The columns named by `names`, typed by the parsed `types`; the first
      type that is not an integer fails. */
  function ToColumns(names: seq<string>, types: seq<string>): (r: Result<seq<Column>, Exception>)
    requires |names| == |types|
    ensures r.Ok? <==> forall i :: 0 <= i < |types| ==> ParseInt(types[i]).Some?
    ensures r.Err? ==> r.error == TabDataFormat("Cannot parse type code")
    ensures r.Ok? ==> |r.value| == |names|
    ensures r.Ok? ==> forall i :: 0 <= i < |names| ==> r.value[i] == Column(names[i], ParseInt(types[i]).value)
    decreases |names|
  {
    if |names| == 0 then Ok([])
    else match ParseInt(types[0])
      case None => Err(TabDataFormat("Cannot parse type code"))
      case Some(code) =>
        var tail :- ToColumns(names[1..], types[1..]);
        assert forall i :: 1 <= i < |types| ==> types[i] == types[1..][i - 1];
        Ok([Column(names[0], code)] + tail)
  }

  /** `readColumnHeaders(reader)`: names, then types of the same length. */
  function ReadColumnHeaders(lines: seq<Line>): (r: Result<(seq<Column>, seq<Line>), Exception>)
    ensures r.Ok? ==> |lines| >= 2 && r.value.1 == lines[2..]
    ensures r.Ok? ==> |r.value.0| == |lines[0]| > 0
    ensures r.Ok? ==> forall i :: 0 <= i < |lines[0]| ==> r.value.0[i].name == lines[0][i]
    ensures r.Ok? ==> |lines[1]| == |lines[0]|
    ensures r.Ok? ==> forall i :: 0 <= i < |lines[0]| ==>
              ParseInt(lines[1][i]).Some? && r.value.0[i].typeCode == ParseInt(lines[1][i]).value
    ensures r.Ok? <==> |lines| >= 2 && |lines[0]| == |lines[1]| > 0
                       && forall i :: 0 <= i < |lines[1]| ==> ParseInt(lines[1][i]).Some?
    ensures |lines| == 0 ==> r == Err(TabDataFormat("Expected header names"))
    ensures |lines| > 0 && |lines[0]| == 0 ==> r == Err(ParseError(lines[1..]))
    ensures |lines| >= 2 && |lines[0]| > 0 && |lines[1]| == 0 ==> r == Err(ParseError(lines[2..]))
    ensures |lines| == 1 && |lines[0]| > 0 ==> r == Err(TabDataFormat("Expected header types"))
    ensures |lines| >= 2 && |lines[0]| > 0 && |lines[1]| > 0 && |lines[0]| != |lines[1]| ==>
              r == Err(TabDataFormat("Invalid data type length: expected '" + IntToString(|lines[0]|) +
                                     "', found '" + IntToString(|lines[1]|) + "'"))
    ensures (|lines| >= 2 && |lines[0]| == |lines[1]| > 0
             && exists i :: 0 <= i < |lines[1]| && ParseInt(lines[1][i]).None?) ==>
              r == Err(TabDataFormat("Cannot parse type code"))
  {
    assert "Expected header " + "names" == "Expected header names";
    assert "Expected header " + "types" == "Expected header types";
    match ReadHeader(lines, "names")
    case Err(e) => Err(e)
    case Ok((names, afterNames)) =>
    match ReadHeader(afterNames, "types")
    case Err(e) => Err(e)
    case Ok((types, afterTypes)) =>
    if |names| != |types| then
      Err(TabDataFormat("Invalid data type length: expected '" + IntToString(|names|) +
                        "', found '" + IntToString(|types|) + "'"))
    else
      var columns :- ToColumns(names, types);
      assert afterTypes == lines[2..];
      Ok((columns, afterTypes))
  }

  /** `of(reader)`: reads the headers; the current row starts all null. */
  function Of(lines: seq<Line>): (r: Result<Reader, Exception>)
    ensures r.Ok? <==> ReadColumnHeaders(lines).Ok?
    ensures r.Ok? ==> r.value.columns == ReadColumnHeaders(lines).value.0 && |r.value.columns| > 0
    ensures r.Ok? ==> r.value.rest == lines[2..] && !r.value.closed
    ensures r.Ok? ==> |r.value.currentRow| == |r.value.columns|
    ensures r.Ok? ==> forall i :: 0 <= i < |r.value.currentRow| ==> r.value.currentRow[i].None?
  {
    var (columns, rest) :- ReadColumnHeaders(lines);
    Ok(Reader(rest, columns, seq(|columns|, _ => None), false))
  }

  /** The current row after writing `line` at its first positions. */
  function Fill(row: seq<Option<string>>, line: Line): (r: seq<Option<string>>)
    requires |line| <= |row|
    ensures |r| == |row|
    ensures forall i :: 0 <= i < |line| ==> r[i] == Some(line[i])
    ensures forall i :: |line| <= i < |row| ==> r[i] == row[i]
  {
    seq(|line|, i requires 0 <= i < |line| => Some(line[i])) + row[|line|..]
  }

  /** `readNextRow()`: false at the end of the reply; otherwise the next line is
      written into the current row. A line with no field announces an error,
      and a line longer than the row overflows the row array. */
  function ReadNextRow(r: Reader): (result: Result<(bool, Reader), Exception>)
    ensures |r.rest| == 0 ==> result == Ok((false, r))
    ensures |r.rest| > 0 && |r.rest[0]| == 0 ==> result == Err(ParseError(r.rest[1..]))
    ensures |r.rest| > 0 && |r.rest[0]| > |r.currentRow| ==> result == Err(IndexOutOfBounds(|r.currentRow|))
    ensures result.Ok? && result.value.0 ==>
              var next := result.value.1;
              next.rest == r.rest[1..] && next.columns == r.columns && next.closed == r.closed &&
              |next.currentRow| == |r.currentRow| &&
              (forall i :: 0 <= i < |r.rest[0]| ==> next.currentRow[i] == Some(r.rest[0][i])) &&
              (forall i :: |r.rest[0]| <= i < |r.currentRow| ==> next.currentRow[i] == r.currentRow[i])
    ensures result.Ok? <==> |r.rest| == 0 || 0 < |r.rest[0]| <= |r.currentRow|
  {
    if |r.rest| == 0 then Ok((false, r))
    else
      var line := r.rest[0];
      if |line| == 0 then Err(ParseError(r.rest[1..]))
      else if |line| > |r.currentRow| then Err(IndexOutOfBounds(|r.currentRow|))
      else Ok((true, r.(rest := r.rest[1..], currentRow := Fill(r.currentRow, line))))
  }

  /** `get(index)`: the value at `index` of the current row. */
  function Get(r: Reader, index: int): (result: Result<Option<string>, Exception>)
    ensures 0 <= index < |r.currentRow| ==> result == Ok(r.currentRow[index])
    ensures !(0 <= index < |r.currentRow|) ==> result == Err(IndexOutOfBounds(index))
  {
    if 0 <= index < |r.currentRow| then Ok(r.currentRow[index]) else Err(IndexOutOfBounds(index))
  }

  /** `close()`. */
  function Close(r: Reader): (result: Reader)
    ensures IsClosed(result)
    ensures result.rest == r.rest && result.columns == r.columns && result.currentRow == r.currentRow
  {
    r.(closed := true)
  }

  /** `isClosed()`. */
  predicate IsClosed(r: Reader) {
    r.closed
  }

  /** Reads rows until the end, collecting the current row after each read. */
  function ReadAll(r: Reader): (result: Result<seq<seq<Option<string>>>, Exception>)
    decreases |r.rest|
  {
    var (more, next) :- ReadNextRow(r);
    if !more then Ok([])
    else
      var tail :- ReadAll(next);
      Ok([next.currentRow] + tail)
  }

  // ---------------------------------------------------------------------------
  // Writing: the reply a script produces

  function Names(columns: seq<Column>): (r: Line)
    ensures |r| == |columns|
    ensures forall i :: 0 <= i < |columns| ==> r[i] == columns[i].name
  {
    seq(|columns|, i requires 0 <= i < |columns| => columns[i].name)
  }

  function TypeCodes(columns: seq<Column>): (r: Line)
    ensures |r| == |columns|
    ensures forall i :: 0 <= i < |columns| ==> r[i] == IntToString(columns[i].typeCode)
  {
    seq(|columns|, i requires 0 <= i < |columns| => IntToString(columns[i].typeCode))
  }

  /** A reply with the given columns and rows. */
  function Reply(columns: seq<Column>, rows: seq<Line>): seq<Line> {
    [Names(columns), TypeCodes(columns)] + rows
  }

  /** The line pair announcing a remote error. */
  function ErrorLines(code: int, message: string): seq<Line> {
    [[], [IntToString(code), message]]
  }

  /** The row as it reads back: every field present. */
  function Present(line: Line): (r: seq<Option<string>>)
    ensures |r| == |line|
    ensures forall i :: 0 <= i < |line| ==> r[i] == Some(line[i])
  {
    seq(|line|, i requires 0 <= i < |line| => Some(line[i]))
  }

  function PresentRows(rows: seq<Line>): (r: seq<seq<Option<string>>>)
    ensures |r| == |rows|
    ensures forall k :: 0 <= k < |rows| ==> r[k] == Present(rows[k])
  {
    seq(|rows|, k requires 0 <= k < |rows| => Present(rows[k]))
  }

  /** A reply a script can write: at least one column, integer type codes,
      every row as wide as the columns. */
  predicate Writable(columns: seq<Column>, rows: seq<Line>) {
    |columns| > 0 &&
    (forall i :: 0 <= i < |columns| ==> IsInt32(columns[i].typeCode)) &&
    (forall k :: 0 <= k < |rows| ==> |rows[k]| == |columns|)
  }

  /** The headers of a written reply read back as its columns. */
  lemma ReadWrittenHeaders(columns: seq<Column>, rest: seq<Line>)
    requires |columns| > 0
    requires forall i :: 0 <= i < |columns| ==> IsInt32(columns[i].typeCode)
    ensures ReadColumnHeaders([Names(columns), TypeCodes(columns)] + rest) == Ok((columns, rest))
  {
    var lines := [Names(columns), TypeCodes(columns)] + rest;
    assert lines[0] == Names(columns) && lines[1] == TypeCodes(columns) && lines[2..] == rest;
    forall i | 0 <= i < |columns| ensures ParseInt(TypeCodes(columns)[i]) == Some(columns[i].typeCode) {
      ParseIntToString(columns[i].typeCode);
    }
    var parsed := ToColumns(Names(columns), TypeCodes(columns));
    assert parsed.Ok?;
    assert parsed.value == columns;
  }

  /** `rows` put in front of what reading produced next. */
  function Prepend(rows: seq<seq<Option<string>>>, result: Result<seq<seq<Option<string>>>, Exception>): Result<seq<seq<Option<string>>>, Exception> {
    match result
    case Ok(more) => Ok(rows + more)
    case Err(e) => Err(e)
  }

  /** One row read: the rows read are that row, then the rest. */
  lemma ReadAllStep(r: Reader)
    requires |r.rest| > 0 && 0 < |r.rest[0]| == |r.currentRow|
    ensures ReadAll(r) == Prepend([Present(r.rest[0])], ReadAll(r.(rest := r.rest[1..], currentRow := Present(r.rest[0]))))
  {
    var line := r.rest[0];
    assert Fill(r.currentRow, line) == Present(line);
  }

  lemma PrependAppend(a: seq<seq<Option<string>>>, b: seq<seq<Option<string>>>, result: Result<seq<seq<Option<string>>>, Exception>)
    ensures Prepend(a + b, result) == Prepend(a, Prepend(b, result))
  {
    if result.Ok? {
      assert (a + b) + result.value == a + (b + result.value);
    }
  }

  lemma PrependNothing(result: Result<seq<seq<Option<string>>>, Exception>)
    ensures Prepend([], result) == result
  {
    if result.Ok? {
      assert [] + result.value == result.value;
    }
  }

  /** Reading rows that are as wide as the current row gives them back, then
      whatever follows them; `last` is the current row once they are read. */
  lemma {:induction false} ReadRows(r: Reader, rows: seq<Line>, tail: seq<Line>, last: seq<Option<string>>)
    requires r.rest == rows + tail
    requires forall k :: 0 <= k < |rows| ==> 0 < |rows[k]| == |r.currentRow|
    requires last == if |rows| == 0 then r.currentRow else Present(rows[|rows| - 1])
    ensures ReadAll(r) == Prepend(PresentRows(rows), ReadAll(r.(rest := tail, currentRow := last)))
    decreases |rows|
  {
    var after := r.(rest := tail, currentRow := last);
    if |rows| == 0 {
      assert r.rest == tail;
      assert after == r;
      assert PresentRows(rows) == [];
      PrependNothing(ReadAll(r));
    } else {
      var next := r.(rest := r.rest[1..], currentRow := Present(rows[0]));
      ReadRowsShift(r, rows, tail, last);
      ReadRows(next, rows[1..], tail, last);
      ReadRowsJoin(r, rows, tail, last);
    }
  }

  /** After the first row is read, the other rows meet what `ReadRows` asks of them. */
  lemma ReadRowsShift(r: Reader, rows: seq<Line>, tail: seq<Line>, last: seq<Option<string>>)
    requires r.rest == rows + tail && |rows| > 0
    requires forall k :: 0 <= k < |rows| ==> 0 < |rows[k]| == |r.currentRow|
    requires last == Present(rows[|rows| - 1])
    ensures var next := r.(rest := r.rest[1..], currentRow := Present(rows[0])); var more := rows[1..];
      && next.rest == more + tail
      && (forall k :: 0 <= k < |more| ==> 0 < |more[k]| == |next.currentRow|)
      && last == if |more| == 0 then next.currentRow else Present(more[|more| - 1])
  {
    var more := rows[1..];
    assert r.rest[1..] == rows[1..] + tail;
    assert forall k :: 0 <= k < |more| ==> more[k] == rows[k + 1];
  }

  /** The first row read, then the others: together, all of `rows`. */
  lemma ReadRowsJoin(r: Reader, rows: seq<Line>, tail: seq<Line>, last: seq<Option<string>>)
    requires r.rest == rows + tail && |rows| > 0 && 0 < |rows[0]| == |r.currentRow|
    requires var next := r.(rest := r.rest[1..], currentRow := Present(rows[0]));
      ReadAll(next) == Prepend(PresentRows(rows[1..]), ReadAll(next.(rest := tail, currentRow := last)))
    ensures ReadAll(r) == Prepend(PresentRows(rows), ReadAll(r.(rest := tail, currentRow := last)))
  {
    var next := r.(rest := r.rest[1..], currentRow := Present(rows[0]));
    var after := r.(rest := tail, currentRow := last);
    assert r.rest[0] == rows[0];
    ReadAllStep(r);
    assert next.(rest := tail, currentRow := last) == after;
    PrependAppend([Present(rows[0])], PresentRows(rows[1..]), ReadAll(after));
    assert PresentRows(rows) == [Present(rows[0])] + PresentRows(rows[1..]);
  }

  /** A written reply reads back as its columns and rows. */
  lemma ReplyRoundTrip(columns: seq<Column>, rows: seq<Line>)
    requires Writable(columns, rows)
    ensures Of(Reply(columns, rows)).Ok?
    ensures Of(Reply(columns, rows)).value.columns == columns
    ensures ReadAll(Of(Reply(columns, rows)).value) == Ok(PresentRows(rows))
  {
    ReadWrittenHeaders(columns, rows);
    var r := Of(Reply(columns, rows)).value;
    assert r.rest == rows + [];
    var last := if |rows| == 0 then r.currentRow else Present(rows[|rows| - 1]);
    ReadRows(r, rows, [], last);
    assert ReadAll(r.(rest := [], currentRow := last)) == Ok([]);
    assert PresentRows(rows) + [] == PresentRows(rows);
  }

  /** Rows followed by an error marker read back as a failure carrying the
      remote code and message. */
  lemma ReplyErrorRoundTrip(columns: seq<Column>, rows: seq<Line>, code: int, message: string)
    requires Writable(columns, rows)
    requires IsInt32(code)
    ensures Of(Reply(columns, rows) + ErrorLines(code, message)).Ok?
    ensures ReadAll(Of(Reply(columns, rows) + ErrorLines(code, message)).value) == Err(TabDataRemote(message, code))
  {
    var errorLines := ErrorLines(code, message);
    assert Reply(columns, rows) + errorLines == [Names(columns), TypeCodes(columns)] + (rows + errorLines);
    ReadWrittenHeaders(columns, rows + errorLines);
    var r := Of(Reply(columns, rows) + errorLines).value;
    var last := if |rows| == 0 then r.currentRow else Present(rows[|rows| - 1]);
    ReadRows(r, rows, errorLines, last);
    ParseIntToString(code);
    assert errorLines[1..] == [[IntToString(code), message]];
    assert ReadNextRow(r.(rest := errorLines, currentRow := last)) == Err(TabDataRemote(message, code));
  }

  /** An error marker in place of the headers reads back as the remote error. */
  lemma HeaderErrorRoundTrip(code: int, message: string)
    requires IsInt32(code)
    ensures Of(ErrorLines(code, message)) == Err(TabDataRemote(message, code))
  {
    ParseIntToString(code);
    assert ErrorLines(code, message)[1..] == [[IntToString(code), message]];
  }

  /** A single-line reply lacks its type header. */
  lemma SingleLineReply()
    ensures Of([["helloworld"]]) == Err(TabDataFormat("Expected header types"))
  {
  }
}

=== FILE: win_odbc_registry_util.dfy ===
/** `WinOdbcRegistryUtil`: reading data sources and drivers out of the Windows
    registry, seen through an abstract registry of keys holding named values. */
module WinOdbcRegistryUtil {
  import opened Wrappers
  import opened Exceptions
  import opened JavaLang
  import opened JdbcUtil
  import opened OdbcDriver
  import opened OdbcDataSource

  /** `Registry.Root`. */
  datatype Root = HKEY_LOCAL_MACHINE | HKEY_CURRENT_USER

  /** The enum constant's name, as `toString` gives it. */
  function RootName(root: Root): string {
    match root
    case HKEY_LOCAL_MACHINE => "HKEY_LOCAL_MACHINE"
    case HKEY_CURRENT_USER => "HKEY_CURRENT_USER"
  }

  /** A registry value: a string, an integer, or any other object, known by
      its `toString` text. */
  datatype RegValue = RegString(text: string) | RegInteger(number: int) | RegOther(repr: string)

  /** `obj.toString()`. */
  function ValueText(v: RegValue): string {
    match v
    case RegString(s) => s
    case RegInteger(n) => IntToString(n)
    case RegOther(repr) => repr
  }

  /** The values of one key, name to value, in iteration order. */
  type Values = seq<(string, RegValue)>

  /** `Registry`: both queries may fail with an `IOException`. */
  datatype Registry = Registry(
    keyExists: (Root, string) -> Result<bool, Exception>,
    getValues: (Root, string) -> Result<Values, Exception>)

  const DATA_SOURCES_KEY: string := "SOFTWARE\\ODBC\\ODBC.INI\\ODBC Data Sources"
  const DATA_SOURCE_KEY: string := "SOFTWARE\\ODBC\\ODBC.INI"
  const DRIVERS_KEY: string := "SOFTWARE\\ODBC\\Odbcinst.INI\\ODBC Drivers"
  const DRIVER_KEY: string := "SOFTWARE\\ODBC\\Odbcinst.INI"
  const KEY_SEPARATOR: string := "\\"

  /** `map.keySet()`: the names, in iteration order. */
  function NamesOf(values: Values): (r: seq<string>)
    ensures |r| == |values|
    ensures forall i :: 0 <= i < |values| ==> r[i] == values[i].0
  {
    seq(|values|, i requires 0 <= i < |values| => values[i].0)
  }

  /** `map.get(name)`: the value of the first entry with that name, or null. */
  function Lookup(values: Values, name: string): (r: Option<RegValue>)
    ensures r.Some? ==> (name, r.value) in values
    ensures r.None? <==> name !in NamesOf(values)
  {
    if |values| == 0 then None
    else if values[0].0 == name then Some(values[0].1)
    else
      var r := Lookup(values[1..], name);
      assert forall i :: 1 <= i < |values| ==> values[i] == values[1..][i - 1];
      assert NamesOf(values) == [values[0].0] + NamesOf(values[1..]);
      r
  }

  // ---------------------------------------------------------------------------
  // Roots

  /** `getRoot(type)`: system data sources live under the local machine, user
      ones under the current user; file data sources are not in the registry. */
  function GetRoot(t: DataSourceType): (r: Result<Root, Exception>)
    ensures r.Ok? <==> t != FILE
    ensures r.Ok? ==> (r.value == HKEY_LOCAL_MACHINE <==> t == SYSTEM)
    ensures r.Err? ==> r.error == UnsupportedOperation("Not supported yet.")
  {
    match t
    case SYSTEM => Ok(HKEY_LOCAL_MACHINE)
    case USER => Ok(HKEY_CURRENT_USER)
    case FILE => Err(UnsupportedOperation("Not supported yet."))
  }

  /** Distinct registry types get distinct roots. */
  lemma GetRootInjective(a: DataSourceType, b: DataSourceType)
    requires GetRoot(a).Ok? && GetRoot(b).Ok? && GetRoot(a) == GetRoot(b)
    ensures a == b
  {
  }

  // ---------------------------------------------------------------------------
  // Data source names

  /** `forEachDataSourceName` for one type: the value names under
      `DATA_SOURCES_KEY`, none when that key is missing. */
  function DataSourceNamesOfType(reg: Registry, t: DataSourceType): (r: Result<seq<string>, Exception>)
    ensures t == FILE ==> r == Err(UnsupportedOperation("Not supported yet."))
    ensures t != FILE && reg.keyExists(GetRoot(t).value, DATA_SOURCES_KEY) == Ok(false) ==> r == Ok([])
    ensures t != FILE && reg.keyExists(GetRoot(t).value, DATA_SOURCES_KEY) == Ok(true) ==>
      r == (match reg.getValues(GetRoot(t).value, DATA_SOURCES_KEY)
            case Ok(values) => Ok(NamesOf(values))
            case Err(e) => Err(e))
  {
    var root :- GetRoot(t);
    var present :- reg.keyExists(root, DATA_SOURCES_KEY);
    if !present then Ok([])
    else
      var values :- reg.getValues(root, DATA_SOURCES_KEY);
      Ok(NamesOf(values))
  }

  /** `getDataSourceNames(reg, types...)`: type by type, in argument order. */
  function GetDataSourceNames(reg: Registry, types: seq<DataSourceType>): (r: Result<seq<string>, Exception>)
    ensures types == [] ==> r == Ok([])
    ensures |types| == 1 ==> r == DataSourceNamesOfType(reg, types[0])
    decreases |types|
  {
    if |types| == 0 then Ok([])
    else
      var head :- DataSourceNamesOfType(reg, types[0]);
      var tail :- GetDataSourceNames(reg, types[1..]);
      assert |types| == 1 ==> head + tail == head;
      Ok(head + tail)
  }

  /** Joins two outcomes: the first failure wins, otherwise the lists concatenate. */
  function AppendResults<T>(a: Result<seq<T>, Exception>, b: Result<seq<T>, Exception>): Result<seq<T>, Exception> {
    match a
    case Err(e) => Err(e)
    case Ok(x) => match b
      case Err(e) => Err(e)
      case Ok(y) => Ok(x + y)
  }

  /** Asking for two lists of types is asking for each in turn. */
  lemma {:induction false} GetDataSourceNamesAppend(reg: Registry, a: seq<DataSourceType>, b: seq<DataSourceType>)
    ensures GetDataSourceNames(reg, a + b) == AppendResults(GetDataSourceNames(reg, a), GetDataSourceNames(reg, b))
    decreases |a|
  {
    if |a| == 0 {
      assert a + b == b;
      match GetDataSourceNames(reg, b)
      case Ok(y) => assert [] + y == y;
      case Err(_) =>
    } else {
      assert (a + b)[0] == a[0];
      assert (a + b)[1..] == a[1..] + b;
      GetDataSourceNamesAppend(reg, a[1..], b);
      match DataSourceNamesOfType(reg, a[0])
      case Err(_) =>
      case Ok(x) =>
        match GetDataSourceNames(reg, a[1..])
        case Err(_) =>
        case Ok(y) =>
          match GetDataSourceNames(reg, b)
          case Err(_) =>
          case Ok(z) => assert x + (y + z) == (x + y) + z;
    }
  }

  // ---------------------------------------------------------------------------
  // Value conversions

  /** `toString(obj, defaultValue)`: the value when it is a string. */
  function ToStringOr(obj: Option<RegValue>, defaultValue: Option<string>): (r: Option<string>)
    ensures (obj.Some? && obj.value.RegString?) ==> r == Some(obj.value.text)
    ensures !(obj.Some? && obj.value.RegString?) ==> r == defaultValue
  {
    if obj.Some? && obj.value.RegString? then Some(obj.value.text) else defaultValue
  }

  /** `toFile(obj, defaultValue)`: the path when the value is a string; the
      path stays the string read. */
  function ToFile(obj: Option<RegValue>, defaultValue: Option<string>): (r: Option<string>)
    ensures (obj.Some? && obj.value.RegString?) ==> r == Some(obj.value.text)
    ensures !(obj.Some? && obj.value.RegString?) ==> r == defaultValue
  {
    ToStringOr(obj, defaultValue)
  }

  /** `toInt(obj, defaultValue)`: the value when it is an integer. */
  function ToInt(obj: Option<RegValue>, defaultValue: int): (r: int)
    ensures (obj.Some? && obj.value.RegInteger?) ==> r == obj.value.number
    ensures !(obj.Some? && obj.value.RegInteger?) ==> r == defaultValue
  {
    if obj.Some? && obj.value.RegInteger? then obj.value.number else defaultValue
  }

  /** `toEnum(obj, parser)`: the constant whose code is the value's text read
      as an `int`; empty when the value is missing, is not an `int`, or has no
      constant (every parser failure is a runtime exception). */
  function ToEnum<Z>(obj: Option<RegValue>, parser: int -> Result<Z, Exception>): (r: Option<Z>)
    ensures obj.None? ==> r.None?
    ensures r.Some? <==> obj.Some? && ParseInt(ValueText(obj.value)).Some? && parser(ParseInt(ValueText(obj.value)).value).Ok?
    ensures r.Some? ==> r.value == parser(ParseInt(ValueText(obj.value)).value).value
  {
    if obj.None? then None
    else match ParseInt(ValueText(obj.value))
      case None => None
      case Some(value) => match parser(value)
        case Ok(z) => Some(z)
        case Err(_) => None
  }

  /** `getFileExtension(input)`: the text after the last `.`, or `""` when
      there is no dot. */
  function GetFileExtension(input: string): (r: string)
    ensures '.' !in r
    ensures '.' !in input ==> r == ""
    ensures '.' in input ==> EndsWith(input, "." + r)
  {
    var index := LastIndexOfChar(input, '.');
    if index != -1 then
      var r := input[index + 1..];
      assert input[index..] == "." + r;
      assert forall k :: 0 <= k < |r| ==> r[k] == input[index + 1 + k];
      r
    else
      assert forall k :: 0 <= k < |input| ==> input[k] != '.';
      ""
  }

  /** `.map(getFileExtension).filter(o -> !o.isEmpty())`. */
  function Extensions(pieces: seq<string>): (r: seq<string>)
    ensures |r| <= |pieces|
    ensures forall k :: 0 <= k < |r| ==> |r[k]| > 0 && '.' !in r[k]
  {
    if |pieces| == 0 then []
    else
      var x := GetFileExtension(pieces[0]);
      if x == "" then Extensions(pieces[1..]) else [x] + Extensions(pieces[1..])
  }

  /** `toFileExtensions(obj)`: the value's text split on `,`, keeping empty
      pieces, reduced to non-empty extensions; empty when there is no value. */
  function ToFileExtensions(obj: Option<RegValue>): (r: seq<string>)
    ensures obj.None? ==> r == []
    ensures forall k :: 0 <= k < |r| ==> |r[k]| > 0 && '.' !in r[k]
    ensures obj.Some? ==> |r| <= CountChar(ValueText(obj.value), ',') + 1
  {
    if obj.None? then []
    else
      SplitCount(',', ValueText(obj.value));
      Extensions(Split(',', ValueText(obj.value)))
  }

  /** `toConnectFunctions(obj, defaultValue)`: the parsed flags, or the default
      when the value is missing or does not parse. */
  function ToConnectFunctions(obj: Option<RegValue>, defaultValue: Option<ConnectFunctions>): (r: Option<ConnectFunctions>)
    ensures obj.None? ==> r == defaultValue
    ensures obj.Some? && MatchesInputPattern(ValueText(obj.value)) ==>
      r.Some? && ConnectFunctionsToString(r.value) == ValueText(obj.value)
    ensures obj.Some? && !MatchesInputPattern(ValueText(obj.value)) ==> r == defaultValue
  {
    if obj.None? then defaultValue
    else match ParseConnectFunctions(ValueText(obj.value))
      case Ok(c) => Some(c)
      case Err(_) => defaultValue
  }

  // ---------------------------------------------------------------------------
  // Data sources

  /** The key holding the details of the data source `name`. */
  function DataSourceKeyOf(name: string): string {
    DATA_SOURCE_KEY + KEY_SEPARATOR + name
  }

  /** `dataSourceOf(type, master, details)`: the driver name is the master
      value and the driver path the `Driver` detail; both are required by the
      data source builder. */
  function DataSourceOf(t: DataSourceType, masterName: string, masterValue: RegValue, details: Values): (r: Result<DataSource, Exception>)
    ensures !masterValue.RegString? ==> r == Err(NonNullViolation("driverName"))
    ensures masterValue.RegString? && ToFile(Lookup(details, "Driver"), None).None? ==> r == Err(NonNullViolation("driverPath"))
    ensures r.Ok? <==> masterValue.RegString? && ToFile(Lookup(details, "Driver"), None).Some?
    ensures r.Ok? ==> r.value.dsType == t && r.value.name == masterName && r.value.driverName == masterValue.text
  {
    OdbcDataSource.Build(OdbcDataSource.Builder(
      Some(t),
      Some(masterName),
      ToStringOr(Lookup(details, "Description"), None),
      ToStringOr(Some(masterValue), None),
      ToFile(Lookup(details, "Driver"), None),
      ToStringOr(Lookup(details, "Server"), None)))
  }

  /** A master entry can be listed without failure: asking whether its
      details key exists succeeds and, when it does exist, its details can be
      read and built into a data source. */
  predicate MasterReadable(reg: Registry, t: DataSourceType, root: Root, master: (string, RegValue)) {
    var present := reg.keyExists(root, DataSourceKeyOf(master.0));
    var details := reg.getValues(root, DataSourceKeyOf(master.0));
    present.Ok? && (present.value ==> details.Ok? && DataSourceOf(t, master.0, master.1, details.value).Ok?)
  }

  /** The master entries whose details key exists, in order. */
  function PresentMasters(reg: Registry, root: Root, masters: Values): (r: Values)
    ensures forall m :: m in r <==> m in masters && reg.keyExists(root, DataSourceKeyOf(m.0)) == Ok(true)
  {
    if |masters| == 0 then []
    else
      var rest := PresentMasters(reg, root, masters[1..]);
      assert forall m :: m in masters <==> m == masters[0] || m in masters[1..];
      if reg.keyExists(root, DataSourceKeyOf(masters[0].0)) == Ok(true) then [masters[0]] + rest else rest
  }

  /** `sources` are the data sources the `present` master entries build
      into, one for one and in the same order. */
  predicate BuiltFrom(reg: Registry, t: DataSourceType, root: Root, present: Values, sources: seq<DataSource>) {
    |sources| == |present|
    && forall k :: 0 <= k < |present| ==>
         reg.getValues(root, DataSourceKeyOf(present[k].0)).Ok?
         && DataSourceOf(t, present[k].0, present[k].1, reg.getValues(root, DataSourceKeyOf(present[k].0)).value) == Ok(sources[k])
  }

  /** The data sources of one type, master entry by master entry. */
  function DataSourcesFrom(reg: Registry, t: DataSourceType, root: Root, masters: Values): (r: Result<seq<DataSource>, Exception>)
    ensures r.Ok? <==> forall m :: m in masters ==> MasterReadable(reg, t, root, m)
    ensures r.Ok? ==> BuiltFrom(reg, t, root, PresentMasters(reg, root, masters), r.value)
    decreases |masters|
  {
    if |masters| == 0 then Ok([])
    else
      assert forall m :: m in masters <==> m == masters[0] || m in masters[1..];
      assert masters[0] in masters;
      var key := DataSourceKeyOf(masters[0].0);
      var present :- reg.keyExists(root, key);
      var head :- if present then DataSourceAt(reg, t, root, masters[0], key) else Ok([]);
      var tail :- DataSourcesFrom(reg, t, root, masters[1..]);
      assert present ==> PresentMasters(reg, root, masters) == [masters[0]] + PresentMasters(reg, root, masters[1..]);
      assert !present ==> PresentMasters(reg, root, masters) == PresentMasters(reg, root, masters[1..]);
      Ok(head + tail)
  }

  function DataSourceAt(reg: Registry, t: DataSourceType, root: Root, master: (string, RegValue), dataSourceKey: string): (r: Result<seq<DataSource>, Exception>)
    ensures r.Ok? <==> reg.getValues(root, dataSourceKey).Ok? && DataSourceOf(t, master.0, master.1, reg.getValues(root, dataSourceKey).value).Ok?
    ensures r.Ok? ==> r.value == [DataSourceOf(t, master.0, master.1, reg.getValues(root, dataSourceKey).value).value]
  {
    var details :- reg.getValues(root, dataSourceKey);
    var ds :- DataSourceOf(t, master.0, master.1, details);
    Ok([ds])
  }

  /** `forEachDataSource` for one type: one data source per master entry
      whose details key exists, in the order of the master entries. */
  function DataSourcesOfType(reg: Registry, t: DataSourceType): (r: Result<seq<DataSource>, Exception>)
    ensures t == FILE ==> r == Err(UnsupportedOperation("Not supported yet."))
    ensures t != FILE && reg.keyExists(GetRoot(t).value, DATA_SOURCES_KEY).Err? ==>
      r == Err(reg.keyExists(GetRoot(t).value, DATA_SOURCES_KEY).error)
    ensures t != FILE && reg.keyExists(GetRoot(t).value, DATA_SOURCES_KEY) == Ok(false) ==> r == Ok([])
    ensures t != FILE && reg.keyExists(GetRoot(t).value, DATA_SOURCES_KEY) == Ok(true)
            && reg.getValues(GetRoot(t).value, DATA_SOURCES_KEY).Err? ==>
      r == Err(reg.getValues(GetRoot(t).value, DATA_SOURCES_KEY).error)
    ensures t != FILE && reg.keyExists(GetRoot(t).value, DATA_SOURCES_KEY) == Ok(true)
            && reg.getValues(GetRoot(t).value, DATA_SOURCES_KEY).Ok? ==>
      var root := GetRoot(t).value;
      var masters := reg.getValues(root, DATA_SOURCES_KEY).value;
      && (r.Ok? <==> forall m :: m in masters ==> MasterReadable(reg, t, root, m))
      && (r.Ok? ==> BuiltFrom(reg, t, root, PresentMasters(reg, root, masters), r.value))
  {
    var root :- GetRoot(t);
    var present :- reg.keyExists(root, DATA_SOURCES_KEY);
    if !present then Ok([])
    else
      var masters :- reg.getValues(root, DATA_SOURCES_KEY);
      DataSourcesFrom(reg, t, root, masters)
  }

  /** `getDataSources(reg, types...)`: type by type, in argument order. */
  function GetDataSources(reg: Registry, types: seq<DataSourceType>): (r: Result<seq<DataSource>, Exception>)
    ensures types == [] ==> r == Ok([])
    ensures |types| == 1 ==> r == DataSourcesOfType(reg, types[0])
    ensures r.Ok? ==> forall k :: 0 <= k < |r.value| ==> r.value[k].dsType in types
    decreases |types|
  {
    if |types| == 0 then Ok([])
    else
      var head :- DataSourcesOfType(reg, types[0]);
      var tail :- GetDataSources(reg, types[1..]);
      assert forall x :: x in types[1..] ==> x in types;
      assert |types| == 1 ==> head + tail == head;
      Ok(head + tail)
  }

  /** Asking for two lists of types is asking for each in turn. */
  lemma {:induction false} GetDataSourcesAppend(reg: Registry, a: seq<DataSourceType>, b: seq<DataSourceType>)
    ensures GetDataSources(reg, a + b) == AppendResults(GetDataSources(reg, a), GetDataSources(reg, b))
    decreases |a|
  {
    if |a| == 0 {
      assert a + b == b;
      match GetDataSources(reg, b)
      case Ok(y) => assert [] + y == y;
      case Err(_) =>
    } else {
      assert (a + b)[0] == a[0];
      assert (a + b)[1..] == a[1..] + b;
      GetDataSourcesAppend(reg, a[1..], b);
      match DataSourcesOfType(reg, a[0])
      case Err(_) =>
      case Ok(x) =>
        match GetDataSources(reg, a[1..])
        case Err(_) =>
        case Ok(y) =>
          match GetDataSources(reg, b)
          case Err(_) =>
          case Ok(z) => assert x + (y + z) == (x + y) + z;
    }
  }

  /** Every data source listed is also listed by name: its name comes from the
      same master key `getDataSourceNames` reads. */
  lemma {:induction false} DataSourcesAreNamed(reg: Registry, types: seq<DataSourceType>)
    requires GetDataSources(reg, types).Ok?
    ensures GetDataSourceNames(reg, types).Ok?
    ensures forall k :: 0 <= k < |GetDataSources(reg, types).value| ==>
      GetDataSources(reg, types).value[k].name in GetDataSourceNames(reg, types).value
    decreases |types|
  {
    if |types| > 0 {
      var head := DataSourcesOfType(reg, types[0]).value;
      var names := DataSourceNamesOfType(reg, types[0]);
      OneTypeNamed(reg, types[0]);
      DataSourcesAreNamed(reg, types[1..]);
      NamedAppend(head, GetDataSources(reg, types[1..]).value, names.value, GetDataSourceNames(reg, types[1..]).value);
    }
  }

  /** The data sources of one type are listed by name. */
  lemma OneTypeNamed(reg: Registry, t: DataSourceType)
    requires DataSourcesOfType(reg, t).Ok?
    ensures DataSourceNamesOfType(reg, t).Ok?
    ensures forall k :: 0 <= k < |DataSourcesOfType(reg, t).value| ==>
      DataSourcesOfType(reg, t).value[k].name in DataSourceNamesOfType(reg, t).value
  {
    var root := GetRoot(t).value;
    if reg.keyExists(root, DATA_SOURCES_KEY).value {
      var masters := reg.getValues(root, DATA_SOURCES_KEY).value;
      assert DataSourceNamesOfType(reg, t) == Ok(NamesOf(masters));
      var r := DataSourcesOfType(reg, t).value;
      var present := PresentMasters(reg, root, masters);
      forall k | 0 <= k < |r| ensures r[k].name in NamesOf(masters) {
        assert present[k] in masters;
        var j :| 0 <= j < |masters| && masters[j] == present[k];
        assert NamesOf(masters)[j] == r[k].name;
      }
    }
  }

  /** Names listed part by part are listed in the concatenation. */
  lemma NamedAppend(head: seq<DataSource>, tail: seq<DataSource>, headNames: seq<string>, tailNames: seq<string>)
    requires forall k :: 0 <= k < |head| ==> head[k].name in headNames
    requires forall k :: 0 <= k < |tail| ==> tail[k].name in tailNames
    ensures forall k :: 0 <= k < |head + tail| ==> (head + tail)[k].name in headNames + tailNames
  {
    forall k | 0 <= k < |head + tail| ensures (head + tail)[k].name in headNames + tailNames {
      if k >= |head| {
        assert (head + tail)[k] == tail[k - |head|];
      }
    }
  }

  /** Conversely, every name of one type whose details key exists has its
      data source listed. */
  lemma OneTypeCoversNames(reg: Registry, t: DataSourceType, name: string)
    requires DataSourcesOfType(reg, t).Ok?
    requires DataSourceNamesOfType(reg, t).Ok? && name in DataSourceNamesOfType(reg, t).value
    requires reg.keyExists(GetRoot(t).value, DataSourceKeyOf(name)) == Ok(true)
    ensures exists k :: (0 <= k < |DataSourcesOfType(reg, t).value|
      && DataSourcesOfType(reg, t).value[k].name == name && DataSourcesOfType(reg, t).value[k].dsType == t)
  {
    var root := GetRoot(t).value;
    var masters := reg.getValues(root, DATA_SOURCES_KEY).value;
    assert DataSourceNamesOfType(reg, t) == Ok(NamesOf(masters));
    var r := DataSourcesOfType(reg, t).value;
    var present := PresentMasters(reg, root, masters);
    var j :| 0 <= j < |masters| && NamesOf(masters)[j] == name;
    assert masters[j] in present;
    var k :| 0 <= k < |present| && present[k] == masters[j];
    assert r[k].name == name && r[k].dsType == t;
  }

  /** Every name `getDataSourceNames` lists for a type, whose details key
      exists, has its data source of that type listed by `getDataSources`. */
  lemma {:induction false} DataSourcesCoverNames(reg: Registry, types: seq<DataSourceType>, i: nat, name: string)
    requires GetDataSources(reg, types).Ok?
    requires i < |types|
    requires DataSourceNamesOfType(reg, types[i]).Ok? && name in DataSourceNamesOfType(reg, types[i]).value
    requires reg.keyExists(GetRoot(types[i]).value, DataSourceKeyOf(name)) == Ok(true)
    ensures exists k :: (0 <= k < |GetDataSources(reg, types).value|
      && GetDataSources(reg, types).value[k].name == name && GetDataSources(reg, types).value[k].dsType == types[i])
    decreases |types|
  {
    var head := DataSourcesOfType(reg, types[0]).value;
    var tail := GetDataSources(reg, types[1..]).value;
    var all := GetDataSources(reg, types).value;
    assert all == head + tail;
    if i == 0 {
      OneTypeCoversNames(reg, types[0], name);
      var k :| 0 <= k < |head| && head[k].name == name && head[k].dsType == types[0];
      assert all[k] == head[k];
    } else {
      assert types[1..][i - 1] == types[i];
      DataSourcesCoverNames(reg, types[1..], i - 1, name);
      var k :| 0 <= k < |tail| && tail[k].name == name && tail[k].dsType == types[i];
      assert all[|head| + k] == tail[k];
    }
  }

  // ---------------------------------------------------------------------------
  // Drivers

  /** `getDriverNames(reg)`: the value names under `DRIVERS_KEY` of the local
      machine, none when that key is missing. */
  function GetDriverNames(reg: Registry): (r: Result<seq<string>, Exception>)
    ensures reg.keyExists(HKEY_LOCAL_MACHINE, DRIVERS_KEY) == Ok(false) ==> r == Ok([])
    ensures reg.keyExists(HKEY_LOCAL_MACHINE, DRIVERS_KEY) == Ok(true) ==>
      r == (match reg.getValues(HKEY_LOCAL_MACHINE, DRIVERS_KEY)
            case Ok(values) => Ok(NamesOf(values))
            case Err(e) => Err(e))
  {
    var present :- reg.keyExists(HKEY_LOCAL_MACHINE, DRIVERS_KEY);
    if present then
      var values :- reg.getValues(HKEY_LOCAL_MACHINE, DRIVERS_KEY);
      Ok(NamesOf(values))
    else Ok([])
  }

  /** The key holding the details of the driver `name`. */
  function DriverKeyOf(name: string): string {
    DRIVER_KEY + KEY_SEPARATOR + name
  }

  /** `driverOf(driverName, details)`: every field read from its value, with
      the defaults `NONE`, null, `SQL_92_ENTRY` and -1 for missing or
      unreadable values. */
  function DriverOf(driverName: string, details: Values): (r: Driver)
    ensures r.name == driverName
    ensures ToEnum(Lookup(details, "APILevel"), ParseApiLevel).None? ==> r.apiLevel == API_NONE
    ensures ToEnum(Lookup(details, "APILevel"), ParseApiLevel).Some? ==>
      r.apiLevel == ToEnum(Lookup(details, "APILevel"), ParseApiLevel).value
    ensures r.connectFunctions == ToConnectFunctions(Lookup(details, "ConnectFunctions"), None)
    ensures r.driverPath == ToFile(Lookup(details, "Driver"), None)
    ensures r.driverOdbcVer == ToStringOr(Lookup(details, "DriverOdbcVer"), None)
    ensures r.fileExtensions == ToFileExtensions(Lookup(details, "FileExtns"))
    ensures ToEnum(Lookup(details, "FileUsage"), ParseFileUsage).None? ==> r.fileUsage == USAGE_NONE
    ensures ToEnum(Lookup(details, "FileUsage"), ParseFileUsage).Some? ==>
      r.fileUsage == ToEnum(Lookup(details, "FileUsage"), ParseFileUsage).value
    ensures r.setupPath == ToFile(Lookup(details, "Setup"), None)
    ensures ToEnum(Lookup(details, "SQLLevel"), ParseSqlLevel).None? ==> r.sqlLevel == SQL_92_ENTRY
    ensures ToEnum(Lookup(details, "SQLLevel"), ParseSqlLevel).Some? ==>
      r.sqlLevel == ToEnum(Lookup(details, "SQLLevel"), ParseSqlLevel).value
    ensures r.usageCount == ToInt(Lookup(details, "UsageCount"), -1)
    ensures forall k :: 0 <= k < |r.fileExtensions| ==> |r.fileExtensions[k]| > 0 && '.' !in r.fileExtensions[k]
    ensures Lookup(details, "APILevel").None? ==> r.apiLevel == API_NONE
    ensures Lookup(details, "FileUsage").None? ==> r.fileUsage == USAGE_NONE
    ensures Lookup(details, "SQLLevel").None? ==> r.sqlLevel == SQL_92_ENTRY
    ensures Lookup(details, "ConnectFunctions").None? ==> r.connectFunctions.None?
    ensures !(Lookup(details, "UsageCount").Some? && Lookup(details, "UsageCount").value.RegInteger?) ==> r.usageCount == -1
  {
    Driver(
      driverName,
      ToEnum(Lookup(details, "APILevel"), ParseApiLevel).GetOr(API_NONE),
      ToConnectFunctions(Lookup(details, "ConnectFunctions"), None),
      ToFile(Lookup(details, "Driver"), None),
      ToStringOr(Lookup(details, "DriverOdbcVer"), None),
      ToFileExtensions(Lookup(details, "FileExtns")),
      ToEnum(Lookup(details, "FileUsage"), ParseFileUsage).GetOr(USAGE_NONE),
      ToFile(Lookup(details, "Setup"), None),
      ToEnum(Lookup(details, "SQLLevel"), ParseSqlLevel).GetOr(SQL_92_ENTRY),
      ToInt(Lookup(details, "UsageCount"), -1))
  }

  /** A driver name can be listed without failure: asking whether its
      details key exists succeeds and, when it does exist, its details can be
      read. */
  predicate DriverReadable(reg: Registry, name: string) {
    var present := reg.keyExists(HKEY_LOCAL_MACHINE, DriverKeyOf(name));
    present.Ok? && (present.value ==> reg.getValues(HKEY_LOCAL_MACHINE, DriverKeyOf(name)).Ok?)
  }

  /** The driver names whose details key exists, in order. */
  function PresentDriverNames(reg: Registry, names: seq<string>): (r: seq<string>)
    ensures forall n :: n in r <==> n in names && reg.keyExists(HKEY_LOCAL_MACHINE, DriverKeyOf(n)) == Ok(true)
  {
    if |names| == 0 then []
    else
      var rest := PresentDriverNames(reg, names[1..]);
      assert forall n :: n in names <==> n == names[0] || n in names[1..];
      if reg.keyExists(HKEY_LOCAL_MACHINE, DriverKeyOf(names[0])) == Ok(true) then [names[0]] + rest else rest
  }

  /** `drivers` are the drivers read from the details of the `present`
      names, one for one and in the same order. */
  predicate DriversBuiltFrom(reg: Registry, present: seq<string>, drivers: seq<Driver>) {
    |drivers| == |present|
    && forall k :: 0 <= k < |present| ==> DriverBuilt(reg, present[k], drivers[k])
  }

  /** `driver` is the one read from the details of `name`. */
  predicate DriverBuilt(reg: Registry, name: string, driver: Driver) {
    reg.getValues(HKEY_LOCAL_MACHINE, DriverKeyOf(name)).Ok?
    && driver == DriverOf(name, reg.getValues(HKEY_LOCAL_MACHINE, DriverKeyOf(name)).value)
  }

  function DriversFrom(reg: Registry, names: seq<string>): (r: Result<seq<Driver>, Exception>)
    ensures r.Ok? <==> forall n :: n in names ==> DriverReadable(reg, n)
    ensures r.Ok? ==> DriversBuiltFrom(reg, PresentDriverNames(reg, names), r.value)
    decreases |names|
  {
    if |names| == 0 then Ok([])
    else
      assert forall n :: n in names <==> n == names[0] || n in names[1..];
      assert names[0] in names;
      var driverKey := DriverKeyOf(names[0]);
      var present :- reg.keyExists(HKEY_LOCAL_MACHINE, driverKey);
      var head :- if present then DriverAt(reg, names[0]) else Ok([]);
      var tail :- DriversFrom(reg, names[1..]);
      if present then
        assert PresentDriverNames(reg, names) == [names[0]] + PresentDriverNames(reg, names[1..]);
        DriversBuiltCons(reg, names[0], PresentDriverNames(reg, names[1..]), head, tail);
        Ok(head + tail)
      else
        assert head + tail == tail;
        Ok(head + tail)
  }

  /** Reading one more present name in front keeps the drivers built one for one. */
  lemma DriversBuiltCons(reg: Registry, name: string, present: seq<string>, head: seq<Driver>, tail: seq<Driver>)
    requires DriversBuiltFrom(reg, present, tail)
    requires reg.getValues(HKEY_LOCAL_MACHINE, DriverKeyOf(name)).Ok?
    requires head == [DriverOf(name, reg.getValues(HKEY_LOCAL_MACHINE, DriverKeyOf(name)).value)]
    ensures DriversBuiltFrom(reg, [name] + present, head + tail)
  {
    assert head + tail == [head[0]] + tail;
    PairwiseCons((n, d) => DriverBuilt(reg, n, d), name, present, head[0], tail);
  }

  /** Pairs related one for one stay so with one more related pair in front. */
  lemma PairwiseCons<A, B>(related: (A, B) -> bool, x: A, xs: seq<A>, y: B, ys: seq<B>)
    requires |xs| == |ys| && related(x, y)
    requires forall k :: 0 <= k < |xs| ==> related(xs[k], ys[k])
    ensures forall k :: 0 <= k < |xs| + 1 ==> related(([x] + xs)[k], ([y] + ys)[k])
  {
    forall k | 0 < k < |xs| + 1 ensures related(([x] + xs)[k], ([y] + ys)[k]) {
      assert ([x] + xs)[k] == xs[k - 1] && ([y] + ys)[k] == ys[k - 1];
    }
  }

  function DriverAt(reg: Registry, name: string): (r: Result<seq<Driver>, Exception>)
    ensures r.Ok? <==> reg.getValues(HKEY_LOCAL_MACHINE, DriverKeyOf(name)).Ok?
    ensures r.Ok? ==> r.value == [DriverOf(name, reg.getValues(HKEY_LOCAL_MACHINE, DriverKeyOf(name)).value)]
  {
    var details :- reg.getValues(HKEY_LOCAL_MACHINE, DriverKeyOf(name));
    Ok([DriverOf(name, details)])
  }

  /** `getDrivers(reg)`: one driver per name under `DRIVERS_KEY` whose
      details key exists, in the order of the names. */
  function GetDrivers(reg: Registry): (r: Result<seq<Driver>, Exception>)
    ensures reg.keyExists(HKEY_LOCAL_MACHINE, DRIVERS_KEY).Err? ==> r == Err(reg.keyExists(HKEY_LOCAL_MACHINE, DRIVERS_KEY).error)
    ensures reg.keyExists(HKEY_LOCAL_MACHINE, DRIVERS_KEY) == Ok(false) ==> r == Ok([])
    ensures reg.keyExists(HKEY_LOCAL_MACHINE, DRIVERS_KEY) == Ok(true) && reg.getValues(HKEY_LOCAL_MACHINE, DRIVERS_KEY).Err? ==>
      r == Err(reg.getValues(HKEY_LOCAL_MACHINE, DRIVERS_KEY).error)
    ensures reg.keyExists(HKEY_LOCAL_MACHINE, DRIVERS_KEY) == Ok(true) && reg.getValues(HKEY_LOCAL_MACHINE, DRIVERS_KEY).Ok? ==>
      var names := NamesOf(reg.getValues(HKEY_LOCAL_MACHINE, DRIVERS_KEY).value);
      && (r.Ok? <==> forall n :: n in names ==> DriverReadable(reg, n))
      && (r.Ok? ==> DriversBuiltFrom(reg, PresentDriverNames(reg, names), r.value))
  {
    var present :- reg.keyExists(HKEY_LOCAL_MACHINE, DRIVERS_KEY);
    if present then
      var values :- reg.getValues(HKEY_LOCAL_MACHINE, DRIVERS_KEY);
      DriversFrom(reg, NamesOf(values))
    else Ok([])
  }

  /** Every driver listed is also listed by name. */
  lemma DriversAreNamed(reg: Registry)
    requires GetDrivers(reg).Ok?
    ensures GetDriverNames(reg).Ok?
    ensures forall k :: 0 <= k < |GetDrivers(reg).value| ==> GetDrivers(reg).value[k].name in GetDriverNames(reg).value
  {
    if reg.keyExists(HKEY_LOCAL_MACHINE, DRIVERS_KEY) == Ok(true) {
      var names := NamesOf(reg.getValues(HKEY_LOCAL_MACHINE, DRIVERS_KEY).value);
      var present := PresentDriverNames(reg, names);
      forall k | 0 <= k < |GetDrivers(reg).value| ensures GetDrivers(reg).value[k].name in names {
        assert present[k] in names;
      }
    }
  }

  /** Conversely, every driver name whose details key exists has its driver
      listed. */
  lemma DriverNamesCovered(reg: Registry, name: string)
    requires GetDrivers(reg).Ok?
    requires GetDriverNames(reg).Ok? && name in GetDriverNames(reg).value
    requires reg.keyExists(HKEY_LOCAL_MACHINE, DriverKeyOf(name)) == Ok(true)
    ensures exists k :: 0 <= k < |GetDrivers(reg).value| && GetDrivers(reg).value[k].name == name
  {
    var names := NamesOf(reg.getValues(HKEY_LOCAL_MACHINE, DRIVERS_KEY).value);
    var present := PresentDriverNames(reg, names);
    assert name in present;
    var k :| 0 <= k < |present| && present[k] == name;
    assert GetDrivers(reg).value[k].name == name;
  }

  // ---------------------------------------------------------------------------
  // Writing a driver or a data source as registry values

  /** Named values that may be absent. */
  type Fields = seq<(string, Option<RegValue>)>

  /** The values that are present, in order. */
  function Present(fields: Fields): (r: Values)
    ensures |r| <= |fields|
  {
    if |fields| == 0 then []
    else if fields[0].1.Some? then [(fields[0].0, fields[0].1.value)] + Present(fields[1..])
    else Present(fields[1..])
  }

  predicate DistinctNames(fields: Fields) {
    forall i, j :: 0 <= i < j < |fields| ==> fields[i].0 != fields[j].0
  }

  /** Looking up a field's name among the present values of fields with
      distinct names finds the field's value. */
  lemma {:induction false} LookupField(fields: Fields, i: nat)
    requires DistinctNames(fields) && i < |fields|
    ensures Lookup(Present(fields), fields[i].0) == fields[i].1
    decreases |fields|
  {
    var name := fields[i].0;
    assert DistinctNames(fields[1..]);
    if i == 0 {
      forall j | 0 <= j < |fields[1..]| ensures fields[1..][j].0 != name {
        assert fields[1..][j] == fields[j + 1];
      }
      NotPresent(fields[1..], name);
    } else {
      assert fields[1..][i - 1] == fields[i];
      LookupField(fields[1..], i - 1);
    }
  }

  lemma {:induction false} NotPresent(fields: Fields, name: string)
    requires forall j :: 0 <= j < |fields| ==> fields[j].0 != name
    ensures Lookup(Present(fields), name).None?
    decreases |fields|
  {
    if |fields| > 0 {
      assert forall j :: 0 <= j < |fields[1..]| ==> fields[1..][j] == fields[j + 1];
      NotPresent(fields[1..], name);
    }
  }

  function StringValue(v: Option<string>): Option<RegValue> {
    if v.Some? then Some(RegString(v.value)) else None
  }

  /** The `FileExtns` text for the extensions: `*.a,*.b`. */
  function Patterns(exts: seq<string>): (r: seq<string>)
    ensures |r| == |exts|
    ensures forall k :: 0 <= k < |exts| ==> r[k] == "*." + exts[k]
  {
    seq(|exts|, k requires 0 <= k < |exts| => "*." + exts[k])
  }

  /** Extensions `driverOf` can read back: non-empty, without `.` or `,`. */
  predicate ReadableExtension(e: string) {
    |e| > 0 && '.' !in e && ',' !in e
  }

  /** A driver `driverOf` can read back: readable extensions and an `int` usage count. */
  predicate ReadableDriver(d: Driver) {
    IsInt32(d.usageCount) && forall k :: 0 <= k < |d.fileExtensions| ==> ReadableExtension(d.fileExtensions[k])
  }

  /** The registry fields describing a driver. */
  function DriverFields(d: Driver): (r: Fields)
    ensures DistinctNames(r)
  {
    [("APILevel", Some(RegString(IntToString(ApiLevelToInt(d.apiLevel))))),
     ("ConnectFunctions", if d.connectFunctions.Some? then Some(RegString(ConnectFunctionsToString(d.connectFunctions.value))) else None),
     ("Driver", StringValue(d.driverPath)),
     ("DriverOdbcVer", StringValue(d.driverOdbcVer)),
     ("FileExtns", ExtensionsValue(d.fileExtensions)),
     ("FileUsage", Some(RegString(IntToString(FileUsageToInt(d.fileUsage))))),
     ("Setup", StringValue(d.setupPath)),
     ("SQLLevel", Some(RegString(IntToString(SqlLevelToInt(d.sqlLevel))))),
     ("UsageCount", Some(RegInteger(d.usageCount)))]
  }

  /** The registry values describing a driver. */
  function DriverDetails(d: Driver): Values {
    Present(DriverFields(d))
  }

  lemma {:induction false} ExtensionsOfPatterns(exts: seq<string>)
    requires forall k :: 0 <= k < |exts| ==> ReadableExtension(exts[k])
    ensures Extensions(Patterns(exts)) == exts
    decreases |exts|
  {
    if |exts| > 0 {
      var p := "*." + exts[0];
      assert p[1] == '.';
      assert forall k :: 2 <= k < |p| ==> p[k] == exts[0][k - 2];
      assert LastIndexOfChar(p, '.') == 1;
      assert p[2..] == exts[0];
      assert Patterns(exts)[1..] == Patterns(exts[1..]);
      ExtensionsOfPatterns(exts[1..]);
      assert exts == [exts[0]] + exts[1..];
    }
  }

  /** Writing readable extensions as `FileExtns` and reading them back gives them. */
  lemma FileExtensionsRoundTrip(exts: seq<string>)
    requires |exts| > 0
    requires forall k :: 0 <= k < |exts| ==> ReadableExtension(exts[k])
    ensures ToFileExtensions(Some(RegString(Join(',', Patterns(exts))))) == exts
  {
    var ps := Patterns(exts);
    forall k | 0 <= k < |ps| ensures ',' !in ps[k] {
      assert ps[k] == "*." + exts[k];
    }
    SplitJoin(',', ps);
    ExtensionsOfPatterns(exts);
  }

  /** Reading back the registry values of a readable driver gives the driver. */
  lemma DriverOfDetails(d: Driver)
    requires ReadableDriver(d)
    ensures DriverOf(d.name, DriverDetails(d)) == d
  {
    DriverLevelsRead(d);
    DriverTextsRead(d);
    DriverExtensionsRead(d);
  }

  /** The connect functions, paths, version and usage count are read back. */
  lemma DriverTextsRead(d: Driver)
    requires IsInt32(d.usageCount)
    ensures ToConnectFunctions(Lookup(DriverDetails(d), "ConnectFunctions"), None) == d.connectFunctions
    ensures ToFile(Lookup(DriverDetails(d), "Driver"), None) == d.driverPath
    ensures ToStringOr(Lookup(DriverDetails(d), "DriverOdbcVer"), None) == d.driverOdbcVer
    ensures ToFile(Lookup(DriverDetails(d), "Setup"), None) == d.setupPath
    ensures ToInt(Lookup(DriverDetails(d), "UsageCount"), -1) == d.usageCount
  {
    var f := DriverFields(d);
    LookupField(f, 1);
    if d.connectFunctions.Some? {
      ConnectFunctionsRoundTrip(d.connectFunctions.value);
    }
    LookupField(f, 2);
    LookupField(f, 3);
    LookupField(f, 6);
    LookupField(f, 8);
  }

  /** The file extensions are read back. */
  lemma DriverExtensionsRead(d: Driver)
    requires forall k :: 0 <= k < |d.fileExtensions| ==> ReadableExtension(d.fileExtensions[k])
    ensures ToFileExtensions(Lookup(DriverDetails(d), "FileExtns")) == d.fileExtensions
  {
    var f := DriverFields(d);
    assert f[4] == ("FileExtns", ExtensionsValue(d.fileExtensions));
    ExtensionsFieldRead(f, 4, d.fileExtensions);
  }

  /** The `FileExtns` value of the extensions, absent when there are none. */
  function ExtensionsValue(exts: seq<string>): Option<RegValue> {
    if |exts| > 0 then Some(RegString(Join(',', Patterns(exts)))) else None
  }

  /** A field holding readable extensions is read back as them. */
  lemma ExtensionsFieldRead(fields: Fields, i: nat, exts: seq<string>)
    requires DistinctNames(fields) && i < |fields|
    requires forall k :: 0 <= k < |exts| ==> ReadableExtension(exts[k])
    requires fields[i] == ("FileExtns", ExtensionsValue(exts))
    ensures ToFileExtensions(Lookup(Present(fields), "FileExtns")) == exts
  {
    LookupField(fields, i);
    if |exts| > 0 {
      FileExtensionsRoundTrip(exts);
    }
  }

  /** The three integer-coded levels are read back. */
  lemma DriverLevelsRead(d: Driver)
    ensures ToEnum(Lookup(DriverDetails(d), "APILevel"), ParseApiLevel) == Some(d.apiLevel)
    ensures ToEnum(Lookup(DriverDetails(d), "FileUsage"), ParseFileUsage) == Some(d.fileUsage)
    ensures ToEnum(Lookup(DriverDetails(d), "SQLLevel"), ParseSqlLevel) == Some(d.sqlLevel)
  {
    ApiLevelRead(d);
    FileUsageRead(d);
    SqlLevelRead(d);
  }

  lemma ApiLevelRead(d: Driver)
    ensures ToEnum(Lookup(DriverDetails(d), "APILevel"), ParseApiLevel) == Some(d.apiLevel)
  {
    var f := DriverFields(d);
    assert f[0] == ("APILevel", Some(RegString(IntToString(ApiLevelToInt(d.apiLevel)))));
    CodeFieldRead(f, 0, "APILevel", ApiLevelToInt(d.apiLevel), ParseApiLevel);
    ApiLevelRoundTrip(d.apiLevel);
  }

  lemma FileUsageRead(d: Driver)
    ensures ToEnum(Lookup(DriverDetails(d), "FileUsage"), ParseFileUsage) == Some(d.fileUsage)
  {
    var f := DriverFields(d);
    assert f[5] == ("FileUsage", Some(RegString(IntToString(FileUsageToInt(d.fileUsage)))));
    CodeFieldRead(f, 5, "FileUsage", FileUsageToInt(d.fileUsage), ParseFileUsage);
    FileUsageRoundTrip(d.fileUsage);
  }

  lemma SqlLevelRead(d: Driver)
    ensures ToEnum(Lookup(DriverDetails(d), "SQLLevel"), ParseSqlLevel) == Some(d.sqlLevel)
  {
    var f := DriverFields(d);
    assert f[7] == ("SQLLevel", Some(RegString(IntToString(SqlLevelToInt(d.sqlLevel)))));
    CodeFieldRead(f, 7, "SQLLevel", SqlLevelToInt(d.sqlLevel), ParseSqlLevel);
    SqlLevelRoundTrip(d.sqlLevel);
  }

  /** A field holding a code written as text is read back through the parser. */
  lemma CodeFieldRead<Z>(fields: Fields, i: nat, name: string, code: int, parser: int -> Result<Z, Exception>)
    requires DistinctNames(fields) && i < |fields| && IsInt32(code)
    requires fields[i] == (name, Some(RegString(IntToString(code))))
    ensures ToEnum(Lookup(Present(fields), name), parser) == (if parser(code).Ok? then Some(parser(code).value) else None)
  {
    LookupField(fields, i);
    ParseIntToString(code);
  }

  /** The registry fields describing a data source. */
  function DataSourceFields(ds: DataSource): (r: Fields)
    ensures DistinctNames(r)
  {
    [("Description", StringValue(ds.description)), ("Driver", Some(RegString(ds.driverPath))), ("Server", StringValue(ds.serverName))]
  }

  /** Reading back the registry values of a data source gives the data source. */
  lemma DataSourceOfDetails(ds: DataSource)
    ensures DataSourceOf(ds.dsType, ds.name, RegString(ds.driverName), Present(DataSourceFields(ds))) == Ok(ds)
  {
    var f := DataSourceFields(ds);
    var v := Present(f);
    LookupField(f, 0);
    LookupField(f, 1);
    LookupField(f, 2);
    assert ToStringOr(Lookup(v, "Description"), None) == ds.description;
    assert ToFile(Lookup(v, "Driver"), None) == Some(ds.driverPath);
    assert ToStringOr(Lookup(v, "Server"), None) == ds.serverName;
  }

  /** With no values at all, every field takes its default. */
  lemma DriverOfNoDetails(driverName: string)
    ensures DriverOf(driverName, []) == Driver(driverName, API_NONE, None, None, None, [], USAGE_NONE, None, SQL_92_ENTRY, -1)
  {
  }

  /** `"*.xls,*.xlsx"` gives `xls` and `xlsx`. */
  lemma ExcelExtensions()
    ensures ToFileExtensions(Some(RegString("*.xls,*.xlsx"))) == ["xls", "xlsx"]
  {
    assert "*.xls,*.xlsx" == Join(',', Patterns(["xls", "xlsx"]));
    FileExtensionsRoundTrip(["xls", "xlsx"]);
  }
}

=== FILE: wrappers.dfy ===
/** Failure-compatible wrappers used throughout the model: `Option` stands for a
    Java reference that may be null, `Result` for a call that returns or throws. */
module Wrappers {

  datatype Option<+T> = None | Some(value: T) {

    predicate IsFailure() {
      None?
    }

    function PropagateFailure<U>(): Option<U>
      requires None?
    {
      None
    }

    function Extract(): T
      requires Some?
    {
      value
    }

    function GetOr(default: T): T {
      match this
      case Some(v) => v
      case None => default
    }
  }

  datatype Result<+T, +E> = Ok(value: T) | Err(error: E) {

    predicate IsFailure() {
      Err?
    }

    function PropagateFailure<U>(): Result<U, E>
      requires Err?
    {
      Err(error)
    }

    function Extract(): T
      requires Ok?
    {
      value
    }
  }
}
